=== FILE: README.md ===
# tgbot: a verified model of the bot framework's bookkeeping

tgbot is a Telegram-bot framework built on pyrogram and SQLAlchemy. cm_assistant is a group-binding bot built on it. Under the asynchronous calls and the database lies deterministic bookkeeping. This project models that bookkeeping in Dafny and proves what the code promises about it. Transport calls become recorded actions, tables become in-memory maps and sequences, and the clock, random choices, uuids and library analyses become parameters.

Modules, one per file:

- `SplitText` (`split_text.dfy`): `split_text` and `split_text_by_units`.
  - The pre-count loop and the emit loop are methods, proved against specification functions.
  - The lemmas prove that:
    - every fragment stays within the limit;
    - the fragments put back together give the body;
    - the announced part count agrees with the fragments;
    - the method raises or runs forever exactly in the cases the code does.
- `PrioritizedItem`, `Limiter`, `ExceptionHandler`: the queue entry order, the sliding-window rate limiter and the retrying invoke wrapper.
- `MessageHandler`, `Bot`: the two outbound queues, with their:
  - message ids and per-(chat, priority) event chains;
  - pending and processing counters;
  - admission rule;
  - blocking-send countdown.
- `Dispatcher`: the update loop over handler groups, with propagation and its session discipline.
- `GroupManager`: the handler-group allocator and the built-in registrations.
- `Crc32`, `Registry`, `GuiToken`: the CRC-32 class registry and the callback-token byte layouts.
  - CRC-32 is computed, not abstracted.
  - Names are UTF-8 encoded.
- The reconstructable GUI:
  - `GuiKeyboard`: the keyboard's reconstruction, save and restore;
  - `GridKeyboard`: grid layout;
  - `GuiButtons`: button kinds;
  - `GuiWindow`: windows, text and input fields;
  - `GuiTabs`: paginator and date/time tabs.
- `LegacyCallback`, `LegacyKeyboard`, `KeyboardHandler`: the two older keyboard implementations, side by side.
- `States`: `class_to_table_name` and the form state machine.
- `NameInflection`: Russian name inflection.
- `UserNames`: `full_name` and `log_name`.
- `CmAssistant`: cm_assistant's `/bind`, `/start` and event handlers.
- `Common`: shared helpers (Option, Result, decimal digits, joins).

Where a source line does not do what its surroundings evidently intend, the project models both the code as written and the corrected behaviour (see "## Findings"). The rest of the model uses the corrected version.

## Model

| member | source | states |
|---|---|---|
| PrioritizedItem.StrictTotalOrder | tgbot/prioritized_item.py:4-7 | ordering on the (priority, id) tuple is irreflexive and transitive, and any two items are exactly one of less, equal-key or greater |
| PrioritizedItem.PayloadIgnored | tgbot/prioritized_item.py:8 | replacing the payload `item` changes neither the ordering nor the equality of two entries |
| PrioritizedItem.LowerPriorityFirst | tgbot/prioritized_item.py:5-6 | an entry with a lower priority number is ordered before one with a higher number, whatever their ids |
| PrioritizedItem.FifoWithinPriority | tgbot/prioritized_item.py:7 | entries of one priority queued with increasing ids are ordered first-in first-out |
| PrioritizedItem.Least | tgbot/prioritized_item.py:4-7 | the entry a priority queue hands out next: no entry is ordered before it and it is before every entry with another key |
| PrioritizedItem.LeastIndex | tgbot/prioritized_item.py:4-7 | a front-to-back scan finds exactly the entry `Least` names |
| PrioritizedItem.RemoveAt | tgbot/prioritized_item.py:4-8 | taking an entry out of the queue leaves the other entries, as a multiset |
| Limiter.Limiter.constructor | tgbot/limiter.py:6-14 | a limiter of `amount` events starts with `amount` zero timestamps |
| Limiter.Limiter.Call | tgbot/limiter.py:16-22 | the delay is max(period - (now - events[0]), 0) and never negative; the call sleeps iff the delay is positive; the recorded time is the call time plus the delay, at least events[0] + period; the oldest timestamp is dropped so exactly `amount` remain; the first `amount` calls at now >= period do not wait |
| Limiter.IsOldMeaning | tgbot/limiter.py:24-26 | `is_old` holds iff the limiter is not static and at least a period has passed since the newest recorded event |
| Limiter.Spacing | tgbot/limiter.py:16-20 | any two recorded times k * amount calls apart differ by at least k * period: no window of one period admits more than `amount` events |
| UserNames.FullNameComponents | tgbot/wrappers/__init__.py:10-14 | the name components are first name, then the last name if set, then `@` + username if set, in that order |
| UserNames.FullNameShape | tgbot/wrappers/__init__.py:9-15 | `full_name` is the components joined by single spaces, starts with the first name and has the length that join gives |
| UserNames.LogNameShape | tgbot/wrappers/__init__.py:17-24 | `log_name` is username, a space and the decimal id when a username is set, the decimal id alone otherwise; it always ends with the id |
| Crc32.Crc32 | tgbot/gui/__init__.py:32 | `binascii.crc32` (reflected polynomial 0xEDB88320, initial and final xor 0xFFFFFFFF) is an unsigned 32-bit value |
| Crc32.FeedAppend | tgbot/gui/__init__.py:32 | the CRC register of a concatenation is obtained by feeding the second part after the first |
| Crc32.Crc32Empty | tgbot/gui/__init__.py:32 | the CRC of no bytes is 0 |
| Crc32.Crc32CheckValue | tgbot/gui/__init__.py:32 | the CRC of the ASCII string "123456789" is the standard check value 0xCBF43926 |
| Crc32.Utf8 | tgbot/gui/__init__.py:32 | `str.encode()` in UTF-8 yields at least one byte per character |
| Crc32.Utf8CharRoundTrip | tgbot/gui/__init__.py:32 | the UTF-8 bytes of one character (section 3 of RFC 3629) decode back to its code point, and the lead byte announces the sequence length |
| Crc32.SignatureBytes | tgbot/gui/__init__.py:22 | `chr(128021).encode()` is the four bytes F0 9F 90 95 |
| Crc32.Utf8Ascii | tgbot/gui/__init__.py:32 | an ASCII class name encodes to its own code points, one byte each |
| Crc32.Utf8Append | tgbot/gui/__init__.py:32 | encoding distributes over concatenation |
| Crc32.LittleEndian4 | tgbot/keyboard/__init__.py:22 | `to_bytes(4, 'little')` gives the big-endian bytes of the value in reverse order |
| Crc32.ClassKeyBig | tgbot/gui/__init__.py:32-33 | a GUI class key is the 4 big-endian bytes of the CRC32 of the UTF-8 class name |
| Crc32.ClassKeyLittle | tgbot/keyboard/__init__.py:20-22 | an older keyboard module's class key is the 4 little-endian bytes of the CRC32 of the UTF-8 class name |
| Registry.KeyOf | tgbot/gui/__init__.py:32-33 | the key of a class name is 4 bytes, big- or little-endian by registry |
| Registry.ClassRegistry.constructor | tgbot/gui/__init__.py:23-24 | a registry starts empty |
| Registry.ClassRegistry.Lookup | tgbot/gui/__init__.py:177 | `registry.get(key, None)` finds a class iff the key is registered, and the class found sits under its own key |
| Registry.ClassRegistry.Register | tgbot/gui/__init__.py:29-41 | a new key stores the class; a key already holding the same name raises "already registered", one holding another name raises "matched", and a refused registration changes nothing |
| Registry.NamesRegisteredOnce | tgbot/keyboard_handler.py:19-27 | in a registry built by `store_class_crc32` a name is registered under one key only |
| GuiToken.Slice | tgbot/gui/__init__.py:459-465 | Python slicing of the callback data: short data gives a short slice rather than an error |
| GuiToken.CallbackData | tgbot/gui/__init__.py:261-263 | the token is signature, window class key, window id as 4 big-endian bytes, button class key and uuid, 32 bytes; a window id of 2^32 or more makes `to_bytes` fail |
| GuiToken.TokenRoundTrip | tgbot/gui/__init__.py:459-465 | decoding a token gives back the signature, window class key, window id and button class key encoded into it |
| GuiToken.HandleCallbackQuery | tgbot/gui/__init__.py:457-485 | data without the signature continues propagation; an unknown window class gets the stale alert; otherwise the query is answered with the alert of the exception raised, and the session is committed iff nothing was raised |
| GuiToken.TokenReachesWindow | tgbot/gui/__init__.py:459-475 | a freshly encoded token whose window class is registered reaches the window class and id it was made for |
| ExceptionHandler.Exhausted | tgbot/exception_handler.py:110-117 | after the last allowed attempt: with `ignore_errors`, None is returned outside a method wrapper and MethodDecoratorException raised inside one; without it AttemptLimitReached is raised |
| ExceptionHandler.LimiterCalls | tgbot/exception_handler.py:96 | one call of each limiter, in list order |
| ExceptionHandler.Settle | tgbot/exception_handler.py:99-117 | a result is returned, an error other than the two retried ones propagates, a retried error at the last attempt ends as `Exhausted` says |
| ExceptionHandler.AttemptsCounted | tgbot/exception_handler.py:95-119 | attempts are numbered consecutively, there is at least one and at most max(1, max_attempts) of them, every attempt but the last got a retried error, and the last answer settles the outcome |
| ExceptionHandler.DefaultAttemptLimit | tgbot/exception_handler.py:77 | with the default settings a call makes at most ten attempts |
| ExceptionHandler.LimitersBeforeEachAttempt | tgbot/exception_handler.py:95-99 | every attempt, retries included, is immediately preceded by one call of each limiter in list order |
| ExceptionHandler.PausesFollowRetries | tgbot/exception_handler.py:103-119 | a pause happens only right after an attempt answered with FloodWait or InternalServerError that was not the last allowed one, and lasts its backoff |
| ExceptionHandler.EventSetOnSuccess | tgbot/exception_handler.py:99-102 | the current invoke event is set at most once, as the last effect, and exactly when an attempt succeeded and an event was given |
| ExceptionHandler.AttemptsAwaitNothing | tgbot/exception_handler.py:95-119 | the retry loop itself never waits on an event |
| ExceptionHandler.AwaitsPreviousFirst | tgbot/exception_handler.py:93-94 | the previous invoke event, when given, is awaited exactly once and before the first attempt; nothing else is awaited |
| ExceptionHandler.FirstFinalAnswerDecides | tgbot/exception_handler.py:99-108 | the first answer that is not retried ends the call after exactly that many attempts: a result is returned, another error propagates without retry |
| ExceptionHandler.ExhaustedAfterAllAttempts | tgbot/exception_handler.py:110-117 | when every allowed attempt gets a retried error the call makes exactly max(1, max_attempts) attempts and then gives up as `Exhausted` says |
| ExceptionHandler.CallLimiters | tgbot/exception_handler.py:96 | the limiter comprehension records one call per limiter, in order |
| ExceptionHandler.InvokeContext.constructor | tgbot/exception_handler.py:7 | no context value is set at first |
| ExceptionHandler.InvokeContext.CallInvoke | tgbot/exception_handler.py:74-119 | the `invoke` wrapper's retry loop performs exactly the effects and outcome of the reference definition, under the effective settings |
| ExceptionHandler.InvokeContext.CallMethod | tgbot/exception_handler.py:127-140 | a wrapped method runs its `invoke` under its own keyword settings, turns MethodDecoratorException into None and restores the previous context value on every exit |
| ExceptionHandler.MethodOutcome | tgbot/exception_handler.py:135-138 | a wrapped method never lets MethodDecoratorException escape |
| ExceptionHandler.MethodGivesUpQuietly | tgbot/exception_handler.py:112-138 | when all attempts are exhausted a wrapped method returns None with `ignore_errors` and raises AttemptLimitReached without it |
| MessageHandler.AwaitedIsLastSend | tgbot/message_handler.py:47-58 | the event a send under a (chat, priority) key waits for is the current event of the last earlier send under that key, and there is none exactly when no earlier send used the key |
| MessageHandler.ChainAppend | tgbot/message_handler.py:56-77 | queueing one more fragment keeps the history chained iff it waits for its key's last event, and makes it that key's last send |
| MessageHandler.CountPositive | tgbot/message_handler.py:79-147 | a priority's pending count is positive exactly when an entry of that priority is queued |
| MessageHandler.AdmitsMeaning | tgbot/message_handler.py:103-121 | `could_get_next_item` holds iff no priority has exactly max sends in progress, or the lowest-numbered priority with pending entries has fewer than max in progress |
| MessageHandler.Queued | tgbot/message_handler.py:55-80 | one queue entry per fragment |
| MessageHandler.QueuedFragments | tgbot/message_handler.py:55-80 | within one call ids are consecutive from the current message id, each fragment waits for the previous fragment's event and the first for the chain's, only a blocking send's last fragment carries the finish event, and the global limiter is listed before the chat's |
| MessageHandler.HistoryQueued | tgbot/message_handler.py:71-80 | appending a send keeps every queued entry numbered by its position: ids are distinct, increasing and one apart |
| MessageHandler.ChainQueuedAll | tgbot/message_handler.py:47-77 | a whole send queued after the history keeps it chained and leaves its last fragment as its key's last send |
| MessageHandler.CountersQueued | tgbot/message_handler.py:79 | queueing n fragments of priority p raises p's pending count by n and leaves the other counters counting |
| MessageHandler.QueueRecords | tgbot/message_handler.py:47-80 | across calls: queueing a send extends the history by exactly its fragments and keeps ids, events and chains in agreement with it, so the first fragment waits for the previous send under the same chat and priority |
| MessageHandler.QueuedOneSend | tgbot/message_handler.py:55-80 | the fragments of one call form one chained send under one key |
| MessageHandler.QueueFirstAdvances | tgbot/message_handler.py:55-80 | after i passes of the loop the id, the chain, the pending count and the events have advanced by i, plus one finish event after a blocking send's last fragment |
| MessageHandler.QueueFirstIsAfterQueue | tgbot/message_handler.py:55-80 | the fragment loop, pass by pass, produces exactly the state `AfterQueue` describes |
| MessageHandler.SendResult | tgbot/message_handler.py:47-83 | an unknown priority raises KeyError and a failing split raises before anything is queued; a blocking send returns its finish event and a non-blocking one None; a blocking send of no fragments has no finish event to return |
| MessageHandler.CountersDispatched | tgbot/message_handler.py:143-148 | dispatching a queued entry moves it from pending to processing and keeps the counters counting the queue and the running tasks |
| MessageHandler.Drain | tgbot/message_handler.py:138-151 | the draining loop keeps the counters counting |
| MessageHandler.Receive | tgbot/message_handler.py:135-152 | a completed `get` keeps the counters counting |
| MessageHandler.LeastIsLowestPending | tgbot/message_handler.py:103-137 | the entry the priority queue hands out belongs to the lowest-numbered priority with pending entries |
| MessageHandler.DispatchKeepsCap | tgbot/message_handler.py:111-148 | when `could_get_next_item` holds, dispatching the least entry keeps every priority at or below max sends in progress |
| MessageHandler.DrainKeepsCap | tgbot/message_handler.py:138-151 | draining never takes a priority past max sends in progress |
| MessageHandler.ReceiveKeepsCap | tgbot/message_handler.py:125-152 | when the rule still admits an entry as the `get` completes, receiving keeps every priority within the cap |
| MessageHandler.DrainStops | tgbot/message_handler.py:149-150 | draining stops only with an empty queue or when no entry is admitted, and every entry it takes becomes a running task |
| MessageHandler.Completed | tgbot/message_handler.py:153-167 | a send that went out sets its own current event, as `invoke` does after a success (tgbot/exception_handler.py:99-102); a failed send sets it too; a send the retry loop gave up on sets none; a finish event is set and carries the sent message, or None when nothing was sent; no other event is set |
| MessageHandler.CountersCompleted | tgbot/message_handler.py:164 | completion lowers its priority's processing count by one and keeps the counters counting |
| MessageHandler.Handler.constructor | tgbot/message_handler.py:14-28 | message ids start at 1, no limiters or chains, and zero pending and processing counters for priorities 1 to 3 |
| MessageHandler.Handler.GetMessageTexts | tgbot/message_handler.py:33-34 | the split is `split_text_by_units` over the as-written `split_text`: line, word, then char-wise under the title, at 4096 characters, numbered `i/n` |
| MessageHandler.TextsWithinLimit | tgbot/message_handler.py:33-34 | every part of a non-empty text is at most 4096 characters long, with the as-written and the corrected split alike; an empty text under a title that leaves no room is excepted (the line and word splits raise, the char split returns the bare prefix) |
| MessageHandler.CorrectedTextsNumbered | tgbot/message_handler.py:33-34 | corrected reading: with the pre-count of `SplitText.SplitText`, a non-empty text that needs several parts gets parts framed `1/n` to `n/n`, `n` their own number, for the unit the fallback settles on |
| MessageHandler.Handler.SendMessageSync | tgbot/message_handler.py:36-83 | the chat's limiter is created on its first message (3 per second for a user, 20 per minute otherwise) and reused; the queue state changes as `Enqueued` states; running tasks and events are untouched |
| MessageHandler.Handler.Enqueue | tgbot/message_handler.py:47-83 | the state after the split is queued, or unchanged when the call raises first, with the result `SendResult` gives |
| MessageHandler.Handler.CacheLimiter | tgbot/message_handler.py:38-45 | a chat's limiter is created on its first message and kept afterwards |
| MessageHandler.Handler.QueueTexts | tgbot/message_handler.py:55-83 | the fragment loop queues exactly `AfterQueue` and returns the finish event for a blocking send of at least one fragment |
| MessageHandler.Handler.QueueFragment | tgbot/message_handler.py:56-80 | one pass: a fresh event for the fragment, which becomes the chain's last, a finish event after it on a blocking send's last fragment, and the entry queued |
| MessageHandler.Handler.Put | tgbot/message_handler.py:78-80 | the entry is appended, counts as pending, and the id advances by one |
| MessageHandler.Handler.CouldGetNextItem | tgbot/message_handler.py:103-121 | the scan returns exactly the admission rule |
| MessageHandler.Handler.IssueGet | tgbot/message_handler.py:125-127 | a `get` is issued only when none is outstanding and the admission rule holds |
| MessageHandler.Handler.DispatchEntry | tgbot/message_handler.py:143-148 | the entry leaves the queue, a sending task is created for it, and it moves from pending to processing |
| MessageHandler.Handler.ReceiveItems | tgbot/message_handler.py:135-152 | the completed `get` dispatches the least entry, then drains while the queue is not empty and the rule admits |
| MessageHandler.Handler.CompleteSend | tgbot/message_handler.py:153-167 | the finished sending task is dropped, its priority's processing count falls by one, and the events are set as `Completed` states, the current event only when the send was not given up |
| Bot.Requests | tgbot/bot.py:185-205 | one entry per fragment with consecutive ids from the current message id, the call's priority and, for a blocking call, its group |
| Bot.GroupsQueued | tgbot/bot.py:195-205 | queueing a blocking call's fragments gives it a semaphore equal to their number, and every semaphore still equals its call's fragments queued or running |
| Bot.GroupsMoved | tgbot/bot.py:244-253 | creating a sending task for an entry keeps every semaphore equal to its call's fragments queued or running |
| Bot.Acquired | tgbot/bot.py:270-274 | acquiring a blocking fragment's semaphore lowers it by one, and the event is set with that fragment's result exactly when the semaphore reaches zero; a non-blocking fragment changes nothing |
| Bot.GroupsCompleted | tgbot/bot.py:261-274 | a completed fragment's semaphore is above zero, so `acquire` never blocks the sender, and acquiring it keeps the bookkeeping consistent |
| Bot.EventSetWhenAllSent | tgbot/bot.py:195-274 | a blocking call's event is set exactly when none of its fragments is queued or running and it had at least one fragment, hence once, after the last |
| Bot.DispatchAt | tgbot/bot.py:244-253 | one entry moves from the queue to the running tasks |
| Bot.Drain | tgbot/bot.py:244-259 | draining only adds tasks, one per entry taken from the queue |
| Bot.DrainCount | tgbot/bot.py:254-255 | draining takes min(queue length, capacity - running) entries, and none once the cap is reached |
| Bot.DrainTakesLeast | tgbot/bot.py:254-256 | the entries taken are the least by (priority, id): none left behind is ordered before one taken |
| Bot.SurvivorsFromQueue | tgbot/bot.py:254-256 | every entry left after draining was queued before |
| Bot.ChainedSends | tgbot/bot.py:286-294 | two sends in a row under one (chat, priority) key: the second waits for the first's event, and the first send under a new key waits for nothing |
| Bot.NextLinkKeeps | tgbot/bot.py:286-294 | every stored link waits for an event created before its own |
| Bot.Controller.constructor | tgbot/bot.py:224-226 | the sender starts with an empty queue, no tasks and no outstanding `get` |
| Bot.Controller.SendMessageSync | tgbot/bot.py:181-207 | the text is split first and a failing split raises before anything is queued; otherwise the fragments are queued with consecutive ids, a blocking call gets a new event and a semaphore of its number of fragments and returns the event, and a non-blocking one returns None |
| Bot.Controller.GetMessageTexts | tgbot/bot.py:178-179 | the same split as the message handler's, `split_text_by_units` over the as-written `split_text`; its parts are within 4096 characters as `MessageHandler.TextsWithinLimit` states, a non-empty text assumed |
| Bot.Controller.EnqueueCall | tgbot/bot.py:185-207 | the fragments are queued with consecutive ids; a blocking call's semaphore starts at the number of fragments |
| Bot.Controller.QueueRequests | tgbot/bot.py:186-205 | each loop appends one entry per fragment with the next id |
| Bot.Controller.IssueGet | tgbot/bot.py:228-230 | a `get` is issued only when none is outstanding and fewer than `max_concurrent_sendings` tasks run |
| Bot.Controller.ReceiveItems | tgbot/bot.py:238-260 | the completed `get` dispatches the least entry and drains until the cap or the end of the queue; the number of tasks never exceeds the cap |
| Bot.Controller.DispatchEntry | tgbot/bot.py:244-253 | one sending task is created for the entry |
| Bot.Controller.CompleteSend | tgbot/bot.py:261-274 | the finished sending task is dropped and its call's semaphore, which is above zero, is acquired as `Acquired` states |
| Bot.Controller.SendMessageBlocking | tgbot/bot.py:276-300 | the chat's limiter is cached; with a priority the link is taken from the (chat, priority) chain and the chain advanced; a send that goes out sets its link's event, one the retry loop gives up on returns nothing and sets none, a failed send sets its link's event before re-raising; without a priority a failure becomes a KeyError |
| Bot.Controller.CacheLimiter | tgbot/bot.py:278-285 | a chat's limiter is created on its first send (3 per second for a user, 20 per minute otherwise) and kept afterwards |
| Bot.Controller.TakeLink | tgbot/bot.py:287-294 | the stored link is used, or a first link that waits for nothing, and the chain then points the next send at this send's event |
| Dispatcher.StepAt | tgbot/wrappers/dispatcher.py:36-78 | one handler: a raising check stops the update without rollback; a handler that neither matches the type with an accepting check nor is a raw handler is skipped; otherwise a session is opened first iff none is open and a message or callback query is passed, the callback is invoked, and Returns ends the group, ContinuePropagation moves to the next handler, StopPropagation ends the update, and any other exception rolls an open session back and ends the update |
| Dispatcher.WalkCalls | tgbot/wrappers/dispatcher.py:34-78 | the walk invokes only handlers from its starting point on, each applying to the update, in group and list order, with a later callback of a group only after an earlier one raised ContinuePropagation |
| Dispatcher.WalkSession | tgbot/wrappers/dispatcher.py:53-77 | along the walk a session is opened only when none is open and rolled back only after a failed callback, and the walk ends with a session open iff one was opened or open and not rolled back |
| Dispatcher.DispatchSession | tgbot/wrappers/dispatcher.py:31-89 | every update ends with no session in context; a session is opened at most once, and an opened session gets exactly one of rollback (iff a callback failed) or commit (otherwise, also after a failed check or StopPropagation), as the last step |
| Dispatcher.DispatchCalls | tgbot/wrappers/dispatcher.py:34-78 | for a whole update, callbacks run in group and list order, each applying to the update, and at most one completes per group |
| Dispatcher.WalkOpensLazily | tgbot/wrappers/dispatcher.py:53-56 | every session opening is directly followed by the callback that receives a message or callback query it was opened for, and no such callback runs before a session is open |
| Dispatcher.DispatchOpensLazily | tgbot/wrappers/dispatcher.py:53-56 | for a whole update the session is opened lazily, right before the first callback that receives a message or callback query |
| Dispatcher.ResumeStep | tgbot/wrappers/dispatcher.py:34-78 | the walk from a handler is that handler's move followed by the walk from where it leads |
| Dispatcher.VisitHandler | tgbot/wrappers/dispatcher.py:36-78 | the loop body for one handler does exactly what `StepAt` says |
| Dispatcher.HandleUpdate | tgbot/wrappers/dispatcher.py:31-89 | the nested group and handler loops, with `break` and `continue`, followed by the commit in `finally`, produce exactly `Dispatch` of a parsed update |
| Dispatcher.Handled | tgbot/wrappers/dispatcher.py:15-19 | every packet up to the `None` sentinel is dispatched in order, and nothing after it |
| Dispatcher.HandlerWorkerAsWritten | tgbot/wrappers/dispatcher.py:15-89 | as written, the worker dies exactly when its first packet fails to parse (the session flag is unbound in `finally`); otherwise it handles every packet up to the sentinel |
| Dispatcher.HandlerWorker | tgbot/wrappers/dispatcher.py:15-89 | with the session flag bound before parsing, the worker handles every packet up to the sentinel, a parse failure being logged |
| Dispatcher.HandledSnoc | tgbot/wrappers/dispatcher.py:15-19 | handling one more packet appends its dispatch |
| Dispatcher.ParseFailureSkipped | tgbot/wrappers/dispatcher.py:21-84 | with the flag bound before parsing, a first packet that fails to parse does not keep the worker from dispatching the second |
| GroupManager.GroupManager.constructor | tgbot/group_manager.py:3-5 | the manager starts at the given minimum and maximum with no groups |
| GroupManager.GroupManager.AddLeftGroup | tgbot/group_manager.py:13-17 | a minimum above -1 raises "exhausted"; a name already used (upper-cased over ASCII and Cyrillic letters) raises; otherwise the group gets the current minimum, which then rises by one; on any error nothing changes; left groups stay at most -1 and numbers stay distinct |
| GroupManager.GroupManager.AddRightGroup | tgbot/group_manager.py:19-23 | a maximum below 1 raises "exhausted"; a name already used raises; otherwise the group gets the current maximum, which then falls by one; on any error nothing changes; right groups stay at least 1 |
| GroupManager.GroupManager.AddGroup | tgbot/group_manager.py:7-11 | the name is upper-cased (ASCII and Cyrillic letters); an existing attribute of that name raises ValueError, otherwise it is set to the value |
| GroupManager.BuiltInGroups | tgbot/group_manager.py:25-36 | the module-level registrations give CREATE_SESSION -1000, LOAD_USER -999, PROCESS_CALLBACK_QUERY -998, PROCESS_INPUT -997, ROLLBACK_SESSION 1000, COMMIT_SESSION 999, RESET_SESSION_CONTEXT 998, RESET_USER_CONTEXT 997, RESET_CALLBACK_QUERY_CONTEXT 996, and leave the counters at -996 and 995 |
| GroupManager.RegisterSessionGroups | tgbot/group_manager.py:28-31 | the session groups: CREATE_SESSION -1000, ROLLBACK_SESSION 1000, COMMIT_SESSION 999, RESET_SESSION_CONTEXT 998 |
| GroupManager.RegisterUserGroups | tgbot/group_manager.py:32-33 | LOAD_USER -999 and RESET_USER_CONTEXT 997 |
| GroupManager.RegisterCallbackQueryGroups | tgbot/group_manager.py:34-35 | PROCESS_CALLBACK_QUERY -998 and RESET_CALLBACK_QUERY_CONTEXT 996 |
| GroupManager.RegisterInputGroup | tgbot/group_manager.py:36 | PROCESS_INPUT -997 |
| GroupManager.AssistantGroups | cm_assistant.py:32-34 | the bot's own groups: LOAD_GROUP and START_IN_GROUP take the next two left numbers, RESET_GROUP_CONTEXT the next right number |
| GridKeyboard.ChunksShape | tgbot/gui/keyboards/grid_keyboard.py:10-13 | cutting buttons into rows of `width` keeps their order and gives full rows except a last one of 1 to `width` buttons |
| GridKeyboard.LaidOutIsChunks | tgbot/gui/keyboards/grid_keyboard.py:10-13 | a grid laid out that way is exactly its buttons cut into rows of `width` |
| GridKeyboard.PlacedFlatten | tgbot/gui/keyboards/grid_keyboard.py:13 | placing a button appends it to the row-major order |
| GridKeyboard.PlacedLaidOut | tgbot/gui/keyboards/grid_keyboard.py:11-13 | placing a button into a laid-out grid keeps it laid out |
| GridKeyboard.OverlongRowKeepsGrowing | tgbot/gui/keyboards/grid_keyboard.py:11 | because the test is `==`, a last row already longer than `width` (made by `add_row`) takes the button and the grid is no longer laid out |
| GridKeyboard.GridKeyboard.constructor | tgbot/gui/keyboards/grid_keyboard.py:6-8 | a grid keyboard starts with no rows |
| GridKeyboard.GridKeyboard.AddRow | tgbot/gui/__init__.py:145-146 | `add_row` appends the row as given, whatever its length |
| GridKeyboard.GridKeyboard.AddButton | tgbot/gui/keyboards/grid_keyboard.py:10-13 | a new row is opened when there is none or the last holds exactly `width` buttons, otherwise the button joins the last row; the layout is kept and the row-major order grows by the button |
| GuiButtons.WithCallback | tgbot/gui/buttons/mixins.py:5-8 | a given callback adds its name under `callback_name` and leaves every other keyword as passed; without one the keywords are unchanged |
| GuiButtons.NewButton | tgbot/gui/__init__.py:250-252 | a button keeps its text and adopts the given row, or else a new row built from the keywords and the callback name |
| GuiButtons.Callback | tgbot/gui/buttons/mixins.py:10-12 | the callback is found iff the row names one and the tab has a method of that name, and it is that method |
| GuiButtons.CallbackRoundTrip | tgbot/gui/buttons/mixins.py:5-12 | a button created with a callback finds that same method again |
| GuiButtons.SimpleActivation | tgbot/gui/buttons/simple_button.py:8-9 | activating a simple button calls its callback with the stored `arg`, and fails exactly when the callback cannot be found |
| GuiButtons.DbRender | tgbot/gui/__init__.py:260-264 | a stored row (with an id) is left alone; a new row gets the 32-byte callback data (the column holds up to 64) built from the signature, window class, big-endian window id, button class and uuid; a window id of 2^32 or more raises OverflowError in `to_bytes` |
| GuiButtons.CheckBoxLabel | tgbot/gui/buttons/check_box_button.py:25-28 | the label is the checked prefix (default "☑ ") and the text when checked, otherwise the unchecked prefix (default empty) and the text |
| GuiButtons.Toggled | tgbot/gui/buttons/check_box_button.py:31 | one activation negates `is_checked` and keeps every other column |
| GuiButtons.ToggleTwice | tgbot/gui/buttons/check_box_button.py:30-32 | two activations restore both the checked state and the label |
| GuiButtons.Revive | tgbot/gui/__init__.py:195-198 | reconstruction adopts the stored row; a check box takes its text from the row, any other button keeps the text shown in the message |
| GuiButtons.CheckBoxButton.constructor | tgbot/gui/buttons/check_box_button.py:10-15 | on creation the text is copied into the row; on reconstruction the text is read back from the row |
| GuiButtons.CheckBoxButton.Activate | tgbot/gui/buttons/check_box_button.py:30-32 | the box is flipped first and the callback gets the new state and the stored `arg`; the text is unchanged |
| GuiButtons.CheckBoxButton.Render | tgbot/gui/buttons/check_box_button.py:23-28 | the row is given its token first; once that succeeds the render succeeds, and the button shown carries the check-box label and the row's callback data as it is, a new row's being its own token; a failed token step leaves the row unchanged and its error is returned |
| GuiKeyboard.PendingGrid | tgbot/gui/__init__.py:171-185 | after the first pass of `reconstruct` every button without a token is kept as it is and every token button is replaced by its displayed text, in the same grid shape |
| GuiKeyboard.CountCheck | tgbot/gui/__init__.py:186-194 | the rows fetched are never more than the token buttons counted, and they are equally many exactly when no token repeats and every token has a stored row |
| GuiKeyboard.CollectRow | tgbot/gui/__init__.py:173-185 | one row of the first pass: fails only on a token whose class is not registered; otherwise the row becomes its pending form, its tokens are appended in order and each gets its position recorded |
| GuiKeyboard.CollectCells | tgbot/gui/__init__.py:171-185 | the first pass fails with "Button class not found" exactly when some token names an unregistered class; otherwise it gives the pending grid, every token in row-major order, and a position map holding each token's cell |
| GuiKeyboard.FillCells | tgbot/gui/__init__.py:195-200 | the second pass puts, at each recorded position, the button rebuilt from its class and stored row, and leaves every other cell as the first pass made it |
| GuiKeyboard.AllFetched | tgbot/gui/__init__.py:193-200 | when the count check passes, every token has a stored row and each sits at the one position recorded for it |
| GuiKeyboard.TokenOf | tgbot/gui/__init__.py:214 | the token saved for a button is the callback data of its row, none when the row has none |
| GuiKeyboard.ShownCell | tgbot/gui/__init__.py:211-214 | `save` stores a pyrogram button as it is, taking the undefined `set_data` to keep it exactly, and a GUI button as its text with its row's token |
| GuiKeyboard.ShownRow | tgbot/gui/__init__.py:211-214 | a saved row is each of its cells as shown, in order |
| GuiKeyboard.ShownRows | tgbot/gui/__init__.py:209-236 | what comes back after saving has no empty rows and no more rows than were saved |
| GuiKeyboard.SnapRow | tgbot/gui/__init__.py:210-221 | a row gives one snapshot per cell, all with the current tab index and window id, only the last marked `right_button` |
| GuiKeyboard.SnapGrid | tgbot/gui/__init__.py:209-221 | every snapshot `save` adds carries the current tab index and window id |
| GuiKeyboard.RestoreRows | tgbot/gui/__init__.py:228-234 | `restore` starts with one open row, so at least one row always comes back |
| GuiKeyboard.SaveRestore | tgbot/gui/__init__.py:209-236 | with `set_data`/`get_button` taken to round-trip a button and the rows read in insertion order, restoring what `save` stored gives back each non-empty row as it was shown, in order, followed by one empty row |
| GuiKeyboard.TabSnapshots | tgbot/gui/__init__.py:224-227 | the query selects exactly the stored buttons whose window id and tab index are those asked for |
| GuiKeyboard.OtherSnapshots | tgbot/gui/__init__.py:229-235 | after the loop deletes each selected button, the table holds exactly the buttons of other windows or tabs |
| GuiKeyboard.SnapshotsSplit | tgbot/gui/__init__.py:224-235 | every stored button is either selected and deleted or kept, none lost and none doubled |
| GuiKeyboard.SnapshotsAppend | tgbot/gui/__init__.py:224-227 | buttons added after the existing rows are selected after them |
| GuiKeyboard.OthersAppend | tgbot/gui/__init__.py:229-235 | the rows kept from a table with rows added are those kept from the old rows, then from the new |
| GuiKeyboard.SnapshotsOneTab | tgbot/gui/__init__.py:224-227 | rows all of the asked tab are all selected and none kept |
| GuiKeyboard.SnapshotsNone | tgbot/gui/__init__.py:224-227 | a table holding no rows of the asked tab gives nothing to restore and keeps all its rows |
| GuiKeyboard.SavedTabRestored | tgbot/gui/__init__.py:209-236 | under the same two assumptions as SaveRestore, saving a keyboard into a table that holds no rows of its tab and then restoring that tab gives back the shown rows, empty rows dropped and one empty row added, and leaves the table as before the save |
| GuiKeyboard.SaveRow | tgbot/gui/__init__.py:211-219 | one row of `save` fails exactly when a cell is still a bare text (it has no `text` attribute), and otherwise gives that row's snapshots |
| GuiKeyboard.RegroupSnapshots | tgbot/gui/__init__.py:228-234 | the loop of `restore` builds exactly the regrouping of the stored buttons, closing a row after every button marked as ending one |
| GuiKeyboard.Keyboard.constructor | tgbot/gui/__init__.py:141-143 | a keyboard starts with no rows |
| GuiKeyboard.Keyboard.AddRow | tgbot/gui/__init__.py:145-146 | the row is appended as given |
| GuiKeyboard.Keyboard.AddButton | tgbot/gui/__init__.py:148-151 | the button joins the last row, and a first row is opened when there is none |
| GuiKeyboard.Keyboard.FindPressed | tgbot/gui/__init__.py:202-207 | the search returns the first cell in row-major order whose row holds the pressed token, every cell before it being a button with another token; it stops at the first cell that is not a GUI button (which has no `row`), and otherwise reports that nothing matched |
| GuiKeyboard.Keyboard.Save | tgbot/gui/__init__.py:209-221 | `save` fails exactly when a cell is still a bare text, and otherwise stores exactly the snapshots of the grid, row by row |
| GuiKeyboard.Keyboard.Reconstruct | tgbot/gui/__init__.py:167-200 | an unregistered class fails with "Button class not found"; a fetched count unlike the token count fails with both counts; otherwise every token button is rebuilt in its own cell from its class and stored row and every other cell is kept |
| GuiKeyboard.Keyboard.Restore | tgbot/gui/__init__.py:223-236 | `restore` selects the stored buttons of its window and tab in table order, reconstructs the keyboard from them regrouped into rows, with the same outcomes as `reconstruct`, and deletes each of them from the table (line 235), leaving exactly the other rows |
| GuiWindow.ReopenWindow | tgbot/gui/__init__.py:90-111 | no row fails with NoWindowError; a row of another user (not the default user) fails with PermissionError; with no message given, an empty fetched message deletes the row and fails with NoWindowError; otherwise the current tab is rebuilt from the given or fetched message's text and inline keyboard (none gives no buttons) |
| GuiWindow.PermissionBeforeFetch | tgbot/gui/__init__.py:97-100 | the permission check comes before the message fetch: a refused user gets the same failure whatever the message would be |
| GuiWindow.PickInputWindow | tgbot/gui/__init__.py:493-502 | the window picked for a text message is one of the chat's windows that belong to the user or to everyone and require input, with the highest id among them; none is picked exactly when no window qualifies |
| GuiWindow.Dashes | tgbot/gui/__init__.py:313 | `"-" * n` is n dashes |
| GuiWindow.RenderTextShape | tgbot/gui/__init__.py:310-324 | the rendered text is never empty; it starts with the header, a line break, sixty dashes and a line break exactly when a header is set, followed by the body and the input field text joined by a line break, or `.` when both are unset |
| GuiWindow.HeaderOnce | tgbot/gui/__init__.py:312-315 | a one-time header is cleared by the first render, so the next render shows no header; a lasting header is kept and rendered the same each time |
| GuiWindow.NewInputField | tgbot/gui/__init__.py:276-279 | an input field keeps its name and text; its method name is the one given, or `process_<name>` when none (or an empty one) is given |
| GuiWindow.StepField | tgbot/gui/__init__.py:420-429 | `previous == next` raises ValueError; stepping back from the first field or forward from the last raises ValueError; otherwise the index moves by one in the requested direction; a tab with no index raises TypeError |
| GuiWindow.StepBackAndForth | tgbot/gui/__init__.py:420-429 | a successful step from a valid index stays within the fields, and the opposite step returns to the same field |
| GuiWindow.Tab.constructor | tgbot/gui/__init__.py:373-377 | `build` makes the first input field current when the tab has input fields, and leaves the index unset otherwise |
| GuiWindow.Tab.SwitchInputField | tgbot/gui/__init__.py:413-429 | by name, the first field with that name becomes current, and an unknown name raises NameError; without a name, the index takes one step as StepField says; the index stays within the fields and nothing changes on an error |
| GuiWindow.IndexOf | tgbot/gui/__init__.py:124 | `list.index` gives the first position of the element, and fails exactly when it is absent |
| GuiWindow.Window.constructor | tgbot/gui/__init__.py:53-64 | a window is built on its first tab, with no message, no swap scheduled and no input required |
| GuiWindow.Window.ScheduleSwap | tgbot/gui/__init__.py:67-68 | `schedule_swap` sets the swap flag and changes nothing else |
| GuiWindow.Window.Render | tgbot/gui/__init__.py:70-87 | input is required exactly when the current tab has input fields; with a swap scheduled and a message shown, that message is deleted; a window without a message then sends one and records its id, otherwise its message is edited; a message id is always set afterwards |
| GuiWindow.Window.SwitchTab | tgbot/gui/__init__.py:122-137 | an unknown tab raises GUIError and nothing happens; otherwise the current tab is saved (when asked) or destroyed, the first tab of that class becomes current and is restored, and it is built when nothing was restored |
| GuiTabs.Range | tgbot/gui/tabs/mixins.py:143 | `range(a, b)` is the integers from a up to but excluding b, in order, and empty when b <= a |
| GuiTabs.ForwardShape | tgbot/gui/tabs/mixins.py:135-156 | before the last page of a known total, the forward row starts at the next page and ends at the last page; it increases strictly and holds at most four labels; it offers only pages after the current one, each within three pages of it or the last; every page up to three ahead is offered |
| GuiTabs.ForwardUnknownTotal | tgbot/gui/tabs/mixins.py:135-141 | with an unknown total, the forward row offers the next page only |
| GuiTabs.BackwardShape | tgbot/gui/tabs/mixins.py:157-177 | past the first page, the backward row starts at page 1 and ends at the previous page; it increases strictly and holds at most four labels; it offers only earlier pages, each page 1 or within three of the current one; every page down to three back is offered |
| GuiTabs.PageButton | tgbot/gui/tabs/mixins.py:136-141 | a page button is captioned with the page number in decimal and carries that number as its argument |
| GuiTabs.PageButtons | tgbot/gui/tabs/mixins.py:143-149 | one page button per label, in order |
| GuiTabs.RowsEmptyAtEnds | tgbot/gui/tabs/mixins.py:114-118 | in numbered modes, page 1 counts as the first page and, with a known total, the total counts as the last page; the forward row is empty exactly at the last page and the backward row exactly at page 1 |
| GuiTabs.ScrollButtons | tgbot/gui/tabs/mixins.py:121-133 | without page numbers, `<` is offered exactly when not at the first page and `>` exactly when not at the last page, both as reported; the second row is empty |
| GuiTabs.BuildForward | tgbot/gui/tabs/mixins.py:135-156 | the loop that builds the forward row gives exactly the forward labels |
| GuiTabs.BuildBackward | tgbot/gui/tabs/mixins.py:157-177 | the inserts at -1 and at 0 build exactly the backward labels, in increasing order |
| GuiTabs.BuildRows | tgbot/gui/tabs/mixins.py:113-177 | `update` builds exactly the first row and the last row those labels describe |
| GuiTabs.PaginatedTab.constructor | tgbot/gui/tabs/mixins.py:80-86 | the tab keeps its mode and page-line setting and starts with an empty keyboard |
| GuiTabs.PaginatedTab.Update | tgbot/gui/tabs/mixins.py:97-179 | numbered modes ask for the page by number, scrolling asks for the previous page on -1 and otherwise the next page; in numbered modes, when asked, `Страница p.` (or `Страница p / total.`) is appended after a blank line; the keyboard is cleared and gets exactly the forward (or scroll) row and the backward row |
| GuiTabs.UnitSeconds | tgbot/gui/tabs/mixins.py:8-13 | every step unit is a positive number of seconds |
| GuiTabs.Stepped | tgbot/gui/tabs/mixins.py:44-77 | a step handler moves the moment forward for a positive argument, back for a negative one, and not at all for zero |
| GuiTabs.SteppedCompose | tgbot/gui/tabs/mixins.py:44-77 | steps of one unit add up, so `+` undoes `-` |
| GuiTabs.UnitsOrdered | tgbot/gui/tabs/mixins.py:8-13 | the units grow from second to year, with YEAR 365 days and MONTH 30 days |
| GuiTabs.UnitOf | tgbot/gui/tabs/mixins.py:44-77 | a handler name found maps back to the unit whose handler it is |
| GuiTabs.ControlsShape | tgbot/gui/tabs/mixins.py:27-68 | the date view and the time view each have four control rows, all named `date_time_button`; each of the first three rows steps its unit (year, month, day or hour, minute, second) by -1 and +1; the fourth row switches view |
| GuiTabs.DateTimeTab.constructor | tgbot/gui/tabs/mixins.py:16 | the tab holds the keyboard rows it is given |
| GuiTabs.DateTimeTab.SetControls | tgbot/gui/tabs/mixins.py:27-42 | `set_date_buttons` (and likewise `set_time_buttons`, 53-68) puts the four control rows of its view before the rows left once the old controls are removed |
| KeyboardHandler.Decorate | tgbot/keyboard_handler.py:19-35 | `button_decorator` and `keyboard_decorator` register the name's little-endian CRC-32 key in their own map only; registering succeeds exactly when the key is new and then adds that one entry; on a clash nothing changes; the other map is never touched |
| KeyboardHandler.CallbackLeaks | tgbot/keyboard_handler.py:76-78 | since `callback` is reassigned, every button after one with its own callback carries that callback, up to the next button that has its own |
| KeyboardHandler.LeakExample | tgbot/keyboard_handler.py:76-78 | a second button without a callback is stored with the first button's callback name, not the argument's |
| KeyboardHandler.Named | tgbot/keyboard_handler.py:76-78 | the stored row takes the carried callback name when there is one, and is otherwise unchanged |
| KeyboardHandler.Token | tgbot/keyboard_handler.py:75 | callback data is 24 bytes: the button class key, the keyboard class key, then the 16-byte uuid |
| KeyboardHandler.CreateRow | tgbot/keyboard_handler.py:61-81 | one row of `create_keyboard`: it fails exactly when an entry has neither `table` nor `row`; otherwise each link is shown without data, and each button is shown with its name and a fresh token; its row is stored with the next `button_id` and the carried callback name |
| KeyboardHandler.CreateKeyboard | tgbot/keyboard_handler.py:55-85 | `create_keyboard` raises "Neither table nor row specified" exactly when some entry is malformed; otherwise every button is shown with a token whose row is stored with `button_id` 0, 1, … in row-major order and with the callback carried to it |
| KeyboardHandler.NumberedComplete | tgbot/keyboard_handler.py:72-142 | with distinct uuids the created tokens are distinct and all stored, so the count check passes, and their `button_id`s increase along the keyboard |
| KeyboardHandler.CreatedRestored | tgbot/keyboard_handler.py:55-146 | round trip: when every created row is kept under its token, the count check passes and the rebuilt keyboard holds in each button's cell the row created for it, from its class's table; links come back empty |
| KeyboardHandler.CellsBack | tgbot/keyboard_handler.py:72-146 | once every token cell holds its stored row and every link cell is empty, each button's cell holds the row created for it from its class's table |
| KeyboardHandler.CellRestored | tgbot/keyboard_handler.py:72-80 | a created button's token names its class and its stored row is the entry's row with the callback carried to it; a link has no token |
| KeyboardHandler.SimpleActivation | tgbot/keyboard_handler.py:92-94 | `SimpleKeyboard.handle_button_activation` calls the controller method named by the button's `callback_name`, with the button, and fails when there is no such method |
| KeyboardHandler.Activation | tgbot/keyboard_handler.py:150-157 | intended reading: the pressed cell is refused exactly when it belongs to another user than the sender (and not the default user); otherwise the query is answered iff `answer` is set and the button's callback is called; it is never the stale alert |
| KeyboardHandler.ActivationAsWritten | tgbot/keyboard_handler.py:150-157 | as written: the checks read `result_keyboard[column][row]`, which crashes with IndexError when the swapped cell does not exist; a swapped cell without `answer` crashes at line 156, since the wrapper has no `set_context_var`; the permission alert does not stop the activation, which then answers the query and uses cell (row, column) |
| KeyboardHandler.AsWrittenOnDiagonal | tgbot/keyboard_handler.py:150-157 | on the diagonal the swap reads the right cell: a permitted press is handled as intended when the button answers the query, and crashes at line 156 when it does not |
| KeyboardHandler.SwappedIndexCounterexample | tgbot/keyboard_handler.py:150 | pressing the second button of a one-row keyboard crashes as written, while the intended reading activates it |
| KeyboardHandler.PermissionCounterexample | tgbot/keyboard_handler.py:151-152 | a button of user 5 pressed by user 7 gets the alert and is still activated as written; the intended reading stops at the alert |
| KeyboardHandler.ContextVarCounterexample | tgbot/keyboard_handler.py:153-157 | a default-user button with `answer` False crashes at the `set_context_var` call as written; the intended reading activates it without answering the query |
| KeyboardHandler.HandleCallbackQuery | tgbot/keyboard_handler.py:100-157 | a token that is not 24 bytes, or whose button or keyboard class is unknown, gets the stale alert; a token on the keyboard naming an unregistered class raises KeyError; a pressed token not on the keyboard, or a fetched count unlike the number of tokens, is stale; otherwise the first matching cell of the keyboard rebuilt from the rows sorted by `button_id` is activated (corrected activation) |
| KeyboardHandler.HandleCallbackQueryAsWritten | tgbot/keyboard_handler.py:100-157 | the same handling up to the activation, which is the as-written one: a swapped index out of range raises IndexError, and a button without `answer` crashes at line 156 |
| LegacyCallback.SlotGrid | tgbot/keyboard/__init__.py:156-172 | after the first pass each button without callback data is `None` and each token button the placeholder `42`, in the keyboard's shape |
| LegacyCallback.ScanRow | tgbot/keyboard/__init__.py:158-171 | one row of the first pass: it stops with the key of a token whose class is unregistered; otherwise it gives the row's slots and tokens in order, and the first cell carrying the pressed token unless one was found before |
| LegacyCallback.Scan | tgbot/keyboard/__init__.py:156-172 | the first pass raises KeyError exactly when some token names an unregistered class (with that key); otherwise it gives the slots, every token in row-major order, and the first cell carrying the pressed token, if any |
| LegacyCallback.FetchCount | tgbot/keyboard/__init__.py:175-182 | the rows fetched are never more than the token buttons counted, and they are equally many exactly when every token has a stored row and none repeats |
| LegacyCallback.TokenRowsCount | tgbot/keyboard/__init__.py:175-182 | taken token by token, the stored rows are never more than the tokens, equally many exactly when every token is stored and none repeats, and then one per token in token order |
| LegacyCallback.TablesListed | tgbot/keyboard/__init__.py:163-164 | the tables queried are distinct and include the table of every token |
| LegacyCallback.ByTablePermutes | tgbot/keyboard/__init__.py:175-181 | querying table after table of a list of distinct tables gives exactly the rows of those tables, as a multiset |
| LegacyCallback.FetchPermutes | tgbot/keyboard/__init__.py:175-181 | the table-by-table fetch returns the same rows as looking each token up in turn, only in another order |
| LegacyCallback.FetchedTables | tgbot/keyboard/__init__.py:175-181 | every fetched row is stored under a token of the keyboard and comes from that token's table |
| LegacyCallback.Sort | tgbot/keyboard/__init__.py:183 | sorting the fetched rows by their order column gives a sorted permutation of them |
| LegacyCallback.SortedUnique | tgbot/keyboard/__init__.py:183 | a sorted list is the only strictly increasing arrangement of its rows: sorting rows whose order column is strictly increasing in some order gives exactly that order |
| LegacyCallback.FillRow | tgbot/keyboard/__init__.py:185-188 | one row of the second pass: each placeholder takes, in turn, the next row from the front of the sorted list; every other cell is kept, and the rows used are removed |
| LegacyCallback.FillGrid | tgbot/keyboard/__init__.py:184-188 | the second pass gives each placeholder the row at its row-major rank among the placeholders and keeps every other cell |
| LegacyCallback.Rebuild | tgbot/keyboard/__init__.py:156-188 | a token of an unregistered class raises KeyError; the keyboard is stale exactly when no button carries the pressed token or the count check fails; otherwise the pressed cell is the first one carrying the token, the sorted rows fill the placeholders row-major, and the pressed cell holds a fetched row |
| LegacyCallback.PressedFilled | tgbot/keyboard/__init__.py:192 | the cell read as the activated button holds a row fetched from a registered table |
| LegacyCallback.SlotsCount | tgbot/keyboard/__init__.py:162-163 | there are exactly as many placeholders as token buttons counted |
| LegacyCallback.TokenAtRank | tgbot/keyboard/__init__.py:184-188 | the placeholder of rank k stands for the k-th token of the keyboard |
| LegacyCallback.Restored | tgbot/keyboard/__init__.py:175-188 | when every token has its row and their order column grows along the keyboard, whatever order the tables are queried in, each token button's cell gets its own row, from its class's table, and every other cell stays `None` |
| LegacyKeyboard.CreateRow | tgbot/keyboard/__init__.py:89-104 | one row of `create_keyboard`: it fails exactly when an entry has neither `button_class` nor `button`; otherwise links are shown without data and each button is shown with its label and a token starting with its class key, its row stored under that token after the rows before |
| LegacyKeyboard.CreateKeyboard | tgbot/keyboard/__init__.py:84-107 | `create_keyboard` raises "Neither button_class nor button specified" exactly when some entry is malformed; otherwise each button is shown with its label and a token of its class key and a fresh uuid, with its row stored under that token in row-major order |
| LegacyKeyboard.TokensFresh | tgbot/keyboard/__init__.py:101 | distinct uuids make the issued tokens distinct |
| LegacyKeyboard.StoredInOrder | tgbot/keyboard/__init__.py:101-106 | rows of one table stored under their tokens, with that table's ids growing in the order the rows were added, pass the count check and have ids growing in token order |
| LegacyKeyboard.CellRestored | tgbot/keyboard/__init__.py:101-103 | a created button's token names its class and its row is stored under it, with one of the new ids |
| LegacyKeyboard.CreatedRestored | tgbot/keyboard/__init__.py:84-188 | round trip for a keyboard whose buttons share one class: with distinct uuids and the rows saved in order, the rebuilt keyboard holds, in each button's cell, the row created for it (with its new id) from its class's table; links come back empty |
| LegacyKeyboard.CellsRestored | tgbot/keyboard/__init__.py:175-188 | once every token cell holds its stored row and every link cell is `None`, every button cell holds its entry's row and every link cell stays `None` |
| LegacyKeyboard.MixedTablesMisplaced | tgbot/keyboard/__init__.py:175-183 | as written: buttons A1, B1, A2 of two classes whose tables give them ids 1, 2 and 2 are all stored and pass the count check, yet the middle button gets A2's row |
| LegacyKeyboard.CarriedAppend | tgbot/keyboard/__init__.py:119 | the `callback` variable carried through two runs of entries is the one carried through the first, then through the second |
| LegacyKeyboard.CarriedNoOwn | tgbot/keyboard/__init__.py:119 | entries without a callback of their own (or passed over) carry the callback before them unchanged |
| LegacyKeyboard.CarriedLastOwn | tgbot/keyboard/__init__.py:119 | a button ends with the callback of the last entry up to it that has its own: a per-button callback becomes the default of every later button |
| LegacyKeyboard.SimpleRow | tgbot/keyboard/__init__.py:112-121 | one row of `create_simple_keyboard`: each entry not passed over gets the callback carried to it as `callback_name` (keeping its own name when none is carried), and the carried callback is passed on |
| LegacyKeyboard.SimpleCallbackNames | tgbot/keyboard/__init__.py:110-122 | every entry of the keyboard gets the `callback_name` of the callback carried to it through all entries before it in row-major order |
| LegacyKeyboard.LeakExample | tgbot/keyboard/__init__.py:119 | a button without a callback after one with callback `f` gets `f`, not the argument |
| LegacyKeyboard.Drop | tgbot/keyboard/__init__.py:66-68 | `text[n:]` has length `len(text) - n`, or is empty when n passes the end |
| LegacyKeyboard.Flipped | tgbot/keyboard/__init__.py:69 | toggling negates `is_checked` and changes nothing else in the row |
| LegacyKeyboard.ToggleTwice | tgbot/keyboard/__init__.py:65-69 | on a text carrying the prefix of its state, a toggle puts the prefix of the new state in its place, keeps the rest, and a second toggle gives the text back |
| LegacyKeyboard.CreatedLabelToggles | tgbot/keyboard/__init__.py:73-76 | a check box created with the default prefixes shows the prefix of its state, and one toggle shows the label of the other state |
| LegacyKeyboard.Activate | tgbot/keyboard/__init__.py:192-203 | a button of another user (not the default user) gets only the permission alert; a plain button calls the controller method named by `callback_name` with its cell, and a missing or raising method gives the failure alert; a check box swaps the shown prefix of the pressed cell alone and flips its row; the query is answered after activation iff `answer` is set |
| LegacyKeyboard.HandleCallbackQuery | tgbot/keyboard/__init__.py:142-203 | a token that is not 20 bytes or whose class is unknown gets the stale alert; a token on the keyboard of an unregistered class raises KeyError; a pressed token not on the keyboard, or a failed count check, is stale; otherwise the first matching cell of the keyboard rebuilt from the rows sorted by id is activated |
| NameInflection.Strip | tgbot/wrappers/name_inflection.py:107 | `strip()` leaves a text that neither starts nor ends with whitespace, and is empty exactly when the input is all whitespace |
| NameInflection.SplitWords | tgbot/wrappers/name_inflection.py:110 | `split()` gives non-empty words free of whitespace, at least one when the text ends in a non-space character |
| NameInflection.SplitWordsKeepsText | tgbot/wrappers/name_inflection.py:110 | the words, concatenated, are the text with its whitespace removed |
| NameInflection.Capitalize | tgbot/wrappers/name_inflection.py:92 | `capitalize()` keeps the length, upper-cases the first character and lower-cases the rest |
| NameInflection.FirstNominative | tgbot/wrappers/name_inflection.py:71-75 | the parse chosen is the first one in the nominative case, and there is none exactly when no parse is nominative |
| NameInflection.Picked | tgbot/wrappers/name_inflection.py:85-98 | the scan picks at most six forms, at strictly increasing positions, the i-th having the parse's gender and the i-th case |
| NameInflection.PickedSaturates | tgbot/wrappers/name_inflection.py:93-94 | once six forms are picked, later lexemes change nothing, which is why the loop may stop there |
| NameInflection.Fallback | tgbot/wrappers/name_inflection.py:101-102 | the fallback forms are six copies of the word itself |
| NameInflection.Forms | tgbot/wrappers/name_inflection.py:67-103 | a word always ends up with exactly six forms |
| NameInflection.FormsMeaning | tgbot/wrappers/name_inflection.py:76-103 | without a nominative parse the forms are the fallback; otherwise, when six forms were found, the i-th is the capitalised lexeme of the i-th case in the nominative parse's gender; when fewer were found, the fallback |
| NameInflection.ParsedGender | tgbot/wrappers/name_inflection.py:83-84 | corrected reading: the gender is masculine when the nominative parse says `masc`, feminine for any other gender, and unset exactly when there is no nominative parse |
| NameInflection.ParseAsWritten | tgbot/wrappers/name_inflection.py:67-103 | as written: a nominative parse of any gender other than `masc` raises AttributeError on `Gender.Female`, before the forms are stored |
| NameInflection.FeminineParseFails | tgbot/wrappers/name_inflection.py:84 | as written, parsing the feminine name "Анна" raises |
| NameInflection.FeminineParseSucceeds | tgbot/wrappers/name_inflection.py:84 | corrected, "Анна" is feminine and its genitive form is "Анны" |
| NameInflection.FormsFromPicked | tgbot/wrappers/name_inflection.py:85-102 | the forms are the ones the scan collected when it found all six, and the fallback otherwise |
| NameInflection.CollectForms | tgbot/wrappers/name_inflection.py:85-98 | the loop over the lexemes collects exactly the capitalised forms the scan picks |
| NameInflection.NameWord.constructor | tgbot/wrappers/name_inflection.py:44-48 | a new word has no cached forms and no gender |
| NameInflection.NameWord.Parse | tgbot/wrappers/name_inflection.py:67-103 | `parse` (with the corrected gender) caches the word's six forms, and stores its gender when a nominative parse exists |
| NameInflection.NameWord.At | tgbot/wrappers/name_inflection.py:50-55 | `word @ k` for k in 0..5 gives the k-th form, parsing on first use; any other k raises ValueError and changes nothing |
| NameInflection.NameWord.GetGender | tgbot/wrappers/name_inflection.py:57-61 | the `gender` property parses when no gender is stored and gives the parsed gender, unset without a nominative parse |
| NameInflection.FlattenKeepsValue | tgbot/wrappers/name_inflection.py:14-23 | a `NameString` built from components, some of them whole `NameString`s, reads as its arguments concatenated |
| NameInflection.InflectString | tgbot/wrappers/name_inflection.py:25-32 | `name_string @ k` for k in 0..5 replaces each word by its k-th form and keeps the separators; any other k raises at the first word; with no word the separators are joined whatever k is |
| NameInflection.StringGender | tgbot/wrappers/name_inflection.py:34-38 | the gender of a `NameString` is that of its first word, none without words |
| NameInflection.Interleave | tgbot/wrappers/name_inflection.py:111-112 | n words become 2n-1 components: the words at even positions, a single space between each two |
| NameInflection.InterleaveValue | tgbot/wrappers/name_inflection.py:111-113 | the interleaved components read as the words joined by single spaces |
| NameInflection.WrapLayoutShape | tgbot/wrappers/name_inflection.py:106-113 | without a space character the stripped text is one word, even when it holds other whitespace; with one there are at least two words and 2n-1 components reading as the words joined by single spaces |
| NameInflection.WrapNameString | tgbot/wrappers/name_inflection.py:106-113 | `wrap_name_string` gives a single fresh word, the stripped text, exactly when that has no space; otherwise fresh words from `split()` at even positions with a single space between each two |
| SplitText.Units | tgbot/helpers/split_text.py:7-15 | a character split has one unit per character of the body, in order; a word or line split always has at least one unit |
| SplitText.JoinUnits | tgbot/helpers/split_text.py:7-15 | joining the units with their separator (`''`, `' '` or `'\n'`) gives the body back |
| SplitText.PrefixLength | tgbot/helpers/split_text.py:17-21 | the prefix of fragment i of n (`header (i/n)` plus separator, `i/n` plus separator, or the header plus separator) is exactly as long as the fixed length plus the digits of i and n that the pre-count reserves |
| SplitText.PyHeadCount | tgbot/helpers/split_text.py:36 | `len(xs[:stop])` is never more than `len(xs)` |
| SplitText.Fit | tgbot/helpers/split_text.py:39-50 | the greedy word or line loop takes a run of units that fits within the free space, each no longer than it, and stops only at a unit that would overflow it |
| SplitText.Take | tgbot/helpers/split_text.py:35-50 | a part never takes more units than remain |
| SplitText.PartLength | tgbot/helpers/split_text.py:35-50 | the pre-count's measurement loop gives the greedy part, or the ValueError when the unit it stops at is longer than the free space by itself |
| SplitText.PassFrom | tgbot/helpers/split_text.py:26-61 | one pre-count pass lays out at most as many parts as there are units, or raises |
| SplitText.PreCount | tgbot/helpers/split_text.py:16-61 | the pre-count loop gives the number of parts of the first pass that needs no more parts than the previous one laid out, or the ValueError |
| SplitText.PartStep | tgbot/helpers/split_text.py:32-61 | one part of a pass raises, ends the pass, or counts a part that takes at least one and at most the remaining units |
| SplitText.PreCountNext | tgbot/helpers/split_text.py:51-57 | a pass that needs no more parts than it started with ends the pre-count; otherwise a new pass starts from its count |
| SplitText.CountedFails | tgbot/helpers/split_text.py:32-42 | a part that cannot fit ends the whole pre-count with the ValueError |
| SplitText.CountedPassEnds | tgbot/helpers/split_text.py:51-57 | a part that takes nothing ends the pass: the pre-count's result when the pass needed no new part, another pass otherwise |
| SplitText.CountedNextPart | tgbot/helpers/split_text.py:58-61 | a part that takes something removes at least one unit and moves to the next part |
| SplitText.TakeAt | tgbot/helpers/split_text.py:74-89 | a fragment never takes more units than remain |
| SplitText.FillMessage | tgbot/helpers/split_text.py:74-89 | filling a fragment appends, after its prefix, the units the greedy loop takes joined by the unit separator, and leaves exactly the rest |
| SplitText.Emit | tgbot/helpers/split_text.py:62-93 | the emit loop cuts fragment after fragment, each numbered by its position, until no unit is left; it gives `Diverges` where the source loops forever |
| SplitText.EmitStep | tgbot/helpers/split_text.py:62-93 | one round of the emit loop ends the loop when the fragment takes every remaining unit, never ends it when it takes none, and otherwise leaves the rest to the next fragment |
| SplitText.SplitTextAsWritten | tgbot/helpers/split_text.py:4-93 | `split_text` as written: one message when everything fits, the ValueError when the pre-count raises, and the emit loop's fragments otherwise, the pre-count adding a separator only after non-empty content |
| SplitText.SplitText | tgbot/helpers/split_text.py:4-93 | `split_text` with the pre-count measuring parts as the emit loop fills them |
| SplitText.SplitByUnitsFirst | tgbot/helpers/split_text.py:96-102 | `split_text_by_units` raises exactly when every unit raises, and otherwise gives the split by the first unit that does not, for the as-written pre-count that the source uses and the corrected one alike |
| SplitText.SplitByUnitsWithinLimit | tgbot/helpers/split_text.py:96-102 | whichever unit the fallback settles on, every fragment of a non-empty body is within the length limit |
| SplitText.SplitByUnitsNumbered | tgbot/helpers/split_text.py:96-102 | corrected reading: with the corrected pre-count, a body needing several fragments gets fragments announcing exactly their own number |
| SplitText.SplitTextByUnits | tgbot/helpers/split_text.py:96-102 | the loop over the units returns the first split that does not raise, or raises at the end; the bot calls it with the as-written `split_text` |
| SplitText.TakenFits | tgbot/helpers/split_text.py:74-89 | what a fragment takes, joined, fits into the room left after its prefix |
| SplitText.FitMaximal | tgbot/helpers/split_text.py:79-89 | the greedy loop takes every prefix of the units that fits |
| SplitText.PreCountFixed | tgbot/helpers/split_text.py:51-61 | the corrected pre-count stops at a total n that a pass starting from n lays out exactly |
| SplitText.FragmentMatchesPart | tgbot/helpers/split_text.py:62-89 | fragment i of n takes at least one unit, the units part i of a pass with total n takes: all of them exactly when that pass lays out one last part, otherwise leaving a rest the pass lays out as the remaining parts |
| SplitText.PassCuts | tgbot/helpers/split_text.py:26-93 | when a pass lays out the remaining units as q parts within the announced total, the emit loop cuts exactly q fragments |
| SplitText.EmitCuts | tgbot/helpers/split_text.py:62-93 | the emit loop returns fragments exactly when every round takes something, one fragment per round |
| SplitText.EmitWithinLimit | tgbot/helpers/split_text.py:62-93 | every fragment of a list the emit loop returns starts with its prefix and is at most the maximum length |
| SplitText.EmitKeepsText | tgbot/helpers/split_text.py:62-93 | the fragments without their prefixes, joined with the unit separator, are the units joined |
| SplitText.SplitKeepsText | tgbot/helpers/split_text.py:4-93 | a split that returns fragments loses and adds no text: the fragments without their prefixes, joined, are the body |
| SplitText.SplitWithinLimit | tgbot/helpers/split_text.py:4-93 | every fragment `split_text` returns is at most the maximum length (except for an empty body split by characters) |
| SplitText.EmptyBodyOverLimit | tgbot/helpers/split_text.py:5-93 | an empty body split by characters that does not fit gives the bare prefix alone, and that prefix is over the limit whenever it is not empty |
| SplitText.LongUnitFails | tgbot/helpers/split_text.py:40-42 | a word or line longer than any part's free space makes the pre-count pass raise |
| SplitText.SplitFails | tgbot/helpers/split_text.py:25-61 | with part numbers, `split_text` raises when not even the first prefix leaves room, or a word or line is longer than any part's room; without part numbers it never raises |
| SplitText.EmitNeverFails | tgbot/helpers/split_text.py:62-93 | the emit loop never raises |
| SplitText.LongUnitDiverges | tgbot/helpers/split_text.py:79-91 | a word or line longer than a fragment's free space makes the emit loop take nothing from then on, forever |
| SplitText.UnnumberedLongUnitDiverges | tgbot/helpers/split_text.py:62-93 | without part numbers nothing checks the units first, so such a word or line makes `split_text` loop forever |
| SplitText.BlockedNeverEnds | tgbot/helpers/split_text.py:62-93 | once a fragment has no room, no number of rounds of the emit loop ends it |
| SplitText.DivergesNeverEnds | tgbot/helpers/split_text.py:62-93 | where the model says `Diverges`, the loop as written never ends |
| SplitText.MessagesEnd | tgbot/helpers/split_text.py:62-93 | where the model returns fragments, the loop as written ends after one round per fragment with those fragments |
| SplitText.MessagesNotEmpty | tgbot/helpers/split_text.py:62-93 | a list the emit loop returns holds at least one fragment |
| SplitText.NumberedPartsAgree | tgbot/helpers/split_text.py:16-93 | corrected: with part numbers, when the split does not raise it returns fragments, as many as the pre-count announced, each numbered `i/n` in order and within the limit |
| SplitText.NumberingMismatch | tgbot/helpers/split_text.py:44-51 | as written, splitting `'\na\na\na'` by lines into parts of 4 with no header announces 3 parts but cuts 4: "1/3", "2/3a", "3/3a", "4/3a" |
| States.LowerRun | tgbot/states.py:11 | the greedy `[a-z]+` run: every character before the end of the run is an ASCII lower-case letter and the next one, if any, is not |
| States.StateTableName | tgbot/states.py:24-25 | `__tablename__` is the converted class name, lower-cased over ASCII and Cyrillic letters, followed by `_state` |
| States.DropUnderscores | tgbot/states.py:14-17 | removing underscores never lengthens a name (helper for the next properties) |
| States.WordStartSubInsertsUnderscores | tgbot/states.py:15 | the first substitution only inserts underscores: with them removed the text is unchanged |
| States.WordEndSubInsertsUnderscores | tgbot/states.py:16 | the second substitution only inserts underscores |
| States.TableNameOnlyInsertsUnderscores | tgbot/states.py:14-17 | with underscores removed, the table name is the lower-cased class name with its underscores removed |
| States.SubsIdentityWithoutCapitals | tgbot/states.py:11-16 | on a text without capitals neither pattern matches, so both substitutions leave it unchanged |
| States.NoCapitalAfterLower | tgbot/states.py:12 | a text where no lower-case letter or digit is directly followed by a capital is left unchanged by the second substitution |
| States.TableNameIdempotent | tgbot/states.py:14-17 | a table name has no capitals, and converting it again changes nothing |
| States.NextStateAdvances | tgbot/states.py:93-96 | with distinct column names, setting the i-th column moves the state to the (i+1)-th, or to none after the last |
| States.FieldsFrom | tgbot/states.py:89-96 | after k sets starting at column i the state is column i+k, or none once past the last column |
| States.FieldsInOrder | tgbot/states.py:55-96 | a freshly created form visits its own fields in declaration order, starting at the first column after the mixin's four, and is complete after the last |
| States.StateTable.constructor | tgbot/states.py:27-33 | a new table has the mixin's four columns followed by the form's own, and no rows |
| States.StateTable.Create | tgbot/states.py:55-74 | `create` replaces the (chat, user) row, user 0 when no user is given, by a fresh row at the end, waiting for the first form column with no values; the other rows stay and keys stay unique; a table without form columns raises IndexError and changes nothing |
| States.StateTable.GetState | tgbot/states.py:77-87 | `get_state` gives a row of the chat, of the user or of user 0, waiting for the given state, and gives none exactly when no row matches |
| States.StateTable.Set | tgbot/states.py:89-96 | `set` stores the value under the current state's column and moves the state to the next column (none after the last), changing only that row; on a completed form it raises and changes nothing |
| States.Without | tgbot/states.py:67-71 | deleting the (chat, user) row keeps exactly the rows with another key |
| States.WithoutDistinct | tgbot/states.py:32 | deleting a key keeps the remaining keys unique |
| States.SnocDistinct | tgbot/states.py:32 | a row with a new key may be added behind rows with unique keys and the keys stay unique |
| CmAssistant.BindCode | cm_assistant.py:65 | a bind code is 42 characters, the i-th being the alphabet's character at the i-th random choice |
| CmAssistant.AlphabetIndex | cm_assistant.py:65 | every ASCII letter and digit has a position in `ascii_lowercase + ascii_uppercase + digits` |
| CmAssistant.AlphabetIsAlphanumeric | cm_assistant.py:65 | the alphabet holds exactly the ASCII letters and digits |
| CmAssistant.BindCodesAreAlphanumeric | cm_assistant.py:65 | every bind code is 42 letters and digits, and every such string is the bind code of some choices |
| CmAssistant.StartChecks | cm_assistant.py:105-165 | `/start` in a group checks, in order, that a code was passed, that it belongs to a user and that the sender is an admin, refusing with the matching notice otherwise; it leaves exactly the unknown groups it refuses; it binds exactly an unknown group when all checks pass, and only confirms when the code's owner is already the group's admin |
| CmAssistant.Assistant.constructor | cm_assistant.py:39-41 | a new bot has no groups, users, associations or events, and nothing sent, left or deleted |
| CmAssistant.Assistant.LoadGroup | cm_assistant.py:43-51 | the current group becomes the chat when the chat is a stored group, and is left as it was otherwise |
| CmAssistant.Assistant.ResetGroupContext | cm_assistant.py:53-57 | after the update the current group is unset |
| CmAssistant.Assistant.Bind | cm_assistant.py:63-70 | `/bind` stores a fresh code as the user's bind code and replies with a button carrying it |
| CmAssistant.Assistant.GroupStart | cm_assistant.py:84-165 | a refusal sends its notice to the group, leaves an unknown group and changes nothing else; binding stores the group, makes the code's owner its admin, clears the owner's code, sets the current group and tells the owner; a known group confirms an existing admin or grants the role, creating the association when missing; events and deleted messages never change |
| CmAssistant.Assistant.Joined | cm_assistant.py:167-192 | corrected reading: in a known group, one JOIN event per new member, in order and at one time, is appended, and the service message is deleted when the group removes joins and the bot is allowed to; in an unknown group nothing changes |
| CmAssistant.Assistant.LeftGroup | cm_assistant.py:194-214 | corrected reading: in a known group one LEAVE event is appended and the service message is deleted when the group removes leaves and the bot is allowed to; in an unknown group nothing changes |
| CmAssistant.Assistant.DeleteServiceMessage | cm_assistant.py:187-192 | a deletion the bot is forbidden to make is ignored; any other is recorded |
| CmAssistant.Assistant.GroupMessage | cm_assistant.py:216-226 | corrected reading: a MESSAGE event is appended exactly when both the group and the user are known |
| CmAssistant.HandlerEventRejected | tables/__init__.py:48-53 | `Event` has no `group` column, so the handlers' `Event(group=…, user_id=…, time=…, type=…)` is refused, while the other three keywords are columns |
| CmAssistant.Assistant.JoinedAsWritten | cm_assistant.py:168-192 | as written: in a known group with at least one new member the first `Event(group=…)` raises TypeError, so no event is stored and no message deleted; otherwise it behaves as the corrected handler with no event to store |
| CmAssistant.Assistant.LeftGroupAsWritten | cm_assistant.py:195-214 | as written: in a known group `Event(group=…)` raises TypeError before any event is stored or the message deleted |
| CmAssistant.Assistant.GroupMessageAsWritten | cm_assistant.py:217-226 | as written: with a known group and user `Event(group=…)` raises TypeError and no event is stored |

## Left out

- Networking and Telegram calls are not modelled as behaviour. Sending, editing, deleting and fetching messages, answering queries and leaving chats become recorded actions or outcome parameters.
- SQLAlchemy sessions, flushes and commits, the schema and the migrations are not modelled. Tables are in-memory maps or sequences, and database failures are not modelled.
- asyncio concurrency is left out: tasks, `asyncio.wait`, events being awaited, the shared lock, cancellation and the monitor of running tasks. The pipelines and the dispatcher are sequential step methods over their counters, chains and outcomes.
- The clock is an integer parameter, and time offsets are whole seconds. Floating-point timestamps are not modelled.
- GuiTabs.Stepped: the moment is an unbounded count of seconds, while `datetime + timedelta` (tgbot/gui/tabs/mixins.py:44-77) raises OverflowError outside the years 1 to 9999; calendar months and years are fixed numbers of seconds, as the source's constants are.
- Randomness is left out. `random.choices` is a sequence of indices, and `uuid4` a supplied fresh 16-byte value; uniqueness is stated as a precondition where it matters.
- pymorphy2 analysis in `NameWord.parse` is not modelled. Each word carries the analyser's answer, its parses and their lexemes, as the field `analysis`, given at construction.
- The user lookup, `get_chat_member` and `get_peer_type` are parameters. The current user and group, which contextvars store, are fields or parameters.
- Logging, process lifecycle, reloading and the pickle session workaround are not modelled.
- The declarative windows of cm_assistant (admin and settings windows) are not modelled, and neither is the `/start`, `/settings` or `/admin` reply in a private chat.
- The exception branch around `create_task` (tgbot/bot.py:248-250) is not modelled. It only logs.
- The KeyError a failed send raises when its chain has no event is the outcome `MissingEvent`. The exception object itself is not modelled.
- An association created for a known group has no role until it is made Admin in the same call, so only the final Admin role is recorded.
- The `ContextVarWrapper` around the current group is treated as the group itself.
- The `SplitText` emit loop can run forever in the source. The model reports that as the outcome `Diverges`, and `DivergesNeverEnds` / `MessagesEnd` tie it to a fuel-bounded run of the loop.
- States.TableNameIdempotent: the worked example `AddStaffMemberForm` becoming `add_staff_member_form` is not proved. Evaluating the regular-expression substitutions on that literal is beyond the solver's budget, so the general lemmas stand in for it.
- `BaseKeyboard.render` (tgbot/gui/__init__.py:153-165) and `destroy` (tgbot/gui/__init__.py:238-241) are not modelled. `render` converts the grid into Telegram markup, raising ValueError for a cell that is not a button, and `destroy` deletes each button's row.
- `create_simple_check_box_keyboard` (tgbot/keyboard/__init__.py:125-136) is not modelled. It only wraps `create_simple_keyboard` with a different button class.
- The database steps of `BaseTab.render`, `reconstruct` and `build` are not modelled. Neither are the "Text not found" and "Tab not found" fallbacks, nor the `str.format` substitution in `get_text_data`.
- `remove_buttons_by_name` is a parameter (`remaining`) of the date/time control update.
- GuiWindow.Window.constructor: requires at least one tab. The source raises IndexError otherwise.
- GuiKeyboard.Keyboard.Reconstruct: requires a fresh, empty keyboard, as its callers provide.
- GuiKeyboard.Keyboard.Restore: requires a fresh, empty keyboard, as its callers provide. The deletions and the reconstruction share one session, and a rollback after a failed reconstruction is not modelled: the table is returned with the selected rows deleted whatever the outcome.
- GuiWindow.StepField: a missing field index, on which the source's `-= 1` or `+= 1` raises TypeError, is modelled as the error `TypeError`.
- NameInflection.Capitalize: upper- and lower-cases only ASCII and Cyrillic letters, one character for one. Python's `str.capitalize` covers all of Unicode and can change the length (`'ß'` becomes `'Ss'`).
- GroupManager.GroupManager.AddGroup: `group_name.upper()` (tgbot/group_manager.py:8) becomes an upper-casing of ASCII and Cyrillic letters only, one character for one. Python's `str.upper` covers all of Unicode and can lengthen a name (`'ß'` becomes `'SS'`). Every name registered (tgbot/group_manager.py:28-36, cm_assistant.py:32-34) is lower-case ASCII, where the two agree.
- GroupManager.GroupManager.AddLeftGroup: upper-cases the name through AddGroup, with the same ASCII-and-Cyrillic restriction.
- GroupManager.GroupManager.AddRightGroup: upper-cases the name through AddGroup, with the same ASCII-and-Cyrillic restriction.
- States.StateTableName: `class_name.lower()` (tgbot/states.py:17) becomes a lower-casing of ASCII and Cyrillic letters only, one character for one; Python's `str.lower` covers all of Unicode. The one state class, `AddStaffMemberForm` (tables/states.py:8), has an ASCII name.
- GuiKeyboard.Keyboard.Save / GuiKeyboard.Keyboard.Restore: `save` calls `db_row.set_data(button)` for a pyrogram button (tgbot/gui/__init__.py:214) and `restore` calls `db_button.get_button()` (line 231), but `tables.PyrogramButton` (tgbot/db/tables.py:23-36) and its mixin (tgbot/gui/mixins.py:9-20) define neither, so as written `restore` raises AttributeError on its first stored row and `save` on a pyrogram button. The model takes the two to store and return the shown button unchanged (`Snapshot.button`). It also reads the selected rows in insertion order, while the query at tgbot/gui/__init__.py:224-227 has no ORDER BY and nothing sorts them afterwards. GuiKeyboard.ShownCell, GuiKeyboard.SaveRestore and GuiKeyboard.SavedTabRestored rest on both assumptions.
- SplitText.Units: only the units `char`, `word` and `line` are modelled. Any other unit leaves `units` unbound in `split_text` (tgbot/helpers/split_text.py:7-15), which raises UnboundLocalError; `split_text_by_units` does not catch it.
- Registry.ClassRegistry.Register: the metaclass returns a class without bases, the base class of the hierarchy, without registering it (tgbot/gui/__init__.py:28-29). The model registers every name it is given, and the base classes are never passed to it.
- LegacyCallback.Fetch: within one table the rows are taken in token order. The queries have no ORDER BY, and once the ids of the rows differ the sort that follows makes that order irrelevant.
- LegacyKeyboard.CreatedRestored: the round trip is proved only for keyboards whose buttons share one class. With several classes the per-table ids can tie across tables and misplace rows; see Findings.
- The `handler_decorators` wrapper that swallows exceptions other than propagation is not modelled. The dispatcher's rollback branch is modelled for any callback that raises.

## Findings

| source | as written | input that shows it | evidently intended | confidence | as-written member | corrected member |
|---|---|---|---|---|---|---|
| tgbot/wrappers/name_inflection.py:84 | a nominative parse of any gender other than `masc` evaluates `Gender.Female`, which the enum does not define, and raises AttributeError | parsing "Анна", whose nominative parse is `femn` | feminine names get the feminine gender and their six forms | high, not executed | NameInflection.FeminineParseFails | NameInflection.FeminineParseSucceeds |
| tgbot/keyboard_handler.py:150 | the pressed button is read as `result_keyboard[column_index][row_index]` | one row of two buttons, pressing cell (0, 1) | the button at `[row_index][column_index]` is activated | high, not executed | KeyboardHandler.SwappedIndexCounterexample | KeyboardHandler.Activation |
| tgbot/keyboard_handler.py:151-152 | a permission mismatch sends an alert but does not return, so the button is still activated | a button owned by user 5 pressed by user 7 | the foreign button is not activated | high, not executed | KeyboardHandler.PermissionCounterexample | KeyboardHandler.Activation |
| tgbot/helpers/split_text.py:44-51 | the pre-count adds a unit separator only after non-empty content and ends a pass at a part of length 0, while the emit loop separates every unit already taken | `split_text('', '\na\na\na', 4, 'line', '')` gives "1/3", "2/3a", "3/3a", "4/3a" | the announced total equals the number of fragments | medium, not executed | SplitText.NumberingMismatch | SplitText.NumberedPartsAgree |
| tgbot/wrappers/dispatcher.py:31 | `session_in_context` is first bound after the packet is parsed, but `finally` (line 84) reads it | a first packet whose parse raises | a parse failure is logged and the worker goes on | medium, not executed | Dispatcher.HandlerWorkerAsWritten | Dispatcher.HandlerWorker |
| tgbot/keyboard_handler.py:156 | a button without `answer` calls `current_callback_query.set_context_var(...)`, a method the context-var wrapper does not have; the lookup is forwarded to the unset value and raises | a default-user button with `answer` False and callback `f`, pressed | the query is kept as the current one and the button activated without an answer | medium, not executed | KeyboardHandler.ContextVarCounterexample | KeyboardHandler.Activation |
| cm_assistant.py:176, 200, 220 | the join, leave and message handlers build `Event(group=…, …)`, but the `event` table (tables/__init__.py:48-53) has no `group` column, so the constructor raises TypeError | any join, leave or message in a known group | one event per join, leave or message is stored | high, not executed | CmAssistant.Assistant.JoinedAsWritten, CmAssistant.Assistant.LeftGroupAsWritten, CmAssistant.Assistant.GroupMessageAsWritten | CmAssistant.Assistant.Joined, CmAssistant.Assistant.LeftGroup, CmAssistant.Assistant.GroupMessage |
| tgbot/keyboard/__init__.py:175-183 | the rows are fetched table by table and sorted by `id`, but each table numbers its own ids (tgbot/keyboard/mixins.py:9) | a keyboard A1, B1, A2, whose rows get ids 1 and 2 in table A and 2 in table B: the middle button gets A2's row | the rows are sorted by a number that grows along the whole keyboard, as `button_id` does in tgbot/keyboard_handler.py:142 | medium, not executed | LegacyKeyboard.MixedTablesMisplaced | LegacyCallback.Restored |

=== FILE: bot.dfy ===
/** The outbound message pipeline of tgbot/bot.py (`BotController`), the
    variant in which the chat's limiter and the event chain are looked up
    when a fragment is actually sent rather than when it is queued.

    `send_message_sync` queues one entry per fragment. A blocking call gives
    all its fragments one `asyncio.Semaphore(len(texts))` and one
    `asyncio.Event`, here one group number; the sender acquires the semaphore
    once per completed fragment and sets the event, carrying that fragment's
    result, when the semaphore locks. `message_sender` holds at most
    `max_concurrent_sendings` tasks, counting an outstanding `get`.

    Tasks are modelled by their bookkeeping as in `MessageHandler`; whether a
    chat id names a user is a parameter, and so is how a send ended. */
module Bot {
  import opened Common
  import opened PrioritizedItem
  import SplitText
  import MessageHandler

  /** The data of one queued fragment: its text, the call's chat argument
      and `ignore_errors`, and the group of a blocking call. */
  datatype Request = Request(text: string, chat: Option<int>, ignoreErrors: bool, group: Option<nat>)

  /** The entries `send_message_sync` queues for `texts`: consecutive ids
      from `firstId`, all of one priority and one group. */
  function Requests(texts: seq<string>, chat: Option<int>, ignoreErrors: bool, priority: int, firstId: int,
                    group: Option<nat>): (q: seq<Item<Request>>)
    ensures |q| == |texts|
    ensures forall j :: 0 <= j < |q| ==> q[j].id == firstId + j && q[j].priority == priority && q[j].item.group == group
    ensures forall j :: 0 <= j < |q| ==> q[j].item == Request(texts[j], chat, ignoreErrors, group)
  {
    seq(|texts|, j requires 0 <= j < |texts| => Item(priority, firstId + j, Request(texts[j], chat, ignoreErrors, group)))
  }

  // ---------------------------------------------------------------------
  // Groups of a blocking call

  /** The number of entries of group `g`. */
  function GroupCount(q: seq<Item<Request>>, g: nat): nat {
    if q == [] then 0 else GroupCount(q[..|q| - 1], g) + (if q[|q| - 1].item.group == Some(g) then 1 else 0)
  }

  lemma {:induction false} GroupCountConcat(a: seq<Item<Request>>, b: seq<Item<Request>>, g: nat)
    ensures GroupCount(a + b, g) == GroupCount(a, g) + GroupCount(b, g)
  {
    if b != [] {
      assert (a + b)[..|a + b| - 1] == a + b[..|b| - 1];
      GroupCountConcat(a, b[..|b| - 1], g);
    } else {
      assert a + b == a;
    }
  }

  lemma GroupCountRemoveAt(q: seq<Item<Request>>, k: nat, g: nat)
    requires k < |q|
    ensures GroupCount(RemoveAt(q, k), g) + (if q[k].item.group == Some(g) then 1 else 0) == GroupCount(q, g)
  {
    assert q == q[..k] + [q[k]] + q[k + 1..];
    GroupCountConcat(q[..k] + [q[k]], q[k + 1..], g);
    GroupCountConcat(q[..k], [q[k]], g);
    GroupCountConcat(q[..k], q[k + 1..], g);
    assert GroupCount([q[k]], g) == (if q[k].item.group == Some(g) then 1 else 0) by {
      assert [q[k]][..0] == [];
    }
  }

  /** Entries all of group `group` add their number to that group only. */
  lemma {:induction false} GroupCountUniform(queue: seq<Item<Request>>, q: seq<Item<Request>>, group: Option<nat>, g: nat)
    requires forall j :: 0 <= j < |q| ==> q[j].item.group == group
    ensures GroupCount(queue + q, g) == GroupCount(queue, g) + (if group == Some(g) then |q| else 0)
  {
    if q == [] {
      assert queue + q == queue;
    } else {
      var init := q[..|q| - 1];
      GroupCountUniform(queue, init, group, g);
      assert queue + q == (queue + init) + [q[|q| - 1]];
      assert (queue + q)[..|queue + q| - 1] == queue + init;
    }
  }

  /** A group no entry carries counts zero. */
  lemma {:induction false} GroupCountAbsent(q: seq<Item<Request>>, g: nat)
    requires forall i :: 0 <= i < |q| ==> q[i].item.group != Some(g)
    ensures GroupCount(q, g) == 0
  {
    if q != [] {
      GroupCountAbsent(q[..|q| - 1], g);
    }
  }

  /** Every group an entry carries is known. */
  ghost predicate GroupsKnown(q: seq<Item<Request>>, remaining: map<nat, nat>) {
    forall i :: 0 <= i < |q| ==> q[i].item.group.Some? ==> q[i].item.group.value in remaining
  }

  /** Each semaphore's value is the number of its call's fragments not yet
      completed, queued or running. */
  ghost predicate Balanced(remaining: map<nat, nat>, queue: seq<Item<Request>>, tasks: seq<Item<Request>>) {
    forall g :: g in remaining ==> remaining[g] == GroupCount(queue, g) + GroupCount(tasks, g)
  }

  /** A group's event is set exactly when its semaphore has locked after at
      least one acquire. */
  ghost predicate Signalled(remaining: map<nat, nat>, sizes: map<nat, nat>, finished: map<nat, Option<nat>>) {
    && remaining.Keys == sizes.Keys && finished.Keys <= remaining.Keys
    && forall g :: g in remaining ==> remaining[g] <= sizes[g] && (g in finished <==> remaining[g] == 0 && sizes[g] > 0)
  }

  /** Queueing the fragments of a call keeps the semaphores balanced; a
      blocking call's new semaphore starts at its number of fragments. */
  lemma BalancedQueued(remaining: map<nat, nat>, queue: seq<Item<Request>>, tasks: seq<Item<Request>>,
                       q: seq<Item<Request>>, group: Option<nat>)
    requires Balanced(remaining, queue, tasks) && GroupsKnown(queue, remaining) && GroupsKnown(tasks, remaining)
    requires forall j :: 0 <= j < |q| ==> q[j].item.group == group
    requires group.Some? ==> group.value !in remaining
    ensures var remaining' := if group.Some? then remaining[group.value := |q|] else remaining;
      Balanced(remaining', queue + q, tasks) && GroupsKnown(queue + q, remaining') && GroupsKnown(tasks, remaining')
  {
    var remaining' := if group.Some? then remaining[group.value := |q|] else remaining;
    forall g | g in remaining'
      ensures remaining'[g] == GroupCount(queue + q, g) + GroupCount(tasks, g)
    {
      GroupCountUniform(queue, q, group, g);
      if group == Some(g) {
        GroupCountAbsent(queue, g);
        GroupCountAbsent(tasks, g);
      }
    }
    var all := queue + q;
    assert forall j :: 0 <= j < |all| ==> all[j] == if j < |queue| then queue[j] else q[j - |queue|];
  }

  /** Moving the entry at `k` from the queue to the running tasks keeps the
      semaphores balanced. */
  lemma BalancedMoved(remaining: map<nat, nat>, queue: seq<Item<Request>>, tasks: seq<Item<Request>>, k: nat)
    requires Balanced(remaining, queue, tasks) && GroupsKnown(queue, remaining) && GroupsKnown(tasks, remaining)
    requires k < |queue|
    ensures Balanced(remaining, RemoveAt(queue, k), tasks + [queue[k]])
    ensures GroupsKnown(RemoveAt(queue, k), remaining) && GroupsKnown(tasks + [queue[k]], remaining)
  {
    var queue', tasks' := RemoveAt(queue, k), tasks + [queue[k]];
    forall g | g in remaining
      ensures remaining[g] == GroupCount(queue', g) + GroupCount(tasks', g)
    {
      GroupCountRemoveAt(queue, k, g);
      assert tasks'[..|tasks|] == tasks;
    }
    assert forall j :: 0 <= j < |queue'| ==> queue'[j] == queue[if j < k then j else j + 1];
    assert forall j :: 0 <= j < |tasks'| ==> tasks'[j] == if j < |tasks| then tasks[j] else queue[k];
  }

  /** The bookkeeping of blocking calls is consistent. */
  ghost predicate GroupsOk(queue: seq<Item<Request>>, tasks: seq<Item<Request>>, remaining: map<nat, nat>,
                           sizes: map<nat, nat>, finished: map<nat, Option<nat>>) {
    && GroupsKnown(queue, remaining) && GroupsKnown(tasks, remaining)
    && Balanced(remaining, queue, tasks)
    && Signalled(remaining, sizes, finished)
  }

  /** Queueing a call's fragments keeps the bookkeeping consistent; a
      blocking call brings its own semaphore, of its number of fragments. */
  lemma GroupsQueued(queue: seq<Item<Request>>, tasks: seq<Item<Request>>, remaining: map<nat, nat>,
                     sizes: map<nat, nat>, finished: map<nat, Option<nat>>, q: seq<Item<Request>>, group: Option<nat>)
    requires GroupsOk(queue, tasks, remaining, sizes, finished)
    requires forall j :: 0 <= j < |q| ==> q[j].item.group == group
    requires group.Some? ==> group.value !in remaining
    ensures group.Some? ==> GroupsOk(queue + q, tasks, remaining[group.value := |q|], sizes[group.value := |q|], finished)
    ensures group.None? ==> GroupsOk(queue + q, tasks, remaining, sizes, finished)
  {
    BalancedQueued(remaining, queue, tasks, q, group);
  }

  /** Dispatching an entry keeps the bookkeeping consistent. */
  lemma GroupsMoved(queue: seq<Item<Request>>, tasks: seq<Item<Request>>, remaining: map<nat, nat>,
                    sizes: map<nat, nat>, finished: map<nat, Option<nat>>, k: nat)
    requires GroupsOk(queue, tasks, remaining, sizes, finished) && k < |queue|
    ensures GroupsOk(RemoveAt(queue, k), tasks + [queue[k]], remaining, sizes, finished)
  {
    BalancedMoved(remaining, queue, tasks, k);
  }

  /** Line 271-274 on values: the completed fragment's semaphore is acquired
      and, when that locks it, its event is set with `result`. */
  function Acquired(remaining: map<nat, nat>, finished: map<nat, Option<nat>>, group: Option<nat>, result: Option<nat>)
    : (r: (map<nat, nat>, map<nat, Option<nat>>))
    ensures group.Some? && group.value in remaining && remaining[group.value] > 0 ==>
      var g := group.value;
      && r.0 == remaining[g := remaining[g] - 1]
      && (r.0[g] == 0 ==> r.1 == finished[g := result])
      && (r.0[g] > 0 ==> r.1 == finished)
    ensures group.None? ==> r == (remaining, finished)
  {
    if group.None? || group.value !in remaining || remaining[group.value] == 0 then (remaining, finished)
    else
      var g := group.value;
      (remaining[g := remaining[g] - 1], if remaining[g] == 1 then finished[g := result] else finished)
  }

  /** Lines 263-266: what a sending task hands to the event. */
  function ResultOf(outcome: MessageHandler.SendOutcome): Option<nat>
  {
    if outcome.Sent? then Some(outcome.message) else None
  }

  /** A completed task's semaphore is above zero, and acquiring it keeps the
      bookkeeping consistent. */
  lemma GroupsCompleted(queue: seq<Item<Request>>, tasks: seq<Item<Request>>, remaining: map<nat, nat>,
                        sizes: map<nat, nat>, finished: map<nat, Option<nat>>, k: nat, result: Option<nat>)
    requires GroupsOk(queue, tasks, remaining, sizes, finished) && k < |tasks|
    ensures var group := tasks[k].item.group;
      group.Some? ==> group.value in remaining && remaining[group.value] > 0
    ensures var (remaining', finished') := Acquired(remaining, finished, tasks[k].item.group, result);
      GroupsOk(queue, RemoveAt(tasks, k), remaining', sizes, finished')
  {
    var x := tasks[k];
    var tasks' := RemoveAt(tasks, k);
    var (remaining', finished') := Acquired(remaining, finished, x.item.group, result);
    forall g | g in remaining
      ensures remaining[g] == GroupCount(queue, g) + GroupCount(tasks', g) + (if x.item.group == Some(g) then 1 else 0)
    {
      GroupCountRemoveAt(tasks, k, g);
    }
    assert forall j :: 0 <= j < |tasks'| ==> tasks'[j] == tasks[if j < k then j else j + 1];
  }

  /** A blocking call's event is set exactly when none of its fragments is
      queued or running any more, provided it had any: a call split into no
      fragments gets `Semaphore(0)`, which is never acquired, so its event is
      never set. */
  lemma EventSetWhenAllSent(queue: seq<Item<Request>>, tasks: seq<Item<Request>>, remaining: map<nat, nat>,
                            sizes: map<nat, nat>, finished: map<nat, Option<nat>>, g: nat)
    requires GroupsOk(queue, tasks, remaining, sizes, finished) && g in remaining
    ensures g in finished <==> GroupCount(queue, g) == 0 && GroupCount(tasks, g) == 0 && sizes[g] > 0
  {
  }

  // ---------------------------------------------------------------------
  // The sender

  /** What `message_sender` changes when it takes entries. */
  datatype Sending = Sending(queue: seq<Item<Request>>, tasks: seq<Item<Request>>)

  /** Lines 244-253: a sending task is created for the entry at `k`. */
  function DispatchAt(s: Sending, k: nat): (t: Sending)
    requires k < |s.queue|
    ensures |t.queue| == |s.queue| - 1 && |t.tasks| == |s.tasks| + 1
  {
    Sending(RemoveAt(s.queue, k), s.tasks + [s.queue[k]])
  }

  /** The draining loop (lines 244-259) after an entry was dispatched: it
      stops once `capacity` tasks run or the queue is empty, and otherwise
      takes the least entry with `get_nowait`. */
  function Drain(s: Sending, capacity: nat): (t: Sending)
    ensures s.tasks <= t.tasks && |t.tasks| - |s.tasks| == |s.queue| - |t.queue|
    decreases |s.queue|
  {
    if |s.tasks| >= capacity || s.queue == [] then s
    else Drain(DispatchAt(s, Least(s.queue)), capacity)
  }

  /** A completed `get`: its entry is dispatched, then the queue drained. */
  function Receive(s: Sending, capacity: nat): Sending
    requires |s.queue| > 0
  {
    Drain(DispatchAt(s, Least(s.queue)), capacity)
  }

  /** Draining takes entries until the cap or the end of the queue: exactly
      `min(|queue|, capacity - |tasks|)` of them when below the cap. */
  lemma {:induction false} DrainCount(s: Sending, capacity: nat)
    ensures var t := Drain(s, capacity);
      |t.tasks| == if |s.tasks| >= capacity then |s.tasks|
                   else if |s.tasks| + |s.queue| <= capacity then |s.tasks| + |s.queue|
                   else capacity
    decreases |s.queue|
  {
    if |s.tasks| < capacity && s.queue != [] {
      DrainCount(DispatchAt(s, Least(s.queue)), capacity);
    }
  }

  /** Draining takes the least entries, in order: every entry it leaves is
      no less than every entry it took. */
  lemma {:induction false} DrainTakesLeast(s: Sending, capacity: nat)
    ensures var t := Drain(s, capacity);
      forall i, j :: |s.tasks| <= i < |t.tasks| && 0 <= j < |t.queue| ==> !Less(t.queue[j], t.tasks[i])
    decreases |s.queue|
  {
    if |s.tasks| < capacity && s.queue != [] {
      var k := Least(s.queue);
      var s' := DispatchAt(s, k);
      DrainTakesLeast(s', capacity);
      var t := Drain(s, capacity);
      assert t == Drain(s', capacity);
      forall i, j | |s.tasks| <= i < |t.tasks| && 0 <= j < |t.queue|
        ensures !Less(t.queue[j], t.tasks[i])
      {
        if i == |s.tasks| {
          assert t.tasks[i] == s'.tasks[i] == s.queue[k];
          SurvivorsFromQueue(s', capacity, j);
        }
      }
    }
  }

  /** Every entry left after draining was in the queue before. */
  lemma {:induction false} SurvivorsFromQueue(s: Sending, capacity: nat, j: nat)
    requires j < |Drain(s, capacity).queue|
    ensures Drain(s, capacity).queue[j] in s.queue
    decreases |s.queue|
  {
    if |s.tasks| < capacity && s.queue != [] {
      var k := Least(s.queue);
      SurvivorsFromQueue(DispatchAt(s, k), capacity, j);
      var r := RemoveAt(s.queue, k);
      assert Drain(s, capacity).queue[j] in multiset(r);
    }
  }

  /** A call's link in `message_event_chains`: the event the send waits for
      and the event it sets. */
  datatype ChainLink = ChainLink(previous: Option<nat>, current: nat)

  /** Lines 286-294 for a send under `key` when `nextEvent` is the next event
      number: the link the send uses (the stored one, or a new first link
      whose own event is created here) and the chains afterwards, which
      point the next send at this one's event. */
  function NextLink(chains: map<MessageHandler.ChainKey, ChainLink>, key: MessageHandler.ChainKey, nextEvent: nat)
    : (r: (ChainLink, map<MessageHandler.ChainKey, ChainLink>, nat))
  {
    var used := if key in chains then chains[key] else ChainLink(None, nextEvent);
    var next := if key in chains then nextEvent else nextEvent + 1;
    (used, chains[key := ChainLink(Some(used.current), next)], next + 1)
  }

  /** Two sends under one key in a row: the second waits for the first's
      event, and the first send under a key waits for nothing. */
  lemma ChainedSends(chains: map<MessageHandler.ChainKey, ChainLink>, key: MessageHandler.ChainKey, nextEvent: nat)
    ensures var (first, chains', nextEvent') := NextLink(chains, key, nextEvent);
      var second := NextLink(chains', key, nextEvent').0;
      && second.previous == Some(first.current)
      && second.current == nextEvent' - 1
      && (key !in chains ==> first == ChainLink(None, nextEvent))
  {
  }

  /** Unfinished links point backwards: a stored link's own event was
      created, and so was the event it waits for. */
  ghost predicate LinksCreated(chains: map<MessageHandler.ChainKey, ChainLink>, createdEvents: nat) {
    forall key :: key in chains ==>
      (chains[key].current < createdEvents
       && (chains[key].previous.Some? ==> chains[key].previous.value < chains[key].current))
  }

  lemma NextLinkKeeps(chains: map<MessageHandler.ChainKey, ChainLink>, key: MessageHandler.ChainKey, nextEvent: nat)
    requires LinksCreated(chains, nextEvent)
    ensures var (used, chains', nextEvent') := NextLink(chains, key, nextEvent);
      LinksCreated(chains', nextEvent') && used.current < nextEvent' && (used.previous.Some? ==> used.previous.value < used.current)
  {
  }

  /** What `send_message_blocking` raises besides the send's own error. */
  datatype BlockingResult =
    | Delivered(message: nat)
    | NothingSent         // the attempts ran out under `ignore_errors`: `None`, and no event set
    | Reraised            // the send's exception, after its event was set
    | MissingEvent        // no priority, so no chain: `event_chain['current_invoke_event']` raises KeyError

  class Controller {
    /** `max_concurrent_sendings`. */
    const capacity: nat
    var messageId: int
    var queue: seq<Item<Request>>
    /** The running sending tasks (the `get` task is counted by `getIssued`). */
    var tasks: seq<Item<Request>>
    var getIssued: bool
    var createdEvents: nat
    /** Per blocking call, the semaphore's value. */
    var remaining: map<nat, nat>
    /** Per blocking call, `event.message` once the event is set. */
    var finished: map<nat, Option<nat>>
    /** Per blocking call, the number of its fragments. */
    ghost var sizes: map<nat, nat>
    /** `message_limiters`. */
    var limiters: map<int, MessageHandler.LimiterSpec>
    /** `message_event_chains`. */
    var chains: map<MessageHandler.ChainKey, ChainLink>
    var setEvents: set<nat>

    ghost predicate Valid()
      reads this`queue, this`tasks, this`getIssued, this`createdEvents, this`remaining, this`sizes, this`finished,
            this`chains
    {
      && |tasks| <= capacity && (getIssued ==> |tasks| < capacity)
      && (forall g :: g in remaining ==> g < createdEvents)
      && GroupsOk(queue, tasks, remaining, sizes, finished)
      && LinksCreated(chains, createdEvents)
    }

    function Sender(): Sending
      reads this`queue, this`tasks
    {
      Sending(queue, tasks)
    }

    constructor (maxConcurrentSendings: nat)
      ensures Valid() && capacity == maxConcurrentSendings
      ensures messageId == 1 && queue == [] && tasks == [] && !getIssued && createdEvents == 0
      ensures remaining == map[] && finished == map[] && limiters == map[] && chains == map[] && setEvents == {}
    {
      capacity := maxConcurrentSendings;
      messageId := 1;
      queue := [];
      tasks := [];
      getIssued := false;
      createdEvents := 0;
      remaining := map[];
      finished := map[];
      sizes := map[];
      limiters := map[];
      chains := map[];
      setEvents := {};
    }

    /** `send_message_sync` (lines 181-207): the text is split first; a
        non-blocking call queues its fragments and returns nothing, a
        blocking one gives them a new semaphore of their number and a new
        event, which it returns. */
    method SendMessageSync(text: string, title: string, chat: Option<int>, ignoreErrors: bool, priority: int,
                           blocking: bool) returns (r: Result<Option<nat>, MessageHandler.SendError>)
      requires Valid()
      modifies this`queue, this`messageId, this`createdEvents, this`remaining, this`sizes
      ensures Valid()
      ensures var split := MessageHandler.Texts(title, text);
        && (split.Failed? ==> r == Err(MessageHandler.SplitError))
        && (split.Diverges? ==> r == Err(MessageHandler.SplitNeverEnds))
        && (!split.Messages? ==>
              queue == old(queue) && messageId == old(messageId)
              && createdEvents == old(createdEvents) && remaining == old(remaining))
    ensures var split := MessageHandler.Texts(title, text);
        var group := if blocking then Some(old(createdEvents)) else None;
        split.Messages? ==>
          && r == Ok(group)
          && queue == old(queue) + Requests(split.messages, chat, ignoreErrors, priority, old(messageId), group)
          && messageId == old(messageId) + |split.messages|
          && createdEvents == old(createdEvents) + (if blocking then 1 else 0)
          && remaining == (if blocking then old(remaining)[old(createdEvents) := |split.messages|] else old(remaining))
    {
      var split := GetMessageTexts(title, text);
      if split.Failed? {
        return Err(MessageHandler.SplitError);
      } else if split.Diverges? {
        return Err(MessageHandler.SplitNeverEnds);
      }
      var group := EnqueueCall(split.messages, chat, ignoreErrors, priority, blocking);
      r := Ok(group);
    }

    /** `get_message_texts` (lines 178-179). */
    method GetMessageTexts(title: string, text: string) returns (split: SplitText.Outcome)
      ensures split == MessageHandler.Texts(title, text)
    {
      split := SplitText.SplitTextByUnits(title, text, MessageHandler.MaxPartLength, SplitText.DefaultUnits, "\n", true, SplitText.SeparatorAfterContent);
    }

    /** Lines 185-207 once the text is split: a blocking call's semaphore of
        `len(texts)` and its event are created, then the fragments queued. */
    method EnqueueCall(texts: seq<string>, chat: Option<int>, ignoreErrors: bool, priority: int, blocking: bool)
      returns (group: Option<nat>)
      requires Valid()
      modifies this`queue, this`messageId, this`createdEvents, this`remaining, this`sizes
      ensures Valid()
      ensures group == if blocking then Some(old(createdEvents)) else None
      ensures queue == old(queue) + Requests(texts, chat, ignoreErrors, priority, old(messageId), group)
      ensures messageId == old(messageId) + |texts|
      ensures createdEvents == old(createdEvents) + (if blocking then 1 else 0)
      ensures remaining == if blocking then old(remaining)[old(createdEvents) := |texts|] else old(remaining)
    {
      group := None;
      if blocking {
        group := Some(createdEvents);
        remaining := remaining[createdEvents := |texts|];
        sizes := sizes[createdEvents := |texts|];
        createdEvents := createdEvents + 1;
      }
      GroupsQueued(queue, tasks, old(remaining), old(sizes), finished,
                   Requests(texts, chat, ignoreErrors, priority, messageId, group), group);
      QueueRequests(texts, chat, ignoreErrors, priority, group);
    }

    /** The queueing loops of `send_message_sync` (lines 186-192 and
        197-205): one entry per fragment with the next id. */
    method QueueRequests(texts: seq<string>, chat: Option<int>, ignoreErrors: bool, priority: int, group: Option<nat>)
      modifies this`queue, this`messageId
      ensures queue == old(queue) + Requests(texts, chat, ignoreErrors, priority, old(messageId), group)
      ensures messageId == old(messageId) + |texts|
    {
      ghost var q := Requests(texts, chat, ignoreErrors, priority, messageId, group);
      var i := 0;
      while i < |texts|
        invariant 0 <= i <= |texts|
        invariant queue == old(queue) + q[..i]
        invariant messageId == old(messageId) + i
      {
        queue := queue + [Item(priority, messageId, Request(texts[i], chat, ignoreErrors, group))];
        messageId := messageId + 1;
        assert q[..i + 1] == q[..i] + [q[i]];
        i := i + 1;
      }
      assert q[..i] == q;
    }

    /** The top of the sender loop (line 228): a `get` is issued when none is
        outstanding and fewer than `capacity` tasks run. */
    method IssueGet()
      requires Valid()
      modifies this`getIssued
      ensures Valid()
      ensures getIssued == (old(getIssued) || |tasks| < capacity)
    {
      if !getIssued && |tasks| < capacity {
        getIssued := true;
      }
    }

    /** The outstanding `get` completes with the least entry (lines 238-260):
        it is dispatched, then entries are drained until `capacity` tasks
        run or the queue is empty. */
    method ReceiveItems()
      requires Valid() && getIssued && |queue| > 0
      modifies this`queue, this`tasks, this`getIssued
      ensures Valid() && !getIssued
      ensures Sender() == Receive(old(Sender()), capacity)
    {
      getIssued := false;
      ghost var target := Receive(Sender(), capacity);
      var k := LeastIndex(queue);
      while true
        invariant Valid() && |queue| > 0 && k == Least(queue) && !getIssued && |tasks| < capacity
        invariant Drain(DispatchAt(Sender(), k), capacity) == target
        decreases |queue|
      {
        DispatchEntry(k);
        if |tasks| >= capacity || |queue| == 0 {
          break;
        }
        k := LeastIndex(queue);
      }
    }

    /** One sending task is created for the entry at `k` (lines 244-253). */
    method DispatchEntry(k: nat)
      requires Valid() && !getIssued && k < |queue| && |tasks| < capacity
      modifies this`queue, this`tasks
      ensures Valid()
      ensures Sender() == DispatchAt(old(Sender()), k)
    {
      GroupsMoved(queue, tasks, remaining, sizes, finished, k);
      queue, tasks := RemoveAt(queue, k), tasks + [queue[k]];
    }

    /** A sending task finished (lines 261-274): it is dropped; a blocking
        call's semaphore is acquired once, and when that locks it the event
        is set carrying this fragment's result (nothing after a failure). */
    method CompleteSend(k: nat, outcome: MessageHandler.SendOutcome)
      requires Valid() && k < |tasks|
      modifies this`tasks, this`remaining, this`finished
      ensures Valid()
      ensures tasks == RemoveAt(old(tasks), k)
      ensures var group := old(tasks)[k].item.group;
        && (group.Some? ==> group.value in old(remaining) && old(remaining)[group.value] > 0)
        && (remaining, finished) == Acquired(old(remaining), old(finished), group, ResultOf(outcome))
    {
      var result := ResultOf(outcome);
      GroupsCompleted(queue, tasks, remaining, sizes, finished, k, result);
      var next := Acquired(remaining, finished, tasks[k].item.group, result);
      tasks := RemoveAt(tasks, k);
      remaining, finished := next.0, next.1;
    }

    /** `send_message_blocking` (lines 276-300), run by a sending task: the
        chat's limiter is cached, the call's link is taken from the chain
        under (chat, priority) and the chain advanced. A successful send
        has the link's event set by `invoke` (tgbot/exception_handler.py:99-102);
        on failure the link's own event is set before the error propagates;
        a send that gave up under `ignore_errors` returns `None` and sets no
        event. */
    method SendMessageBlocking(chat: Option<int>, defaultChat: int, userChat: bool, priority: Option<int>,
                               outcome: MessageHandler.SendOutcome) returns (r: BlockingResult, link: Option<ChainLink>)
      requires Valid()
      modifies this`limiters, this`chains, this`createdEvents, this`setEvents
      ensures Valid()
      ensures var c := MessageHandler.TargetChat(chat, defaultChat);
        limiters == if c in old(limiters) then old(limiters) else old(limiters)[c := MessageHandler.ChatLimiter(userChat)]
      ensures priority.None? ==> link.None? && chains == old(chains) && createdEvents == old(createdEvents)
      ensures priority.Some? ==>
        var next := NextLink(old(chains), MessageHandler.ChainKey(MessageHandler.TargetChat(chat, defaultChat), priority.value),
                             old(createdEvents));
        link == Some(next.0) && chains == next.1 && createdEvents == next.2
      ensures outcome.Sent? ==>
        r == Delivered(outcome.message) && setEvents == old(setEvents) + (if link.Some? then {link.value.current} else {})
      ensures outcome.GaveUp? ==> r == NothingSent && setEvents == old(setEvents)
      ensures outcome.Raised? && link.Some? ==> r == Reraised && setEvents == old(setEvents) + {link.value.current}
      ensures outcome.Raised? && link.None? ==> r == MissingEvent && setEvents == old(setEvents)
    {
      var c := MessageHandler.TargetChat(chat, defaultChat);
      CacheLimiter(c, userChat);
      link := None;
      if priority.Some? {
        var used := TakeLink(MessageHandler.ChainKey(c, priority.value));
        link := Some(used);
      }
      if outcome.Sent? {
        if link.Some? {
          setEvents := setEvents + {link.value.current};
        }
        return Delivered(outcome.message), link;
      }
      if outcome.GaveUp? {
        return NothingSent, link;
      }
      if link.None? {
        return MissingEvent, link;
      }
      setEvents := setEvents + {link.value.current};
      r := Reraised;
    }

    /** Lines 278-285: a chat's limiter is created on its first send. */
    method CacheLimiter(c: int, userChat: bool)
      requires Valid()
      modifies this`limiters
      ensures Valid()
      ensures limiters == if c in old(limiters) then old(limiters) else old(limiters)[c := MessageHandler.ChatLimiter(userChat)]
    {
      if c !in limiters {
        limiters := limiters[c := MessageHandler.ChatLimiter(userChat)];
      }
    }

    /** Lines 287-294: the link for `key` is taken and the chain advanced. */
    method TakeLink(key: MessageHandler.ChainKey) returns (used: ChainLink)
      requires Valid()
      modifies this`chains, this`createdEvents
      ensures Valid()
      ensures var next := NextLink(old(chains), key, old(createdEvents));
        used == next.0 && chains == next.1 && createdEvents == next.2
    {
      var next := NextLink(chains, key, createdEvents);
      NextLinkKeeps(chains, key, createdEvents);
      used, chains, createdEvents := next.0, next.1, next.2;
    }
  }
}

=== FILE: cm_assistant.dfy ===
/** The group-binding bot of cm_assistant.py (`Controller`): a user asks for
    a bind code in a private chat, adds the bot to a group with `/start
    <code>`, and the bot then records who joins, leaves and writes there.

    The database tables become maps: groups by chat id (with their
    `remove_joins` and `remove_leaves` flags), users' `group_bind_code` by
    user id, and group-user associations by (group chat id, user id) with
    their role. What the bot sends, the chats it leaves and the service
    messages it deletes are recorded in order. The sender's membership
    status, the user a code belongs to, the clock and the random choices are
    parameters. */
module CmAssistant {
  import opened Common

  datatype Role = User | Moderator | Admin

  datatype EventType = Join | Leave | Message

  /** One event as the handlers build it: its group is named by the group's
      chat id. The `event` table as declared has no group column; the
      handlers as written are `JoinedAsWritten`, `LeftGroupAsWritten` and
      `GroupMessageAsWritten` below. */
  datatype Event = Event(group: int, userId: int, time: int, kind: EventType)

  /** The columns of the `event` table (tables/__init__.py:48-53). */
  function EventColumns(): set<string>
  {
    {"id", "user_id", "time", "type"}
  }

  /** The keywords the three event handlers pass to `Event(...)`. */
  function HandlerEventKeywords(): seq<string>
  {
    ["group", "user_id", "time", "type"]
  }

  /** The constructor of a declarative table class takes only the table's
      columns as keywords; any other keyword raises TypeError. */
  predicate Constructs(columns: set<string>, keywords: seq<string>)
  {
    forall k :: 0 <= k < |keywords| ==> keywords[k] in columns
  }

  /** The handlers' `Event(group=…, …)` raises TypeError: `group` is not a
      column of `event`, while the other three keywords are. */
  lemma {:induction false} HandlerEventRejected()
    ensures !Constructs(EventColumns(), HandlerEventKeywords())
    ensures forall k :: 1 <= k < |HandlerEventKeywords()| ==> HandlerEventKeywords()[k] in EventColumns()
  {
    assert HandlerEventKeywords()[0] !in EventColumns();
  }

  datatype GroupRow = GroupRow(removeJoins: bool, removeLeaves: bool)

  /** `ChatMemberStatus`, as far as the binding cares. */
  datatype MemberStatus = Owner | Administrator | Member | Restricted | Left | Banned

  /** `message.from_user`: absent for an anonymous group admin. */
  datatype Sender = Anonymous | Known(userId: int, status: MemberStatus)

  /** The texts the bot sends. */
  datatype Notice =
    | NoCode            // the code was not passed
    | CodeInvalid       // no user has the code
    | BindNotAdmin      // only a group admin may bind the group
    | RoleNotAdmin      // only a group admin may take the admin role this way
    | Bound             // the group is bound
    | AlreadyAdmin      // the group is bound and the user is its admin already
    | RoleGranted       // the user was made the group's admin
    | BindLink(code: string)  // the reply to /bind, whose button carries the code

  datatype Reply = Reply(chat: int, notice: Notice)

  // ---------------------------------------------------------------------
  // Bind codes

  /** The `k`-th character of the alphabet below. */
  function CodeChar(k: nat): char
    requires k < 62
  {
    if k < 26 then ('a' as int + k) as char
    else if k < 52 then ('A' as int + k - 26) as char
    else ('0' as int + k - 52) as char
  }

  /** `string.ascii_lowercase + string.ascii_uppercase + string.digits`. */
  function Alphabet(): string {
    seq(62, k requires 0 <= k < 62 => CodeChar(k))
  }

  const CodeLength: nat := 42

  predicate IsCodeChar(c: char) {
    'a' <= c <= 'z' || 'A' <= c <= 'Z' || '0' <= c <= '9'
  }

  /** Line 65: `random.choices(alphabet, k=42)`, the random choices given as
      indices into the alphabet. */
  function BindCode(picks: seq<nat>): (code: string)
    requires |picks| == CodeLength && forall i :: 0 <= i < |picks| ==> picks[i] < |Alphabet()|
    ensures |code| == CodeLength
    ensures forall i :: 0 <= i < |code| ==> code[i] == Alphabet()[picks[i]]
  {
    seq(CodeLength, i requires 0 <= i < CodeLength => Alphabet()[picks[i]])
  }

  /** The position of a letter or digit in the alphabet. */
  function AlphabetIndex(c: char): (k: nat)
    requires IsCodeChar(c)
    ensures k < |Alphabet()| && Alphabet()[k] == c
  {
    if 'a' <= c <= 'z' then c as int - 'a' as int
    else if 'A' <= c <= 'Z' then 26 + c as int - 'A' as int
    else 52 + c as int - '0' as int
  }

  /** The alphabet is exactly the ASCII letters and digits. */
  lemma AlphabetIsAlphanumeric()
    ensures forall k :: 0 <= k < |Alphabet()| ==> IsCodeChar(Alphabet()[k])
    ensures forall c :: IsCodeChar(c) ==> c in Alphabet()
  {
    forall c | IsCodeChar(c)
      ensures c in Alphabet()
    {
      var k := AlphabetIndex(c);
      assert Alphabet()[k] == c;
    }
  }

  /** A bind code is 42 letters and digits, and every such string is a bind
      code. */
  lemma BindCodesAreAlphanumeric(picks: seq<nat>, code: string)
    requires |picks| == CodeLength && forall i :: 0 <= i < |picks| ==> picks[i] < |Alphabet()|
    requires |code| == CodeLength && forall i :: 0 <= i < |code| ==> IsCodeChar(code[i])
    ensures var made := BindCode(picks);
      |made| == CodeLength && forall i :: 0 <= i < |made| ==> IsCodeChar(made[i])
    ensures var chosen := seq(CodeLength, i requires 0 <= i < CodeLength => AlphabetIndex(code[i]));
      BindCode(chosen) == code
  {
    AlphabetIsAlphanumeric();
    var chosen := seq(CodeLength, i requires 0 <= i < CodeLength => AlphabetIndex(code[i]));
    assert forall i :: 0 <= i < CodeLength ==> BindCode(chosen)[i] == code[i];
  }

  // ---------------------------------------------------------------------
  // The /start decision

  /** Lines 98-104: anonymous senders are taken for admins, others are
      admins when they own or administer the group. */
  function SenderIsAdmin(sender: Sender): bool
  {
    match sender
    case Anonymous => true
    case Known(_, status) => status == Owner || status == Administrator
  }

  /** The code passed with `/start`: `message.command[1]`, if any. A code
      is looked up only when it is not empty (line 88). */
  predicate LooksUp(code: Option<string>) {
    code.Some? && code.value != ""
  }

  /** What `/start` in a group does. */
  datatype Action =
    | Refuse(notice: Notice, leave: bool)  // a check failed: notice, and leave an unknown group
    | BindGroup                            // lines 123-128
    | ConfirmAdmin                         // lines 159-162
    | GrantAdmin                           // lines 145-149 and 163-165

  /** Lines 105-165 as a decision on whether the group is known, the code,
      the user the code belongs to, whether the sender is an admin, and the
      role the code's owner holds in the group, if associated with it. */
  function StartAction(known: bool, code: Option<string>, owner: Option<int>, admin: bool, role: Option<Role>): Action {
    if code.None? then Refuse(NoCode, !known)
    else if owner.None? then Refuse(CodeInvalid, !known)
    else if !admin then Refuse(if known then RoleNotAdmin else BindNotAdmin, !known)
    else if !known then BindGroup
    else if role == Some(Admin) then ConfirmAdmin
    else GrantAdmin
  }

  /** The checks come in order (no code, then an unknown code, then a
      sender who is not an admin), each refusing; the bot leaves exactly the
      unknown groups it refuses. */
  lemma StartChecks(known: bool, code: Option<string>, owner: Option<int>, admin: bool, role: Option<Role>)
    ensures var a := StartAction(known, code, owner, admin, role);
      && (code.None? ==> a == Refuse(NoCode, !known))
      && (code.Some? && owner.None? ==> a == Refuse(CodeInvalid, !known))
      && (code.Some? && owner.Some? && !admin ==> a.Refuse? && a.notice in {BindNotAdmin, RoleNotAdmin})
      && (a.Refuse? ==> a.leave == !known)
      && (!a.Refuse? <==> code.Some? && owner.Some? && admin)
      && (a == BindGroup <==> !a.Refuse? && !known)
      && (a == ConfirmAdmin <==> !a.Refuse? && known && role == Some(Admin))
  {
  }

  // ---------------------------------------------------------------------
  // The bot's state

  class Assistant {
    var groups: map<int, GroupRow>
    /** `user.group_bind_code` of every user, by user id. */
    var bindCodes: map<int, Option<string>>
    /** `group_user_association.role`, by (group chat id, user id). */
    var roles: map<(int, int), Role>
    var events: seq<Event>
    var replies: seq<Reply>
    /** The groups the bot left, in order. */
    var left: seq<int>
    /** The service messages the bot deleted, in order. */
    var deleted: seq<int>
    /** `current_group` of the update being handled. */
    var currentGroup: Option<int>

    /** Associations and events name stored groups and users, and the
        current group is stored. */
    ghost predicate Valid()
      reads this
    {
      && (currentGroup.Some? ==> currentGroup.value in groups)
      && (forall k :: k in roles ==> k.0 in groups && k.1 in bindCodes)
      && (forall i :: 0 <= i < |events| ==> events[i].group in groups)
    }

    constructor ()
      ensures Valid()
      ensures groups == map[] && bindCodes == map[] && roles == map[] && events == []
      ensures replies == [] && left == [] && deleted == [] && currentGroup == None
    {
      groups := map[];
      bindCodes := map[];
      roles := map[];
      events := [];
      replies := [];
      left := [];
      deleted := [];
      currentGroup := None;
    }

    /** `load_group_handler` (lines 44-51): the group of a group chat is
        loaded when it is stored. */
    method LoadGroup(chat: int)
      requires Valid()
      modifies this`currentGroup
      ensures Valid()
      ensures currentGroup == if chat in groups then Some(chat) else old(currentGroup)
    {
      if chat in groups {
        currentGroup := Some(chat);
      }
    }

    /** `reset_group_context` (lines 54-57). */
    method ResetGroupContext()
      requires Valid()
      modifies this`currentGroup
      ensures Valid() && currentGroup.None?
    {
      currentGroup := None;
    }

    /** `bind_handler` (lines 64-70): the user gets a fresh code and a
        button that adds the bot to a group with it. */
    method Bind(chat: int, user: int, picks: seq<nat>)
      requires Valid()
      requires |picks| == CodeLength && forall i :: 0 <= i < |picks| ==> picks[i] < |Alphabet()|
      modifies this`bindCodes, this`replies
      ensures Valid()
      ensures bindCodes == old(bindCodes)[user := Some(BindCode(picks))]
      ensures replies == old(replies) + [Reply(chat, BindLink(BindCode(picks)))]
    {
      var code := BindCode(picks);
      bindCodes := bindCodes[user := Some(code)];
      replies := replies + [Reply(chat, BindLink(code))];
    }

    /** `group_start_handler` (lines 85-165) in group `chat`, after
        `load_group_handler` ran for it. `owner` is the user the database
        finds for the code. */
    method GroupStart(chat: int, code: Option<string>, sender: Sender, owner: Option<int>)
      requires Valid()
      requires owner.Some? ==> LooksUp(code) && owner.value in bindCodes && bindCodes[owner.value] == code
      requires LooksUp(code) && owner.None? ==> forall u :: u in bindCodes ==> bindCodes[u] != code
      requires currentGroup.Some? ==> currentGroup.value == chat
      requires currentGroup.None? ==> chat !in groups
      modifies this
      ensures Valid()
      ensures events == old(events) && deleted == old(deleted)
      ensures var known := old(currentGroup).Some?;
        var found := if LooksUp(code) then owner else None;
        var role := if found.Some? && (chat, found.value) in old(roles) then Some(old(roles)[(chat, found.value)]) else None;
        match StartAction(known, code, found, SenderIsAdmin(sender), role)
        case Refuse(notice, leave) =>
          && replies == old(replies) + [Reply(chat, notice)]
          && left == old(left) + (if leave then [chat] else [])
          && groups == old(groups) && bindCodes == old(bindCodes) && roles == old(roles)
          && currentGroup == old(currentGroup)
        case BindGroup =>
          && groups == old(groups)[chat := GroupRow(false, false)]
          && roles == old(roles)[(chat, found.value) := Admin]
          && bindCodes == old(bindCodes)[found.value := None]
          && currentGroup == Some(chat)
          && replies == old(replies) + [Reply(found.value, Bound)] && left == old(left)
        case ConfirmAdmin =>
          && replies == old(replies) + [Reply(found.value, AlreadyAdmin)]
          && groups == old(groups) && bindCodes == old(bindCodes) && roles == old(roles)
          && left == old(left) && currentGroup == old(currentGroup)
        case GrantAdmin =>
          && roles == old(roles)[(chat, found.value) := Admin]
          && replies == old(replies) + [Reply(found.value, RoleGranted)]
          && groups == old(groups) && bindCodes == old(bindCodes)
          && left == old(left) && currentGroup == old(currentGroup)
    {
      var user: Option<int> := None;
      if code.Some? && code.value != "" {
        user := owner;
      }
      var admin := SenderIsAdmin(sender);
      if currentGroup.None? {
        if code.None? {
          replies := replies + [Reply(chat, NoCode)];
          left := left + [chat];
          return;
        }
        if user.None? {
          replies := replies + [Reply(chat, CodeInvalid)];
          left := left + [chat];
          return;
        }
        if !admin {
          replies := replies + [Reply(chat, BindNotAdmin)];
          left := left + [chat];
          return;
        }
        var u := user.value;
        groups := groups[chat := GroupRow(false, false)];
        roles := roles[(chat, u) := Admin];
        bindCodes := bindCodes[u := None];
        currentGroup := Some(chat);
        replies := replies + [Reply(u, Bound)];
      } else {
        if code.None? {
          replies := replies + [Reply(chat, NoCode)];
          return;
        }
        if user.None? {
          replies := replies + [Reply(chat, CodeInvalid)];
          return;
        }
        if !admin {
          replies := replies + [Reply(chat, RoleNotAdmin)];
          return;
        }
        var u := user.value;
        var g := currentGroup.value;
        var role: Option<Role> := None;
        if (g, u) in roles {
          role := Some(roles[(g, u)]);
        }
        if role == Some(Admin) {
          replies := replies + [Reply(u, AlreadyAdmin)];
          return;
        }
        roles := roles[(g, u) := Admin];
        replies := replies + [Reply(u, RoleGranted)];
      }
    }

    /** `join_handler` (lines 168-192): one JOIN event per new member, all
        at one time, in a known group; the service message is deleted when
        the group asks for it and the bot may delete it. */
    method Joined(newMembers: seq<int>, now: int, messageId: int, deleteForbidden: bool)
      requires Valid()
      modifies this`events, this`deleted
      ensures Valid()
      ensures currentGroup.None? ==> events == old(events) && deleted == old(deleted)
      ensures currentGroup.Some? ==>
        && |events| == |old(events)| + |newMembers|
        && events[..|old(events)|] == old(events)
        && (forall i :: 0 <= i < |newMembers| ==>
              events[|old(events)| + i] == Event(currentGroup.value, newMembers[i], now, Join))
        && deleted == old(deleted) + (if groups[currentGroup.value].removeJoins && !deleteForbidden then [messageId] else [])
    {
      if currentGroup.None? {
        return;
      }
      var g := currentGroup.value;
      var added: seq<Event> := [];
      var i := 0;
      while i < |newMembers|
        invariant 0 <= i <= |newMembers|
        invariant |added| == i
        invariant forall j :: 0 <= j < i ==> added[j] == Event(g, newMembers[j], now, Join)
      {
        added := added + [Event(g, newMembers[i], now, Join)];
        i := i + 1;
      }
      events := events + added;
      if groups[g].removeJoins {
        DeleteServiceMessage(messageId, deleteForbidden);
      }
    }

    /** `join_handler` as written (lines 168-192): in a known group the
        first `Event(group=…)` raises TypeError before anything is added or
        deleted; only a join of no members gets past the loop. */
    method JoinedAsWritten(newMembers: seq<int>, now: int, messageId: int, deleteForbidden: bool)
      returns (typeError: bool)
      requires Valid()
      modifies this`events, this`deleted
      ensures Valid() && events == old(events)
      ensures typeError <==> currentGroup.Some? && newMembers != []
      ensures typeError || currentGroup.None? ==> deleted == old(deleted)
      ensures !typeError && currentGroup.Some? ==>
        deleted == old(deleted) + (if groups[currentGroup.value].removeJoins && !deleteForbidden then [messageId] else [])
    {
      if currentGroup.None? {
        return false;
      }
      if newMembers == [] {
        if groups[currentGroup.value].removeJoins {
          DeleteServiceMessage(messageId, deleteForbidden);
        }
        return false;
      }
      HandlerEventRejected();
      typeError := !Constructs(EventColumns(), HandlerEventKeywords());
    }

    /** `leave_handler` (lines 195-214): a LEAVE event in a known group,
        and the service message deleted as for joins. */
    method LeftGroup(member: int, now: int, messageId: int, deleteForbidden: bool)
      requires Valid()
      modifies this`events, this`deleted
      ensures Valid()
      ensures currentGroup.None? ==> events == old(events) && deleted == old(deleted)
      ensures currentGroup.Some? ==>
        && events == old(events) + [Event(currentGroup.value, member, now, Leave)]
        && deleted == old(deleted) + (if groups[currentGroup.value].removeLeaves && !deleteForbidden then [messageId] else [])
    {
      if currentGroup.None? {
        return;
      }
      var g := currentGroup.value;
      events := events + [Event(g, member, now, Leave)];
      if groups[g].removeLeaves {
        DeleteServiceMessage(messageId, deleteForbidden);
      }
    }

    /** `leave_handler` as written (lines 195-214): in a known group
        `Event(group=…)` raises TypeError, so nothing is added or deleted. */
    method LeftGroupAsWritten(member: int, now: int, messageId: int, deleteForbidden: bool)
      returns (typeError: bool)
      requires Valid()
      modifies this`events, this`deleted
      ensures Valid() && events == old(events) && deleted == old(deleted)
      ensures typeError <==> currentGroup.Some?
    {
      if currentGroup.None? {
        return false;
      }
      HandlerEventRejected();
      typeError := !Constructs(EventColumns(), HandlerEventKeywords());
    }

    /** Lines 187-192 and 209-214: `message.delete()`, where `Forbidden` is
        ignored. */
    method DeleteServiceMessage(messageId: int, forbidden: bool)
      modifies this`deleted
      ensures deleted == old(deleted) + (if forbidden then [] else [messageId])
    {
      if !forbidden {
        deleted := deleted + [messageId];
      }
    }

    /** `group_message_handler` (lines 217-226): a MESSAGE event when both
        the group and the user are known. */
    method GroupMessage(currentUser: Option<int>, now: int)
      requires Valid()
      modifies this`events
      ensures Valid()
      ensures events == old(events) + (if currentGroup.Some? && currentUser.Some?
                                       then [Event(currentGroup.value, currentUser.value, now, Message)] else [])
    {
      if currentGroup.None? || currentUser.None? {
        return;
      }
      events := events + [Event(currentGroup.value, currentUser.value, now, Message)];
    }

    /** `group_message_handler` as written (lines 217-226): when the group
        and the user are known, `Event(group=…)` raises TypeError and
        nothing is recorded. */
    method GroupMessageAsWritten(currentUser: Option<int>, now: int) returns (typeError: bool)
      requires Valid()
      modifies this`events
      ensures Valid() && events == old(events)
      ensures typeError <==> currentGroup.Some? && currentUser.Some?
    {
      if currentGroup.None? || currentUser.None? {
        return false;
      }
      HandlerEventRejected();
      typeError := !Constructs(EventColumns(), HandlerEventKeywords());
    }
  }
}

=== FILE: common.dfy ===
/** Values shared by every module of the model: optional values, error-carrying
    results, bytes, Python's decimal rendering of integers (`str(n)`), and
    `str.split(sep)` / `sep.join(parts)` for a one-character separator. */
module Common {

  datatype Option<+T> = None | Some(value: T)

  datatype Result<+T, +E> = Ok(value: T) | Err(error: E)

  /** One byte of a Python `bytes` object. */
  type byte = x: int | 0 <= x < 256

  type Bytes = seq<byte>

  function Max(a: int, b: int): int { if a < b then b else a }

  /** The four bytes of `n.to_bytes(4, 'big')`; Python raises OverflowError for
      larger values, so callers check `n < 0x1_0000_0000` first. */
  function BigEndian4(n: nat): (r: Bytes)
    requires n < 0x1_0000_0000
    ensures |r| == 4
    ensures FromBigEndian(r) == n
  {
    var r := [n / 0x100_0000, (n / 0x1_0000) % 0x100, (n / 0x100) % 0x100, n % 0x100];
    assert r[..1] == [n / 0x100_0000] && r[..2] == r[..1] + [r[1]] && r[..3] == r[..2] + [r[2]];
    assert r[..4] == r;
    assert FromBigEndian(r[..2]) == n / 0x1_0000 by {
      assert FromBigEndian(r[..1]) == n / 0x100_0000;
    }
    assert FromBigEndian(r[..3]) == n / 0x100;
    r
  }

  /** `int.from_bytes(b, 'big')`. */
  function FromBigEndian(b: Bytes): (n: nat)
    ensures |b| <= 4 ==> n < Pow256(|b|)
  {
    if b == [] then 0 else FromBigEndian(b[..|b| - 1]) * 256 + b[|b| - 1]
  }

  function Pow256(k: nat): (p: nat)
    ensures p >= 1
  {
    if k == 0 then 1 else 256 * Pow256(k - 1)
  }

  /** The decimal digit of `d`. */
  function DigitChar(d: nat): char
    requires d < 10
  {
    ['0', '1', '2', '3', '4', '5', '6', '7', '8', '9'][d]
  }

  /** `str(n)` for a natural number. */
  function NatToString(n: nat): (s: string)
    ensures |s| >= 1
    decreases n
  {
    if n < 10 then [DigitChar(n)] else NatToString(n / 10) + [DigitChar(n % 10)]
  }

  /** `str(i)` for any integer: a leading minus sign for negative values. */
  function IntToString(i: int): (s: string)
    ensures |s| >= 1
  {
    if i < 0 then "-" + NatToString(-i) else NatToString(i)
  }

  /** The number of characters of `str(n)`. */
  function Digits(n: nat): (d: nat)
  {
    if n < 10 then 1 else Digits(n / 10) + 1
  }

  /** `Digits` counts the characters `NatToString` writes. */
  lemma {:induction false} DigitsLength(n: nat)
    ensures Digits(n) == |NatToString(n)|
    decreases n
  {
    if n >= 10 {
      DigitsLength(n / 10);
    }
  }

  /** A larger number never has fewer decimal digits. */
  lemma {:induction false} DigitsMonotone(a: nat, b: nat)
    requires a <= b
    ensures Digits(a) <= Digits(b)
    decreases b
  {
    if a >= 10 {
      DigitsMonotone(a / 10, b / 10);
    }
  }

  /** `sep.join(parts)`. */
  function Join(parts: seq<string>, sep: string): (r: string)
  {
    if |parts| == 0 then ""
    else if |parts| == 1 then parts[0]
    else Join(parts[..|parts| - 1], sep) + sep + parts[|parts| - 1]
  }

  lemma {:induction false} JoinSnoc(parts: seq<string>, last: string, sep: string)
    requires |parts| >= 1
    ensures Join(parts + [last], sep) == Join(parts, sep) + sep + last
  {
    assert (parts + [last])[..|parts|] == parts;
  }

  /** `s.split(c)`: the maximal pieces of `s` that do not contain `c`; there is
      always one more piece than there are occurrences of `c`. */
  function SplitOn(s: string, c: char): (r: seq<string>)
    ensures |r| >= 1
    ensures forall i :: 0 <= i < |r| ==> c !in r[i]
    decreases |s|
  {
    if s == [] then [""]
    else if s[|s| - 1] == c then SplitOn(s[..|s| - 1], c) + [""]
    else
      var init := SplitOn(s[..|s| - 1], c);
      init[..|init| - 1] + [init[|init| - 1] + [s[|s| - 1]]]
  }

  /** Splitting on `c` and joining with `c` gives the string back. */
  lemma {:induction false} JoinSplitOn(s: string, c: char)
    ensures Join(SplitOn(s, c), [c]) == s
    decreases |s|
  {
    if s == [] {
    } else {
      var t := s[..|s| - 1];
      assert s == t + [s[|s| - 1]];
      JoinSplitOn(t, c);
      var init := SplitOn(t, c);
      if s[|s| - 1] == c {
        JoinSnoc(init, "", [c]);
      } else {
        var k := |init| - 1;
        var r := init[..k] + [init[k] + [s[|s| - 1]]];
        if k == 0 {
          assert r == [init[0] + [s[|s| - 1]]];
        } else {
          assert r[..k] == init[..k];
          assert init == init[..k] + [init[k]];
          JoinSnoc(init[..k], init[k], [c]);
          JoinSnoc(init[..k], init[k] + [s[|s| - 1]], [c]);
        }
      }
    }
  }

  /** `str.upper` on one character, for the Latin and Cyrillic letters the
      bot's names and identifiers use (ASCII a-z, Cyrillic а-я and ѐ-џ). */
  function UpperChar(ch: char): char
  {
    if 'a' <= ch <= 'z' then (ch as int - 0x20) as char
    else if '\U{0430}' <= ch <= '\U{044F}' then (ch as int - 0x20) as char
    else if '\U{0450}' <= ch <= '\U{045F}' then (ch as int - 0x50) as char
    else ch
  }

  function Upper(s: string): (r: string)
    ensures |r| == |s|
    ensures forall i :: 0 <= i < |s| ==> r[i] == UpperChar(s[i])
  {
    seq(|s|, i requires 0 <= i < |s| => UpperChar(s[i]))
  }

  /** `str.lower` on one character, the inverse mapping of `UpperChar`. */
  function LowerChar(ch: char): char
  {
    if 'A' <= ch <= 'Z' then (ch as int + 0x20) as char
    else if '\U{0410}' <= ch <= '\U{042F}' then (ch as int + 0x20) as char
    else if '\U{0400}' <= ch <= '\U{040F}' then (ch as int + 0x50) as char
    else ch
  }

  function Lower(s: string): (r: string)
    ensures |r| == |s|
    ensures forall i :: 0 <= i < |s| ==> r[i] == LowerChar(s[i])
  {
    seq(|s|, i requires 0 <= i < |s| => LowerChar(s[i]))
  }

  /** Lower-casing an upper-cased letter gives it back, and the other way round. */
  lemma {:induction false} CaseRoundTrip(ch: char)
    ensures LowerChar(ch) != ch ==> UpperChar(LowerChar(ch)) == ch
    ensures UpperChar(ch) != ch ==> LowerChar(UpperChar(ch)) == ch
  {
  }
}

=== FILE: crc32.dfy ===
/** The CRC-32 of `binascii.crc32` (the reflected polynomial 0xEDB88320 with
    an all-ones start value and a final inversion) and the UTF-8 encoding
    `str.encode()` applies to class names before hashing them. */
module Crc32 {
  import opened Common

  /** The reflected CRC-32 polynomial. */
  const Poly: bv32 := 0xEDB8_8320

  /** One bit of the shift register. */
  function ShiftBit(c: bv32): bv32
  {
    if c & 1 == 1 then (c >> 1) ^ Poly else c >> 1
  }

  function ShiftBits(c: bv32, n: nat): bv32
    decreases n
  {
    if n == 0 then c else ShiftBits(ShiftBit(c), n - 1)
  }

  /** The register after absorbing one byte, low bit first. */
  function Step(c: bv32, b: byte): bv32
  {
    ShiftBits(c ^ (b as bv32), 8)
  }

  /** The register after absorbing `data` in order. */
  function Feed(c: bv32, data: Bytes): bv32
    decreases |data|
  {
    if data == [] then c else Feed(Step(c, data[0]), data[1..])
  }

  /** `binascii.crc32(data)`: an unsigned 32-bit value. */
  function Crc32(data: Bytes): (r: nat)
    ensures r < 0x1_0000_0000
  {
    (Feed(0xFFFF_FFFF, data) ^ 0xFFFF_FFFF) as nat
  }

  /** The register can be fed in pieces: this is what lets `binascii.crc32`
      continue a running value. */
  lemma {:induction false} FeedAppend(c: bv32, a: Bytes, b: Bytes)
    ensures Feed(c, a + b) == Feed(Feed(c, a), b)
    decreases |a|
  {
    if a == [] {
      assert a + b == b;
    } else {
      assert (a + b)[1..] == a[1..] + b;
      FeedAppend(Step(c, a[0]), a[1..], b);
    }
  }

  /** The CRC of no bytes is zero. */
  lemma {:induction false} Crc32Empty()
    ensures Crc32([]) == 0
  {
  }

  /** The standard check value of CRC-32: the nine ASCII digits "123456789"
      hash to 0xCBF43926. */
  lemma {:induction false} Crc32CheckValue()
    ensures Crc32([0x31, 0x32, 0x33, 0x34, 0x35, 0x36, 0x37, 0x38, 0x39]) == 0xCBF4_3926
  {
    CheckFeed1();
    CheckFeed2();
    CheckFeed3();
    CheckFeed4();
    CheckFeed5();
    CheckFeed6();
    CheckFeed7();
    CheckFeed8();
    CheckFeed9();
  }

  lemma {:induction false} CheckFeed1()
    ensures Feed(0xFFFF_FFFF, [0x31, 0x32, 0x33, 0x34, 0x35, 0x36, 0x37, 0x38, 0x39]) == Feed(0x7C23_1048, [0x32, 0x33, 0x34, 0x35, 0x36, 0x37, 0x38, 0x39])
  {
    var d: Bytes := [0x31, 0x32, 0x33, 0x34, 0x35, 0x36, 0x37, 0x38, 0x39];
    assert d[1..] == [0x32, 0x33, 0x34, 0x35, 0x36, 0x37, 0x38, 0x39];
    assert Step(0xFFFF_FFFF, 0x31) == 0x7C23_1048;
  }

  lemma {:induction false} CheckFeed2()
    ensures Feed(0x7C23_1048, [0x32, 0x33, 0x34, 0x35, 0x36, 0x37, 0x38, 0x39]) == Feed(0xB0AC_BB32, [0x33, 0x34, 0x35, 0x36, 0x37, 0x38, 0x39])
  {
    var d: Bytes := [0x32, 0x33, 0x34, 0x35, 0x36, 0x37, 0x38, 0x39];
    assert d[1..] == [0x33, 0x34, 0x35, 0x36, 0x37, 0x38, 0x39];
    assert Step(0x7C23_1048, 0x32) == 0xB0AC_BB32;
  }

  lemma {:induction false} CheckFeed3()
    ensures Feed(0xB0AC_BB32, [0x33, 0x34, 0x35, 0x36, 0x37, 0x38, 0x39]) == Feed(0x77B7_9C2D, [0x34, 0x35, 0x36, 0x37, 0x38, 0x39])
  {
    var d: Bytes := [0x33, 0x34, 0x35, 0x36, 0x37, 0x38, 0x39];
    assert d[1..] == [0x34, 0x35, 0x36, 0x37, 0x38, 0x39];
    assert Step(0xB0AC_BB32, 0x33) == 0x77B7_9C2D;
  }

  lemma {:induction false} CheckFeed4()
    ensures Feed(0x77B7_9C2D, [0x34, 0x35, 0x36, 0x37, 0x38, 0x39]) == Feed(0x641C_1F5C, [0x35, 0x36, 0x37, 0x38, 0x39])
  {
    var d: Bytes := [0x34, 0x35, 0x36, 0x37, 0x38, 0x39];
    assert d[1..] == [0x35, 0x36, 0x37, 0x38, 0x39];
    assert Step(0x77B7_9C2D, 0x34) == 0x641C_1F5C;
  }

  lemma {:induction false} CheckFeed5()
    ensures Feed(0x641C_1F5C, [0x35, 0x36, 0x37, 0x38, 0x39]) == Feed(0x340A_C5E3, [0x36, 0x37, 0x38, 0x39])
  {
    var d: Bytes := [0x35, 0x36, 0x37, 0x38, 0x39];
    assert d[1..] == [0x36, 0x37, 0x38, 0x39];
    assert Step(0x641C_1F5C, 0x35) == 0x340A_C5E3;
  }

  lemma {:induction false} CheckFeed6()
    ensures Feed(0x340A_C5E3, [0x36, 0x37, 0x38, 0x39]) == Feed(0xF68D_2C9E, [0x37, 0x38, 0x39])
  {
    var d: Bytes := [0x36, 0x37, 0x38, 0x39];
    assert d[1..] == [0x37, 0x38, 0x39];
    assert Step(0x340A_C5E3, 0x36) == 0xF68D_2C9E;
  }

  lemma {:induction false} CheckFeed7()
    ensures Feed(0xF68D_2C9E, [0x37, 0x38, 0x39]) == Feed(0xAFFC_9660, [0x38, 0x39])
  {
    var d: Bytes := [0x37, 0x38, 0x39];
    assert d[1..] == [0x38, 0x39];
    assert Step(0xF68D_2C9E, 0x37) == 0xAFFC_9660;
  }

  lemma {:induction false} CheckFeed8()
    ensures Feed(0xAFFC_9660, [0x38, 0x39]) == Feed(0x651F_2550, [0x39])
  {
    var d: Bytes := [0x38, 0x39];
    assert d[1..] == [0x39];
    assert Step(0xAFFC_9660, 0x38) == 0x651F_2550;
  }

  lemma {:induction false} CheckFeed9()
    ensures Feed(0x651F_2550, [0x39]) == Feed(0x340B_C6D9, [])
  {
    var d: Bytes := [0x39];
    assert d[1..] == [];
    assert Step(0x651F_2550, 0x39) == 0x340B_C6D9;
  }

  // ---------------------------------------------------------------------------
  // UTF-8 (section 3 of RFC 3629)

  /** The UTF-8 bytes of one Unicode scalar value: six payload bits per
      continuation byte, the rest in the lead byte. */
  function Utf8Char(ch: char): (r: Bytes)
    ensures 1 <= |r| <= 4
    ensures (ch as int < 0x80) <==> |r| == 1
  {
    var cp := ch as int;
    var q0, r0 := cp / 0x40, cp % 0x40;
    var q1, r1 := q0 / 0x40, q0 % 0x40;
    var q2, r2 := q1 / 0x40, q1 % 0x40;
    if cp < 0x80 then [cp]
    else if cp < 0x800 then [0xC0 + q0, 0x80 + r0]
    else if cp < 0x1_0000 then [0xE0 + q1, 0x80 + r1, 0x80 + r0]
    else [0xF0 + q2, 0x80 + r2, 0x80 + r1, 0x80 + r0]
  }

  /** `s.encode()` with Python's default UTF-8 codec. */
  function Utf8(s: string): (r: Bytes)
    ensures |r| >= |s|
  {
    if s == [] then [] else Utf8Char(s[0]) + Utf8(s[1..])
  }

  /** The scalar value the UTF-8 sequence `b` of one character stands for. */
  function DecodeChar(b: Bytes): int
  {
    if |b| == 1 then b[0]
    else if |b| == 2 then (b[0] as int - 0xC0) * 0x40 + (b[1] as int - 0x80)
    else if |b| == 3 then ((b[0] as int - 0xE0) * 0x40 + (b[1] as int - 0x80)) * 0x40 + (b[2] as int - 0x80)
    else if |b| == 4 then
      (((b[0] as int - 0xF0) * 0x40 + (b[1] as int - 0x80)) * 0x40 + (b[2] as int - 0x80)) * 0x40 + (b[3] as int - 0x80)
    else -1
  }

  /** Each character's bytes decode back to it, and the lead byte says how
      many bytes follow. */
  lemma {:induction false} Utf8CharRoundTrip(ch: char)
    ensures DecodeChar(Utf8Char(ch)) == ch as int
    ensures var b := Utf8Char(ch);
            && (|b| == 1 ==> b[0] < 0x80)
            && (|b| == 2 ==> 0xC0 <= b[0] < 0xE0)
            && (|b| == 3 ==> 0xE0 <= b[0] < 0xF0)
            && (|b| == 4 ==> 0xF0 <= b[0] < 0xF8)
            && (forall i :: 1 <= i < |b| ==> 0x80 <= b[i] < 0xC0)
  {
  }

  /** U+1F415, the callback signature's character, takes four bytes. */
  lemma {:induction false} SignatureBytes()
    ensures Utf8(['\U{1F415}']) == [0xF0, 0x9F, 0x90, 0x95]
  {
  }

  /** A name made of ASCII characters encodes to its own code points. */
  lemma {:induction false} Utf8Ascii(s: string)
    requires forall i :: 0 <= i < |s| ==> s[i] as int < 0x80
    ensures |Utf8(s)| == |s|
    ensures forall i :: 0 <= i < |s| ==> Utf8(s)[i] == s[i] as int
  {
    if s != [] {
      Utf8Ascii(s[1..]);
    }
  }

  /** Encoding distributes over concatenation. */
  lemma {:induction false} Utf8Append(s: string, t: string)
    ensures Utf8(s + t) == Utf8(s) + Utf8(t)
  {
    if s == [] {
      assert s + t == t;
    } else {
      var u := s + t;
      assert u[0] == s[0] && u[1..] == s[1..] + t;
      Utf8Append(s[1..], t);
      calc {
        Utf8(u);
        Utf8Char(s[0]) + Utf8(s[1..] + t);
        Utf8Char(s[0]) + (Utf8(s[1..]) + Utf8(t));
        (Utf8Char(s[0]) + Utf8(s[1..])) + Utf8(t);
      }
    }
  }

  /** `n.to_bytes(4, 'little')`: the big-endian bytes in reverse order. */
  function LittleEndian4(n: nat): (r: Bytes)
    requires n < 0x1_0000_0000
    ensures |r| == 4
    ensures FromBigEndian([r[3], r[2], r[1], r[0]]) == n
  {
    var b := BigEndian4(n);
    assert [b[0], b[1], b[2], b[3]] == b;
    [b[3], b[2], b[1], b[0]]
  }

  /** The registry key of a class name in the window/button registries:
      `crc32(name.encode()).to_bytes(4, 'big')`. */
  function ClassKeyBig(name: string): (k: Bytes)
    ensures |k| == 4 && FromBigEndian(k) == Crc32(Utf8(name))
  {
    BigEndian4(Crc32(Utf8(name)))
  }

  /** The registry key of the older keyboard modules:
      `crc32(name.encode()).to_bytes(4, 'little')`. */
  function ClassKeyLittle(name: string): (k: Bytes)
    ensures |k| == 4 && FromBigEndian([k[3], k[2], k[1], k[0]]) == Crc32(Utf8(name))
  {
    LittleEndian4(Crc32(Utf8(name)))
  }
}

=== FILE: dispatcher.dfy ===
/** The update worker of tgbot/wrappers/dispatcher.py (`Dispatcher.handler_worker`).

    For each update the worker walks the registered handler groups in order
    and, within a group, the handlers in list order. A handler takes part
    when it is of the update's handler type and its `check` accepts, or when
    it is a raw-update handler. The first callback that returns ends its
    group; `ContinuePropagation` moves on to the next handler of the group,
    `StopPropagation` ends the update. A database session is opened lazily
    before the first callback that receives a message or a callback query;
    a callback that raises anything else rolls the session back, and a
    session still open when the update ends is committed.

    What a handler does with an update is given, per update, as a
    `Reaction`: the handler objects, their checks and their callbacks are
    not part of this model. */
module Dispatcher {
  import opened Common

  /** What `handler.check(client, update)` does. */
  datatype Check = Accepts | Declines | CheckRaises

  /** How `handler.callback(*args)` ends. */
  datatype Callback = Returns | RaisesStop | RaisesContinue | RaisesOther

  /** How one registered handler meets one update: whether it is an
      instance of the update's handler type (`typed`), else whether it is a
      `RawUpdateHandler`, and what its check and its callback do. */
  datatype Reaction = Reaction(typed: bool, raw: bool, check: Check, callback: Callback)

  /** One packet from `updates_queue`: whether parsing it raises, whether
      the parsed update is a `Message` or a `CallbackQuery`, and the reaction
      of every handler, group by group. */
  datatype Update = Update(parseRaises: bool, messageLike: bool, reactions: seq<seq<Reaction>>)

  /** What the worker does to the database and the handlers, in order. */
  datatype Step = Opened | Invoked(group: nat, index: nat) | RolledBack | Committed

  /** Why the walk over the groups ended. */
  datatype Ending =
    | Exhausted        // every group was visited
    | Stopped          // a callback raised StopPropagation
    | CheckFailed      // a check raised: logged, then StopPropagation
    | CallbackFailed   // a callback raised another exception: rollback, then StopPropagation
    | ParseFailed      // parsing the packet raised: logged

  datatype Walked = Walked(steps: seq<Step>, ending: Ending, open: bool)

  /** Whether the handler takes part in the update (lines 36-50), when its
      check does not raise. */
  predicate Applies(r: Reaction) {
    if r.typed then r.check == Accepts else r.raw
  }

  /** Where the walk goes after one handler. */
  datatype Next =
    | Goto(group: nat, index: nat, open: bool)
    | Finish(tail: seq<Step>, ending: Ending, open: bool)

  /** What one handler adds to the walk and where the walk goes next. */
  datatype Move = Move(head: seq<Step>, next: Next)

  /** Handler `i` of group `g` meets the update (lines 36-78), with `open`
      saying whether a session is in context. */
  function StepAt(u: Update, g: nat, i: nat, open: bool): (m: Move)
    requires g < |u.reactions| && i < |u.reactions[g]|
    ensures m.head in {[], [Invoked(g, i)], [Opened, Invoked(g, i)]}
    ensures m.head != [] ==> Applies(u.reactions[g][i])
    ensures m.head != [] ==> (Opened in m.head <==> !open && u.reactions[g][i].typed && u.messageLike)
    ensures m.next.Goto? ==> (m.next.group == g && m.next.index == i + 1) || (m.next.group == g + 1 && m.next.index == 0)
    ensures m.next.Goto? && m.next.group == g && m.head != [] ==> u.reactions[g][i].callback == RaisesContinue
    ensures m.next.Goto? ==> m.next.open == (open || Opened in m.head)
    ensures m.next.Finish? ==>
      && m.next.tail in {[], [RolledBack]}
      && (RolledBack in m.next.tail <==> m.next.ending == CallbackFailed && (open || Opened in m.head))
      && (m.next.open <==> (open || Opened in m.head) && m.next.ending != CallbackFailed)
  {
    var r := u.reactions[g][i];
    if r.typed && r.check == CheckRaises then Move([], Finish([], CheckFailed, open))
    else if !Applies(r) then Move([], Goto(g, i + 1, open))
    else
      var opens := !open && r.typed && u.messageLike;
      var head := if opens then [Opened, Invoked(g, i)] else [Invoked(g, i)];
      match r.callback
      case Returns => Move(head, Goto(g + 1, 0, open || opens))
      case RaisesContinue => Move(head, Goto(g, i + 1, open || opens))
      case RaisesStop => Move(head, Finish([], Stopped, open || opens))
      case RaisesOther => Move(head, Finish(if open || opens then [RolledBack] else [], CallbackFailed, false))
  }

  /** The walk over the handlers from handler `i` of group `g` on (lines
      33-78), with `open` saying whether a session is in context. */
  function Walk(u: Update, g: nat, i: nat, open: bool): (w: Walked)
    decreases |u.reactions| - g, if g < |u.reactions| then |u.reactions[g]| - i else 0
  {
    if g >= |u.reactions| then Walked([], Exhausted, open)
    else if i >= |u.reactions[g]| then Walk(u, g + 1, 0, open)
    else
      var m := StepAt(u, g, i, open);
      match m.next
      case Finish(tail, ending, open') => Walked(m.head + tail, ending, open')
      case Goto(h, j, open') =>
        var w := Walk(u, h, j, open');
        Walked(m.head + w.steps, w.ending, w.open)
  }

  /** One update handled from start to end (lines 21-89): the walk, then
      the commit in `finally` of a session still open. */
  function Dispatch(u: Update): Walked {
    if u.parseRaises then Walked([], ParseFailed, false)
    else
      var w := Walk(u, 0, 0, false);
      Walked(w.steps + (if w.open then [Committed] else []), w.ending, false)
  }

  // ---------------------------------------------------------------------
  // Properties of the walk

  /** Handler `(g, i)` comes before handler `(h, j)`. */
  predicate Precedes(g: nat, i: nat, h: nat, j: nat) {
    g < h || (g == h && i < j)
  }

  /** Every invoked handler exists and is not before `(g, i)`. */
  predicate CallsFrom(u: Update, steps: seq<Step>, g: nat, i: nat) {
    forall a :: 0 <= a < |steps| && steps[a].Invoked? ==>
      && steps[a].group < |u.reactions| && steps[a].index < |u.reactions[steps[a].group]|
      && !Precedes(steps[a].group, steps[a].index, g, i)
  }

  /** Callbacks run in group order and list order, and a later callback of
      the same group runs only after an earlier one raised
      ContinuePropagation: at most one callback completes per group. */
  predicate CallsOrdered(u: Update, steps: seq<Step>)
    requires CallsFrom(u, steps, 0, 0)
  {
    forall a, b :: 0 <= a < b < |steps| && steps[a].Invoked? && steps[b].Invoked? ==>
      && Precedes(steps[a].group, steps[a].index, steps[b].group, steps[b].index)
      && (steps[a].group == steps[b].group ==> u.reactions[steps[a].group][steps[a].index].callback == RaisesContinue)
  }

  /** Every invoked handler applies to the update. */
  predicate CallsApply(u: Update, steps: seq<Step>)
    requires CallsFrom(u, steps, 0, 0)
  {
    forall a :: 0 <= a < |steps| && steps[a].Invoked? ==> Applies(u.reactions[steps[a].group][steps[a].index])
  }

  /** The facts `WalkCalls` keeps, for a walk from `(g, i)`. */
  predicate CallsFine(u: Update, steps: seq<Step>, g: nat, i: nat) {
    CallsFrom(u, steps, g, i) && CallsOrdered(u, steps) && CallsApply(u, steps)
  }

  /** The walk from `(g, i)` invokes only handlers from `(g, i)` on, each
      applying to the update, in order, at most one completing per group. */
  lemma {:induction false} WalkCalls(u: Update, g: nat, i: nat, open: bool)
    ensures CallsFine(u, Walk(u, g, i, open).steps, g, i)
    decreases |u.reactions| - g, if g < |u.reactions| then |u.reactions[g]| - i else 0
  {
    if g >= |u.reactions| {
    } else if i >= |u.reactions[g]| {
      WalkCalls(u, g + 1, 0, open);
    } else {
      var m := StepAt(u, g, i, open);
      match m.next
      case Finish(tail, _, _) =>
        CallsJoin(u, m.head, tail, g, i, g + 1, 0);
      case Goto(h, j, open') =>
        WalkCalls(u, h, j, open');
        CallsJoin(u, m.head, Walk(u, h, j, open').steps, g, i, h, j);
    }
  }

  /** Putting what handler `(g, i)` adds in front of a walk from `(h, j)`. */
  lemma CallsJoin(u: Update, head: seq<Step>, rest: seq<Step>, g: nat, i: nat, h: nat, j: nat)
    requires g < |u.reactions| && i < |u.reactions[g]|
    requires head in {[], [Invoked(g, i)], [Opened, Invoked(g, i)]}
    requires head != [] ==> Applies(u.reactions[g][i]) && (h == g ==> u.reactions[g][i].callback == RaisesContinue)
    requires Precedes(g, i, h, j)
    requires CallsFine(u, rest, h, j)
    ensures CallsFine(u, head + rest, g, i)
  {
    JoinFrom(u, head, rest, g, i, h, j);
    JoinOrdered(u, head, rest, g, i, h, j);
    var s := head + rest;
    assert forall a :: 0 <= a < |s| ==> s[a] == if a < |head| then head[a] else rest[a - |head|];
  }

  /** The joined walk invokes only handlers from `(g, i)` on. */
  lemma JoinFrom(u: Update, head: seq<Step>, rest: seq<Step>, g: nat, i: nat, h: nat, j: nat)
    requires g < |u.reactions| && i < |u.reactions[g]|
    requires head in {[], [Invoked(g, i)], [Opened, Invoked(g, i)]}
    requires Precedes(g, i, h, j)
    requires CallsFrom(u, rest, h, j)
    ensures CallsFrom(u, head + rest, g, i) && CallsFrom(u, head + rest, 0, 0)
  {
    var s := head + rest;
    assert forall a :: 0 <= a < |s| ==> s[a] == if a < |head| then head[a] else rest[a - |head|];
  }

  /** The joined walk keeps the order of its calls. */
  lemma JoinOrdered(u: Update, head: seq<Step>, rest: seq<Step>, g: nat, i: nat, h: nat, j: nat)
    requires g < |u.reactions| && i < |u.reactions[g]|
    requires head in {[], [Invoked(g, i)], [Opened, Invoked(g, i)]}
    requires head != [] ==> (h == g ==> u.reactions[g][i].callback == RaisesContinue)
    requires Precedes(g, i, h, j)
    requires CallsFrom(u, rest, h, j) && CallsOrdered(u, rest)
    requires CallsFrom(u, head + rest, 0, 0)
    ensures CallsOrdered(u, head + rest)
  {
    var s := head + rest;
    assert forall a :: 0 <= a < |s| ==> s[a] == if a < |head| then head[a] else rest[a - |head|];
  }

  /** Session facts of a walk from a state where `open` says whether a
      session is in context. */
  ghost predicate SessionWalk(w: Walked, open: bool) {
    && Committed !in w.steps
    && (Opened in w.steps ==> !open)
    && multiset(w.steps)[Opened] <= 1
    && (RolledBack in w.steps <==> w.ending == CallbackFailed && (open || Opened in w.steps))
    && (RolledBack in w.steps ==> w.steps[|w.steps| - 1] == RolledBack && multiset(w.steps)[RolledBack] == 1)
    && (w.open <==> (open || Opened in w.steps) && w.ending != CallbackFailed)
  }

  /** A session is opened at most once, only when none is in context, and
      rolled back exactly when a callback fails with one in context. */
  lemma {:induction false} WalkSession(u: Update, g: nat, i: nat, open: bool)
    ensures SessionWalk(Walk(u, g, i, open), open)
    decreases |u.reactions| - g, if g < |u.reactions| then |u.reactions[g]| - i else 0
  {
    if g >= |u.reactions| {
    } else if i >= |u.reactions[g]| {
      WalkSession(u, g + 1, 0, open);
    } else {
      var m := StepAt(u, g, i, open);
      match m.next
      case Finish(tail, ending, open') =>
        SessionFinish(m.head, tail, ending, open', open, g, i);
      case Goto(h, j, open') =>
        WalkSession(u, h, j, open');
        SessionJoin(m.head, Walk(u, h, j, open'), open, open', g, i);
    }
  }

  lemma SessionFinish(head: seq<Step>, tail: seq<Step>, ending: Ending, open': bool, open: bool, g: nat, i: nat)
    requires head in {[], [Invoked(g, i)], [Opened, Invoked(g, i)]} && (Opened in head ==> !open)
    requires tail in {[], [RolledBack]}
    requires RolledBack in tail <==> ending == CallbackFailed && (open || Opened in head)
    requires open' <==> (open || Opened in head) && ending != CallbackFailed
    ensures SessionWalk(Walked(head + tail, ending, open'), open)
  {
    var s := head + tail;
    assert multiset(s) == multiset(head) + multiset(tail);
  }

  lemma SessionJoin(head: seq<Step>, w: Walked, open: bool, open': bool, g: nat, i: nat)
    requires head in {[], [Invoked(g, i)], [Opened, Invoked(g, i)]} && (Opened in head ==> !open)
    requires open' == (open || Opened in head)
    requires SessionWalk(w, open')
    ensures SessionWalk(Walked(head + w.steps, w.ending, w.open), open)
  {
    var s := head + w.steps;
    assert multiset(s) == multiset(head) + multiset(w.steps);
    assert Opened in s <==> Opened in head || Opened in w.steps;
    assert RolledBack in s <==> RolledBack in w.steps;
    assert Committed !in s;
    if RolledBack in w.steps {
      assert s[|s| - 1] == w.steps[|w.steps| - 1];
    }
  }

  /** Each update ends with the session closed, and each session it opened
      is closed exactly once: rolled back when a callback failed, committed
      otherwise (also after a failed check or a StopPropagation), and the
      closing step is the last one. */
  lemma DispatchSession(u: Update)
    ensures var d := Dispatch(u);
      && !d.open
      && multiset(d.steps)[Opened] <= 1
      && (Opened in d.steps <==> Committed in d.steps || RolledBack in d.steps)
      && !(Committed in d.steps && RolledBack in d.steps)
      && (RolledBack in d.steps <==> Opened in d.steps && d.ending == CallbackFailed)
      && (Committed in d.steps <==> Opened in d.steps && d.ending != CallbackFailed)
      && (Committed in d.steps || RolledBack in d.steps ==>
            d.steps[|d.steps| - 1] in {Committed, RolledBack}
            && multiset(d.steps)[Committed] + multiset(d.steps)[RolledBack] == 1)
  {
    if !u.parseRaises {
      var w := Walk(u, 0, 0, false);
      WalkSession(u, 0, 0, false);
      var d := Dispatch(u);
      assert multiset(d.steps) == multiset(w.steps) + multiset(if w.open then [Committed] else []);
      assert Opened in d.steps <==> Opened in w.steps;
      assert RolledBack in d.steps <==> RolledBack in w.steps;
      assert Committed in d.steps <==> w.open;
    }
  }

  /** Callbacks run in order, each applying to the update, at most one
      completing per group. */
  lemma DispatchCalls(u: Update)
    ensures CallsFrom(u, Dispatch(u).steps, 0, 0)
    ensures CallsOrdered(u, Dispatch(u).steps) && CallsApply(u, Dispatch(u).steps)
  {
    if !u.parseRaises {
      var w := Walk(u, 0, 0, false);
      WalkCalls(u, 0, 0, false);
      var s := Dispatch(u).steps;
      assert forall a :: 0 <= a < |s| ==> s[a] == if a < |w.steps| then w.steps[a] else Committed;
    }
  }

  /** The invoked handler is of the update's handler type and receives a
      message or a callback query. */
  predicate NeedsSession(u: Update, s: Step)
    requires s.Invoked?
  {
    && u.messageLike
    && s.group < |u.reactions| && s.index < |u.reactions[s.group]| && u.reactions[s.group][s.index].typed
  }

  /** Opening is lazy: every `Opened` is directly followed by the callback
      it was opened for, and, from a state without a session, no callback
      that receives a message or a callback query runs before one. */
  ghost predicate Lazy(u: Update, s: seq<Step>, open: bool) {
    && (forall a :: 0 <= a < |s| && s[a] == Opened ==> a + 1 < |s| && s[a + 1].Invoked? && NeedsSession(u, s[a + 1]))
    && (!open ==> forall a :: 0 <= a < |s| && s[a].Invoked? && NeedsSession(u, s[a]) ==> Opened in s[..a])
  }

  lemma {:induction false} WalkOpensLazily(u: Update, g: nat, i: nat, open: bool)
    ensures Lazy(u, Walk(u, g, i, open).steps, open)
    decreases |u.reactions| - g, if g < |u.reactions| then |u.reactions[g]| - i else 0
  {
    if g >= |u.reactions| {
    } else if i >= |u.reactions[g]| {
      WalkOpensLazily(u, g + 1, 0, open);
    } else {
      var m := StepAt(u, g, i, open);
      match m.next
      case Finish(tail, _, _) =>
        LazyJoin(u, m.head, tail, open, open || Opened in m.head, g, i);
      case Goto(h, j, open') =>
        WalkOpensLazily(u, h, j, open');
        LazyJoin(u, m.head, Walk(u, h, j, open').steps, open, open', g, i);
    }
  }

  lemma LazyJoin(u: Update, head: seq<Step>, rest: seq<Step>, open: bool, open': bool, g: nat, i: nat)
    requires g < |u.reactions| && i < |u.reactions[g]|
    requires head in {[], [Invoked(g, i)], [Opened, Invoked(g, i)]}
    requires head != [] ==> (Opened in head <==> !open && u.reactions[g][i].typed && u.messageLike)
    requires open' == (open || Opened in head)
    requires Lazy(u, rest, open')
    ensures Lazy(u, head + rest, open)
  {
    LazyOpenedNext(u, head, rest, open, open', g, i);
    var s := head + rest;
    assert forall a :: 0 <= a < |s| ==> s[a] == if a < |head| then head[a] else rest[a - |head|];
    if !open {
      forall a | 0 <= a < |s| && s[a].Invoked? && NeedsSession(u, s[a])
        ensures Opened in s[..a]
      {
        if Opened in head {
          assert s[0] == Opened;
        } else if a >= |head| {
          assert Opened in rest[..a - |head|];
          assert rest[..a - |head|] == s[|head|..a];
        }
      }
    }
  }

  /** In the joined walk each opening is followed by a callback that needs
      the session. */
  lemma LazyOpenedNext(u: Update, head: seq<Step>, rest: seq<Step>, open: bool, open': bool, g: nat, i: nat)
    requires g < |u.reactions| && i < |u.reactions[g]|
    requires head in {[], [Invoked(g, i)], [Opened, Invoked(g, i)]}
    requires head != [] ==> (Opened in head <==> !open && u.reactions[g][i].typed && u.messageLike)
    requires open' == (open || Opened in head)
    requires Lazy(u, rest, open')
    ensures forall a :: 0 <= a < |head + rest| && (head + rest)[a] == Opened ==>
              a + 1 < |head + rest| && (head + rest)[a + 1].Invoked? && NeedsSession(u, (head + rest)[a + 1])
  {
    var s := head + rest;
    assert forall a :: 0 <= a < |s| ==> s[a] == if a < |head| then head[a] else rest[a - |head|];
  }

  /** The session of an update is opened lazily, right before the first
      callback that receives a message or a callback query. */
  lemma DispatchOpensLazily(u: Update)
    ensures Lazy(u, Dispatch(u).steps, false)
  {
    if !u.parseRaises {
      var w := Walk(u, 0, 0, false);
      WalkOpensLazily(u, 0, 0, false);
      var s := Dispatch(u).steps;
      assert forall a :: 0 <= a < |s| ==> s[a] == if a < |w.steps| then w.steps[a] else Committed;
      forall a | 0 <= a < |s| && s[a].Invoked? && NeedsSession(u, s[a])
        ensures Opened in s[..a]
      {
        assert s[..a] == w.steps[..a];
      }
    }
  }

  // ---------------------------------------------------------------------
  // The worker

  /** `steps` already done, then the walk from `(g, i)`. */
  function Resume(u: Update, steps: seq<Step>, g: nat, i: nat, open: bool): Walked {
    var w := Walk(u, g, i, open);
    Walked(steps + w.steps, w.ending, w.open)
  }

  /** The walk from handler `(g, i)` is that handler's move, then the rest. */
  lemma ResumeStep(u: Update, steps: seq<Step>, g: nat, i: nat, open: bool)
    requires g < |u.reactions| && i < |u.reactions[g]|
    ensures var m := StepAt(u, g, i, open);
      && (m.next.Goto? ==>
            Resume(u, steps, g, i, open) == Resume(u, steps + m.head, m.next.group, m.next.index, m.next.open))
      && (m.next.Finish? ==>
            Resume(u, steps, g, i, open) == Walked(steps + m.head + m.next.tail, m.next.ending, m.next.open))
  {
    var m := StepAt(u, g, i, open);
    if m.next.Goto? {
      var w := Walk(u, m.next.group, m.next.index, m.next.open);
      assert steps + (m.head + w.steps) == steps + m.head + w.steps;
    } else {
      assert steps + (m.head + m.next.tail) == steps + m.head + m.next.tail;
    }
  }

  /** One handler meets the update (lines 36-78): its check, the lazy
      opening of the session, its callback and what the callback raised. */
  method VisitHandler(u: Update, g: nat, i: nat, steps: seq<Step>, open: bool) returns (steps': seq<Step>, next: Next)
    requires g < |u.reactions| && i < |u.reactions[g]|
    ensures var m := StepAt(u, g, i, open);
      && next == m.next
      && (next.Goto? ==> steps' == steps + m.head)
      && (next.Finish? ==> steps' == steps + m.head + next.tail)
  {
    steps' := steps;
    var r := u.reactions[g][i];
    var applies := false;
    if r.typed {
      if r.check == CheckRaises {
        return steps', Finish([], CheckFailed, open);
      }
      applies := r.check == Accepts;
    } else if r.raw {
      applies := true;
    }
    if !applies {
      return steps', Goto(g, i + 1, open);
    }
    var open' := open;
    if !open && r.typed && u.messageLike {
      steps' := steps' + [Opened];
      open' := true;
    }
    steps' := steps' + [Invoked(g, i)];
    if r.callback == RaisesStop {
      next := Finish([], Stopped, open');
    } else if r.callback == RaisesContinue {
      next := Goto(g, i + 1, open');
    } else if r.callback == RaisesOther {
      if open' {
        steps' := steps' + [RolledBack];
        next := Finish([RolledBack], CallbackFailed, false);
      } else {
        next := Finish([], CallbackFailed, false);
      }
    } else {
      next := Goto(g + 1, 0, open');
    }
  }

  /** One update handled by the loops of lines 31-89, with the session
      flag a local of the method. */
  method HandleUpdate(u: Update) returns (d: Walked)
    requires !u.parseRaises
    ensures d == Dispatch(u)
  {
    ghost var total := Walk(u, 0, 0, false);
    var steps: seq<Step> := [];
    var open := false;
    var ending := Exhausted;
    var g := 0;
    label groups: while g < |u.reactions|
      invariant 0 <= g <= |u.reactions|
      invariant total == Resume(u, steps, g, 0, open)
      invariant ending == Exhausted
    {
      var i := 0;
      while i < |u.reactions[g]|
        invariant 0 <= i <= |u.reactions[g]|
        invariant total == Resume(u, steps, g, i, open)
        invariant ending == Exhausted
      {
        ResumeStep(u, steps, g, i, open);
        var next;
        steps, next := VisitHandler(u, g, i, steps, open);
        if next.Finish? {
          ending, open := next.ending, next.open;
          break groups;
        }
        open := next.open;
        if next.group != g {
          break;
        }
        i := next.index;
      }
      g := g + 1;
    }
    if open {
      steps := steps + [Committed];
      open := false;
    }
    d := Walked(steps, ending, open);
  }

  /** The packets a worker takes: `None` is the shutdown sentinel. */
  function Handled(packets: seq<Option<Update>>): (r: seq<Walked>)
    ensures |r| <= |packets|
    ensures forall k :: 0 <= k < |r| ==> packets[k].Some? && r[k] == Dispatch(packets[k].value)
    ensures |r| < |packets| ==> packets[|r|].None?
  {
    if packets == [] || packets[0].None? then []
    else [Dispatch(packets[0].value)] + Handled(packets[1..])
  }

  /** `handler_worker` as written (lines 15-89): the session flag is first
      bound at line 31, after the packet is parsed, yet `finally` reads it.
      When the very first packet fails to parse, reading it raises
      `UnboundLocalError`, which escapes the loop and ends the worker;
      later packets find the flag left `False` by the previous `finally`. */
  method HandlerWorkerAsWritten(packets: seq<Option<Update>>) returns (results: seq<Walked>, crashed: bool)
    ensures crashed <==> |packets| > 0 && packets[0].Some? && packets[0].value.parseRaises
    ensures !crashed ==> results == Handled(packets)
    ensures crashed ==> results == []
  {
    var bound := false;
    results := [];
    crashed := false;
    var k := 0;
    while k < |packets| && packets[k].Some?
      invariant 0 <= k <= |packets|
      invariant results == Handled(packets[..k]) && |results| == k
      invariant bound <==> k > 0
      invariant k > 0 ==> packets[0].Some? && !packets[0].value.parseRaises
    {
      var u := packets[k].value;
      var d: Walked;
      if u.parseRaises {
        if !bound {
          return [], true;
        }
        d := Walked([], ParseFailed, false);
      } else {
        bound := true;
        d := HandleUpdate(u);
      }
      HandledSnoc(packets[..k], packets[k]);
      assert packets[..k + 1] == packets[..k] + [packets[k]];
      results := results + [d];
      k := k + 1;
    }
    HandledStops(packets, k);
  }

  /** `handler_worker` with the flag bound before the packet is parsed:
      every packet up to the sentinel is handled. */
  method HandlerWorker(packets: seq<Option<Update>>) returns (results: seq<Walked>)
    ensures results == Handled(packets)
  {
    results := [];
    var k := 0;
    while k < |packets| && packets[k].Some?
      invariant 0 <= k <= |packets|
      invariant results == Handled(packets[..k]) && |results| == k
    {
      var u := packets[k].value;
      var d: Walked;
      if u.parseRaises {
        d := Walked([], ParseFailed, false);
      } else {
        d := HandleUpdate(u);
      }
      HandledSnoc(packets[..k], packets[k]);
      assert packets[..k + 1] == packets[..k] + [packets[k]];
      results := results + [d];
      k := k + 1;
    }
    HandledStops(packets, k);
  }

  lemma {:induction false} HandledSnoc(ps: seq<Option<Update>>, p: Option<Update>)
    requires p.Some? && |Handled(ps)| == |ps|
    ensures Handled(ps + [p]) == Handled(ps) + [Dispatch(p.value)]
  {
    if ps == [] {
      assert Handled([p]) == [Dispatch(p.value)] + Handled([p][1..]);
    } else {
      assert (ps + [p])[1..] == ps[1..] + [p];
      HandledSnoc(ps[1..], p);
    }
  }

  lemma {:induction false} HandledStops(ps: seq<Option<Update>>, k: nat)
    requires k <= |ps| && |Handled(ps[..k])| == k && (k < |ps| ==> ps[k].None?)
    ensures Handled(ps[..k]) == Handled(ps)
  {
    if k == 0 {
    } else {
      assert ps[..k][1..] == ps[1..][..k - 1];
      HandledStops(ps[1..], k - 1);
    }
  }

  /** Concrete: with the flag bound before parsing, a first packet that fails
      to parse is skipped and the next packet is dispatched. */
  lemma ParseFailureSkipped(u: Update)
    requires !u.parseRaises
    ensures var packets := [Some(Update(true, false, [])), Some(u)];
      |Handled(packets)| == 2 && Handled(packets)[1] == Dispatch(u)
  {
    var packets := [Some(Update(true, false, [])), Some(u)];
    assert packets[1..] == [Some(u)];
    assert packets[1..][1..] == [];
  }
}

=== FILE: exception_handler.dfy ===
/** The retry layer around every request to Telegram (tgbot/exception_handler.py).
    `invoke` is wrapped so that each attempt first passes through the caller's
    rate limiters, a flood-wait or an internal server error is retried after a
    pause, and exhausting the attempts either raises or, when errors are to be
    ignored, gives up quietly. A wrapped client method (send_message, …) puts
    its own retry settings into a context value that the inner `invoke` reads.

    The server is a parameter: `responses(a)` is what Telegram answers to the
    a-th attempt (numbered from 1). Limiters, events and pauses are recorded as
    effects in the order the wrapper performs them; what they do in turn is
    modelled in their own modules. */
module ExceptionHandler {
  import opened Common

  /** The five retry settings, as keyword arguments or as the context value.
      `limiters` lists limiter identities in calling order; `None` and the
      empty list behave alike (`limiters or []`). Events are identities too. */
  datatype Settings = Settings(
    ignoreErrors: bool,
    maxAttempts: int,
    limiters: seq<nat>,
    previous: Option<nat>,
    current: Option<nat>)

  /** The keyword defaults of both wrappers. */
  const DefaultSettings := Settings(false, 10, [], None, None)

  /** Telegram's answer to one attempt: a result, `FloodWait` with the number
      of seconds to wait, `InternalServerError`, or any other error. */
  datatype Response = Sent(result: nat) | FloodWait(seconds: int) | InternalServerError | OtherError(code: nat)

  /** What the wrapper does, in order. */
  datatype Effect =
    | AwaitEvent(event: nat)
    | CallLimiter(limiter: nat)
    | Invoke(attempt: nat)
    | SetEvent(event: nat)
    | Sleep(seconds: int)

  /** How a call ends: a returned value (`None` for a quiet give-up), or an
      exception. `Propagated` is an error other than the two retried ones. */
  datatype Outcome =
    | Returned(value: Option<nat>)
    | AttemptLimitReached
    | MethodDecoratorException
    | Propagated(code: nat)

  datatype Run = Run(effects: seq<Effect>, outcome: Outcome)

  /** The settings an `invoke` call works with: the context value, when one is
      set, replaces all five of the call's own. */
  function Effective(context: Option<Settings>, own: Settings): Settings
  {
    if context.Some? then context.value else own
  }

  predicate Retryable(r: Response) {
    r.FloodWait? || r.InternalServerError?
  }

  /** The pause before the next attempt: the server's flood-wait value, or
      `attempt ** 4` seconds after an internal server error. */
  function Backoff(r: Response, attempt: nat): int
    requires Retryable(r)
  {
    if r.FloodWait? then r.seconds else attempt * attempt * attempt * attempt
  }

  /** The end of the last allowed attempt: with `ignore_errors` the wrapper
      gives up quietly, raising MethodDecoratorException for the method wrapper
      to swallow when it runs inside one; otherwise AttemptLimitReached. */
  function Exhausted(s: Settings, inContext: bool): (o: Outcome)
    ensures o.Returned? <==> s.ignoreErrors && !inContext
    ensures o.Returned? ==> o.value.None?
    ensures o == MethodDecoratorException <==> s.ignoreErrors && inContext
    ensures o == AttemptLimitReached <==> !s.ignoreErrors
  {
    if s.ignoreErrors then (if inContext then MethodDecoratorException else Returned(None))
    else AttemptLimitReached
  }

  function LimiterCalls(limiters: seq<nat>): (es: seq<Effect>)
    ensures |es| == |limiters|
    ensures forall j :: 0 <= j < |es| ==> es[j] == CallLimiter(limiters[j])
  {
    seq(|limiters|, j requires 0 <= j < |limiters| => CallLimiter(limiters[j]))
  }

  function Prepend(es: seq<Effect>, r: Run): Run {
    Run(es + r.effects, r.outcome)
  }

  function AttemptsMeasure(s: Settings, done: nat): nat {
    if done < s.maxAttempts then s.maxAttempts - done else 0
  }

  /** Reference definition of the attempts after the first `done` ones. */
  function Attempts(s: Settings, inContext: bool, responses: nat -> Response, done: nat): Run
    decreases AttemptsMeasure(s, done)
  {
    var a := done + 1;
    var tried := LimiterCalls(s.limiters) + [Invoke(a)];
    match responses(a)
    case Sent(v) => Run(tried + (if s.current.Some? then [SetEvent(s.current.value)] else []), Returned(Some(v)))
    case OtherError(c) => Run(tried, Propagated(c))
    case _ =>
      if a >= s.maxAttempts then Run(tried, Exhausted(s, inContext))
      else Prepend(tried + [Sleep(Backoff(responses(a), a))], Attempts(s, inContext, responses, a))
  }

  /** The whole wrapped call: the previous request's event is awaited once,
      then the attempts. */
  function Wrapped(s: Settings, inContext: bool, responses: nat -> Response): Run {
    Prepend(if s.previous.Some? then [AwaitEvent(s.previous.value)] else [], Attempts(s, inContext, responses, 0))
  }

  /** The attempt numbers, in the order the effects perform them. */
  function Invokes(es: seq<Effect>): seq<nat> {
    if es == [] then [] else (if es[0].Invoke? then [es[0].attempt] else []) + Invokes(es[1..])
  }

  /** The outcome a final answer settles on. */
  function Settle(s: Settings, inContext: bool, r: Response): (o: Outcome)
    ensures r.Sent? ==> o == Returned(Some(r.result))
    ensures r.OtherError? ==> o == Propagated(r.code)
    ensures Retryable(r) ==> o == Exhausted(s, inContext)
  {
    match r
    case Sent(v) => Returned(Some(v))
    case OtherError(c) => Propagated(c)
    case _ => Exhausted(s, inContext)
  }

  // ---------------------------------------------------------------------
  // Properties of the reference definition

  lemma {:induction false} InvokesAppend(x: seq<Effect>, y: seq<Effect>)
    ensures Invokes(x + y) == Invokes(x) + Invokes(y)
  {
    if x == [] {
      assert x + y == y;
    } else {
      var head := if x[0].Invoke? then [x[0].attempt] else [];
      assert (x + y)[0] == x[0] && (x + y)[1..] == x[1..] + y;
      InvokesAppend(x[1..], y);
      assert Invokes(x + y) == head + Invokes(x[1..] + y);
      assert Invokes(x) == head + Invokes(x[1..]);
    }
  }

  lemma {:induction false} InvokesNone(es: seq<Effect>)
    requires forall j :: 0 <= j < |es| ==> !es[j].Invoke?
    ensures Invokes(es) == []
  {
    if es != [] {
      InvokesNone(es[1..]);
    }
  }

  /** The invocations of one attempt and what follows it. */
  lemma AttemptInvokes(s: Settings, a: nat, tail: seq<Effect>)
    requires forall j :: 0 <= j < |tail| ==> !tail[j].Invoke?
    ensures Invokes(LimiterCalls(s.limiters) + [Invoke(a)] + tail) == [a]
  {
    var ls := LimiterCalls(s.limiters);
    InvokesNone(ls);
    InvokesNone(tail);
    InvokesAppend(ls, [Invoke(a)]);
    InvokesAppend(ls + [Invoke(a)], tail);
    assert Invokes([Invoke(a)]) == [a] by {
      assert [Invoke(a)][1..] == [];
    }
  }

  /** The attempts are numbered 1, 2, … without gaps, and there are never more
      than `max_attempts` of them — but always at least one, even when
      `max_attempts` is zero or negative. Every attempt except the last was
      answered with a retried error; the last answer decides the outcome. */
  lemma {:induction false} AttemptsCounted(s: Settings, inContext: bool, responses: nat -> Response, done: nat)
    ensures var run := Attempts(s, inContext, responses, done);
      var k := |Invokes(run.effects)|;
      && 1 <= k && done + k <= Max(done + 1, s.maxAttempts)
      && (forall j :: 0 <= j < k ==> Invokes(run.effects)[j] == done + 1 + j)
      && (forall a :: done < a < done + k ==> Retryable(responses(a)))
      && run.outcome == Settle(s, inContext, responses(done + k))
      && (Retryable(responses(done + k)) ==> done + k >= s.maxAttempts)
    decreases AttemptsMeasure(s, done)
  {
    var a := done + 1;
    var ls := LimiterCalls(s.limiters);
    var run := Attempts(s, inContext, responses, done);
    if Retryable(responses(a)) && a < s.maxAttempts {
      var rest := Attempts(s, inContext, responses, a);
      var head := ls + [Invoke(a)] + [Sleep(Backoff(responses(a), a))];
      assert run == Prepend(head, rest);
      AttemptsCounted(s, inContext, responses, a);
      assert Invokes(run.effects) == [a] + Invokes(rest.effects) by {
        AttemptInvokes(s, a, [Sleep(Backoff(responses(a), a))]);
        InvokesAppend(head, rest.effects);
      }
    } else {
      var tail := if responses(a).Sent? && s.current.Some? then [SetEvent(s.current.value)] else [];
      assert run.effects == ls + [Invoke(a)] + tail;
      AttemptInvokes(s, a, tail);
    }
  }

  /** With the default settings a call makes at most ten attempts. */
  lemma DefaultAttemptLimit(responses: nat -> Response)
    ensures |Invokes(Wrapped(DefaultSettings, false, responses).effects)| <= 10
  {
    var s := DefaultSettings;
    AttemptsCounted(s, false, responses, 0);
    var inner := Attempts(s, false, responses, 0);
    assert !s.previous.Some? && s.maxAttempts == 10;
    assert Wrapped(s, false, responses).effects == [] + inner.effects;
    assert [] + inner.effects == inner.effects;
    assert |Invokes(inner.effects)| <= Max(1, 10);
  }

  /** Every attempt is immediately preceded by one call of each limiter, in
      the given order. */
  predicate LimitersPrecede(es: seq<Effect>, limiters: seq<nat>) {
    forall p :: 0 <= p < |es| && es[p].Invoke? ==>
      |limiters| <= p && es[p - |limiters|..p] == LimiterCalls(limiters)
  }

  /** Every pause comes right after an attempt that was answered with a
      retried error and was not the last allowed one, and lasts its backoff. */
  predicate SleepsFollowRetries(es: seq<Effect>, s: Settings, responses: nat -> Response) {
    forall p :: 0 <= p < |es| && es[p].Sleep? ==>
      1 <= p && es[p - 1].Invoke? && RetriedAfter(s, responses, es[p - 1].attempt, es[p].seconds)
  }

  predicate RetriedAfter(s: Settings, responses: nat -> Response, a: nat, pause: int) {
    Retryable(responses(a)) && a < s.maxAttempts && pause == Backoff(responses(a), a)
  }

  /** The current request's event is set at most once, as the last effect. */
  predicate SetsEventLast(es: seq<Effect>, current: Option<nat>) {
    forall p :: 0 <= p < |es| && es[p].SetEvent? ==> p == |es| - 1 && current == Some(es[p].event)
  }

  predicate AwaitsNothing(es: seq<Effect>) {
    forall p :: 0 <= p < |es| ==> !es[p].AwaitEvent?
  }

  lemma SliceAfterPrefix(head: seq<Effect>, rest: seq<Effect>, i: nat, j: nat)
    requires |head| <= i <= j <= |head| + |rest|
    ensures (head + rest)[i..j] == rest[i - |head|..j - |head|]
  {
    assert forall k :: i <= k < j ==> (head + rest)[k] == rest[k - |head|];
  }

  lemma LimitersPrecedeAppend(head: seq<Effect>, rest: seq<Effect>, limiters: seq<nat>)
    requires LimitersPrecede(head, limiters) && LimitersPrecede(rest, limiters)
    ensures LimitersPrecede(head + rest, limiters)
  {
    var es := head + rest;
    var n := |limiters|;
    forall p | 0 <= p < |es| && es[p].Invoke?
      ensures n <= p && es[p - n..p] == LimiterCalls(limiters)
    {
      if p >= |head| {
        var q := p - |head|;
        assert rest[q] == es[p];
        assert n <= q && rest[q - n..q] == LimiterCalls(limiters);
        SliceAfterPrefix(head, rest, p - n, p);
      }
    }
  }

  /** One attempt on its own: the limiter calls, the attempt, and effects
      that are not attempts. */
  lemma LimitersPrecedeOne(limiters: seq<nat>, a: nat, tail: seq<Effect>)
    requires forall j :: 0 <= j < |tail| ==> !tail[j].Invoke?
    ensures LimitersPrecede(LimiterCalls(limiters) + [Invoke(a)] + tail, limiters)
  {
    var n := |limiters|;
    var es := LimiterCalls(limiters) + [Invoke(a)] + tail;
    forall p | 0 <= p < |es| ensures es[p].Invoke? ==> p == n {
      if p < n {
        assert es[p] == LimiterCalls(limiters)[p];
      } else if p > n {
        assert es[p] == tail[p - n - 1];
      }
    }
    assert es[..n] == LimiterCalls(limiters);
  }

  /** Before every attempt each limiter is called once, in the given order,
      and nothing else happens in between. */
  lemma {:induction false} LimitersBeforeEachAttempt(s: Settings, inContext: bool, responses: nat -> Response, done: nat)
    ensures LimitersPrecede(Attempts(s, inContext, responses, done).effects, s.limiters)
    decreases AttemptsMeasure(s, done)
  {
    var a := done + 1;
    var ls := LimiterCalls(s.limiters);
    var es := Attempts(s, inContext, responses, done).effects;
    if Retryable(responses(a)) && a < s.maxAttempts {
      var rest := Attempts(s, inContext, responses, a).effects;
      var pause := [Sleep(Backoff(responses(a), a))];
      assert es == (ls + [Invoke(a)] + pause) + rest;
      LimitersBeforeEachAttempt(s, inContext, responses, a);
      LimitersPrecedeOne(s.limiters, a, pause);
      LimitersPrecedeAppend(ls + [Invoke(a)] + pause, rest, s.limiters);
    } else {
      var tail := if responses(a).Sent? && s.current.Some? then [SetEvent(s.current.value)] else [];
      assert es == ls + [Invoke(a)] + tail;
      LimitersPrecedeOne(s.limiters, a, tail);
    }
  }

  /** A pause happens only right after an attempt answered with a retried
      error that was not the last allowed one, and it lasts the flood-wait
      value or `attempt ** 4` seconds. */
  lemma {:induction false} PausesFollowRetries(s: Settings, inContext: bool, responses: nat -> Response, done: nat)
    ensures SleepsFollowRetries(Attempts(s, inContext, responses, done).effects, s, responses)
    decreases AttemptsMeasure(s, done)
  {
    var a := done + 1;
    var ls := LimiterCalls(s.limiters);
    var n := |s.limiters|;
    var es := Attempts(s, inContext, responses, done).effects;
    if Retryable(responses(a)) && a < s.maxAttempts {
      var rest := Attempts(s, inContext, responses, a).effects;
      var head := ls + [Invoke(a)] + [Sleep(Backoff(responses(a), a))];
      assert es == head + rest;
      PausesFollowRetries(s, inContext, responses, a);
      forall p | 0 <= p < |es| && es[p].Sleep?
        ensures 1 <= p && es[p - 1].Invoke? && RetriedAfter(s, responses, es[p - 1].attempt, es[p].seconds)
      {
        if p < |head| {
          assert p == n + 1;
          assert es[p - 1] == Invoke(a);
        } else {
          var q := p - |head|;
          assert rest[q] == es[p];
          assert 1 <= q && rest[q - 1].Invoke? && RetriedAfter(s, responses, rest[q - 1].attempt, rest[q].seconds);
          assert es[p - 1] == rest[q - 1];
        }
      }
    } else {
      var tail := es[n + 1..];
      assert es == ls + [Invoke(a)] + tail;
      assert forall j :: 0 <= j < |tail| ==> !tail[j].Sleep?;
      forall p | 0 <= p < |es| ensures !es[p].Sleep? {
        if p > n {
          assert es[p] == tail[p - n - 1];
        }
      }
    }
  }

  /** The current request's event is set only when an attempt succeeded, then
      exactly once and as the last thing the wrapper does. */
  lemma {:induction false} EventSetOnSuccess(s: Settings, inContext: bool, responses: nat -> Response, done: nat)
    ensures var run := Attempts(s, inContext, responses, done);
      && SetsEventLast(run.effects, s.current)
      && (run.outcome.Returned? && run.outcome.value.Some? && s.current.Some? <==>
            run.effects[|run.effects| - 1].SetEvent?)
    decreases AttemptsMeasure(s, done)
  {
    var a := done + 1;
    if Retryable(responses(a)) && a < s.maxAttempts {
      var rest := Attempts(s, inContext, responses, a);
      var head := LimiterCalls(s.limiters) + [Invoke(a)] + [Sleep(Backoff(responses(a), a))];
      assert Attempts(s, inContext, responses, done) == Prepend(head, rest);
      EventSetOnSuccess(s, inContext, responses, a);
      SetsEventPrepend(head, rest.effects, s.current);
    } else {
      SettledSetsEventLast(s, inContext, responses, done);
    }
  }

  /** Effects that set no event, put before a run that sets the current
      event only last, keep it last. */
  lemma {:induction false} SetsEventPrepend(head: seq<Effect>, rest: seq<Effect>, current: Option<nat>)
    requires forall p :: 0 <= p < |head| ==> !head[p].SetEvent?
    requires |rest| >= 1 && SetsEventLast(rest, current)
    ensures SetsEventLast(head + rest, current)
    ensures (head + rest)[|head + rest| - 1] == rest[|rest| - 1]
  {
    var es := head + rest;
    forall q | 0 <= q < |head|
      ensures !es[q].SetEvent?
    {
      assert es[q] == head[q];
    }
    forall p | 0 <= p < |es| && es[p].SetEvent?
      ensures p == |es| - 1 && current == Some(es[p].event)
    {
      assert es[p] == rest[p - |head|];
    }
  }

  /** The attempt that is not retried sets the current event, last, exactly
      when it sent. */
  lemma {:induction false} SettledSetsEventLast(s: Settings, inContext: bool, responses: nat -> Response, done: nat)
    requires !(Retryable(responses(done + 1)) && done + 1 < s.maxAttempts)
    ensures var run := Attempts(s, inContext, responses, done);
      && SetsEventLast(run.effects, s.current)
      && (run.outcome.Returned? && run.outcome.value.Some? && s.current.Some? <==>
            run.effects[|run.effects| - 1].SetEvent?)
  {
    var a := done + 1;
    var ls := LimiterCalls(s.limiters);
    var n := |s.limiters|;
    var es := Attempts(s, inContext, responses, done).effects;
    var tail := es[n + 1..];
    assert es == ls + [Invoke(a)] + tail;
    forall p | 0 <= p < |es| && es[p].SetEvent?
      ensures p == |es| - 1 && s.current == Some(es[p].event)
    {
      assert p > n && es[p] == tail[p - n - 1];
    }
  }

  /** No request is awaited inside the attempts. */
  lemma {:induction false} AttemptsAwaitNothing(s: Settings, inContext: bool, responses: nat -> Response, done: nat)
    ensures AwaitsNothing(Attempts(s, inContext, responses, done).effects)
    decreases AttemptsMeasure(s, done)
  {
    var a := done + 1;
    var n := |s.limiters|;
    var es := Attempts(s, inContext, responses, done).effects;
    if Retryable(responses(a)) && a < s.maxAttempts {
      var rest := Attempts(s, inContext, responses, a).effects;
      var head := LimiterCalls(s.limiters) + [Invoke(a)] + [Sleep(Backoff(responses(a), a))];
      assert es == head + rest;
      AttemptsAwaitNothing(s, inContext, responses, a);
      forall p | 0 <= p < |es| ensures !es[p].AwaitEvent? {
        if p >= |head| {
          assert es[p] == rest[p - |head|];
        }
      }
    } else {
      var tail := es[n + 1..];
      assert es == LimiterCalls(s.limiters) + [Invoke(a)] + tail;
      forall p | 0 <= p < |es| ensures !es[p].AwaitEvent? {
        if p > n {
          assert es[p] == tail[p - n - 1];
        }
      }
    }
  }

  /** The previous request's event is awaited exactly once, before the first
      attempt, and only when one is given. */
  lemma AwaitsPreviousFirst(s: Settings, inContext: bool, responses: nat -> Response)
    ensures var es := Wrapped(s, inContext, responses).effects;
      && (forall p :: 0 <= p < |es| && es[p].AwaitEvent? ==> p == 0 && s.previous == Some(es[p].event))
      && (s.previous.Some? ==> es[0] == AwaitEvent(s.previous.value))
  {
    var es := Wrapped(s, inContext, responses).effects;
    var pre := if s.previous.Some? then [AwaitEvent(s.previous.value)] else [];
    var rest := Attempts(s, inContext, responses, 0).effects;
    assert es == pre + rest;
    AttemptsAwaitNothing(s, inContext, responses, 0);
    forall p | 0 <= p < |es|
      ensures es[p].AwaitEvent? ==> p == 0 && s.previous == Some(es[p].event)
    {
      if p >= |pre| {
        assert es[p] == rest[p - |pre|];
      }
    }
  }

  /** The first answer that is neither a flood-wait nor an internal server
      error ends the call at once, provided it comes within the allowed
      attempts: a result is returned, any other error propagates without a
      retry. */
  lemma FirstFinalAnswerDecides(s: Settings, inContext: bool, responses: nat -> Response, a: nat)
    requires 1 <= a <= Max(1, s.maxAttempts)
    requires forall b :: 1 <= b < a ==> Retryable(responses(b))
    requires !Retryable(responses(a))
    ensures var run := Wrapped(s, inContext, responses);
      |Invokes(run.effects)| == a && run.outcome == Settle(s, inContext, responses(a))
  {
    var run := Wrapped(s, inContext, responses);
    var inner := Attempts(s, inContext, responses, 0);
    var pre := if s.previous.Some? then [AwaitEvent(s.previous.value)] else [];
    AttemptsCounted(s, inContext, responses, 0);
    assert Invokes(run.effects) == Invokes(inner.effects) by {
      InvokesAppend(pre, inner.effects);
      InvokesNone(pre);
    }
    assert |Invokes(inner.effects)| == a;
  }

  /** When every allowed attempt is answered with a retried error, the call
      makes exactly `max(1, max_attempts)` attempts and then raises
      AttemptLimitReached, or with `ignore_errors` returns nothing (inside a
      method wrapper, raises MethodDecoratorException for it). */
  lemma ExhaustedAfterAllAttempts(s: Settings, inContext: bool, responses: nat -> Response)
    requires forall a :: 1 <= a <= Max(1, s.maxAttempts) ==> Retryable(responses(a))
    ensures var run := Wrapped(s, inContext, responses);
      && |Invokes(run.effects)| == Max(1, s.maxAttempts)
      && run.outcome == Exhausted(s, inContext)
  {
    var run := Wrapped(s, inContext, responses);
    var inner := Attempts(s, inContext, responses, 0);
    var pre := if s.previous.Some? then [AwaitEvent(s.previous.value)] else [];
    AttemptsCounted(s, inContext, responses, 0);
    assert Invokes(run.effects) == Invokes(inner.effects) by {
      InvokesAppend(pre, inner.effects);
      InvokesNone(pre);
    }
  }

  // ---------------------------------------------------------------------
  // The wrappers

  /** One attempt, spelled out: `tried` is what was done up to and including
      the attempt. A final answer ends the run; a retried one that was not the
      last allowed is followed by its pause and the rest. */
  lemma AttemptStep(s: Settings, inContext: bool, responses: nat -> Response, done: nat, before: seq<Effect>, tried: seq<Effect>)
    requires tried == before + LimiterCalls(s.limiters) + [Invoke(done + 1)]
    ensures var a := done + 1; var run := Prepend(before, Attempts(s, inContext, responses, done));
      match responses(a)
      case Sent(v) => run == Run(tried + (if s.current.Some? then [SetEvent(s.current.value)] else []), Returned(Some(v)))
      case OtherError(c) => run == Run(tried, Propagated(c))
      case _ =>
        if a >= s.maxAttempts then run == Run(tried, Exhausted(s, inContext))
        else run == Prepend(tried + [Sleep(Backoff(responses(a), a))], Attempts(s, inContext, responses, a))
  {
    var a := done + 1;
    var ls := LimiterCalls(s.limiters);
    if Retryable(responses(a)) && a < s.maxAttempts {
      var head := ls + [Invoke(a)] + [Sleep(Backoff(responses(a), a))];
      var rest := Attempts(s, inContext, responses, a);
      assert Attempts(s, inContext, responses, done) == Prepend(head, rest);
      assert before + (head + rest.effects) == tried + [Sleep(Backoff(responses(a), a))] + rest.effects;
    } else if responses(a).Sent? {
      var tail := if s.current.Some? then [SetEvent(s.current.value)] else [];
      assert before + (ls + [Invoke(a)] + tail) == tried + tail;
    } else {
      assert before + (ls + [Invoke(a)]) == tried;
    }
  }

  /** `[await limiter() for limiter in limiters]`. */
  method CallLimiters(effects: seq<Effect>, limiters: seq<nat>) returns (after: seq<Effect>)
    ensures after == effects + LimiterCalls(limiters)
  {
    after := effects;
    var j := 0;
    while j < |limiters|
      invariant 0 <= j <= |limiters|
      invariant after == effects + LimiterCalls(limiters[..j])
    {
      after := after + [CallLimiter(limiters[j])];
      j := j + 1;
      assert LimiterCalls(limiters[..j]) == LimiterCalls(limiters[..j - 1]) + [CallLimiter(limiters[j - 1])];
    }
    assert limiters[..j] == limiters;
  }


  /** The context value `invoke_data` that a wrapped method sets for the
      `invoke` calls it makes. */
  class InvokeContext {
    var data: Option<Settings>

    constructor ()
      ensures data == None
    {
      data := None;
    }

    /** The `invoke` wrapper, called with keyword arguments `own`; its retry
        loop performs what `Wrapped` defines under the effective settings. */
    method CallInvoke(own: Settings, responses: nat -> Response) returns (run: Run)
      ensures run == Wrapped(Effective(data, own), data.Some?, responses)
    {
      var s := Effective(data, own);
      var inContext := data.Some?;
      var effects: seq<Effect> := [];
      if s.previous.Some? {
        effects := effects + [AwaitEvent(s.previous.value)];
      }
      var attempt: nat := 0;
      while true
        invariant Wrapped(s, inContext, responses) == Prepend(effects, Attempts(s, inContext, responses, attempt))
        decreases AttemptsMeasure(s, attempt)
      {
        ghost var before := effects;
        effects := CallLimiters(effects, s.limiters);
        attempt := attempt + 1;
        effects := effects + [Invoke(attempt)];
        AttemptStep(s, inContext, responses, attempt - 1, before, effects);
        var response := responses(attempt);
        var timeout: int;
        match response {
          case Sent(v) =>
            if s.current.Some? {
              effects := effects + [SetEvent(s.current.value)];
            }
            return Run(effects, Returned(Some(v)));
          case OtherError(c) =>
            return Run(effects, Propagated(c));
          case FloodWait(seconds) =>
            timeout := seconds;
          case InternalServerError =>
            timeout := attempt * attempt * attempt * attempt;
        }
        if attempt >= s.maxAttempts {
          var outcome: Outcome;
          if s.ignoreErrors {
            if inContext {
              outcome := MethodDecoratorException;
            } else {
              outcome := Returned(None);
            }
          } else {
            outcome := AttemptLimitReached;
          }
          return Run(effects, outcome);
        }
        effects := effects + [Sleep(timeout)];
      }
    }

    /** A wrapped client method whose body makes one `invoke` call: the
        method's keyword arguments become the context for that call, a quiet
        give-up surfaces as `None`, and the context is restored however the
        call ends. */
    method CallMethod(settings: Settings, own: Settings, responses: nat -> Response) returns (run: Run)
      modifies this
      ensures data == old(data)
      ensures run == Run(Wrapped(settings, true, responses).effects, MethodOutcome(settings, responses))
    {
      var token := data;
      data := Some(settings);
      var inner := CallInvoke(own, responses);
      if inner.outcome == MethodDecoratorException {
        run := Run(inner.effects, Returned(None));
      } else {
        run := inner;
      }
      data := token;
    }
  }

  /** What a wrapped method returns: never MethodDecoratorException; with
      `ignore_errors` an exhausted call returns nothing, without it the
      AttemptLimitReached error reaches the caller; the method's settings, not
      the inner call's own, decide the retries. */
  function MethodOutcome(settings: Settings, responses: nat -> Response): (o: Outcome)
    ensures o != MethodDecoratorException
  {
    var inner := Wrapped(settings, true, responses).outcome;
    if inner == MethodDecoratorException then Returned(None) else inner
  }

  lemma MethodGivesUpQuietly(settings: Settings, responses: nat -> Response)
    requires forall a :: 1 <= a <= Max(1, settings.maxAttempts) ==> Retryable(responses(a))
    ensures settings.ignoreErrors ==> MethodOutcome(settings, responses) == Returned(None)
    ensures !settings.ignoreErrors ==> MethodOutcome(settings, responses) == AttemptLimitReached
  {
    ExhaustedAfterAllAttempts(settings, true, responses);
  }
}

=== FILE: grid_keyboard.dfy ===
/** `GridKeyboard` (tgbot/gui/keyboards/grid_keyboard.py): a keyboard that
    lays its buttons out in rows of a fixed width. */
module GridKeyboard {
  import opened GuiKeyboard

  /** The cells of a grid in row-major order. */
  function Flatten(g: Grid): (r: seq<Cell>)
    ensures g == [] ==> r == []
    decreases |g|
  {
    if g == [] then [] else Flatten(g[..|g| - 1]) + g[|g| - 1]
  }

  lemma {:induction false} FlattenSnoc(g: Grid, row: seq<Cell>)
    ensures Flatten(g + [row]) == Flatten(g) + row
  {
    assert (g + [row])[..|g|] == g;
  }

  lemma {:induction false} FlattenCons(row: seq<Cell>, g: Grid)
    ensures Flatten([row] + g) == row + Flatten(g)
    decreases |g|
  {
    if g != [] {
      var init := g[..|g| - 1];
      FlattenCons(row, init);
      assert ([row] + g)[..|g|] == [row] + init;
    }
  }

  /** `xs` cut into rows of `width` cells, the last row holding the rest. */
  function Chunks(xs: seq<Cell>, width: nat): (g: Grid)
    requires width > 0
    decreases |xs|
  {
    if xs == [] then []
    else if |xs| <= width then [xs]
    else [xs[..width]] + Chunks(xs[width..], width)
  }

  /** Cutting cells into rows keeps them in order and lays them out. */
  lemma {:induction false} ChunksShape(xs: seq<Cell>, width: nat)
    requires width > 0
    ensures Flatten(Chunks(xs, width)) == xs
    ensures LaidOut(Chunks(xs, width), width)
    decreases |xs|
  {
    if xs == [] {
    } else if |xs| <= width {
      FlattenSnoc([], xs);
    } else {
      ChunksShape(xs[width..], width);
      FlattenCons(xs[..width], Chunks(xs[width..], width));
      assert xs[..width] + xs[width..] == xs;
    }
  }

  /** `add_button`'s placement: a new row when there is none or the last one
      holds `width` cells, otherwise the end of the last row. */
  function Placed(g: Grid, b: Cell, width: nat): Grid
  {
    if g == [] || |g[|g| - 1]| == width then g + [[b]]
    else g[..|g| - 1] + [g[|g| - 1] + [b]]
  }

  /** A laid-out grid: no row is empty, none is wider than `width` (when
      that is positive), and every row but the last holds exactly `width`
      cells. With zero width this leaves at most one row. */
  predicate LaidOut(g: Grid, width: nat)
  {
    forall i :: 0 <= i < |g| ==>
      && g[i] != []
      && (width > 0 ==> |g[i]| <= width)
      && (i < |g| - 1 ==> |g[i]| == width)
  }

  /** A laid-out grid of positive width is the row-major order of its cells
      cut into rows of `width`: the layout is determined by the cells. */
  lemma {:induction false} LaidOutIsChunks(g: Grid, width: nat)
    requires width > 0 && LaidOut(g, width)
    ensures g == Chunks(Flatten(g), width)
    decreases |g|
  {
    if g != [] {
      var rest := g[1..];
      assert g == [g[0]] + rest;
      FlattenCons(g[0], rest);
      if rest == [] {
        assert g == [g[0]];
        assert Flatten(g) == g[0];
        assert 1 <= |g[0]| <= width;
      } else {
        assert LaidOut(rest, width);
        LaidOutIsChunks(rest, width);
        var xs := Flatten(g);
        assert xs == g[0] + Flatten(rest);
        assert Flatten(rest) != [] by {
          assert rest == rest[..|rest| - 1] + [rest[|rest| - 1]];
          FlattenSnoc(rest[..|rest| - 1], rest[|rest| - 1]);
        }
        assert xs[..width] == g[0];
        assert xs[width..] == Flatten(rest);
      }
    }
  }

  /** Placing a cell appends it to the row-major order. */
  lemma {:induction false} PlacedFlatten(g: Grid, b: Cell, width: nat)
    ensures Flatten(Placed(g, b, width)) == Flatten(g) + [b]
  {
    if g == [] || |g[|g| - 1]| == width {
      FlattenSnoc(g, [b]);
    } else {
      var init, last := g[..|g| - 1], g[|g| - 1];
      assert g == init + [last];
      FlattenSnoc(init, last);
      FlattenSnoc(init, last + [b]);
    }
  }

  /** Placing a cell into a laid-out grid keeps it laid out. */
  lemma {:induction false} PlacedLaidOut(g: Grid, b: Cell, width: nat)
    ensures LaidOut(g, width) ==> LaidOut(Placed(g, b, width), width)
  {
  }

  /** The placement test is an equality: a last row already longer than
      `width` (made so by `add_row`) takes the cell, growing further, and the
      grid is then not laid out. */
  lemma {:induction false} OverlongRowKeepsGrowing(g: Grid, b: Cell, width: nat)
    requires g != [] && |g[|g| - 1]| > width
    ensures var p := Placed(g, b, width);
            && |p| == |g| && p[|g| - 1] == g[|g| - 1] + [b]
            && |p[|g| - 1]| > width + 1
            && (width > 0 ==> !LaidOut(p, width))
  {
    var p := Placed(g, b, width);
    assert p[|g| - 1] == g[|g| - 1] + [b];
  }

  class GridKeyboard {
    const width: nat
    var buttons: Grid

    /** Rows are `width` cells wide except the last; a zero width keeps every
        cell in one row. */
    ghost predicate Valid()
      reads this
    {
      LaidOut(buttons, width)
    }

    constructor (width: nat)
      ensures Valid()
      ensures this.width == width && buttons == []
    {
      this.width := width;
      buttons := [];
    }

    /** `BaseKeyboard.add_row`, inherited: appends the row as given, whatever
        its length. */
    method AddRow(row: seq<Cell>)
      modifies this
      ensures buttons == old(buttons) + [row]
      ensures Flatten(buttons) == Flatten(old(buttons)) + row
    {
      FlattenSnoc(buttons, row);
      buttons := buttons + [row];
    }

    /** `GridKeyboard.add_button`: a new row is opened when there is none or
        the last one holds exactly `width` cells; otherwise the cell joins the
        last row. The layout is kept, and the cell order grows by the cell. */
    method AddButton(b: Cell)
      modifies this
      ensures buttons == Placed(old(buttons), b, width)
      ensures Flatten(buttons) == Flatten(old(buttons)) + [b]
      ensures old(Valid()) ==> Valid()
    {
      PlacedFlatten(buttons, b, width);
      PlacedLaidOut(buttons, b, width);
      buttons := Placed(buttons, b, width);
    }
  }
}

=== FILE: group_manager.dfy ===
/** Allocation of dispatcher handler-group numbers (tgbot/group_manager.py).
    Left groups (run before the ordinary group 0) are numbered upwards from the
    minimum, right groups (run after it) downwards from the maximum; each group
    is published under its upper-cased name. */
module GroupManager {
  import opened Common

  datatype GroupError =
    | LeftGroupsExhausted   // "Left groups exhausted, decrease min value"
    | RightGroupsExhausted  // "Right groups exhausted, increase max value"
    | NameAlreadyUsed       // "Group name ... already used"

  class GroupManager {
    var minValue: int
    var maxValue: int
    /** The attributes set by `__add_group`: upper-cased name to group number. */
    var groups: map<string, int>

    /** Every left group lies below the next left number and is at most -1;
        every right group lies above the next right number and is at least 1;
        no two names share a number. */
    ghost predicate Valid()
      reads this
    {
      && (forall n :: n in groups ==>
            (groups[n] < minValue && groups[n] <= -1) || (groups[n] > maxValue && groups[n] >= 1))
      && (forall n, m :: n in groups && m in groups && n != m ==> groups[n] != groups[m])
    }

    constructor (minValue: int, maxValue: int)
      ensures Valid()
      ensures this.minValue == minValue && this.maxValue == maxValue && groups == map[]
    {
      this.minValue := minValue;
      this.maxValue := maxValue;
      groups := map[];
    }

    /** `add_left_group`: the exhaustion check comes first, then the name check;
        the counter moves only after the name was stored, so a failed call
        changes nothing. */
    method AddLeftGroup(name: string) returns (r: Result<int, GroupError>)
      requires Valid()
      modifies this
      ensures Valid()
      ensures old(minValue) > -1 ==> r == Err(LeftGroupsExhausted)
      ensures old(minValue) <= -1 && Upper(name) in old(groups) ==> r == Err(NameAlreadyUsed)
      ensures r.Err? ==> groups == old(groups) && minValue == old(minValue) && maxValue == old(maxValue)
      ensures old(minValue) <= -1 && Upper(name) !in old(groups) ==>
                r == Ok(old(minValue)) && groups == old(groups)[Upper(name) := old(minValue)]
                && minValue == old(minValue) + 1 && maxValue == old(maxValue)
    {
      if minValue > -1 {
        return Err(LeftGroupsExhausted);
      }
      r := AddGroup(name, minValue);
      if r.Ok? {
        minValue := minValue + 1;
      }
    }

    /** `add_right_group`: the mirror image, counting down from the maximum. */
    method AddRightGroup(name: string) returns (r: Result<int, GroupError>)
      requires Valid()
      modifies this
      ensures Valid()
      ensures old(maxValue) < 1 ==> r == Err(RightGroupsExhausted)
      ensures old(maxValue) >= 1 && Upper(name) in old(groups) ==> r == Err(NameAlreadyUsed)
      ensures r.Err? ==> groups == old(groups) && minValue == old(minValue) && maxValue == old(maxValue)
      ensures old(maxValue) >= 1 && Upper(name) !in old(groups) ==>
                r == Ok(old(maxValue)) && groups == old(groups)[Upper(name) := old(maxValue)]
                && maxValue == old(maxValue) - 1 && minValue == old(minValue)
    {
      if maxValue < 1 {
        return Err(RightGroupsExhausted);
      }
      r := AddGroup(name, maxValue);
      if r.Ok? {
        maxValue := maxValue - 1;
      }
    }

    /** `__add_group`: refuses a name whose upper-cased form is already set. */
    method AddGroup(name: string, value: int) returns (r: Result<int, GroupError>)
      modifies this
      ensures minValue == old(minValue) && maxValue == old(maxValue)
      ensures Upper(name) in old(groups) ==> r == Err(NameAlreadyUsed) && groups == old(groups)
      ensures Upper(name) !in old(groups) ==> r == Ok(value) && groups == old(groups)[Upper(name) := value]
    {
      var key := Upper(name);
      if key in groups {
        return Err(NameAlreadyUsed);
      }
      groups := groups[key := value];
      r := Ok(value);
    }
  }

  /** The upper-cased attribute names of the session groups. */
  lemma {:induction false} SessionGroupNames()
    ensures Upper("create_session") == "CREATE_SESSION"
    ensures Upper("rollback_session") == "ROLLBACK_SESSION"
    ensures Upper("commit_session") == "COMMIT_SESSION"
    ensures Upper("reset_session_context") == "RESET_SESSION_CONTEXT"
  {
    UpperOf("create_session", "CREATE_SESSION");
    UpperOf("rollback_session", "ROLLBACK_SESSION");
    UpperOf("commit_session", "COMMIT_SESSION");
    UpperOf("reset_session_context", "RESET_SESSION_CONTEXT");
  }

  /** The upper-cased attribute names of the user groups. */
  lemma {:induction false} UserGroupNames()
    ensures Upper("load_user") == "LOAD_USER"
    ensures Upper("reset_user_context") == "RESET_USER_CONTEXT"
  {
    UpperOf("load_user", "LOAD_USER");
    UpperOf("reset_user_context", "RESET_USER_CONTEXT");
  }

  /** The upper-cased attribute names of the callback-query and input groups. */
  lemma {:induction false} CallbackQueryGroupNames()
    ensures Upper("process_callback_query") == "PROCESS_CALLBACK_QUERY"
    ensures Upper("process_input") == "PROCESS_INPUT"
  {
    UpperOf("process_callback_query", "PROCESS_CALLBACK_QUERY");
    UpperOf("process_input", "PROCESS_INPUT");
  }

  /** The upper-cased attribute names of the callback-query reset group. */
  lemma {:induction false} CallbackQueryResetName()
    ensures Upper("reset_callback_query_context") == "RESET_CALLBACK_QUERY_CONTEXT"
  {
    UpperOf("reset_callback_query_context", "RESET_CALLBACK_QUERY_CONTEXT");
  }

  /** The upper-cased attribute names of the groups the bot itself adds. */
  lemma {:induction false} AssistantGroupNames()
    ensures Upper("load_group") == "LOAD_GROUP"
    ensures Upper("reset_group_context") == "RESET_GROUP_CONTEXT"
    ensures Upper("start_in_group") == "START_IN_GROUP"
  {
    UpperOf("load_group", "LOAD_GROUP");
    UpperOf("reset_group_context", "RESET_GROUP_CONTEXT");
    UpperOf("start_in_group", "START_IN_GROUP");
  }

  /** Upper-casing agrees with a string that matches it character by character. */
  lemma {:induction false} UpperOf(s: string, t: string)
    requires |s| == |t|
    requires forall i :: 0 <= i < |s| ==> UpperChar(s[i]) == t[i]
    ensures Upper(s) == t
  {
  }

  /** The module-level `group_manager = GroupManager(-1000, 1000)` followed by
      its nine registrations, in source order. */
  method BuiltInGroups() returns (g: GroupManager)
    ensures g.Valid()
    ensures g.groups == map["CREATE_SESSION" := -1000, "ROLLBACK_SESSION" := 1000, "COMMIT_SESSION" := 999, "RESET_SESSION_CONTEXT" := 998, "LOAD_USER" := -999, "RESET_USER_CONTEXT" := 997, "PROCESS_CALLBACK_QUERY" := -998, "RESET_CALLBACK_QUERY_CONTEXT" := 996, "PROCESS_INPUT" := -997]
    ensures g.minValue == -996 && g.maxValue == 995
  {
    g := new GroupManager(-1000, 1000);
    RegisterSessionGroups(g);
    RegisterUserGroups(g);
    RegisterCallbackQueryGroups(g);
    RegisterInputGroup(g);
  }

  /** The session groups: created first, then rolled back, committed and reset
      after every other group. */
  method RegisterSessionGroups(g: GroupManager)
    requires g.Valid()
    requires g.minValue == -1000 && g.maxValue == 1000
    requires g.groups == map[]
    modifies g
    ensures g.Valid()
    ensures g.minValue == -999 && g.maxValue == 997
    ensures g.groups == map["CREATE_SESSION" := -1000, "ROLLBACK_SESSION" := 1000, "COMMIT_SESSION" := 999, "RESET_SESSION_CONTEXT" := 998]
  {
    SessionGroupNames();
    var r;
    r := g.AddLeftGroup("create_session");
    r := g.AddRightGroup("rollback_session");
    r := g.AddRightGroup("commit_session");
    r := g.AddRightGroup("reset_session_context");
  }

  /** The groups that load the current user and reset it. */
  method RegisterUserGroups(g: GroupManager)
    requires g.Valid()
    requires g.minValue == -999 && g.maxValue == 997
    requires g.groups == map["CREATE_SESSION" := -1000, "ROLLBACK_SESSION" := 1000, "COMMIT_SESSION" := 999, "RESET_SESSION_CONTEXT" := 998]
    modifies g
    ensures g.Valid()
    ensures g.minValue == -998 && g.maxValue == 996
    ensures g.groups == map["CREATE_SESSION" := -1000, "ROLLBACK_SESSION" := 1000, "COMMIT_SESSION" := 999, "RESET_SESSION_CONTEXT" := 998, "LOAD_USER" := -999, "RESET_USER_CONTEXT" := 997]
  {
    UserGroupNames();
    var r;
    r := g.AddLeftGroup("load_user");
    r := g.AddRightGroup("reset_user_context");
  }

  /** The groups that process the callback query and reset it. */
  method RegisterCallbackQueryGroups(g: GroupManager)
    requires g.Valid()
    requires g.minValue == -998 && g.maxValue == 996
    requires g.groups == map["CREATE_SESSION" := -1000, "ROLLBACK_SESSION" := 1000, "COMMIT_SESSION" := 999, "RESET_SESSION_CONTEXT" := 998, "LOAD_USER" := -999, "RESET_USER_CONTEXT" := 997]
    modifies g
    ensures g.Valid()
    ensures g.minValue == -997 && g.maxValue == 995
    ensures g.groups == map["CREATE_SESSION" := -1000, "ROLLBACK_SESSION" := 1000, "COMMIT_SESSION" := 999, "RESET_SESSION_CONTEXT" := 998, "LOAD_USER" := -999, "RESET_USER_CONTEXT" := 997, "PROCESS_CALLBACK_QUERY" := -998, "RESET_CALLBACK_QUERY_CONTEXT" := 996]
  {
    CallbackQueryGroupNames();
    CallbackQueryResetName();
    var r;
    r := g.AddLeftGroup("process_callback_query");
    r := g.AddRightGroup("reset_callback_query_context");
  }

  /** The group that processes pending text input. */
  method RegisterInputGroup(g: GroupManager)
    requires g.Valid()
    requires g.minValue == -997 && g.maxValue == 995
    requires g.groups == map["CREATE_SESSION" := -1000, "ROLLBACK_SESSION" := 1000, "COMMIT_SESSION" := 999, "RESET_SESSION_CONTEXT" := 998, "LOAD_USER" := -999, "RESET_USER_CONTEXT" := 997, "PROCESS_CALLBACK_QUERY" := -998, "RESET_CALLBACK_QUERY_CONTEXT" := 996]
    modifies g
    ensures g.Valid()
    ensures g.minValue == -996 && g.maxValue == 995
    ensures g.groups == map["CREATE_SESSION" := -1000, "ROLLBACK_SESSION" := 1000, "COMMIT_SESSION" := 999, "RESET_SESSION_CONTEXT" := 998, "LOAD_USER" := -999, "RESET_USER_CONTEXT" := 997, "PROCESS_CALLBACK_QUERY" := -998, "RESET_CALLBACK_QUERY_CONTEXT" := 996, "PROCESS_INPUT" := -997]
  {
    CallbackQueryGroupNames();
    var r;
    r := g.AddLeftGroup("process_input");
  }

  /** The three groups the bot itself adds on import (cm_assistant.py): a left
      group for loading the chat group, a right group for resetting it and a
      left group for `/start` in a group. */
  method AssistantGroups(g: GroupManager)
    requires g.Valid()
    requires g.minValue <= -2 && g.maxValue >= 1
    requires "LOAD_GROUP" !in g.groups && "RESET_GROUP_CONTEXT" !in g.groups && "START_IN_GROUP" !in g.groups
    modifies g
    ensures g.Valid()
    ensures g.groups == old(g.groups)["LOAD_GROUP" := old(g.minValue)]
                          ["RESET_GROUP_CONTEXT" := old(g.maxValue)]["START_IN_GROUP" := old(g.minValue) + 1]
  {
    AssistantGroupNames();
    var r;
    r := g.AddLeftGroup("load_group");
    r := g.AddRightGroup("reset_group_context");
    r := g.AddLeftGroup("start_in_group");
  }
}

=== FILE: gui_buttons.dfy ===
/** GUI buttons: the callback mixin (tgbot/gui/buttons/mixins.py), the simple
    button (tgbot/gui/buttons/simple_button.py), the check box
    (tgbot/gui/buttons/check_box_button.py) and the token assignment of
    `BaseButton.db_render` (tgbot/gui/__init__.py). A button's database row is
    a map from column names to values; a column missing from the map holds
    NULL. The tab whose methods callbacks name is a map from method names to
    methods. */
module GuiButtons {
  import opened Common
  import GuiToken

  /** A keyword argument or column value. */
  datatype Value = Null | Str(s: string) | Flag(b: bool) | Num(n: int) | Data(bytes: Bytes)

  /** Keyword arguments, and the column values of a row. */
  type Columns = map<string, Value>

  /** The value of a column, NULL when unset. */
  function Get(row: Columns, column: string): (v: Value)
    ensures column !in row ==> v == Null
  {
    if column in row then row[column] else Null
  }

  /** Python truthiness of a column value. */
  predicate Truthy(v: Value)
  {
    match v
    case Null => false
    case Str(s) => s != ""
    case Flag(b) => b
    case Num(n) => n != 0
    case Data(b) => b != []
  }

  /** `ButtonWithCallback.__init__`: a given callback is stored by its name in
      `callback_name`; every other argument is passed on unchanged. */
  function WithCallback(callback: Option<string>, kwargs: Columns): (r: Columns)
    ensures callback.None? ==> r == kwargs
    ensures callback.Some? ==> "callback_name" in r && r["callback_name"] == Str(callback.value)
    ensures r.Keys == kwargs.Keys + (if callback.Some? then {"callback_name"} else {})
    ensures forall k :: k in kwargs && k != "callback_name" ==> r[k] == kwargs[k]
  {
    if callback.Some? then kwargs["callback_name" := Str(callback.value)] else kwargs
  }

  /** A button: its displayed text and its row. */
  datatype Button = Button(text: string, row: Columns)

  /** `BaseButton.__init__` under the callback mixin: a given row is adopted,
      otherwise a new row is built from the remaining arguments. */
  function NewButton(text: string, row: Option<Columns>, callback: Option<string>, kwargs: Columns): (b: Button)
    ensures b.text == text
    ensures row.Some? ==> b.row == row.value
    ensures row.None? ==> b.row == WithCallback(callback, kwargs)
  {
    Button(text, if row.Some? then row.value else WithCallback(callback, kwargs))
  }

  /** `AttributeError` for a missing attribute; `OverflowError` from
      `int.to_bytes` for a window id that does not fit in four bytes. */
  datatype ButtonError = AttributeError(name: string) | OverflowError

  /** The `callback` property: the tab's method named by `callback_name`,
      looked up when used. */
  function Callback<M>(tab: map<string, M>, row: Columns): (r: Result<M, ButtonError>)
    ensures r.Ok? <==> Get(row, "callback_name").Str? && Get(row, "callback_name").s in tab
    ensures r.Ok? ==> r.value == tab[Get(row, "callback_name").s]
  {
    match Get(row, "callback_name")
    case Str(name) => if name in tab then Ok(tab[name]) else Err(AttributeError(name))
    case _ => Err(AttributeError(""))
  }

  /** A button created with a callback resolves it back, whatever the other
      arguments. */
  lemma {:induction false} CallbackRoundTrip<M>(tab: map<string, M>, text: string, name: string, kwargs: Columns)
    requires name in tab
    ensures Callback(tab, NewButton(text, None, Some(name), kwargs).row) == Ok(tab[name])
  {
  }

  /** A call made on activation: the method found and its arguments. */
  datatype Call<M> = Call(target: M, args: seq<Value>)

  /** `SimpleButton.handle_button_activation`: the callback with the stored
      `arg`. The grid position is not used and the button is not changed. */
  function SimpleActivation<M>(tab: map<string, M>, b: Button): (r: Result<Call<M>, ButtonError>)
    ensures r.Ok? <==> Callback(tab, b.row).Ok?
    ensures r.Ok? ==> r.value == Call(Callback(tab, b.row).value, [Get(b.row, "arg")])
  {
    match Callback(tab, b.row)
    case Ok(m) => Ok(Call(m, [Get(b.row, "arg")]))
    case Err(e) => Err(e)
  }

  /** `BaseButton.db_render`: a row not yet stored (no id) receives the token
      built from the window class, window id, button class and a uuid. */
  function DbRender(row: Columns, windowKey: Bytes, windowId: nat, buttonKey: Bytes, uuid: Bytes): (r: Result<Columns, ButtonError>)
    requires |windowKey| == 4 && |buttonKey| == 4 && |uuid| == 16
    ensures Get(row, "id") != Null ==> r == Ok(row)
    ensures Get(row, "id") == Null && windowId < 0x1_0000_0000 ==>
              r == Ok(row["callback_data" := Data(GuiToken.CallbackData(windowKey, windowId, buttonKey, uuid).value)])
    ensures Get(row, "id") == Null && windowId >= 0x1_0000_0000 ==> r == Err(OverflowError)
  {
    if Get(row, "id") != Null then Ok(row)
    else match GuiToken.CallbackData(windowKey, windowId, buttonKey, uuid)
      case Some(d) => Ok(row["callback_data" := Data(d)])
      case None => Err(OverflowError)
  }

  // ---------------------------------------------------------------------------
  // CheckBoxButton

  /** Column defaults of the check box table. */
  const UncheckedPrefixDefault := ""
  const CheckedPrefixDefault := "☑ "

  /** `get_column_value_or_default`: the column, or its default when NULL. */
  function PrefixOrDefault(row: Columns, column: string, default: string): string
  {
    match Get(row, column)
    case Str(s) => s
    case _ => default
  }

  /** The label of `CheckBoxButton.render`: the checked prefix and the text
      when checked, otherwise the unchecked prefix and the text. */
  function CheckBoxLabel(row: Columns, text: string): (shown: string)
    ensures Truthy(Get(row, "is_checked")) ==>
              shown == PrefixOrDefault(row, "is_checked_prefix", CheckedPrefixDefault) + text
    ensures !Truthy(Get(row, "is_checked")) ==>
              shown == PrefixOrDefault(row, "is_unchecked_prefix", UncheckedPrefixDefault) + text
  {
    var prefix := if Truthy(Get(row, "is_checked"))
                  then PrefixOrDefault(row, "is_checked_prefix", CheckedPrefixDefault)
                  else PrefixOrDefault(row, "is_unchecked_prefix", UncheckedPrefixDefault);
    prefix + text
  }

  /** The row after one activation: `is_checked` is negated. */
  function Toggled(row: Columns): (r: Columns)
    ensures Truthy(Get(r, "is_checked")) <==> !Truthy(Get(row, "is_checked"))
    ensures forall k :: k in row && k != "is_checked" ==> k in r && r[k] == row[k]
    ensures r.Keys == row.Keys + {"is_checked"}
  {
    row["is_checked" := Flag(!Truthy(Get(row, "is_checked")))]
  }

  /** Two activations restore whether the box is checked, and the label. */
  lemma {:induction false} ToggleTwice(row: Columns, text: string)
    ensures Truthy(Get(Toggled(Toggled(row)), "is_checked")) == Truthy(Get(row, "is_checked"))
    ensures CheckBoxLabel(Toggled(Toggled(row)), text) == CheckBoxLabel(row, text)
  {
    var r2 := Toggled(Toggled(row));
    assert Get(r2, "is_checked_prefix") == Get(row, "is_checked_prefix");
    assert Get(r2, "is_unchecked_prefix") == Get(row, "is_unchecked_prefix");
  }

  /** The text a check box takes from its row (NULL reads as empty). */
  function RowText(row: Columns): string
  {
    match Get(row, "text")
    case Str(s) => s
    case _ => ""
  }

  /** `button_class(text, row=row)` in keyboard reconstruction: the row is
      adopted; a check box takes its text from the row, any other button keeps
      the text shown in the message. */
  function Revive(checkBox: bool, shownText: string, row: Columns): (b: Button)
    ensures b.row == row
    ensures b.text == if checkBox then RowText(row) else shownText
  {
    Button(if checkBox then RowText(row) else shownText, row)
  }

  class CheckBoxButton {
    var text: string
    var row: Columns

    /** Creation copies the text into the row; reconstruction from a row takes
        the text from it. */
    constructor (text: string, row: Option<Columns>, callback: Option<string>, kwargs: Columns)
      ensures row.None? ==> this.row == WithCallback(callback, kwargs)["text" := Str(text)] && this.text == text
      ensures row.Some? ==> this.row == row.value
      ensures row.Some? ==> this.text == RowText(row.value)
    {
      var b := NewButton(text, row, callback, kwargs);
      if row.None? {
        this.row := b.row["text" := Str(text)];
        this.text := text;
      } else {
        this.row := b.row;
        this.text := RowText(b.row);
      }
    }

    /** `handle_button_activation`: flips the box, then calls the callback
        with the new state and the stored `arg`. */
    method Activate<M>(tab: map<string, M>) returns (r: Result<Call<M>, ButtonError>)
      modifies this
      ensures row == Toggled(old(row)) && text == old(text)
      ensures r.Ok? <==> Callback(tab, old(row)).Ok?
      ensures r.Ok? ==> r.value == Call(Callback(tab, old(row)).value,
                                        [Flag(!Truthy(Get(old(row), "is_checked"))), Get(old(row), "arg")])
    {
      row := Toggled(row);
      assert Get(row, "callback_name") == Get(old(row), "callback_name");
      assert Get(row, "arg") == Get(old(row), "arg");
      match Callback(tab, row)
      case Ok(m) => r := Ok(Call(m, [Get(row, "is_checked"), Get(row, "arg")]));
      case Err(e) => r := Err(e);
    }

    /** `render`: assigns the token first, then builds the label; the button
        shown carries the row's callback data as it is. */
    method Render(windowKey: Bytes, windowId: nat, buttonKey: Bytes, uuid: Bytes)
      returns (r: Result<(string, Value), ButtonError>)
      requires |windowKey| == 4 && |buttonKey| == 4 && |uuid| == 16
      modifies this
      ensures old(DbRender(row, windowKey, windowId, buttonKey, uuid)).Err? ==>
                r == Err(old(DbRender(row, windowKey, windowId, buttonKey, uuid)).error) && row == old(row)
      ensures old(DbRender(row, windowKey, windowId, buttonKey, uuid)).Ok? ==>
                && row == old(DbRender(row, windowKey, windowId, buttonKey, uuid)).value
                && r == Ok((CheckBoxLabel(row, text), Get(row, "callback_data")))
      ensures Get(old(row), "id") == Null && windowId < 0x1_0000_0000 ==>
                r.Ok? && r.value.1 == Data(GuiToken.CallbackData(windowKey, windowId, buttonKey, uuid).value)
      ensures text == old(text)
    {
      var stored := DbRender(row, windowKey, windowId, buttonKey, uuid);
      if stored.Err? {
        return Err(stored.error);
      }
      row := stored.value;
      r := Ok((CheckBoxLabel(row, text), Get(row, "callback_data")));
    }
  }
}

=== FILE: gui_keyboard.dfy ===
/** The keyboard of a GUI tab (`BaseKeyboard` in tgbot/gui/__init__.py and
    `GridKeyboard` in tgbot/gui/keyboards/grid_keyboard.py): a grid of cells
    that is laid out, rebuilt from the buttons of a message, saved to and
    restored from snapshots, and searched for the pressed button. */
module GuiKeyboard {
  import opened Common
  import opened GuiButtons
  import GuiToken

  /** A pyrogram inline button as the message carries it; an empty token
      means the button has none (a link, say). */
  datatype InlineButton = InlineButton(text: string, data: Bytes)

  /** A registered button class and whether it is a check box. */
  datatype ButtonClass = ButtonClass(name: string, checkBox: bool)

  /** A cell of `self.buttons`. */
  datatype Cell =
    | Plain(inline: InlineButton)      // a pyrogram button, kept as it is
    | Pending(text: string)            // a displayed text awaiting its row
    | Live(cls: string, button: Button)
  type Grid = seq<seq<Cell>>

  datatype KeyboardError =
    | ButtonClassNotFound                      // ReconstructionError('Button class not found')
    | CountMismatch(fetched: nat, expected: nat) // ReconstructionError('... buttons out of ... were fetched')

  // ---------------------------------------------------------------------------
  // Reconstruction: specification

  /** The tokens of a row, left to right. */
  function RowTokens(row: seq<InlineButton>): seq<Bytes>
    decreases |row|
  {
    if row == [] then []
    else RowTokens(row[..|row| - 1]) + (if row[|row| - 1].data != [] then [row[|row| - 1].data] else [])
  }

  /** The tokens of a grid in row-major order. */
  function GridTokens(grid: seq<seq<InlineButton>>): seq<Bytes>
    decreases |grid|
  {
    if grid == [] then [] else GridTokens(grid[..|grid| - 1]) + RowTokens(grid[|grid| - 1])
  }

  /** Every token names a registered button class. */
  predicate Registered(grid: seq<seq<InlineButton>>, classes: map<Bytes, ButtonClass>)
  {
    forall t :: t in GridTokens(grid) ==> GuiToken.ButtonKeyOf(t) in classes
  }

  /** The rows the database query returns: one per stored token. */
  function Fetched(grid: seq<seq<InlineButton>>, db: map<Bytes, Columns>): set<Bytes>
  {
    set t | t in GridTokens(grid) && t in db
  }

  /** A cell after the first pass: token buttons become their text. */
  function PendingCell(b: InlineButton): Cell
  {
    if b.data == [] then Plain(b) else Pending(b.text)
  }

  /** Every token names a registered class and has a stored row. */
  predicate Revivable(grid: seq<seq<InlineButton>>, classes: map<Bytes, ButtonClass>, db: map<Bytes, Columns>)
  {
    forall i, j :: 0 <= i < |grid| && 0 <= j < |grid[i]| && grid[i][j].data != [] ==>
      GuiToken.ButtonKeyOf(grid[i][j].data) in classes && grid[i][j].data in db
  }

  /** A row after the first pass. */
  function PendingRow(row: seq<InlineButton>): (r: seq<Cell>)
    ensures |r| == |row| && forall j :: 0 <= j < |row| ==> r[j] == PendingCell(row[j])
    decreases |row|
  {
    if row == [] then [] else PendingRow(row[..|row| - 1]) + [PendingCell(row[|row| - 1])]
  }

  /** The grid after the first pass. */
  function PendingGrid(grid: seq<seq<InlineButton>>): (g: Grid)
    ensures |g| == |grid| && forall i :: 0 <= i < |grid| ==> g[i] == PendingRow(grid[i])
    decreases |grid|
  {
    if grid == [] then [] else PendingGrid(grid[..|grid| - 1]) + [PendingRow(grid[|grid| - 1])]
  }

  /** A cell after reconstruction: token buttons become live buttons of their
      class with their stored row (one without either stays pending). */
  function RevivedCell(b: InlineButton, classes: map<Bytes, ButtonClass>, db: map<Bytes, Columns>): Cell
  {
    if b.data == [] then Plain(b)
    else if GuiToken.ButtonKeyOf(b.data) in classes && b.data in db then
      var c := classes[GuiToken.ButtonKeyOf(b.data)];
      Live(c.name, Revive(c.checkBox, b.text, db[b.data]))
    else PendingCell(b)
  }

  /** Every cell with a token is listed in `RowTokens`. */
  lemma {:induction false} CellInRowTokens(row: seq<InlineButton>, c: nat)
    requires c < |row| && row[c].data != []
    ensures row[c].data in RowTokens(row)
    decreases |row|
  {
    if c < |row| - 1 {
      CellInRowTokens(row[..|row| - 1], c);
    }
  }

  lemma {:induction false} CellInGridTokens(grid: seq<seq<InlineButton>>, r: nat, c: nat)
    requires r < |grid| && c < |grid[r]| && grid[r][c].data != []
    ensures grid[r][c].data in GridTokens(grid)
    decreases |grid|
  {
    if r < |grid| - 1 {
      CellInGridTokens(grid[..|grid| - 1], r, c);
    } else {
      CellInRowTokens(grid[r], c);
    }
  }

  /** A subset is no larger than its superset, and equally large only when
      equal. */
  lemma {:induction false} SubsetSize<T>(a: set<T>, b: set<T>)
    requires a <= b
    ensures |a| <= |b|
    ensures |a| == |b| ==> a == b
    decreases |b|
  {
    if b != {} {
      var x :| x in b;
      SubsetSize(a - {x}, b - {x});
      if x in a {
        assert a == (a - {x}) + {x};
      } else {
        assert a - {x} == a;
      }
    }
  }

  /** No token occurs twice. */
  predicate Distinct(s: seq<Bytes>)
  {
    forall i, j :: 0 <= i < j < |s| ==> s[i] != s[j]
  }

  /** The distinct elements of a sequence are at most as many as its
      elements, and as many exactly when none repeats. */
  lemma {:induction false} DistinctCount(s: seq<Bytes>)
    ensures |set t | t in s| <= |s|
    ensures |set t | t in s| == |s| <==> Distinct(s)
    decreases |s|
  {
    if s != [] {
      var init := s[..|s| - 1];
      var x := s[|s| - 1];
      DistinctCount(init);
      assert (set t | t in s) == (set t | t in init) + {x};
      if x in init {
        assert (set t | t in s) == (set t | t in init);
        var k :| 0 <= k < |init| && init[k] == x;
        assert s[k] == s[|s| - 1];
      } else {
        assert Distinct(s) <==> Distinct(init);
      }
    }
  }

  /** The count check of `reconstruct` passes exactly when no token occurs
      twice and every token has a stored row. */
  lemma {:induction false} CountCheck(grid: seq<seq<InlineButton>>, db: map<Bytes, Columns>)
    ensures |Fetched(grid, db)| <= |GridTokens(grid)|
    ensures |Fetched(grid, db)| == |GridTokens(grid)| <==>
              Distinct(GridTokens(grid)) && forall t :: t in GridTokens(grid) ==> t in db
  {
    var ts := GridTokens(grid);
    var all := set t | t in ts;
    DistinctCount(ts);
    SubsetSize(Fetched(grid, db), all);
    if |Fetched(grid, db)| == |ts| {
      assert Fetched(grid, db) == all;
      assert |all| == |ts|;
      forall t | t in ts
        ensures t in db
      {
        assert t in all;
      }
    }
    if Distinct(ts) && forall t :: t in ts ==> t in db {
      assert Fetched(grid, db) == all;
    }
  }

  // ---------------------------------------------------------------------------
  // Reconstruction: the two passes

  /** What the first pass collects. */
  datatype Collected = Collected(
    cells: Grid,                             // the grid with texts in place of token buttons
    tokens: seq<Bytes>,                      // the tokens met, with repetitions
    positions: map<Bytes, (nat, nat)>)       // `callback_data_position_map`

  /** Cell (i, j) comes before cell (r, c) in row-major order. */
  ghost predicate Before(grid: seq<seq<InlineButton>>, i: int, j: int, r: int, c: int)
  {
    (0 <= i < r && i < |grid| && 0 <= j < |grid[i]|) || (i == r && 0 <= j < c)
  }

  /** Every recorded position holds its token. */
  ghost predicate PositionsHold(grid: seq<seq<InlineButton>>, positions: map<Bytes, (nat, nat)>, r: int, c: int)
  {
    forall t :: t in positions ==>
      Before(grid, positions[t].0, positions[t].1, r, c)
      && positions[t].0 < |grid| && positions[t].1 < |grid[positions[t].0]|
      && grid[positions[t].0][positions[t].1].data == t
  }

  /** Every token met so far is recorded. */
  ghost predicate TokensRecorded(grid: seq<seq<InlineButton>>, positions: map<Bytes, (nat, nat)>, r: int, c: int)
  {
    forall i, j :: 0 <= i < |grid| && 0 <= j < |grid[i]| && Before(grid, i, j, r, c) && grid[i][j].data != [] ==>
      grid[i][j].data in positions
  }

  /** Every token met so far is recorded at its own position: no token has
      been met twice. */
  ghost predicate PositionsExact(grid: seq<seq<InlineButton>>, positions: map<Bytes, (nat, nat)>, r: int, c: int)
  {
    forall i, j :: 0 <= i < |grid| && 0 <= j < |grid[i]| && Before(grid, i, j, r, c) && grid[i][j].data != [] ==>
      grid[i][j].data in positions && positions[grid[i][j].data] == (i, j)
  }

  /** The bookkeeping the first pass keeps up to cell (r, c). */
  ghost predicate Bookkeeping(grid: seq<seq<InlineButton>>, classes: map<Bytes, ButtonClass>, tokens: seq<Bytes>,
                        positions: map<Bytes, (nat, nat)>, r: int, c: int)
  {
    && (forall t :: t in tokens ==> GuiToken.ButtonKeyOf(t) in classes)
    && (forall t :: t in positions <==> t in tokens)
    && PositionsHold(grid, positions, r, c)
    && TokensRecorded(grid, positions, r, c)
    && |positions.Keys| <= |tokens|
    && (|positions.Keys| == |tokens| ==> PositionsExact(grid, positions, r, c))
  }

  /** A token-less cell changes none of the bookkeeping. */
  lemma {:induction false} SkipStep(grid: seq<seq<InlineButton>>, classes: map<Bytes, ButtonClass>, tokens: seq<Bytes>,
                 positions: map<Bytes, (nat, nat)>, r: nat, c: nat)
    requires r < |grid| && c < |grid[r]| && grid[r][c].data == []
    requires Bookkeeping(grid, classes, tokens, positions, r, c)
    ensures Bookkeeping(grid, classes, tokens, positions, r, c + 1)
  {
  }

  /** Recording the token of cell (r, c) keeps the bookkeeping. */
  lemma {:induction false} RecordStep(grid: seq<seq<InlineButton>>, classes: map<Bytes, ButtonClass>, tokens: seq<Bytes>,
                   positions: map<Bytes, (nat, nat)>, r: nat, c: nat)
    requires r < |grid| && c < |grid[r]| && grid[r][c].data != []
    requires GuiToken.ButtonKeyOf(grid[r][c].data) in classes
    requires Bookkeeping(grid, classes, tokens, positions, r, c)
    ensures Bookkeeping(grid, classes, tokens + [grid[r][c].data], positions[grid[r][c].data := (r, c)], r, c + 1)
  {
    var t := grid[r][c].data;
    var p := positions[t := (r, c)];
    var ts := tokens + [t];
    assert forall x :: x in p <==> x in ts;
    assert PositionsHold(grid, p, r, c + 1);
    assert TokensRecorded(grid, p, r, c + 1);
    if t !in positions {
      assert p.Keys == positions.Keys + {t};
      if |p.Keys| == |ts| {
        assert |positions.Keys| == |tokens|;
        ExactStep(grid, positions, r, c);
      }
    } else {
      assert p.Keys == positions.Keys;
    }
  }

  /** A token not met before is recorded at its own position. */
  lemma {:induction false} ExactStep(grid: seq<seq<InlineButton>>, positions: map<Bytes, (nat, nat)>, r: nat, c: nat)
    requires r < |grid| && c < |grid[r]| && grid[r][c].data != [] && grid[r][c].data !in positions
    requires PositionsExact(grid, positions, r, c)
    ensures PositionsExact(grid, positions[grid[r][c].data := (r, c)], r, c + 1)
  {
    var p := positions[grid[r][c].data := (r, c)];
    forall i, j | 0 <= i < |grid| && 0 <= j < |grid[i]| && Before(grid, i, j, r, c + 1) && grid[i][j].data != []
      ensures grid[i][j].data in p && p[grid[i][j].data] == (i, j)
    {
      if Before(grid, i, j, r, c) {
        assert grid[i][j].data in positions;
      }
    }
  }

  /** Extending a row prefix by one cell. */
  lemma {:induction false} RowPrefixStep(row: seq<InlineButton>, c: nat)
    requires c < |row|
    ensures PendingRow(row[..c + 1]) == PendingRow(row[..c]) + [PendingCell(row[c])]
    ensures RowTokens(row[..c + 1]) == RowTokens(row[..c]) + (if row[c].data != [] then [row[c].data] else [])
  {
    assert row[..c + 1][..c] == row[..c];
  }

  /** The end of row r is the start of row r + 1. */
  lemma {:induction false} RowEnd(grid: seq<seq<InlineButton>>, classes: map<Bytes, ButtonClass>, tokens: seq<Bytes>,
               positions: map<Bytes, (nat, nat)>, r: nat)
    requires r < |grid|
    requires Bookkeeping(grid, classes, tokens, positions, r, |grid[r]|)
    ensures Bookkeeping(grid, classes, tokens, positions, r + 1, 0)
  {
    assert forall i, j :: Before(grid, i, j, r, |grid[r]|) <==> Before(grid, i, j, r + 1, 0);
  }

  /** The first pass through row `ri` up to column `ci`. */
  ghost predicate RowSoFar(grid: seq<seq<InlineButton>>, ri: nat, ci: nat, classes: map<Bytes, ButtonClass>,
                           tokens0: seq<Bytes>, row: seq<Cell>, tokens: seq<Bytes>, positions: map<Bytes, (nat, nat)>)
  {
    && ri < |grid| && ci <= |grid[ri]|
    && row == PendingRow(grid[ri][..ci])
    && tokens == tokens0 + RowTokens(grid[ri][..ci])
    && Bookkeeping(grid, classes, tokens, positions, ri, ci)
  }

  /** Passing a token-less cell. */
  lemma {:induction false} RowSkip(grid: seq<seq<InlineButton>>, ri: nat, ci: nat, classes: map<Bytes, ButtonClass>,
                                   tokens0: seq<Bytes>, row: seq<Cell>, tokens: seq<Bytes>, positions: map<Bytes, (nat, nat)>)
    requires RowSoFar(grid, ri, ci, classes, tokens0, row, tokens, positions)
    requires ci < |grid[ri]| && grid[ri][ci].data == []
    ensures RowSoFar(grid, ri, ci + 1, classes, tokens0, row + [Plain(grid[ri][ci])], tokens, positions)
  {
    RowPrefixStep(grid[ri], ci);
    SkipStep(grid, classes, tokens, positions, ri, ci);
  }

  /** Recording a cell's token. */
  lemma {:induction false} RowRecord(grid: seq<seq<InlineButton>>, ri: nat, ci: nat, classes: map<Bytes, ButtonClass>,
                                     tokens0: seq<Bytes>, row: seq<Cell>, tokens: seq<Bytes>, positions: map<Bytes, (nat, nat)>)
    requires RowSoFar(grid, ri, ci, classes, tokens0, row, tokens, positions)
    requires ci < |grid[ri]| && grid[ri][ci].data != [] && GuiToken.ButtonKeyOf(grid[ri][ci].data) in classes
    ensures RowSoFar(grid, ri, ci + 1, classes, tokens0, row + [Pending(grid[ri][ci].text)],
                     tokens + [grid[ri][ci].data], positions[grid[ri][ci].data := (ri, ci)])
  {
    RowPrefixStep(grid[ri], ci);
    RecordStep(grid, classes, tokens, positions, ri, ci);
  }

  /** The end of a row. */
  lemma {:induction false} RowDone(grid: seq<seq<InlineButton>>, ri: nat, classes: map<Bytes, ButtonClass>,
                                   tokens0: seq<Bytes>, row: seq<Cell>, tokens: seq<Bytes>, positions: map<Bytes, (nat, nat)>)
    requires ri < |grid|
    requires RowSoFar(grid, ri, |grid[ri]|, classes, tokens0, row, tokens, positions)
    ensures row == PendingRow(grid[ri])
    ensures tokens == tokens0 + RowTokens(grid[ri])
    ensures Bookkeeping(grid, classes, tokens, positions, ri + 1, 0)
  {
    assert grid[ri][..|grid[ri]|] == grid[ri];
    RowEnd(grid, classes, tokens, positions, ri);
  }

  /** Row `ri` of the first pass. */
  method CollectRow(grid: seq<seq<InlineButton>>, ri: nat, classes: map<Bytes, ButtonClass>,
                    tokens0: seq<Bytes>, positions0: map<Bytes, (nat, nat)>)
    returns (ok: bool, row: seq<Cell>, tokens: seq<Bytes>, positions: map<Bytes, (nat, nat)>)
    requires ri < |grid|
    requires Bookkeeping(grid, classes, tokens0, positions0, ri, 0)
    ensures !ok ==> exists j :: 0 <= j < |grid[ri]| && grid[ri][j].data != [] && GuiToken.ButtonKeyOf(grid[ri][j].data) !in classes
    ensures ok ==> row == PendingRow(grid[ri])
    ensures ok ==> tokens == tokens0 + RowTokens(grid[ri])
    ensures ok ==> Bookkeeping(grid, classes, tokens, positions, ri + 1, 0)
  {
    row, tokens, positions := [], tokens0, positions0;
    var ci := 0;
    assert grid[ri][..0] == [];
    while ci < |grid[ri]|
      invariant ci <= |grid[ri]|
      invariant RowSoFar(grid, ri, ci, classes, tokens0, row, tokens, positions)
    {
      var b := grid[ri][ci];
      if b.data == [] {
        RowSkip(grid, ri, ci, classes, tokens0, row, tokens, positions);
        row := row + [Plain(b)];
      } else {
        if GuiToken.ButtonKeyOf(b.data) !in classes {
          return false, row, tokens, positions;
        }
        RowRecord(grid, ri, ci, classes, tokens0, row, tokens, positions);
        row, tokens, positions := row + [Pending(b.text)], tokens + [b.data], positions[b.data := (ri, ci)];
      }
      ci := ci + 1;
    }
    RowDone(grid, ri, classes, tokens0, row, tokens, positions);
    ok := true;
  }

  /** The first pass of `reconstruct`: keeps token-less buttons, puts each
      token button's text in its place and records its position; stops at the
      first token whose class is not registered. */
  method CollectCells(grid: seq<seq<InlineButton>>, classes: map<Bytes, ButtonClass>)
    returns (r: Result<Collected, KeyboardError>)
    ensures r.Err? <==> !Registered(grid, classes)
    ensures r.Err? ==> r.error == ButtonClassNotFound
    ensures r.Ok? ==> var k := r.value;
      && k.cells == PendingGrid(grid)
      && k.tokens == GridTokens(grid)
      && Bookkeeping(grid, classes, k.tokens, k.positions, |grid|, 0)
  {
    var cells: Grid := [];
    var tokens: seq<Bytes> := [];
    var positions: map<Bytes, (nat, nat)> := map[];
    var ri := 0;
    while ri < |grid|
      invariant 0 <= ri <= |grid|
      invariant cells == PendingGrid(grid[..ri])
      invariant tokens == GridTokens(grid[..ri])
      invariant Bookkeeping(grid, classes, tokens, positions, ri, 0)
    {
      var ok, row, tokens', positions' := CollectRow(grid, ri, classes, tokens, positions);
      if !ok {
        var j :| 0 <= j < |grid[ri]| && grid[ri][j].data != [] && GuiToken.ButtonKeyOf(grid[ri][j].data) !in classes;
        CellInGridTokens(grid, ri, j);
        return Err(ButtonClassNotFound);
      }
      GridPrefixStep(grid, ri);
      cells, tokens, positions := cells + [row], tokens', positions';
      ri := ri + 1;
    }
    assert grid[..ri] == grid;
    return Ok(Collected(cells, tokens, positions));
  }

  /** Extending a grid prefix by one row. */
  lemma {:induction false} GridPrefixStep(grid: seq<seq<InlineButton>>, r: nat)
    requires r < |grid|
    ensures PendingGrid(grid[..r + 1]) == PendingGrid(grid[..r]) + [PendingRow(grid[r])]
    ensures GridTokens(grid[..r + 1]) == GridTokens(grid[..r]) + RowTokens(grid[r])
  {
    assert grid[..r + 1][..r] == grid[..r];
  }

  lemma {:induction false} PrefixSnoc<T>(s: seq<T>, n: nat)
    requires n < |s|
    ensures s[..n + 1] == s[..n] + [s[n]]
  {
  }

  /** The grid with cell (r, c) replaced. */
  function SetCell(g: Grid, r: nat, c: nat, x: Cell): (h: Grid)
    requires r < |g| && c < |g[r]|
    ensures |h| == |g| && forall i :: 0 <= i < |g| ==> |h[i]| == |g[i]|
    ensures forall i, j :: 0 <= i < |g| && 0 <= j < |g[i]| ==> h[i][j] == if i == r && j == c then x else g[i][j]
  {
    g[r := g[r][c := x]]
  }

  /** After the rows of the tokens in `done` were placed: those cells are
      revived, the others are as the first pass left them. */
  ghost predicate FilledFor(grid: seq<seq<InlineButton>>, cells: Grid, done: seq<Bytes>,
                            classes: map<Bytes, ButtonClass>, db: map<Bytes, Columns>)
  {
    && |cells| == |grid| && (forall i :: 0 <= i < |grid| ==> |cells[i]| == |grid[i]|)
    && forall i, j :: 0 <= i < |grid| && 0 <= j < |grid[i]| ==>
         cells[i][j] == if grid[i][j].data in done then RevivedCell(grid[i][j], classes, db)
                        else PendingCell(grid[i][j])
  }

  /** Placing the row of token `t` at its recorded position revives exactly
      the cells holding `t`, since a token sits at one position only. */
  lemma {:induction false} FillStep(grid: seq<seq<InlineButton>>, cells: Grid, done: seq<Bytes>, classes: map<Bytes, ButtonClass>,
                 db: map<Bytes, Columns>, positions: map<Bytes, (nat, nat)>, t: Bytes)
    requires FilledFor(grid, cells, done, classes, db)
    requires t in positions
    requires PositionsHold(grid, positions, |grid|, 0)
    requires PositionsExact(grid, positions, |grid|, 0)
    ensures positions[t].0 < |cells| && positions[t].1 < |cells[positions[t].0]|
    ensures FilledFor(grid, SetCell(cells, positions[t].0, positions[t].1,
                                    RevivedCell(grid[positions[t].0][positions[t].1], classes, db)),
                      done + [t], classes, db)
  {
    var (ri, ci) := positions[t];
    var h := SetCell(cells, ri, ci, RevivedCell(grid[ri][ci], classes, db));
    forall i, j | 0 <= i < |grid| && 0 <= j < |grid[i]|
      ensures h[i][j] == if grid[i][j].data in done + [t] then RevivedCell(grid[i][j], classes, db)
                         else PendingCell(grid[i][j])
    {
      if grid[i][j].data == t {
        assert Before(grid, i, j, |grid|, 0);
      }
    }
  }

  /** The second pass: each token's row, fetched from the database, replaces
      the text at the token's position. Rows are taken in the order their
      tokens were met; every write hits a different cell, so the order does not
      matter. */
  method FillCells(grid: seq<seq<InlineButton>>, k: Collected, classes: map<Bytes, ButtonClass>,
                   db: map<Bytes, Columns>) returns (cells: Grid)
    requires k.cells == PendingGrid(grid)
    requires forall t :: t in k.tokens ==> GuiToken.ButtonKeyOf(t) in classes && t in db
    requires forall t :: t in k.positions <==> t in k.tokens
    requires PositionsHold(grid, k.positions, |grid|, 0)
    requires PositionsExact(grid, k.positions, |grid|, 0)
    ensures |cells| == |grid| && forall i :: 0 <= i < |grid| ==> |cells[i]| == |grid[i]|
    ensures forall i, j :: 0 <= i < |grid| && 0 <= j < |grid[i]| ==> cells[i][j] == RevivedCell(grid[i][j], classes, db)
  {
    cells := k.cells;
    var n := 0;
    assert FilledFor(grid, cells, k.tokens[..0], classes, db);
    while n < |k.tokens|
      invariant 0 <= n <= |k.tokens|
      invariant FilledFor(grid, cells, k.tokens[..n], classes, db)
    {
      var t := k.tokens[n];
      FillStep(grid, cells, k.tokens[..n], classes, db, k.positions, t);
      var (ri, ci) := k.positions[t];
      cells := SetCell(cells, ri, ci, RevivedCell(grid[ri][ci], classes, db));
      PrefixSnoc(k.tokens, n);
      n := n + 1;
    }
    assert k.tokens[..n] == k.tokens;
    forall i, j | 0 <= i < |grid| && 0 <= j < |grid[i]| && grid[i][j].data != []
      ensures grid[i][j].data in k.tokens
    {
      assert grid[i][j].data in k.positions;
    }
  }

  /** When as many rows come back as there are token buttons, no token was
      met twice and every token has a row. */
  lemma {:induction false} AllFetched(grid: seq<seq<InlineButton>>, classes: map<Bytes, ButtonClass>, db: map<Bytes, Columns>, k: Collected)
    requires Bookkeeping(grid, classes, k.tokens, k.positions, |grid|, 0)
    requires |set t | t in k.positions.Keys && t in db| == |k.tokens|
    ensures forall t :: t in k.tokens ==> t in db
    ensures PositionsExact(grid, k.positions, |grid|, 0)
    ensures Revivable(grid, classes, db)
  {
    var fetched := set t | t in k.positions.Keys && t in db;
    SubsetSize(fetched, k.positions.Keys);
    assert k.positions.Keys == fetched;
  }

  // ---------------------------------------------------------------------------
  // Snapshots: `save` and `restore`

  /** A `PyrogramButton` row: the button as the message shows it, whether it
      ends its row, and the tab and window it belongs to. */
  datatype Snapshot = Snapshot(button: InlineButton, rightButton: bool, tabIndex: int, windowId: int)

  /** The token stored in a button's row; a row without one gives none. */
  function TokenOf(row: Columns): (t: Bytes)
    ensures Get(row, "callback_data").Data? ==> t == Get(row, "callback_data").bytes
    ensures !Get(row, "callback_data").Data? ==> t == []
  {
    match Get(row, "callback_data")
    case Data(d) => d
    case _ => []
  }

  /** The button a saved cell shows: a pyrogram button as it is, a live
      button as its text and the token of its row. */
  function ShownCell(c: Cell): (b: InlineButton)
    requires !c.Pending?
    ensures c.Plain? ==> b == c.inline
    ensures c.Live? ==> b.text == c.button.text && b.data == TokenOf(c.button.row)
  {
    match c
    case Plain(b) => b
    case Live(_, b) => InlineButton(b.text, TokenOf(b.row))
  }

  /** No cell of the row is still a bare text. */
  predicate RowReady(row: seq<Cell>)
  {
    forall j :: 0 <= j < |row| ==> !row[j].Pending?
  }

  /** No cell is still a bare text. */
  predicate NoPending(g: Grid)
  {
    forall i :: 0 <= i < |g| ==> RowReady(g[i])
  }

  /** The buttons of a row as saved. */
  function ShownRow(row: seq<Cell>): (r: seq<InlineButton>)
    requires RowReady(row)
    ensures |r| == |row| && forall j :: 0 <= j < |row| ==> r[j] == ShownCell(row[j])
    decreases |row|
  {
    if row == [] then [] else ShownRow(row[..|row| - 1]) + [ShownCell(row[|row| - 1])]
  }

  /** The rows a saved grid comes back as: empty rows leave no trace. */
  function ShownRows(g: Grid): (r: seq<seq<InlineButton>>)
    requires NoPending(g)
    ensures |r| <= |g|
    ensures forall i :: 0 <= i < |r| ==> r[i] != []
    decreases |g|
  {
    if g == [] then []
    else
      var init := ShownRows(g[..|g| - 1]);
      if g[|g| - 1] == [] then init else init + [ShownRow(g[|g| - 1])]
  }

  /** Snapshots of cells none of which ends its row. */
  function SnapCells(cells: seq<Cell>, tabIndex: int, windowId: int): (r: seq<Snapshot>)
    requires RowReady(cells)
    ensures |r| == |cells|
    ensures forall k :: 0 <= k < |r| ==> r[k].tabIndex == tabIndex && r[k].windowId == windowId
    decreases |cells|
  {
    if cells == [] then []
    else SnapCells(cells[..|cells| - 1], tabIndex, windowId)
         + [Snapshot(ShownCell(cells[|cells| - 1]), false, tabIndex, windowId)]
  }

  /** The snapshots of one row: only the last one is marked as ending it. */
  function SnapRow(row: seq<Cell>, tabIndex: int, windowId: int): (r: seq<Snapshot>)
    requires RowReady(row)
    ensures |r| == |row|
    ensures forall k :: 0 <= k < |r| ==> r[k].tabIndex == tabIndex && r[k].windowId == windowId
  {
    if row == [] then []
    else SnapCells(row[..|row| - 1], tabIndex, windowId)
         + [Snapshot(ShownCell(row[|row| - 1]), true, tabIndex, windowId)]
  }

  /** The snapshots `save` adds, row by row. */
  function SnapGrid(g: Grid, tabIndex: int, windowId: int): (r: seq<Snapshot>)
    requires NoPending(g)
    ensures forall k :: 0 <= k < |r| ==> r[k].tabIndex == tabIndex && r[k].windowId == windowId
    decreases |g|
  {
    if g == [] then []
    else SnapGrid(g[..|g| - 1], tabIndex, windowId) + SnapRow(g[|g| - 1], tabIndex, windowId)
  }

  /** `restore`'s regrouping of the snapshots: rows are closed after each one
      marked as ending its row, starting from one open empty row. */
  function RestoreRows(snaps: seq<Snapshot>): (rows: seq<seq<InlineButton>>)
    ensures |rows| >= 1
    decreases |snaps|
  {
    if snaps == [] then [[]]
    else
      var rows := RestoreRows(snaps[..|snaps| - 1]);
      var x := snaps[|snaps| - 1];
      var grown := rows[..|rows| - 1] + [rows[|rows| - 1] + [x.button]];
      if x.rightButton then grown + [[]] else grown
  }

  lemma {:induction false} RestoreCells(s: seq<Snapshot>, p: seq<seq<InlineButton>>, cells: seq<Cell>, tabIndex: int, windowId: int)
    requires RowReady(cells)
    requires RestoreRows(s) == p + [[]]
    ensures RestoreRows(s + SnapCells(cells, tabIndex, windowId)) == p + [ShownRow(cells)]
    decreases |cells|
  {
    if cells == [] {
      assert s + SnapCells(cells, tabIndex, windowId) == s;
    } else {
      var init := cells[..|cells| - 1];
      var x := Snapshot(ShownCell(cells[|cells| - 1]), false, tabIndex, windowId);
      RestoreCells(s, p, init, tabIndex, windowId);
      var t := s + SnapCells(init, tabIndex, windowId);
      assert s + SnapCells(cells, tabIndex, windowId) == t + [x];
      assert (t + [x])[..|t + [x]| - 1] == t;
    }
  }

  lemma {:induction false} RestoreRow(s: seq<Snapshot>, p: seq<seq<InlineButton>>, row: seq<Cell>, tabIndex: int, windowId: int)
    requires RowReady(row)
    requires row != []
    requires RestoreRows(s) == p + [[]]
    ensures RestoreRows(s + SnapRow(row, tabIndex, windowId)) == p + [ShownRow(row)] + [[]]
  {
    var init := row[..|row| - 1];
    var x := Snapshot(ShownCell(row[|row| - 1]), true, tabIndex, windowId);
    RestoreCells(s, p, init, tabIndex, windowId);
    var t := s + SnapCells(init, tabIndex, windowId);
    assert s + SnapRow(row, tabIndex, windowId) == t + [x];
    assert (t + [x])[..|t + [x]| - 1] == t;
  }

  /** Restoring what `save` stored gives back the buttons row by row, with
      the empty rows dropped and an empty row added at the end. */
  lemma {:induction false} SaveRestore(g: Grid, tabIndex: int, windowId: int)
    requires NoPending(g)
    ensures RestoreRows(SnapGrid(g, tabIndex, windowId)) == ShownRows(g) + [[]]
    decreases |g|
  {
    if g != [] {
      var init := g[..|g| - 1];
      var row := g[|g| - 1];
      SaveRestore(init, tabIndex, windowId);
      if row == [] {
        assert SnapGrid(g, tabIndex, windowId) == SnapGrid(init, tabIndex, windowId);
      } else {
        RestoreRow(SnapGrid(init, tabIndex, windowId), ShownRows(init), row, tabIndex, windowId);
      }
    }
  }

  /** Whether a stored snapshot belongs to tab `tabIndex` of window `windowId`. */
  predicate OfTab(s: Snapshot, windowId: int, tabIndex: int)
  {
    s.windowId == windowId && s.tabIndex == tabIndex
  }

  /** The rows `restore` selects from the table: those of one tab of one
      window, in table order. */
  function TabSnapshots(table: seq<Snapshot>, windowId: int, tabIndex: int): (r: seq<Snapshot>)
    ensures forall s :: s in r <==> s in table && OfTab(s, windowId, tabIndex)
    decreases |table|
  {
    if table == [] then []
    else
      var init := TabSnapshots(table[..|table| - 1], windowId, tabIndex);
      var s := table[|table| - 1];
      assert table == table[..|table| - 1] + [s];
      if OfTab(s, windowId, tabIndex) then init + [s] else init
  }

  /** The table once `restore` has deleted every row it selected. */
  function OtherSnapshots(table: seq<Snapshot>, windowId: int, tabIndex: int): (r: seq<Snapshot>)
    ensures forall s :: s in r <==> s in table && !OfTab(s, windowId, tabIndex)
    decreases |table|
  {
    if table == [] then []
    else
      var init := OtherSnapshots(table[..|table| - 1], windowId, tabIndex);
      var s := table[|table| - 1];
      assert table == table[..|table| - 1] + [s];
      if OfTab(s, windowId, tabIndex) then init else init + [s]
  }

  /** Every row of the table is either selected or left, and none is lost
      or duplicated. */
  lemma {:induction false} SnapshotsSplit(table: seq<Snapshot>, windowId: int, tabIndex: int)
    ensures multiset(TabSnapshots(table, windowId, tabIndex)) + multiset(OtherSnapshots(table, windowId, tabIndex)) == multiset(table)
    decreases |table|
  {
    if table != [] {
      var init := table[..|table| - 1];
      SnapshotsSplit(init, windowId, tabIndex);
      assert table == init + [table[|table| - 1]];
    }
  }

  /** Selecting from two stretches of the table one after the other. */
  lemma {:induction false} SnapshotsAppend(a: seq<Snapshot>, b: seq<Snapshot>, windowId: int, tabIndex: int)
    ensures TabSnapshots(a + b, windowId, tabIndex) == TabSnapshots(a, windowId, tabIndex) + TabSnapshots(b, windowId, tabIndex)
    decreases |b|
  {
    if b == [] {
      assert a + b == a;
    } else {
      var init := b[..|b| - 1];
      var x := b[|b| - 1];
      SnapshotsAppend(a, init, windowId, tabIndex);
      assert (a + b)[..|a + b| - 1] == a + init;
      assert (a + b)[|a + b| - 1] == x;
      var ta := TabSnapshots(a, windowId, tabIndex);
      var ti := TabSnapshots(init, windowId, tabIndex);
      if OfTab(x, windowId, tabIndex) {
        assert TabSnapshots(a + b, windowId, tabIndex) == (ta + ti) + [x];
        assert TabSnapshots(b, windowId, tabIndex) == ti + [x];
      } else {
        assert TabSnapshots(a + b, windowId, tabIndex) == ta + ti;
        assert TabSnapshots(b, windowId, tabIndex) == ti;
      }
    }
  }

  /** Deleting from two stretches of the table one after the other. */
  lemma {:induction false} OthersAppend(a: seq<Snapshot>, b: seq<Snapshot>, windowId: int, tabIndex: int)
    ensures OtherSnapshots(a + b, windowId, tabIndex) == OtherSnapshots(a, windowId, tabIndex) + OtherSnapshots(b, windowId, tabIndex)
    decreases |b|
  {
    if b == [] {
      assert a + b == a;
    } else {
      var init := b[..|b| - 1];
      var x := b[|b| - 1];
      OthersAppend(a, init, windowId, tabIndex);
      assert (a + b)[..|a + b| - 1] == a + init;
      assert (a + b)[|a + b| - 1] == x;
      var oa := OtherSnapshots(a, windowId, tabIndex);
      var oi := OtherSnapshots(init, windowId, tabIndex);
      if OfTab(x, windowId, tabIndex) {
        assert OtherSnapshots(a + b, windowId, tabIndex) == oa + oi;
        assert OtherSnapshots(b, windowId, tabIndex) == oi;
      } else {
        assert OtherSnapshots(a + b, windowId, tabIndex) == (oa + oi) + [x];
        assert OtherSnapshots(b, windowId, tabIndex) == oi + [x];
      }
    }
  }

  /** A stretch of rows all of one tab is selected whole and leaves nothing. */
  lemma {:induction false} SnapshotsOneTab(s: seq<Snapshot>, windowId: int, tabIndex: int)
    requires forall k :: 0 <= k < |s| ==> s[k].tabIndex == tabIndex && s[k].windowId == windowId
    ensures TabSnapshots(s, windowId, tabIndex) == s
    ensures OtherSnapshots(s, windowId, tabIndex) == []
    decreases |s|
  {
    if s != [] {
      SnapshotsOneTab(s[..|s| - 1], windowId, tabIndex);
    }
  }

  /** Saving a keyboard to a table holding no rows of its tab, then
      restoring that tab: the shown rows come back (empty rows dropped, one
      empty row added) and the table is as it was before the save. */
  lemma {:induction false} SavedTabRestored(table: seq<Snapshot>, g: Grid, tabIndex: int, windowId: int)
    requires NoPending(g)
    requires forall s :: s in table ==> !OfTab(s, windowId, tabIndex)
    ensures RestoreRows(TabSnapshots(table + SnapGrid(g, tabIndex, windowId), windowId, tabIndex)) == ShownRows(g) + [[]]
    ensures OtherSnapshots(table + SnapGrid(g, tabIndex, windowId), windowId, tabIndex) == table
  {
    var saved := SnapGrid(g, tabIndex, windowId);
    SnapshotsAppend(table, saved, windowId, tabIndex);
    OthersAppend(table, saved, windowId, tabIndex);
    SnapshotsOneTab(saved, windowId, tabIndex);
    SnapshotsNone(table, windowId, tabIndex);
    assert TabSnapshots(table + saved, windowId, tabIndex) == saved;
    SaveRestore(g, tabIndex, windowId);
  }

  /** A table with no rows of the tab selects nothing and keeps everything. */
  lemma {:induction false} SnapshotsNone(table: seq<Snapshot>, windowId: int, tabIndex: int)
    requires forall s :: s in table ==> !OfTab(s, windowId, tabIndex)
    ensures TabSnapshots(table, windowId, tabIndex) == []
    ensures OtherSnapshots(table, windowId, tabIndex) == table
    decreases |table|
  {
    if table != [] {
      var init := table[..|table| - 1];
      assert forall s :: s in init ==> s in table;
      SnapshotsNone(init, windowId, tabIndex);
      assert table == init + [table[|table| - 1]];
    }
  }

  /** Saving one more row. */
  lemma {:induction false} SnapGridStep(g: Grid, ri: nat, tabIndex: int, windowId: int)
    requires ri < |g| && NoPending(g[..ri]) && RowReady(g[ri])
    ensures NoPending(g[..ri + 1])
    ensures SnapGrid(g[..ri + 1], tabIndex, windowId) == SnapGrid(g[..ri], tabIndex, windowId) + SnapRow(g[ri], tabIndex, windowId)
  {
    assert g[..ri + 1][..ri] == g[..ri];
  }

  method SaveRow(row: seq<Cell>, tabIndex: int, windowId: int) returns (r: Option<seq<Snapshot>>)
    ensures r.None? <==> !RowReady(row)
    ensures r.Some? ==> RowReady(row) && r.value == SnapRow(row, tabIndex, windowId)
  {
    var snaps: seq<Snapshot> := [];
    var ci := 0;
    while ci < |row|
      invariant 0 <= ci <= |row|
      invariant RowReady(row[..ci])
      invariant ci < |row| ==> snaps == SnapCells(row[..ci], tabIndex, windowId)
      invariant ci == |row| ==> snaps == SnapRow(row, tabIndex, windowId)
    {
      if row[ci].Pending? {
        return None;
      }
      assert row[..ci + 1][..ci] == row[..ci];
      snaps := snaps + [Snapshot(ShownCell(row[ci]), ci == |row| - 1, tabIndex, windowId)];
      ci := ci + 1;
    }
    assert row[..ci] == row;
    r := Some(snaps);
  }

  /** The loop of `BaseKeyboard.restore`: the stored buttons regrouped into
      rows. */
  method RegroupSnapshots(snaps: seq<Snapshot>) returns (rows: seq<seq<InlineButton>>)
    ensures rows == RestoreRows(snaps)
  {
    rows := [[]];
    var n := 0;
    while n < |snaps|
      invariant 0 <= n <= |snaps|
      invariant rows == RestoreRows(snaps[..n])
    {
      assert snaps[..n + 1][..n] == snaps[..n];
      var x := snaps[n];
      rows := rows[..|rows| - 1] + [rows[|rows| - 1] + [x.button]];
      if x.rightButton {
        rows := rows + [[]];
      }
      n := n + 1;
    }
    assert snaps[..n] == snaps;
  }

  // ---------------------------------------------------------------------------
  // Activation

  /** Where `handle_button_activation`'s search stops. */
  datatype Pressed =
    | Found(row: nat, col: nat)       // the button to activate
    | NotAButton(row: nat, col: nat)  // a cell without `row` (AttributeError)
    | NoneMatched                     // the search ends without activating

  /** Every cell before (r, c) is a button whose stored token differs from
      `data`. */
  ghost predicate Misses(g: Grid, data: Bytes, r: int, c: int)
  {
    forall i, j :: 0 <= i < |g| && 0 <= j < |g[i]| && (i < r || (i == r && j < c)) ==>
      g[i][j].Live? && Get(g[i][j].button.row, "callback_data") != Data(data)
  }

  /** The outcome of `reconstruct` from `grid` on a fresh keyboard: it fails
      when a token's class is not registered, or when the number of rows
      fetched for the tokens differs from the number of token buttons;
      otherwise every token button is rebuilt in its place from its row, and
      every other button is kept. */
  ghost predicate Rebuilt(grid: seq<seq<InlineButton>>, classes: map<Bytes, ButtonClass>, db: map<Bytes, Columns>,
                          buttons: Grid, r: Result<(), KeyboardError>)
  {
    && (!Registered(grid, classes) ==> r == Err(ButtonClassNotFound))
    && (Registered(grid, classes) && |Fetched(grid, db)| != |GridTokens(grid)| ==>
          r == Err(CountMismatch(|Fetched(grid, db)|, |GridTokens(grid)|)))
    && (Registered(grid, classes) && |Fetched(grid, db)| == |GridTokens(grid)| ==>
          && r == Ok(())
          && (forall t :: t in GridTokens(grid) ==> t in db)
          && Revivable(grid, classes, db)
          && |buttons| == |grid| && (forall i :: 0 <= i < |grid| ==> |buttons[i]| == |grid[i]|)
          && (forall i, j :: 0 <= i < |grid| && 0 <= j < |grid[i]| ==>
                buttons[i][j] == RevivedCell(grid[i][j], classes, db)))
  }

  /** The successful end of `reconstruct`. */
  lemma {:induction false} RebuiltOk(grid: seq<seq<InlineButton>>, classes: map<Bytes, ButtonClass>, db: map<Bytes, Columns>,
                                     buttons: Grid)
    requires Registered(grid, classes) && |Fetched(grid, db)| == |GridTokens(grid)|
    requires forall t :: t in GridTokens(grid) ==> t in db
    requires Revivable(grid, classes, db)
    requires |buttons| == |grid| && forall i :: 0 <= i < |grid| ==> |buttons[i]| == |grid[i]|
    requires forall i, j :: 0 <= i < |grid| && 0 <= j < |grid[i]| ==> buttons[i][j] == RevivedCell(grid[i][j], classes, db)
    ensures Rebuilt(grid, classes, db, buttons, Ok(()))
  {
  }

  class Keyboard {
    var buttons: Grid

    constructor ()
      ensures buttons == []
    {
      buttons := [];
    }

    /** `add_row`. */
    method AddRow(row: seq<Cell>)
      modifies this
      ensures buttons == old(buttons) + [row]
    {
      buttons := buttons + [row];
    }

    /** `BaseKeyboard.add_button`: appends to the last row, opening one when
        there is none. */
    method AddButton(b: Cell)
      modifies this
      ensures old(buttons) == [] ==> buttons == [[b]]
      ensures old(buttons) != [] ==>
                buttons == old(buttons)[..|old(buttons)| - 1] + [old(buttons)[|old(buttons)| - 1] + [b]]
    {
      if buttons == [] {
        AddRow([]);
      }
      var last := buttons[|buttons| - 1];
      assert old(buttons) == [] ==> last == [] && buttons[..|buttons| - 1] == [] && last + [b] == [b];
      buttons := buttons[..|buttons| - 1] + [last + [b]];
    }

    /** `BaseKeyboard.handle_button_activation`: the first cell, in row-major
        order, whose row stores the pressed token; the search breaks on the
        first cell that is not a button object. */
    method FindPressed(data: Bytes) returns (r: Pressed)
      ensures r.Found? ==>
                && r.row < |buttons| && r.col < |buttons[r.row]|
                && buttons[r.row][r.col].Live?
                && Get(buttons[r.row][r.col].button.row, "callback_data") == Data(data)
                && Misses(buttons, data, r.row, r.col)
      ensures r.NotAButton? ==>
                && r.row < |buttons| && r.col < |buttons[r.row]|
                && !buttons[r.row][r.col].Live?
                && Misses(buttons, data, r.row, r.col)
      ensures r.NoneMatched? ==> Misses(buttons, data, |buttons|, 0)
    {
      var ri := 0;
      while ri < |buttons|
        invariant 0 <= ri <= |buttons|
        invariant Misses(buttons, data, ri, 0)
      {
        var ci := 0;
        while ci < |buttons[ri]|
          invariant 0 <= ci <= |buttons[ri]|
          invariant Misses(buttons, data, ri, ci)
        {
          var cell := buttons[ri][ci];
          if !cell.Live? {
            return NotAButton(ri, ci);
          }
          if Get(cell.button.row, "callback_data") == Data(data) {
            return Found(ri, ci);
          }
          ci := ci + 1;
        }
        ri := ri + 1;
      }
      r := NoneMatched;
    }

    /** `BaseKeyboard.save`: one snapshot per cell, row by row, the last of
        each row marked; a cell that is still a bare text has no `text`
        attribute to save. */
    method Save(tabIndex: int, windowId: int) returns (r: Result<seq<Snapshot>, ButtonError>)
      ensures r.Err? <==> !NoPending(buttons)
      ensures r.Ok? ==> NoPending(buttons) && r.value == SnapGrid(buttons, tabIndex, windowId)
    {
      var snaps: seq<Snapshot> := [];
      var ri := 0;
      while ri < |buttons|
        invariant 0 <= ri <= |buttons|
        invariant NoPending(buttons[..ri])
        invariant snaps == SnapGrid(buttons[..ri], tabIndex, windowId)
      {
        var rowSnaps := SaveRow(buttons[ri], tabIndex, windowId);
        if rowSnaps.None? {
          assert !RowReady(buttons[ri]);
          return Err(AttributeError("text"));
        }
        SnapGridStep(buttons, ri, tabIndex, windowId);
        snaps := snaps + rowSnaps.value;
        ri := ri + 1;
      }
      assert buttons[..ri] == buttons;
      r := Ok(snaps);
    }

    /** `BaseKeyboard.reconstruct` on a fresh keyboard. */
    method Reconstruct(grid: seq<seq<InlineButton>>, classes: map<Bytes, ButtonClass>, db: map<Bytes, Columns>)
      returns (r: Result<(), KeyboardError>)
      requires buttons == []
      modifies this
      ensures Rebuilt(grid, classes, db, buttons, r)
    {
      var c := CollectCells(grid, classes);
      if c.Err? {
        return Err(c.error);
      }
      var k := c.value;
      buttons := k.cells;
      var fetched := set t | t in k.positions.Keys && t in db;
      assert fetched == Fetched(grid, db);
      if |fetched| != |k.tokens| {
        return Err(CountMismatch(|fetched|, |k.tokens|));
      }
      AllFetched(grid, classes, db, k);
      buttons := FillCells(grid, k, classes, db);
      RebuiltOk(grid, classes, db, buttons);
      r := Ok(());
    }

    /** `BaseKeyboard.restore` on a fresh keyboard, over the stored
        `table`: the rows of tab `tabIndex` of window `windowId`, in table
        order, are regrouped into rows and reconstructed, and each of them
        is deleted from the table, which comes back as `rest`. */
    method Restore(table: seq<Snapshot>, windowId: int, tabIndex: int, classes: map<Bytes, ButtonClass>, db: map<Bytes, Columns>)
      returns (r: Result<(), KeyboardError>, rest: seq<Snapshot>)
      requires buttons == []
      modifies this
      ensures Rebuilt(RestoreRows(TabSnapshots(table, windowId, tabIndex)), classes, db, buttons, r)
      ensures rest == OtherSnapshots(table, windowId, tabIndex)
    {
      var snaps := TabSnapshots(table, windowId, tabIndex);
      rest := OtherSnapshots(table, windowId, tabIndex);
      var rows := RegroupSnapshots(snaps);
      r := Reconstruct(rows, classes, db);
    }
  }
}

=== FILE: gui_tabs.dfy ===
/** The tab mixins of tgbot/gui/tabs/mixins.py: the paginator, which lays out
    page buttons around the current page, and the date and time selector,
    whose buttons step a moment in time. Buttons are recorded by their caption,
    name, the tab method they call and its argument. */
module GuiTabs {
  import opened Common

  /** A `SimpleButton` of a tab. */
  datatype TabButton = TabButton(caption: string, name: string, callback: string, arg: Option<int>)

  // ---------------------------------------------------------------------------
  // Paginator: page labels

  /** Python's `range(a, b)`. */
  function Range(a: int, b: int): (r: seq<int>)
    ensures |r| == if b <= a then 0 else b - a
    ensures forall k :: 0 <= k < |r| ==> r[k] == a + k
    decreases b - a
  {
    if b <= a then [] else Range(a, b - 1) + [b - 1]
  }

  function Min(a: int, b: int): int { if a <= b then a else b }

  /** The pages the forward row offers from `page`: the next page, the two
      after it while they come before the last page, and the last page. */
  function ForwardLabels(page: int, total: Option<int>): seq<int>
  {
    [page + 1]
    + if total.None? then []
      else Range(page + 2, page + Min(4, total.value - page))
           + (if page + 1 < total.value then [total.value] else [])
  }

  /** The pages the backward row offers from `page`: the first page, up to two
      pages before the previous one, and the previous page. */
  function BackwardLabels(page: int): seq<int>
  {
    (if page > 2 then [1] else []) + Range(Max(2, page - 3), page - 1) + [page - 1]
  }

  predicate StrictlyIncreasing(s: seq<int>)
  {
    forall i, j :: 0 <= i < j < |s| ==> s[i] < s[j]
  }

  /** Before the last page the forward row starts at the next page, ends at
      the last page, increases strictly, has at most four labels, never
      offers the current page, and offers every page up to three ahead. */
  lemma {:induction false} ForwardShape(page: int, total: int)
    requires 1 <= page < total
    ensures var s := ForwardLabels(page, Some(total));
            && StrictlyIncreasing(s)
            && 1 <= |s| <= 4
            && s[0] == page + 1 && s[|s| - 1] == total
            && (forall q :: q in s ==> page < q <= total && (q <= page + 3 || q == total))
            && (forall q :: page < q <= page + 3 && q <= total ==> q in s)
  {
    var s := ForwardLabels(page, Some(total));
    var mid := Range(page + 2, page + Min(4, total - page));
    assert s == [page + 1] + mid + (if page + 1 < total then [total] else []);
    forall q | page < q <= page + 3 && q <= total
      ensures q in s
    {
      if q == page + 1 {
        assert s[0] == q;
      } else if q == total {
        assert s[|s| - 1] == q;
      } else {
        assert mid[q - page - 2] == q;
      }
    }
  }

  /** With the total unknown the forward row offers the next page only. */
  lemma {:induction false} ForwardUnknownTotal(page: int)
    ensures ForwardLabels(page, None) == [page + 1]
  {
  }

  /** Past the first page the backward row ends at the previous page, starts
      at page 1, increases strictly, has at most four labels, never offers the
      current page, and offers every page down to three back. */
  lemma {:induction false} BackwardShape(page: int)
    requires page >= 2
    ensures var s := BackwardLabels(page);
            && StrictlyIncreasing(s)
            && 1 <= |s| <= 4
            && s[0] == 1 && s[|s| - 1] == page - 1
            && (forall q :: q in s ==> 1 <= q < page && (q == 1 || q >= page - 3))
            && (forall q :: page - 3 <= q < page && q >= 1 ==> q in s)
  {
    var s := BackwardLabels(page);
    var head: seq<int> := if page > 2 then [1] else [];
    var mid := Range(Max(2, page - 3), page - 1);
    assert s == head + mid + [page - 1];
    forall q | page - 3 <= q < page && q >= 1
      ensures q in s
    {
      if q == page - 1 {
        assert s[|s| - 1] == q;
      } else if q == 1 {
        assert s[0] == q;
      } else {
        assert mid[q - Max(2, page - 3)] == q;
        assert s[|head| + q - Max(2, page - 3)] == q;
      }
    }
  }

  // ---------------------------------------------------------------------------
  // Paginator: the tab

  /** `PaginatorMode`: NO_PAGES scrolls without page numbers; the other modes
      number the pages. */
  datatype PaginatorMode = NoPages | NoTotalPages | Standard

  /** What `set_page`, `set_next_page` or `set_previous_page` reports; a key
      missing from the dictionary reads as its default (no total, false). */
  datatype PageInfo = PageInfo(totalPages: Option<int>, isFirstPage: bool, isLastPage: bool)

  /** The page-setting method `update` calls. */
  datatype PageRequest = SetPage(page: int) | SetPreviousPage | SetNextPage

  /** The button for page `p`. */
  function PageButton(p: int): (b: TabButton)
    ensures b.caption == IntToString(p) && b.arg == Some(p)
  {
    TabButton(IntToString(p), "page_button", "on_page", Some(p))
  }

  function PageButtons(labels: seq<int>): (r: seq<TabButton>)
    ensures |r| == |labels| && forall k :: 0 <= k < |r| ==> r[k] == PageButton(labels[k])
  {
    if labels == [] then [] else [PageButton(labels[0])] + PageButtons(labels[1..])
  }

  /** The page line appended to the text: `Страница p / total.`, or
      `Страница p.` when the total is unknown. */
  function PageLine(page: int, total: Option<int>): string
  {
    "Страница " + IntToString(page) + (if total.Some? then " / " + IntToString(total.value) else "") + "."
  }

  /** Whether the numbered paginator is at its last page: decided by the
      total when it is known, otherwise as reported. */
  function NumberedLast(page: int, info: PageInfo): bool
  {
    if info.totalPages.Some? then page == info.totalPages.value else info.isLastPage
  }

  /** The first row `update` builds. */
  function FirstRow(mode: PaginatorMode, page: int, info: PageInfo): seq<TabButton>
  {
    if mode == NoPages then
      (if !info.isFirstPage then [TabButton("<", "page_button", "on_previous_page", None)] else [])
      + (if !info.isLastPage then [TabButton(">", "page_button", "on_next_page", None)] else [])
    else if NumberedLast(page, info) then []
    else PageButtons(ForwardLabels(page, info.totalPages))
  }

  /** The second row `update` builds. */
  function LastRow(mode: PaginatorMode, page: int): seq<TabButton>
  {
    if mode == NoPages || page == 1 then [] else PageButtons(BackwardLabels(page))
  }

  /** In numbered modes the forward row is empty exactly at the last page and
      the backward row exactly at page 1. */
  lemma {:induction false} RowsEmptyAtEnds(mode: PaginatorMode, page: int, info: PageInfo)
    requires mode != NoPages
    ensures FirstRow(mode, page, info) == [] <==> NumberedLast(page, info)
    ensures LastRow(mode, page) == [] <==> page == 1
  {
  }

  /** Without page numbers `<` is offered unless at the first page and `>`
      unless at the last; nothing else is offered. */
  lemma {:induction false} ScrollButtons(page: int, info: PageInfo)
    ensures var r := FirstRow(NoPages, page, info);
            && (exists k :: 0 <= k < |r| && r[k].caption == "<") <==> !info.isFirstPage
    ensures var r := FirstRow(NoPages, page, info);
            && (exists k :: 0 <= k < |r| && r[k].caption == ">") <==> !info.isLastPage
    ensures LastRow(NoPages, page) == []
  {
    var r := FirstRow(NoPages, page, info);
    if !info.isFirstPage {
      assert r[0].caption == "<";
    }
    if !info.isLastPage {
      assert r[|r| - 1].caption == ">";
    }
  }

  /** The forward labels as `update` builds them. */
  method BuildForward(page: int, total: Option<int>) returns (labels: seq<int>)
    ensures labels == ForwardLabels(page, total)
  {
    labels := [page + 1];
    if total.Some? {
      var stop := page + Min(4, total.value - page);
      var p := page + 2;
      while p < stop
        invariant page + 2 <= p && (p <= stop || p == page + 2)
        invariant labels == [page + 1] + Range(page + 2, p)
      {
        labels := labels + [p];
        p := p + 1;
      }
      assert Range(page + 2, p) == Range(page + 2, stop);
      if page + 1 < total.value {
        labels := labels + [total.value];
      }
    }
  }

  /** The backward labels as `update` builds them: the previous page first,
      then each page of the range inserted before it, then page 1 in front. */
  method BuildBackward(page: int) returns (labels: seq<int>)
    ensures labels == BackwardLabels(page)
  {
    labels := [page - 1];
    var lo := Max(2, page - 3);
    var p := lo;
    while p < page - 1
      invariant lo <= p && (p <= page - 1 || p == lo)
      invariant labels == Range(lo, p) + [page - 1]
    {
      labels := labels[..|labels| - 1] + [p] + [labels[|labels| - 1]];
      p := p + 1;
    }
    assert Range(lo, p) == Range(lo, page - 1);
    if page > 2 {
      labels := [1] + labels;
    }
  }

  /** The two rows `update` builds: with page numbers, the first page is page
      1 and the last page is decided by the total when it is known; without
      them both are as reported. */
  method BuildRows(mode: PaginatorMode, page: int, info: PageInfo) returns (first: seq<TabButton>, last: seq<TabButton>)
    ensures first == FirstRow(mode, page, info) && last == LastRow(mode, page)
  {
    var numbered := mode != NoPages;
    var isFirst := info.isFirstPage;
    var isLast := info.isLastPage;
    if numbered {
      isFirst := page == 1;
      if info.totalPages.Some? {
        isLast := page == info.totalPages.value;
      }
    }
    first, last := [], [];
    if !numbered {
      if !isFirst {
        first := first + [TabButton("<", "page_button", "on_previous_page", None)];
      }
      if !isLast {
        first := first + [TabButton(">", "page_button", "on_next_page", None)];
      }
    } else {
      if !isLast {
        var labels := BuildForward(page, info.totalPages);
        first := PageButtons(labels);
      }
      if !isFirst {
        var labels := BuildBackward(page);
        last := PageButtons(labels);
      }
      assert isLast == NumberedLast(page, info);
      assert isFirst <==> page == 1;
    }
    assert first == FirstRow(mode, page, info);
    assert last == LastRow(mode, page);
  }

  class PaginatedTab {
    const mode: PaginatorMode
    const addPageInfoIntoText: bool
    var rows: seq<seq<TabButton>>
    var body: string

    constructor (mode: PaginatorMode, addPageInfoIntoText: bool, body: string)
      ensures this.mode == mode && this.addPageInfoIntoText == addPageInfoIntoText
      ensures rows == [] && this.body == body
    {
      this.mode := mode;
      this.addPageInfoIntoText := addPageInfoIntoText;
      rows := [];
      this.body := body;
    }

    /** `PaginatedTabMixin.update`: asks for the page (by number, or the
        previous or next one without numbers), which reports `info`; appends
        the page line in numbered modes when asked to; and replaces the
        keyboard by the forward (or scroll) row and the backward row. */
    method Update(page: int, info: PageInfo) returns (request: PageRequest)
      modifies this
      ensures request == if mode != NoPages then SetPage(page) else if page == -1 then SetPreviousPage else SetNextPage
      ensures body == old(body) + if mode != NoPages && addPageInfoIntoText then "\n\n" + PageLine(page, info.totalPages) else ""
      ensures rows == [FirstRow(mode, page, info), LastRow(mode, page)]
    {
      var numbered := mode != NoPages;
      request := if numbered then SetPage(page) else if page == -1 then SetPreviousPage else SetNextPage;
      if numbered && addPageInfoIntoText {
        body := body + ("\n\n" + PageLine(page, info.totalPages));
      }
      var first, last := BuildRows(mode, page, info);
      rows := [first, last];
    }
  }

  // ---------------------------------------------------------------------------
  // Date and time selection

  /** The steps of the selector and their length in seconds. */
  datatype TimeUnit = Year | Month | Day | Hour | Minute | Second

  /** `YEAR` is 365 days and `MONTH` 30 days. */
  function UnitSeconds(u: TimeUnit): (s: nat)
    ensures s > 0
  {
    match u
    case Year => 365 * 86400
    case Month => 30 * 86400
    case Day => 86400
    case Hour => 3600
    case Minute => 60
    case Second => 1
  }

  /** The handlers `on_year_btn` … `on_second_btn`: the moment (in seconds)
      moved by `arg` steps of the unit. */
  function Stepped(moment: int, u: TimeUnit, arg: int): (r: int)
    ensures arg > 0 ==> r > moment
    ensures arg < 0 ==> r < moment
    ensures arg == 0 ==> r == moment
  {
    moment + UnitSeconds(u) * arg
  }

  /** A `+` button undoes a `-` button of the same unit and steps add up. */
  lemma {:induction false} SteppedCompose(moment: int, u: TimeUnit, a: int, b: int)
    ensures Stepped(Stepped(moment, u, a), u, b) == Stepped(moment, u, a + b)
    ensures Stepped(Stepped(moment, u, 1), u, -1) == moment
  {
  }

  /** The units get longer from second to year. */
  lemma {:induction false} UnitsOrdered()
    ensures UnitSeconds(Second) < UnitSeconds(Minute) < UnitSeconds(Hour) < UnitSeconds(Day)
              < UnitSeconds(Month) < UnitSeconds(Year)
    ensures UnitSeconds(Year) == 31536000 && UnitSeconds(Month) == 2592000
  {
  }

  /** The tab method a step button calls for each unit. */
  function Handler(u: TimeUnit): string
  {
    match u
    case Year => "on_year_btn"
    case Month => "on_month_btn"
    case Day => "on_day_btn"
    case Hour => "on_hour_btn"
    case Minute => "on_minute_btn"
    case Second => "on_second_btn"
  }

  /** The unit a handler name steps by. */
  function UnitOf(callback: string): (r: Option<TimeUnit>)
    ensures r.Some? ==> Handler(r.value) == callback
  {
    if callback == "on_year_btn" then Some(Year)
    else if callback == "on_month_btn" then Some(Month)
    else if callback == "on_day_btn" then Some(Day)
    else if callback == "on_hour_btn" then Some(Hour)
    else if callback == "on_minute_btn" then Some(Minute)
    else if callback == "on_second_btn" then Some(Second)
    else None
  }

  /** A pair of step buttons: one step back, one step forward. */
  function StepRow(minus: string, plus: string, u: TimeUnit): seq<TabButton>
  {
    [TabButton(minus, "date_time_button", Handler(u), Some(-1)),
     TabButton(plus, "date_time_button", Handler(u), Some(1))]
  }

  /** The four control rows of the date view. */
  function DateControls(): seq<seq<TabButton>>
  {
    [StepRow("-г", "+г", Year), StepRow("-м", "+м", Month), StepRow("-д", "+д", Day),
     [TabButton("Выбрать время", "date_time_button", "set_time_buttons", None)]]
  }

  /** The four control rows of the time view. */
  function TimeControls(): seq<seq<TabButton>>
  {
    [StepRow("-ч", "+ч", Hour), StepRow("-м", "+м", Minute), StepRow("-с", "+с", Second),
     [TabButton("Выбрать дату", "date_time_button", "set_date_buttons", None)]]
  }

  /** Every control is named `date_time_button`; the first three rows step
      back and forward by one unit; the fourth switches view. */
  lemma {:induction false} ControlsShape(controls: seq<seq<TabButton>>, units: seq<TimeUnit>)
    requires || (controls == DateControls() && units == [Year, Month, Day])
             || (controls == TimeControls() && units == [Hour, Minute, Second])
    ensures |controls| == 4 && |controls[3]| == 1
    ensures forall i, j :: 0 <= i < |controls| && 0 <= j < |controls[i]| ==> controls[i][j].name == "date_time_button"
    ensures forall i :: 0 <= i < 3 ==>
              && |controls[i]| == 2
              && controls[i][0].arg == Some(-1) && controls[i][1].arg == Some(1)
              && UnitOf(controls[i][0].callback) == Some(units[i])
              && UnitOf(controls[i][1].callback) == Some(units[i])
  {
  }

  class DateTimeTab {
    var rows: seq<seq<TabButton>>

    constructor (rows: seq<seq<TabButton>>)
      ensures this.rows == rows
    {
      this.rows := rows;
    }

    /** `set_date_buttons` (or, with `date` false, `set_time_buttons`): the
        four control rows of the view go before the rows left after the old
        controls were removed (`remaining`). */
    method SetControls(date: bool, remaining: seq<seq<TabButton>>)
      modifies this
      ensures rows == (if date then DateControls() else TimeControls()) + remaining
    {
      rows := (if date then DateControls() else TimeControls()) + remaining;
    }
  }
}

=== FILE: gui_token.dfy ===
/** The callback data of GUI buttons (`BaseButton.db_render`) and its decoding
    in `TGBotGUIMixin.handle_callback_query` (tgbot/gui/__init__.py). */
module GuiToken {
  import opened Common

  /** `CALLBACK_QUERY_SIGNATURE`: U+1F415 in UTF-8 (section 3 of RFC 3629). */
  const Signature: Bytes := [0xF0, 0x9F, 0x90, 0x95]

  /** Python's `data[i:j]` for 0 <= i <= j: the slice is cut short at the end. */
  function Slice(data: Bytes, i: nat, j: nat): (r: Bytes)
    requires i <= j
    ensures |r| == (if j <= |data| then j - i else if i <= |data| then |data| - i else 0)
    ensures forall k :: 0 <= k < |r| ==> r[k] == data[i + k]
  {
    if j <= |data| then data[i..j] else if i <= |data| then data[i..] else []
  }

  /** The token of a new button: signature, window class key, window id as
      four big-endian bytes, button class key and a random 16-byte uuid.
      `to_bytes` raises OverflowError for an id of 2^32 or more. */
  function CallbackData(windowKey: Bytes, windowId: nat, buttonKey: Bytes, uuid: Bytes): (r: Option<Bytes>)
    requires |windowKey| == 4 && |buttonKey| == 4 && |uuid| == 16
    ensures r.Some? <==> windowId < 0x1_0000_0000
    ensures r.Some? ==> |r.value| == 32 && r.value[..4] == Signature && r.value[16..] == uuid
  {
    if windowId < 0x1_0000_0000 then Some(Signature + windowKey + BigEndian4(windowId) + buttonKey + uuid)
    else None
  }

  /** `data[4:8]`: the window class key. */
  function WindowKeyOf(data: Bytes): Bytes
  {
    Slice(data, 4, 8)
  }

  /** `int.from_bytes(data[8:12], 'big')`: the window id. */
  function WindowIdOf(data: Bytes): nat
  {
    FromBigEndian(Slice(data, 8, 12))
  }

  /** `callback_data[12:16]`: the button class key. */
  function ButtonKeyOf(data: Bytes): Bytes
  {
    Slice(data, 12, 16)
  }

  /** Decoding a token gives back what was encoded into it. */
  lemma {:induction false} TokenRoundTrip(windowKey: Bytes, windowId: nat, buttonKey: Bytes, uuid: Bytes)
    requires |windowKey| == 4 && |buttonKey| == 4 && |uuid| == 16 && windowId < 0x1_0000_0000
    ensures var d := CallbackData(windowKey, windowId, buttonKey, uuid).value;
            && Slice(d, 0, 4) == Signature
            && WindowKeyOf(d) == windowKey
            && WindowIdOf(d) == windowId
            && ButtonKeyOf(d) == buttonKey
  {
    var d := CallbackData(windowKey, windowId, buttonKey, uuid).value;
    assert d[..4] == Signature;
    assert d[4..8] == windowKey;
    assert d[8..12] == BigEndian4(windowId);
    assert d[12..16] == buttonKey;
  }

  /** The exception classes of tgbot/gui/exceptions.py: a NoWindowError and a
      PermissionError are ReconstructionErrors; `Other` is any other exception. */
  datatype ReconstructionKind = Generic | NoWindow | Permission
  datatype GuiError = Reconstruction(kind: ReconstructionKind) | Other

  const PermissionAlert := "Извините, вы не можете активировать эту кнопку."
  const StaleAlert := "Извините, эта клавиатура устарела и больше не обслуживается. Пожалуйста, попробуйте воспользоваться клавиатурой из более позднего сообщения."
  const FailureAlert := "Извините, что-то пошло не так.\nПожалуйста, попробуйте позже."

  /** What the callback query handler does with a query. */
  datatype CallbackOutcome =
    | ContinuePropagation                       // not a GUI token
    | Answered(alert: Option<string>, committed: bool)

  /** The alert of the first matching `except` clause: PermissionError is
      caught before its base class ReconstructionError. */
  function AlertFor(e: GuiError): string
  {
    match e
    case Reconstruction(Permission) => PermissionAlert
    case Reconstruction(_) => StaleAlert
    case Other => FailureAlert
  }

  /** `handle_callback_query`. `windows` is the window registry; `run` stands
      for reconstructing the window with the decoded class and id, activating
      the pressed button and rendering, and gives the exception it raised, if
      any. */
  function HandleCallbackQuery(data: Bytes, windows: map<Bytes, string>,
                               run: (string, nat) -> Option<GuiError>): (o: CallbackOutcome)
    ensures Slice(data, 0, 4) != Signature <==> o == ContinuePropagation
    ensures Slice(data, 0, 4) == Signature && WindowKeyOf(data) !in windows ==>
              o == Answered(Some(StaleAlert), false)
    ensures Slice(data, 0, 4) == Signature && WindowKeyOf(data) in windows ==>
              var e := run(windows[WindowKeyOf(data)], WindowIdOf(data));
              o == Answered(if e.None? then None else Some(AlertFor(e.value)), e.None?)
    ensures o.Answered? ==> (o.committed <==> o.alert.None?)
  {
    if Slice(data, 0, 4) != Signature then ContinuePropagation
    else
      var e := if WindowKeyOf(data) !in windows then Some(Reconstruction(NoWindow))
               else run(windows[WindowKeyOf(data)], WindowIdOf(data));
      if e.None? then Answered(None, true) else Answered(Some(AlertFor(e.value)), false)
  }

  /** A freshly encoded token whose window class is registered reaches the
      window it was made for. */
  lemma {:induction false} TokenReachesWindow(windowKey: Bytes, windowId: nat, buttonKey: Bytes, uuid: Bytes,
                           windows: map<Bytes, string>, run: (string, nat) -> Option<GuiError>)
    requires |windowKey| == 4 && |buttonKey| == 4 && |uuid| == 16 && windowId < 0x1_0000_0000
    requires windowKey in windows
    ensures var d := CallbackData(windowKey, windowId, buttonKey, uuid).value;
            var e := run(windows[windowKey], windowId);
            HandleCallbackQuery(d, windows, run) == Answered(if e.None? then None else Some(AlertFor(e.value)), e.None?)
  {
    TokenRoundTrip(windowKey, windowId, buttonKey, uuid);
  }
}

=== FILE: gui_window.dfy ===
/** Windows, tabs and texts of the GUI (`Window`, `BaseTab`, `BaseText`,
    `InputField` and `TGBotGUIMixin.process_input` in tgbot/gui/__init__.py).
    Database rows are values passed in or kept in fields; what a query or a
    message fetch returns is a parameter, and calls to Telegram are returned
    as actions. */
module GuiWindow {
  import opened Common
  import opened GuiToken
  import GuiKeyboard

  /** `DEFAULT_USER_ID`: a window of this user belongs to everyone. */
  const DefaultUserId := 0

  /** The stored row of a window. */
  datatype WindowRow = WindowRow(id: nat, chatId: int, userId: int, messageId: Option<int>,
                                 currentTabIndex: nat, inputRequired: bool)

  /** A fetched Telegram message: whether it is empty (deleted or never sent),
      its text and its inline keyboard, if it has one. */
  datatype Message = Message(empty: bool, text: string, keyboard: Option<seq<seq<GuiKeyboard.InlineButton>>>)

  /** What the current tab is reconstructed from. */
  datatype Reopened = Reopened(row: WindowRow, text: string, buttons: seq<seq<GuiKeyboard.InlineButton>>)

  /** A failed reconstruction and whether it deleted the window row. */
  datatype Refused = Refused(error: GuiError, deletesRow: bool)

  /** May `user` use a window stored for `owner`? */
  predicate MayUse(owner: int, user: int)
  {
    owner == DefaultUserId || owner == user
  }

  /** `Window.reconstruct` up to rebuilding the current tab. `row` is the row
      passed in or found by id and chat; `given` is the message of the
      callback query, if any; `fetched` is what fetching the window's message
      would return. */
  function ReopenWindow(row: Option<WindowRow>, currentUser: int, given: Option<Message>, fetched: Message)
    : (r: Result<Reopened, Refused>)
    ensures row.None? ==> r == Err(Refused(Reconstruction(NoWindow), false))
    ensures row.Some? && !MayUse(row.value.userId, currentUser) ==>
              r == Err(Refused(Reconstruction(Permission), false))
    ensures r.Err? && r.error.deletesRow <==>
              row.Some? && MayUse(row.value.userId, currentUser) && given.None? && fetched.empty
    ensures r.Err? ==> r.error.error.Reconstruction? && r.error.error.kind != Generic
    ensures r.Ok? <==> row.Some? && MayUse(row.value.userId, currentUser) && (given.Some? || !fetched.empty)
    ensures r.Ok? ==>
              var m := if given.Some? then given.value else fetched;
              r.value == Reopened(row.value, m.text, if m.keyboard.Some? then m.keyboard.value else [])
  {
    if row.None? then Err(Refused(Reconstruction(NoWindow), false))
    else if !MayUse(row.value.userId, currentUser) then Err(Refused(Reconstruction(Permission), false))
    else if given.None? && fetched.empty then Err(Refused(Reconstruction(NoWindow), true))
    else
      var m := if given.Some? then given.value else fetched;
      Ok(Reopened(row.value, m.text, if m.keyboard.Some? then m.keyboard.value else []))
  }

  /** The permission check comes before the message fetch: a refused user
      gets the same answer whatever the message. */
  lemma {:induction false} PermissionBeforeFetch(row: WindowRow, currentUser: int, given: Option<Message>, m1: Message, m2: Message)
    requires !MayUse(row.userId, currentUser)
    ensures ReopenWindow(Some(row), currentUser, given, m1) == ReopenWindow(Some(row), currentUser, given, m2)
    ensures ReopenWindow(Some(row), currentUser, given, m1).Err?
  {
  }

  /** The window `process_input` picks: among the rows of the chat that are
      the user's or everyone's and wait for input, the one with the highest
      id. */
  function PickInputWindow(rows: seq<WindowRow>, chatId: int, user: int): (r: Option<WindowRow>)
    ensures r.Some? ==> r.value in rows && r.value.chatId == chatId && MayUse(r.value.userId, user) && r.value.inputRequired
    ensures r.Some? ==> forall w :: w in rows && w.chatId == chatId && MayUse(w.userId, user) && w.inputRequired ==>
                          w.id <= r.value.id
    ensures r.None? ==> forall w :: w in rows ==> !(w.chatId == chatId && MayUse(w.userId, user) && w.inputRequired)
    decreases |rows|
  {
    if rows == [] then None
    else
      var rest := PickInputWindow(rows[1..], chatId, user);
      var w := rows[0];
      if !(w.chatId == chatId && MayUse(w.userId, user) && w.inputRequired) then rest
      else if rest.Some? && rest.value.id >= w.id then rest
      else Some(w)
  }

  // ---------------------------------------------------------------------------
  // Text

  /** `"-" * n`. */
  function Dashes(n: nat): (s: string)
    ensures |s| == n && forall i :: 0 <= i < n ==> s[i] == '-'
  {
    if n == 0 then "" else Dashes(n - 1) + "-"
  }

  /** The line under a header: sixty dashes. */
  const Rule := Dashes(60)

  /** `BaseText.render` before placeholder substitution: the header block (when
      there is a header), then the body and the input field text joined by a
      line break, or `.` when both are empty. Also gives the header kept
      afterwards: a one-time header is cleared. Empty strings stand for unset
      columns. */
  function RenderText(header: string, oneTime: bool, body: string, inputFieldText: string)
    : (r: (string, string))
  {
    var block := if header != "" then header + "\n" + Rule + "\n" else "";
    var parts := (if body != "" then [body] else []) + (if inputFieldText != "" then [inputFieldText] else []);
    var joined := Join(parts, "\n");
    (block + (if joined == "" then "." else joined), if header != "" && oneTime then "" else header)
  }

  /** The rendered text is never empty; it starts with the header block
      exactly when a header is set, and what follows the block is the body
      and the input field text, or `.`. */
  lemma {:induction false} RenderTextShape(header: string, oneTime: bool, body: string, inputFieldText: string)
    ensures var (text, _) := RenderText(header, oneTime, body, inputFieldText);
            var block := if header != "" then header + "\n" + Rule + "\n" else "";
            && text != ""
            && text[..|block|] == block
            && (body == "" && inputFieldText == "" ==> text[|block|..] == ".")
            && (body != "" && inputFieldText == "" ==> text[|block|..] == body)
            && (body == "" && inputFieldText != "" ==> text[|block|..] == inputFieldText)
            && (body != "" && inputFieldText != "" ==> text[|block|..] == body + "\n" + inputFieldText)
  {
    var (text, _) := RenderText(header, oneTime, body, inputFieldText);
    var block := if header != "" then header + "\n" + Rule + "\n" else "";
    var parts := (if body != "" then [body] else []) + (if inputFieldText != "" then [inputFieldText] else []);
    var joined := Join(parts, "\n");
    assert text == block + (if joined == "" then "." else joined);
    if body != "" && inputFieldText != "" {
      assert parts == [body] + [inputFieldText];
      JoinSnoc([body], inputFieldText, "\n");
    }
  }

  /** A one-time header is shown by the first render only; a lasting header
      is shown every time. */
  lemma {:induction false} HeaderOnce(header: string, body: string, inputFieldText: string)
    requires header != ""
    ensures var (first, kept) := RenderText(header, true, body, inputFieldText);
            && kept == ""
            && first == header + "\n" + Rule + "\n" + RenderText(kept, true, body, inputFieldText).0
    ensures var (first, kept) := RenderText(header, false, body, inputFieldText);
            && kept == header
            && RenderText(kept, false, body, inputFieldText).0 == first
  {
  }

  // ---------------------------------------------------------------------------
  // Tabs

  /** An input field: its name, its prompt and the name of the tab method
      that processes it. */
  datatype InputField = InputField(name: string, text: string, methodName: string)

  /** `InputField.__init__`: the method name defaults to `process_<name>`. */
  function NewInputField(name: string, text: string, methodName: Option<string>): (f: InputField)
    ensures f.name == name && f.text == text
    ensures methodName.Some? && methodName.value != "" ==> f.methodName == methodName.value
    ensures methodName.None? || methodName.value == "" ==> f.methodName == "process_" + name
  {
    InputField(name, text, if methodName.Some? && methodName.value != "" then methodName.value else "process_" + name)
  }

  datatype TabError =
    | NameError(field: string)   // 'Field "..." not found'
    | ValueError(reason: string)
    | TypeError                  // stepping when the tab has no input field index

  /** A step of `switch_input_field` without a field name: the new index. */
  function StepField(count: nat, index: Option<nat>, previous: bool, next: bool): (r: Result<nat, TabError>)
    ensures previous == next ==> r.Err? && r.error.ValueError?
    ensures previous != next && index.None? ==> r == Err(TypeError)
    ensures previous && !next && index.Some? ==>
              if index.value == 0 then r.Err? && r.error.ValueError? else r == Ok(index.value - 1)
    ensures !previous && next && index.Some? ==>
              if index.value == count - 1 then r.Err? && r.error.ValueError? else r == Ok(index.value + 1)
  {
    if previous == next then Err(ValueError("Previous should not be equal to next"))
    else if index.None? then Err(TypeError)
    else if previous then
      if index.value == 0 then Err(ValueError("This is the first input field"))
      else var j: nat := index.value - 1; Ok(j)
    else
      if index.value == count - 1 then Err(ValueError("This is the last input field"))
      else var j: nat := index.value + 1; Ok(j)
  }

  /** Stepping forward and then back returns to the same field, and a step
      from a valid index stays within the fields. */
  lemma {:induction false} StepBackAndForth(count: nat, i: nat)
    requires i < count
    ensures StepField(count, Some(i), false, true).Ok? ==>
              var j := StepField(count, Some(i), false, true).value;
              j < count && StepField(count, Some(j), true, false) == Ok(i)
    ensures StepField(count, Some(i), true, false).Ok? ==>
              var j := StepField(count, Some(i), true, false).value;
              j < count && StepField(count, Some(j), false, true) == Ok(i)
  {
  }

  class Tab {
    const fields: seq<InputField>
    /** `row.current_input_field_index`: unset when the tab has no fields. */
    var fieldIndex: Option<nat>

    ghost predicate Valid()
      reads this
    {
      fieldIndex.Some? ==> fieldIndex.value < |fields|
    }

    /** `BaseTab.build`: the first input field is current, if there is one. */
    constructor (fields: seq<InputField>)
      ensures Valid()
      ensures this.fields == fields
      ensures fields != [] ==> fieldIndex == Some(0)
      ensures fields == [] ==> fieldIndex == None
    {
      this.fields := fields;
      fieldIndex := if fields != [] then Some(0) else None;
    }

    /** `BaseTab.switch_input_field`: by name, the first field so named
        becomes current (NameError when none is); otherwise one step back or
        forward. Nothing changes on an error. */
    method SwitchInputField(fieldName: Option<string>, previous: bool, next: bool) returns (r: Result<(), TabError>)
      requires Valid()
      modifies this
      ensures Valid()
      ensures fieldName.Some? && (exists i :: 0 <= i < |fields| && fields[i].name == fieldName.value) ==>
                && r == Ok(())
                && fieldIndex.Some? && fieldIndex.value < |fields|
                && fields[fieldIndex.value].name == fieldName.value
                && forall i :: 0 <= i < fieldIndex.value ==> fields[i].name != fieldName.value
      ensures fieldName.Some? && !(exists i :: 0 <= i < |fields| && fields[i].name == fieldName.value) ==>
                r == Err(NameError(fieldName.value)) && fieldIndex == old(fieldIndex)
      ensures fieldName.None? ==>
                var s := StepField(|fields|, old(fieldIndex), previous, next);
                && (s.Ok? ==> r == Ok(()) && fieldIndex == Some(s.value))
                && (s.Err? ==> r == Err(s.error) && fieldIndex == old(fieldIndex))
    {
      if fieldName.Some? {
        var i := 0;
        while i < |fields|
          invariant 0 <= i <= |fields|
          invariant forall k :: 0 <= k < i ==> fields[k].name != fieldName.value
          invariant fieldIndex == old(fieldIndex)
        {
          if fields[i].name == fieldName.value {
            fieldIndex := Some(i);
            return Ok(());
          }
          i := i + 1;
        }
        return Err(NameError(fieldName.value));
      }
      var s := StepField(|fields|, fieldIndex, previous, next);
      if s.Err? {
        return Err(s.error);
      }
      fieldIndex := Some(s.value);
      r := Ok(());
    }
  }

  // ---------------------------------------------------------------------------
  // Windows

  /** A call to Telegram made while rendering. */
  datatype MessageAction = DeleteMessage(chatId: int, messageId: int) | SendMessage(chatId: int) | EditMessage(chatId: int, messageId: int)

  /** What `switch_tab` does to the tabs, by index in the window's tab list. */
  datatype TabAction = DestroyTab(index: nat) | SaveTab(index: nat) | RestoreTab(index: nat) | BuildTab(index: nat)

  /** `list.index`: the first position of `x`, if any. */
  method IndexOf(xs: seq<string>, x: string) returns (r: Option<nat>)
    ensures r.Some? ==> r.value < |xs| && xs[r.value] == x && forall k :: 0 <= k < r.value ==> xs[k] != x
    ensures r.None? <==> x !in xs
  {
    var i := 0;
    while i < |xs|
      invariant 0 <= i <= |xs|
      invariant forall k :: 0 <= k < i ==> xs[k] != x
    {
      if xs[i] == x {
        return Some(i);
      }
      i := i + 1;
    }
    r := None;
  }

  class Window {
    /** The tab classes of the window class, by name. */
    const tabs: seq<string>
    const chatId: int
    const userId: int
    var swap: bool
    var messageId: Option<int>
    var currentTabIndex: nat
    var inputRequired: bool

    ghost predicate Valid()
      reads this
    {
      currentTabIndex < |tabs|
    }

    /** `Window.build`: a new row showing the first tab and no message yet;
        a window class without tabs fails on `tabs[0]`. */
    constructor (tabs: seq<string>, chatId: int, userId: int)
      requires tabs != []
      ensures Valid()
      ensures this.tabs == tabs && this.chatId == chatId && this.userId == userId
      ensures !swap && messageId.None? && currentTabIndex == 0 && !inputRequired
    {
      this.tabs := tabs;
      this.chatId := chatId;
      this.userId := userId;
      swap := false;
      messageId := None;
      currentTabIndex := 0;
      inputRequired := false;
    }

    /** `schedule_swap`. */
    method ScheduleSwap()
      modifies this
      ensures swap && messageId == old(messageId) && currentTabIndex == old(currentTabIndex)
      ensures inputRequired == old(inputRequired)
    {
      swap := true;
    }

    /** `Window.render`: input is required exactly when the current tab has
        input fields; with a swap scheduled the old message is deleted; a
        window without a message sends one (which gets the id `sent`),
        otherwise its message is edited. */
    method Render(hasInputFields: bool, sent: int) returns (actions: seq<MessageAction>)
      modifies this
      ensures inputRequired == hasInputFields
      ensures swap == old(swap) && currentTabIndex == old(currentTabIndex)
      ensures old(messageId).None? ==> actions == [SendMessage(chatId)] && messageId == Some(sent)
      ensures old(messageId).Some? && old(swap) ==>
                actions == [DeleteMessage(chatId, old(messageId).value), SendMessage(chatId)] && messageId == Some(sent)
      ensures old(messageId).Some? && !old(swap) ==>
                actions == [EditMessage(chatId, old(messageId).value)] && messageId == old(messageId)
      ensures messageId.Some?
    {
      inputRequired := hasInputFields;
      actions := [];
      if swap && messageId.Some? {
        actions := [DeleteMessage(chatId, messageId.value)];
        messageId := None;
      }
      if messageId.None? {
        actions := actions + [SendMessage(chatId)];
        messageId := Some(sent);
      } else {
        actions := actions + [EditMessage(chatId, messageId.value)];
      }
    }

    /** `Window.switch_tab`: an unknown tab fails before anything happens;
        otherwise the current tab is destroyed or saved, the new tab becomes
        current and is restored, and built when nothing was restored. */
    method SwitchTab(newTab: string, saveCurrentTab: bool, restored: bool) returns (r: Result<seq<TabAction>, GuiError>)
      requires Valid()
      modifies this
      ensures Valid()
      ensures newTab !in tabs <==> r.Err?
      ensures r.Err? ==> r.error == Other && currentTabIndex == old(currentTabIndex)
      ensures r.Ok? ==>
                && tabs[currentTabIndex] == newTab
                && (forall k :: 0 <= k < currentTabIndex ==> tabs[k] != newTab)
                && r.value == [if saveCurrentTab then SaveTab(old(currentTabIndex)) else DestroyTab(old(currentTabIndex)),
                               RestoreTab(currentTabIndex)]
                              + (if restored then [] else [BuildTab(currentTabIndex)])
      ensures messageId == old(messageId) && swap == old(swap) && inputRequired == old(inputRequired)
    {
      var i := IndexOf(tabs, newTab);
      if i.None? {
        return Err(Other);
      }
      var first := if saveCurrentTab then SaveTab(currentTabIndex) else DestroyTab(currentTabIndex);
      currentTabIndex := i.value;
      r := Ok([first, RestoreTab(currentTabIndex)] + (if restored then [] else [BuildTab(currentTabIndex)]));
    }
  }
}

=== FILE: keyboard_handler.dfy ===
/** The second keyboard module, tgbot/keyboard_handler.py. Button classes
    and keyboard classes sit in two registries; a button's callback data is
    the key of its button class, the key of its keyboard class and a 16-byte
    uuid. `BaseKeyboard.create_keyboard` numbers the stored buttons 0, 1, …
    in row-major order (`button_id`), and
    `KeyboardHandler.handle_callback_query` rebuilds the keyboard from the
    rows (module LegacyCallback) and activates the pressed button. */
module KeyboardHandler {
  import opened Common
  import opened Crc32
  import opened LegacyCallback
  import Registry
  import GuiKeyboard

  /** `callback_data` is `LargeBinary(24)`. */
  const TokenLength := 24

  /** `DEFAULT_USER_ID`: a button any user may press. */
  const DefaultUserId := 0

  /** `uuid.uuid4().bytes`. */
  type Uuid = b: Bytes | |b| == 16 witness [0, 0, 0, 0, 0, 0, 0, 0, 0, 0, 0, 0, 0, 0, 0, 0]

  // ---------------------------------------------------------------------------
  // The two registries

  /** `button_decorator` and `keyboard_decorator`: `store_class_crc32` into one
      of the two maps. The other map is left alone, so a button class and a
      keyboard class never clash with each other. */
  method Decorate(registry: Registry.ClassRegistry, other: Registry.ClassRegistry, name: string)
    returns (r: Result<Bytes, Registry.RegistryError>)
    requires registry != other && !registry.bigEndian
    requires registry.Valid() && other.Valid()
    modifies registry
    ensures registry.Valid() && other.Valid() && other.entries == old(other.entries)
    ensures r.Ok? <==> ClassKeyLittle(name) !in old(registry.entries)
    ensures r.Ok? ==> r.value == ClassKeyLittle(name) && registry.entries == old(registry.entries)[r.value := name]
    ensures r.Err? ==> registry.entries == old(registry.entries)
  {
    r := registry.Register(name);
  }

  // ---------------------------------------------------------------------------
  // create_keyboard

  /** An entry of `create_keyboard`'s `keyboard` argument: one with
      `inline_kwargs` (a link; no row is stored), a button of class `cls`
      with its row (built from `table` and its `kwargs`, or given as `row`)
      and its own `callback`, or one with neither `table` nor `row`. */
  datatype Entry =
    | InlineEntry(name: string)
    | RowEntry(name: string, cls: string, row: Stored, callback: Option<string>)
    | Malformed(name: string)

  /** The value of the `callback` variable after the entries `es`, starting
      from the argument `d`: a button's own callback replaces it, and then
      stays for the buttons after it. */
  function CallbackAfter(es: seq<Entry>, d: Option<string>): Option<string>
    decreases |es|
  {
    if es == [] then d
    else
      var e := es[|es| - 1];
      if e.RowEntry? && e.callback.Some? then e.callback else CallbackAfter(es[..|es| - 1], d)
  }

  lemma {:induction false} CallbackAfterSnoc(es: seq<Entry>, e: Entry, d: Option<string>)
    ensures CallbackAfter(es + [e], d) == if e.RowEntry? && e.callback.Some? then e.callback else CallbackAfter(es, d)
  {
    assert (es + [e])[..|es|] == es;
  }

  /** Entries without a callback of their own carry the callback before them. */
  lemma {:induction false} CallbackAfterNoOwn(es: seq<Entry>, more: seq<Entry>, d: Option<string>)
    requires forall k :: 0 <= k < |more| ==> !(more[k].RowEntry? && more[k].callback.Some?)
    ensures CallbackAfter(es + more, d) == CallbackAfter(es, d)
    decreases |more|
  {
    if more == [] {
      assert es + more == es;
    } else {
      var init := more[..|more| - 1];
      CallbackAfterNoOwn(es, init, d);
      assert es + more == (es + init) + [more[|more| - 1]];
      CallbackAfterSnoc(es + init, more[|more| - 1], d);
    }
  }

  /** The leak: every button after a button with its own callback, up to the
      next one with its own, ends with that callback. */
  lemma {:induction false} CallbackLeaks(es: seq<Entry>, d: Option<string>, k: nat)
    requires k < |es| && es[k].RowEntry? && es[k].callback.Some?
    requires forall m :: k < m < |es| ==> !(es[m].RowEntry? && es[m].callback.Some?)
    ensures CallbackAfter(es, d) == es[k].callback
  {
    var head, tail := es[..k + 1], es[k + 1..];
    assert es == head + tail;
    assert head == es[..k] + [es[k]];
    CallbackAfterSnoc(es[..k], es[k], d);
    assert forall m :: 0 <= m < |tail| ==> tail[m] == es[k + 1 + m];
    CallbackAfterNoOwn(head, tail, d);
  }

  /** On two buttons, the second without a callback: it gets the first one's
      callback name, not the argument's. */
  lemma {:induction false} LeakExample(row: Stored, d: Option<string>)
    ensures var es := [RowEntry("a", "B", row, Some("f")), RowEntry("b", "B", row, None)];
            Named(row, CallbackAfter(es, d)).callbackName == Some("f")
  {
    var es := [RowEntry("a", "B", row, Some("f")), RowEntry("b", "B", row, None)];
    CallbackLeaks(es, d, 0);
  }

  /** The row of a button as stored: the callback carried so far names its
      `callback_name` (a row keeps its own when there is none). */
  function Named(row: Stored, carried: Option<string>): (r: Stored)
    ensures r.(callbackName := row.callbackName) == row
    ensures carried.Some? ==> r.callbackName == carried
  {
    if carried.Some? then row.(callbackName := carried) else row
  }

  /** The entries of a keyboard in row-major order. */
  function Flat(entries: seq<seq<Entry>>): seq<Entry>
    decreases |entries|
  {
    if entries == [] then [] else Flat(entries[..|entries| - 1]) + entries[|entries| - 1]
  }

  /** The token of the k-th stored button of class `cls` on a keyboard of
      class `kbCls`. */
  function Token(cls: string, kbCls: string, id: Uuid): (t: Bytes)
    ensures |t| == TokenLength
    ensures t[..4] == ClassKeyLittle(cls) && t[4..8] == ClassKeyLittle(kbCls) && t[8..] == id
  {
    var t := ClassKeyLittle(cls) + ClassKeyLittle(kbCls) + id;
    assert t[..4] == ClassKeyLittle(cls);
    assert t[4..8] == ClassKeyLittle(kbCls);
    t
  }

  /** The k-th token is the k-th row's key, made from the k-th uuid, and the
      k-th row has `button_id` k: ids follow row-major order from 0. */
  ghost predicate Numbered(tokens: seq<Bytes>, rows: seq<(Bytes, Stored)>, kbCls: string, uuid: nat -> Uuid)
  {
    && |tokens| == |rows|
    && forall k :: 0 <= k < |tokens| ==>
         && rows[k].0 == tokens[k] && rows[k].1.order == k
         && |tokens[k]| == TokenLength && tokens[k][4..8] == ClassKeyLittle(kbCls) && tokens[k][8..] == uuid(k)
  }

  /** The button shown for entry `e` when the callback carried through it is
      `carried`: a link keeps its name and has no data; a button shows its
      name, and its token and its named row are the k-th issued for some k. */
  ghost predicate CellCreated(e: Entry, s: Shown, rows: seq<(Bytes, Stored)>, kbCls: string, uuid: nat -> Uuid,
                              carried: Option<string>)
  {
    match e
    case InlineEntry(name) => s == Shown(name, None)
    case RowEntry(name, cls, row, _) =>
      && s.text == name && s.data.Some?
      && exists k :: 0 <= k < |rows| && s.data.value == Token(cls, kbCls, uuid(k))
                     && rows[k] == (s.data.value, Named(row.(order := k), carried))
    case Malformed(_) => false
  }

  /** The first `j` cells of a row that follows the entries `flat`. */
  ghost predicate RowCreated(flat: seq<Entry>, row: seq<Entry>, j: nat, shown: seq<Shown>, rows: seq<(Bytes, Stored)>,
                             kbCls: string, uuid: nat -> Uuid, d: Option<string>)
    requires j <= |row|
  {
    |shown| == j && forall k :: 0 <= k < j ==> CellCreated(row[k], shown[k], rows, kbCls, uuid, CallbackAfter(flat + row[..k + 1], d))
  }

  /** What `create_keyboard` returns and stores for the first `n` rows of
      `entries` on a keyboard of class `kbCls` with callback argument `d`. */
  ghost predicate Created(entries: seq<seq<Entry>>, n: nat, kbCls: string, uuid: nat -> Uuid, d: Option<string>,
                          kb: seq<seq<Shown>>, rows: seq<(Bytes, Stored)>)
  {
    && n <= |entries| && |kb| == n
    && (forall i :: 0 <= i < n ==> RowCreated(Flat(entries[..i]), entries[i], |entries[i]|, kb[i], rows, kbCls, uuid, d))
    && Numbered(Tokens(kb), rows, kbCls, uuid)
  }

  lemma {:induction false} CellCreatedExtends(e: Entry, s: Shown, rows: seq<(Bytes, Stored)>, more: seq<(Bytes, Stored)>,
                                              kbCls: string, uuid: nat -> Uuid, carried: Option<string>)
    requires CellCreated(e, s, rows, kbCls, uuid, carried)
    ensures CellCreated(e, s, rows + more, kbCls, uuid, carried)
  {
    if e.RowEntry? {
      var k :| 0 <= k < |rows| && s.data.value == Token(e.cls, kbCls, uuid(k))
               && rows[k] == (s.data.value, Named(e.row.(order := k), carried));
      assert (rows + more)[k] == rows[k];
    }
  }

  lemma {:induction false} RowCreatedExtends(flat: seq<Entry>, row: seq<Entry>, j: nat, shown: seq<Shown>,
                                             rows: seq<(Bytes, Stored)>, more: seq<(Bytes, Stored)>,
                                             kbCls: string, uuid: nat -> Uuid, d: Option<string>)
    requires j <= |row| && RowCreated(flat, row, j, shown, rows, kbCls, uuid, d)
    ensures RowCreated(flat, row, j, shown, rows + more, kbCls, uuid, d)
  {
    forall k | 0 <= k < j
      ensures CellCreated(row[k], shown[k], rows + more, kbCls, uuid, CallbackAfter(flat + row[..k + 1], d))
    {
      CellCreatedExtends(row[k], shown[k], rows, more, kbCls, uuid, CallbackAfter(flat + row[..k + 1], d));
    }
  }

  /** The cell a row entry adds, and the rows it adds. */
  function CellOf(e: Entry, kbCls: string, uuid: nat -> Uuid, id: nat, carried: Option<string>): (Shown, seq<(Bytes, Stored)>)
  {
    match e
    case RowEntry(name, cls, row, _) =>
      var t := Token(cls, kbCls, uuid(id));
      (Shown(name, Some(t)), [(t, Named(row.(order := id), carried))])
    case _ => (Shown(e.name, None), [])
  }

  /** The callback variable after entry `e`. */
  function Carry(e: Entry, carried: Option<string>): Option<string>
  {
    if e.RowEntry? && e.callback.Some? then e.callback else carried
  }

  lemma {:induction false} NumberedStep(tokens: seq<Bytes>, shown: seq<Shown>, rows: seq<(Bytes, Stored)>, kbCls: string,
                                        uuid: nat -> Uuid, e: Entry, carried: Option<string>)
    requires Numbered(tokens + RowTokens(shown), rows, kbCls, uuid)
    ensures var (s, more) := CellOf(e, kbCls, uuid, |rows|, carried);
            Numbered(tokens + RowTokens(shown + [s]), rows + more, kbCls, uuid)
  {
    var (s, more) := CellOf(e, kbCls, uuid, |rows|, carried);
    var before, after := RowTokens(shown), RowTokens(shown + [s]);
    RowTokensSnoc(shown, s);
    if e.RowEntry? {
      var t := s.data.value;
      assert after == before + [t];
      AppendAssoc(tokens, before, t);
      NumberedSnoc(tokens + before, rows, kbCls, uuid, e.cls, e.row, carried);
    } else {
      assert after == before;
      assert rows + more == rows;
    }
  }

  lemma {:induction false} AppendAssoc(a: seq<Bytes>, b: seq<Bytes>, x: Bytes)
    ensures a + (b + [x]) == (a + b) + [x]
  {
  }

  lemma {:induction false} NumberedSnoc(tokens: seq<Bytes>, rows: seq<(Bytes, Stored)>, kbCls: string, uuid: nat -> Uuid,
                                        cls: string, row: Stored, carried: Option<string>)
    requires Numbered(tokens, rows, kbCls, uuid)
    ensures var t := Token(cls, kbCls, uuid(|rows|));
            Numbered(tokens + [t], rows + [(t, Named(row.(order := |rows|), carried))], kbCls, uuid)
  {
    var t := Token(cls, kbCls, uuid(|rows|));
    var ts, rs := tokens + [t], rows + [(t, Named(row.(order := |rows|), carried))];
    forall k | 0 <= k < |ts|
      ensures && rs[k].0 == ts[k] && rs[k].1.order == k
              && |ts[k]| == TokenLength && ts[k][4..8] == ClassKeyLittle(kbCls) && ts[k][8..] == uuid(k)
    {
      if k < |tokens| {
        assert rs[k] == rows[k] && ts[k] == tokens[k];
      }
    }
  }

  lemma {:induction false} CarryStep(flat: seq<Entry>, row: seq<Entry>, j: nat, d: Option<string>, carried: Option<string>)
    requires j < |row| && carried == CallbackAfter(flat + row[..j], d)
    ensures Carry(row[j], carried) == CallbackAfter(flat + row[..j + 1], d)
  {
    assert flat + row[..j + 1] == (flat + row[..j]) + [row[j]];
    CallbackAfterSnoc(flat + row[..j], row[j], d);
  }

  lemma {:induction false} RowCreatedStep(flat: seq<Entry>, row: seq<Entry>, j: nat, shown: seq<Shown>,
                                          rows: seq<(Bytes, Stored)>, kbCls: string, uuid: nat -> Uuid,
                                          d: Option<string>, carried: Option<string>)
    requires j < |row| && !row[j].Malformed?
    requires RowCreated(flat, row, j, shown, rows, kbCls, uuid, d)
    requires carried == CallbackAfter(flat + row[..j], d)
    ensures var (s, more) := CellOf(row[j], kbCls, uuid, |rows|, Carry(row[j], carried));
            && RowCreated(flat, row, j + 1, shown + [s], rows + more, kbCls, uuid, d)
            && Carry(row[j], carried) == CallbackAfter(flat + row[..j + 1], d)
  {
    var e := row[j];
    var c := Carry(e, carried);
    var (s, more) := CellOf(e, kbCls, uuid, |rows|, c);
    CarryStep(flat, row, j, d, carried);
    RowCreatedExtends(flat, row, j, shown, rows, more, kbCls, uuid, d);
    assert CellCreated(e, s, rows + more, kbCls, uuid, c) by {
      if e.RowEntry? {
        assert (rows + more)[|rows|] == more[0];
      }
    }
    forall k | 0 <= k < j + 1
      ensures CellCreated(row[k], (shown + [s])[k], rows + more, kbCls, uuid, CallbackAfter(flat + row[..k + 1], d))
    {
      if k < j {
        assert (shown + [s])[k] == shown[k];
      }
    }
  }

  /** `CreateRow` after `j` cells. */
  ghost predicate RowSoFar(flat: seq<Entry>, row: seq<Entry>, j: nat, shown: seq<Shown>, before: seq<(Bytes, Stored)>,
                           rows: seq<(Bytes, Stored)>, tokens: seq<Bytes>, kbCls: string, uuid: nat -> Uuid,
                           d: Option<string>, carried: Option<string>)
  {
    && j <= |row|
    && (forall k :: 0 <= k < j ==> !row[k].Malformed?)
    && |rows| >= |before| && rows[..|before|] == before
    && Numbered(tokens + RowTokens(shown), rows, kbCls, uuid)
    && RowCreated(flat, row, j, shown, rows, kbCls, uuid, d)
    && carried == CallbackAfter(flat + row[..j], d)
  }

  /** One cell of `CreateRow`: a link adds a button without data; a button
      takes the next id, its token and its named row. */
  lemma {:induction false} RowStep(flat: seq<Entry>, row: seq<Entry>, j: nat, shown: seq<Shown>, before: seq<(Bytes, Stored)>,
                                   rows: seq<(Bytes, Stored)>, tokens: seq<Bytes>, kbCls: string, uuid: nat -> Uuid,
                                   d: Option<string>, carried: Option<string>)
    requires j < |row| && !row[j].Malformed?
    requires RowSoFar(flat, row, j, shown, before, rows, tokens, kbCls, uuid, d, carried)
    ensures row[j].InlineEntry? ==>
              RowSoFar(flat, row, j + 1, shown + [Shown(row[j].name, None)], before, rows, tokens, kbCls, uuid, d, carried)
    ensures row[j].RowEntry? ==>
              var c := if row[j].callback.Some? then row[j].callback else carried;
              var t := Token(row[j].cls, kbCls, uuid(|rows|));
              RowSoFar(flat, row, j + 1, shown + [Shown(row[j].name, Some(t))], before,
                       rows + [(t, Named(row[j].row.(order := |rows|), c))], tokens, kbCls, uuid, d, c)
  {
    var c := Carry(row[j], carried);
    var (s, more) := CellOf(row[j], kbCls, uuid, |rows|, c);
    NumberedStep(tokens, shown, rows, kbCls, uuid, row[j], c);
    RowCreatedStep(flat, row, j, shown, rows, kbCls, uuid, d, carried);
    assert (rows + more)[..|before|] == before;
    assert RowSoFar(flat, row, j + 1, shown + [s], before, rows + more, tokens, kbCls, uuid, d, c);
    if row[j].RowEntry? {
      var t := Token(row[j].cls, kbCls, uuid(|rows|));
      assert c == if row[j].callback.Some? then row[j].callback else carried;
      assert s == Shown(row[j].name, Some(t)) && more == [(t, Named(row[j].row.(order := |rows|), c))];
    } else {
      assert c == carried && s == Shown(row[j].name, None) && more == [];
      assert rows + more == rows;
    }
  }

  lemma {:induction false} RowTokensSnoc(row: seq<Shown>, s: Shown)
    ensures RowTokens(row + [s]) == RowTokens(row) + (if s.data.Some? then [s.data.value] else [])
  {
    assert (row + [s])[..|row|] == row;
  }

  /** One row of `create_keyboard`'s loop: `ok` is false when the row holds an
      entry with neither `table` nor `row`. `before` are the rows stored so
      far, `carried` the `callback` variable, `flat` and `tokens` the entries
      and tokens before this row. */
  method CreateRow(row: seq<Entry>, kbCls: string, uuid: nat -> Uuid, before: seq<(Bytes, Stored)>, carriedIn: Option<string>,
                   ghost flat: seq<Entry>, ghost tokens: seq<Bytes>, ghost d: Option<string>)
    returns (ok: bool, shown: seq<Shown>, rows: seq<(Bytes, Stored)>, carried: Option<string>)
    requires Numbered(tokens, before, kbCls, uuid)
    requires carriedIn == CallbackAfter(flat, d)
    ensures ok <==> forall j :: 0 <= j < |row| ==> !row[j].Malformed?
    ensures ok ==> RowSoFar(flat, row, |row|, shown, before, rows, tokens, kbCls, uuid, d, carried)
  {
    ok, shown, rows, carried := true, [], before, carriedIn;
    assert flat + row[..0] == flat;
    var j := 0;
    while j < |row|
      invariant RowSoFar(flat, row, j, shown, before, rows, tokens, kbCls, uuid, d, carried)
    {
      if row[j].Malformed? {
        return false, [], [], None;
      }
      RowStep(flat, row, j, shown, before, rows, tokens, kbCls, uuid, d, carried);
      match row[j] {
        case InlineEntry(name) =>
          shown := shown + [Shown(name, None)];
        case RowEntry(name, cls, r, callback) =>
          var token := Token(cls, kbCls, uuid(|rows|));
          carried := if callback.Some? then callback else carried;
          rows := rows + [(token, Named(r.(order := |rows|), carried))];
          shown := shown + [Shown(name, Some(token))];
      }
      j := j + 1;
    }
  }

  lemma {:induction false} TokensSnoc(kb: seq<seq<Shown>>, row: seq<Shown>)
    ensures Tokens(kb + [row]) == Tokens(kb) + RowTokens(row)
  {
    assert (kb + [row])[..|kb|] == kb;
  }

  lemma {:induction false} FlatSnoc(entries: seq<seq<Entry>>, i: nat)
    requires i < |entries|
    ensures Flat(entries[..i + 1]) == Flat(entries[..i]) + entries[i]
  {
    assert entries[..i + 1][..i] == entries[..i];
  }

  /** One row of the loop below keeps its invariant. */
  lemma {:induction false} CreatedSnoc(entries: seq<seq<Entry>>, i: nat, kbCls: string, uuid: nat -> Uuid, d: Option<string>,
                                       kb: seq<seq<Shown>>, rows: seq<(Bytes, Stored)>, shown: seq<Shown>,
                                       rows': seq<(Bytes, Stored)>, carried: Option<string>)
    requires i < |entries|
    requires Created(entries, i, kbCls, uuid, d, kb, rows)
    requires RowSoFar(Flat(entries[..i]), entries[i], |entries[i]|, shown, rows, rows', Tokens(kb), kbCls, uuid, d, carried)
    ensures Created(entries, i + 1, kbCls, uuid, d, kb + [shown], rows')
    ensures carried == CallbackAfter(Flat(entries[..i + 1]), d)
  {
    var kb' := kb + [shown];
    assert Numbered(Tokens(kb'), rows', kbCls, uuid) by {
      TokensSnoc(kb, shown);
    }
    assert carried == CallbackAfter(Flat(entries[..i + 1]), d) by {
      FlatSnoc(entries, i);
      assert entries[i][..|entries[i]|] == entries[i];
    }
    RowsCreatedSnoc(entries, i, kbCls, uuid, d, kb, rows, shown, rows');
  }

  /** The rows created so far, with the new row appended, over the rows
      stored after it. */
  lemma {:induction false} RowsCreatedSnoc(entries: seq<seq<Entry>>, i: nat, kbCls: string, uuid: nat -> Uuid, d: Option<string>,
                                           kb: seq<seq<Shown>>, rows: seq<(Bytes, Stored)>, shown: seq<Shown>,
                                           rows': seq<(Bytes, Stored)>)
    requires i < |entries| && |kb| == i
    requires forall a :: 0 <= a < i ==> RowCreated(Flat(entries[..a]), entries[a], |entries[a]|, kb[a], rows, kbCls, uuid, d)
    requires |rows'| >= |rows| && rows'[..|rows|] == rows
    requires RowCreated(Flat(entries[..i]), entries[i], |entries[i]|, shown, rows', kbCls, uuid, d)
    ensures forall a :: 0 <= a < i + 1 ==>
              RowCreated(Flat(entries[..a]), entries[a], |entries[a]|, (kb + [shown])[a], rows', kbCls, uuid, d)
  {
    var more := rows'[|rows|..];
    assert rows' == rows + more;
    forall a | 0 <= a < i + 1
      ensures RowCreated(Flat(entries[..a]), entries[a], |entries[a]|, (kb + [shown])[a], rows', kbCls, uuid, d)
    {
      if a < i {
        assert (kb + [shown])[a] == kb[a];
        RowCreatedExtends(Flat(entries[..a]), entries[a], |entries[a]|, kb[a], rows, more, kbCls, uuid, d);
      }
    }
  }

  /** `create_keyboard`: a `ValueError` for an entry with neither `table` nor
      `row`, nothing stored; otherwise the inline keyboard and the rows to
      store. `uuid(k)` is the k-th `uuid.uuid4().bytes`, `d` the `callback`
      argument. */
  method CreateKeyboard(entries: seq<seq<Entry>>, kbCls: string, uuid: nat -> Uuid, d: Option<string>)
    returns (r: Result<(seq<seq<Shown>>, seq<(Bytes, Stored)>), string>)
    ensures r.Err? <==> exists i, j :: 0 <= i < |entries| && 0 <= j < |entries[i]| && entries[i][j].Malformed?
    ensures r.Err? ==> r.error == "Neither table nor row specified"
    ensures r.Ok? ==> Created(entries, |entries|, kbCls, uuid, d, r.value.0, r.value.1)
  {
    var kb: seq<seq<Shown>> := [];
    var rows: seq<(Bytes, Stored)> := [];
    var carried := d;
    assert entries[..0] == [];
    var i := 0;
    while i < |entries|
      invariant 0 <= i <= |entries|
      invariant forall a, j :: 0 <= a < i && 0 <= j < |entries[a]| ==> !entries[a][j].Malformed?
      invariant Created(entries, i, kbCls, uuid, d, kb, rows)
      invariant carried == CallbackAfter(Flat(entries[..i]), d)
    {
      var ok, shown, rows', carried' := CreateRow(entries[i], kbCls, uuid, rows, carried, Flat(entries[..i]), Tokens(kb), d);
      if !ok {
        return Err("Neither table nor row specified");
      }
      CreatedSnoc(entries, i, kbCls, uuid, d, kb, rows, shown, rows', carried');
      kb, rows, carried := kb + [shown], rows', carried';
      i := i + 1;
    }
    r := Ok((kb, rows));
  }

  // ---------------------------------------------------------------------------
  // From creation to reconstruction

  /** Distinct uuids make distinct tokens, so the count check passes when
      every row was stored under its token; the ids then grow along the
      keyboard. */
  lemma {:induction false} NumberedComplete(tokens: seq<Bytes>, rows: seq<(Bytes, Stored)>, kbCls: string,
                                            uuid: nat -> Uuid, db: map<Bytes, Stored>)
    requires Numbered(tokens, rows, kbCls, uuid)
    requires forall a: nat, b: nat :: a != b ==> uuid(a) != uuid(b)
    requires forall k :: 0 <= k < |rows| ==> rows[k].0 in db && db[rows[k].0] == rows[k].1
    ensures Complete(tokens, db)
    ensures forall a, b :: 0 <= a < b < |tokens| ==> db[tokens[a]].order < db[tokens[b]].order
  {
    forall a, b | 0 <= a < b < |tokens|
      ensures tokens[a] != tokens[b]
    {
      assert tokens[a][8..] == uuid(a) != uuid(b) == tokens[b][8..];
    }
    forall t | t in tokens
      ensures t in db
    {
      var k :| 0 <= k < |tokens| && tokens[k] == t;
      assert rows[k].0 == t;
    }
    forall a, b | 0 <= a < b < |tokens|
      ensures db[tokens[a]].order < db[tokens[b]].order
    {
      assert rows[a].0 == tokens[a] && rows[b].0 == tokens[b];
    }
  }

  /** The button cells a keyboard was created with, rebuilt. */
  ghost predicate RestoredCells(entries: seq<seq<Entry>>, d: Option<string>, out: seq<seq<Slot>>)
  {
    && |out| == |entries| && (forall i :: 0 <= i < |entries| ==> |out[i]| == |entries[i]|)
    && (forall i, j :: 0 <= i < |entries| && 0 <= j < |entries[i]| && entries[i][j].RowEntry? ==>
          && out[i][j].Filled? && out[i][j].table == ClassKeyLittle(entries[i][j].cls)
          && out[i][j].row == Named(entries[i][j].row.(order := out[i][j].row.order),
                                    CallbackAfter(Flat(entries[..i]) + entries[i][..j + 1], d)))
    && (forall i, j :: 0 <= i < |entries| && 0 <= j < |entries[i]| && entries[i][j].InlineEntry? ==> out[i][j] == NoData)
  }

  /** The round trip: when the database keeps every row `create_keyboard`
      stored under its token, the count check passes and the rebuilt
      keyboard holds, in each button's cell, the row created for it (with
      its `button_id` and the callback name carried to it), from the table
      of its class; links come back empty. */
  lemma {:induction false} CreatedRestored(entries: seq<seq<Entry>>, kbCls: string, uuid: nat -> Uuid, d: Option<string>,
                                           kb: seq<seq<Shown>>, rows: seq<(Bytes, Stored)>, db: map<Bytes, Stored>,
                                           out: seq<seq<Slot>>)
    requires Created(entries, |entries|, kbCls, uuid, d, kb, rows)
    requires forall a: nat, b: nat :: a != b ==> uuid(a) != uuid(b)
    requires forall k :: 0 <= k < |rows| ==> rows[k].0 in db && db[rows[k].0] == rows[k].1
    requires FilledFrom(SlotGrid(kb), Sort(Fetch(Tokens(kb), db)), out)
    ensures Complete(Tokens(kb), db)
    ensures RestoredCells(entries, d, out)
  {
    NumberedComplete(Tokens(kb), rows, kbCls, uuid, db);
    Restored(kb, db, out);
    CellsBack(entries, kbCls, uuid, d, kb, rows, db, out);
  }

  /** From the cells `Restored` rebuilt to the entries they were created
      for. */
  lemma {:induction false} CellsBack(entries: seq<seq<Entry>>, kbCls: string, uuid: nat -> Uuid, d: Option<string>,
                                     kb: seq<seq<Shown>>, rows: seq<(Bytes, Stored)>, db: map<Bytes, Stored>,
                                     out: seq<seq<Slot>>)
    requires Created(entries, |entries|, kbCls, uuid, d, kb, rows)
    requires forall k :: 0 <= k < |rows| ==> rows[k].0 in db && db[rows[k].0] == rows[k].1
    requires |out| == |kb| && forall i :: 0 <= i < |kb| ==> |out[i]| == |kb[i]|
    requires forall i, j :: 0 <= i < |kb| && 0 <= j < |kb[i]| && kb[i][j].data.Some? ==>
               kb[i][j].data.value in db && out[i][j] == Filled(Key(kb[i][j].data.value), db[kb[i][j].data.value])
    requires forall i, j :: 0 <= i < |kb| && 0 <= j < |kb[i]| && kb[i][j].data.None? ==> out[i][j] == NoData
    ensures RestoredCells(entries, d, out)
  {
    forall i | 0 <= i < |entries|
      ensures |out[i]| == |entries[i]|
    {
      assert RowCreated(Flat(entries[..i]), entries[i], |entries[i]|, kb[i], rows, kbCls, uuid, d);
    }
    forall i, j | 0 <= i < |entries| && 0 <= j < |entries[i]|
      ensures entries[i][j].RowEntry? ==>
                && out[i][j].Filled? && out[i][j].table == ClassKeyLittle(entries[i][j].cls)
                && out[i][j].row == Named(entries[i][j].row.(order := out[i][j].row.order),
                                          CallbackAfter(Flat(entries[..i]) + entries[i][..j + 1], d))
      ensures entries[i][j].InlineEntry? ==> out[i][j] == NoData
    {
      CellRestored(entries, kbCls, uuid, d, kb, rows, db, i, j);
    }
  }

  /** One cell of the round trip: a button's token names its class and its
      row is stored under it; a link has no token. */
  lemma {:induction false} CellRestored(entries: seq<seq<Entry>>, kbCls: string, uuid: nat -> Uuid, d: Option<string>,
                                        kb: seq<seq<Shown>>, rows: seq<(Bytes, Stored)>, db: map<Bytes, Stored>,
                                        i: nat, j: nat)
    requires Created(entries, |entries|, kbCls, uuid, d, kb, rows)
    requires forall k :: 0 <= k < |rows| ==> rows[k].0 in db && db[rows[k].0] == rows[k].1
    requires i < |entries| && j < |entries[i]|
    ensures entries[i][j].InlineEntry? ==> kb[i][j].data.None?
    ensures entries[i][j].RowEntry? ==>
              && kb[i][j].data.Some? && kb[i][j].data.value in db
              && Key(kb[i][j].data.value) == ClassKeyLittle(entries[i][j].cls)
              && var b := db[kb[i][j].data.value];
                 b == Named(entries[i][j].row.(order := b.order), CallbackAfter(Flat(entries[..i]) + entries[i][..j + 1], d))
  {
    var e, s := entries[i][j], kb[i][j];
    var carried := CallbackAfter(Flat(entries[..i]) + entries[i][..j + 1], d);
    assert RowCreated(Flat(entries[..i]), entries[i], |entries[i]|, kb[i], rows, kbCls, uuid, d);
    assert CellCreated(e, s, rows, kbCls, uuid, carried);
    if e.RowEntry? {
      var k :| 0 <= k < |rows| && s.data.value == Token(e.cls, kbCls, uuid(k))
               && rows[k] == (s.data.value, Named(e.row.(order := k), carried));
      assert db[s.data.value] == Named(e.row.(order := k), carried);
    }
  }

  // ---------------------------------------------------------------------------
  // handle_callback_query

  /** What the handler raises that nothing catches. */
  datatype Crash =
    | UnknownClass(key: Bytes)  // the `KeyError` of a token of an unregistered button class
    | IndexError             // `result_keyboard[column_index]` or `[row_index]` out of range
    | NoneHasNoUserId        // the cell read holds `None` (a button without data)
    | NoHandler              // `getattr(controller, button.callback_name)` fails
    | NoSetContextVar        // `set_context_var`, which the context-var wrapper does not define

  /** What handling a callback query ends in. */
  datatype Outcome =
    | StaleAlert             // 'this keyboard is outdated'
    | Crashed(crash: Crash)
    | PermissionDenied       // 'you cannot activate this button', and nothing else
    | Handled(permissionAlert: bool, answered: bool, called: string, button: Stored)

  /** `SimpleKeyboard.handle_button_activation`: the controller method named
      by the button's `callback_name` is called with the button in cell
      (r, c) of the rebuilt keyboard. */
  function SimpleActivation(grid: seq<seq<Slot>>, r: nat, c: nat, handlers: set<string>): (o: Result<(string, Stored), Crash>)
    requires r < |grid| && c < |grid[r]| && grid[r][c].Filled?
    ensures o.Ok? <==> grid[r][c].row.callbackName.Some? && grid[r][c].row.callbackName.value in handlers
    ensures o.Ok? ==> o.value == (grid[r][c].row.callbackName.value, grid[r][c].row)
    ensures o.Err? ==> o.error == NoHandler
  {
    var b := grid[r][c].row;
    if b.callbackName.Some? && b.callbackName.value in handlers then Ok((b.callbackName.value, b)) else Err(NoHandler)
  }

  /** Lines 150-157 with the intended reading: the pressed cell (r, c) is
      checked, a button of another user is refused, otherwise the query is
      answered when `answer` is set and the button activated. */
  function Activation(grid: seq<seq<Slot>>, r: nat, c: nat, fromUser: int, handlers: set<string>): (o: Outcome)
    requires r < |grid| && c < |grid[r]| && grid[r][c].Filled?
    ensures var b := grid[r][c].row;
            && (o == PermissionDenied <==> b.userId != DefaultUserId && fromUser != b.userId)
            && (o.Handled? ==> !o.permissionAlert && o.answered == b.answer && o.button == b
                               && b.callbackName == Some(o.called) && o.called in handlers)
            && (o.Crashed? ==> o.crash == NoHandler)
            && !o.StaleAlert?
  {
    var b := grid[r][c].row;
    if b.userId != DefaultUserId && fromUser != b.userId then PermissionDenied
    else
      match SimpleActivation(grid, r, c, handlers)
      case Ok((name, button)) => Handled(false, b.answer, name, button)
      case Err(e) => Crashed(e)
  }

  /** Lines 150-157 as written: the checks read `result_keyboard[c][r]`,
      with the indices swapped, the permission alert does not return, and a
      button without `answer` calls `set_context_var` (line 156), which the
      context-var wrapper does not define, so the lookup is forwarded to the
      unset value and raises. Otherwise the activation (which reads cell
      (r, c)) follows. */
  function ActivationAsWritten(grid: seq<seq<Slot>>, r: nat, c: nat, fromUser: int, handlers: set<string>): (o: Outcome)
    requires r < |grid| && c < |grid[r]| && grid[r][c].Filled?
    ensures !(c < |grid| && r < |grid[c]|) ==> o == Crashed(IndexError)
    ensures c < |grid| && r < |grid[c]| && grid[c][r].Filled? ==>
              var a := grid[c][r].row;
              && o != PermissionDenied
              && (!a.answer <==> o == Crashed(NoSetContextVar))
              && (o.Handled? ==> o.permissionAlert == (a.userId != DefaultUserId && fromUser != a.userId)
                                 && o.answered && o.button == grid[r][c].row)
  {
    if !(c < |grid| && r < |grid[c]|) then Crashed(IndexError)
    else if !grid[c][r].Filled? then Crashed(NoneHasNoUserId)
    else
      var a := grid[c][r].row;
      var alert := a.userId != DefaultUserId && fromUser != a.userId;
      if !a.answer then Crashed(NoSetContextVar)
      else
      match SimpleActivation(grid, r, c, handlers)
      case Ok((name, button)) => Handled(alert, a.answer, name, button)
      case Err(e) => Crashed(e)
  }

  /** On the diagonal (r == c) the swap reads the right cell: a button the
      user may press is handled alike when it answers the query, and crashes
      at line 156 when it does not. */
  lemma {:induction false} AsWrittenOnDiagonal(grid: seq<seq<Slot>>, r: nat, fromUser: int, handlers: set<string>)
    requires r < |grid| && r < |grid[r]| && grid[r][r].Filled?
    requires grid[r][r].row.userId == DefaultUserId || fromUser == grid[r][r].row.userId
    ensures ActivationAsWritten(grid, r, r, fromUser, handlers)
            == if grid[r][r].row.answer then Activation(grid, r, r, fromUser, handlers) else Crashed(NoSetContextVar)
  {
  }

  /** The swap, shown: on a keyboard of one row of two buttons, pressing the
      second one, cell (0, 1), reads `result_keyboard[1]`, which does not
      exist; the intended reading activates the second button. */
  lemma {:induction false} SwappedIndexCounterexample(b0: Stored, b1: Stored, t0: Bytes, t1: Bytes, fromUser: int)
    requires b1.userId == DefaultUserId && b1.callbackName == Some("f")
    ensures var grid := [[Filled(t0, b0), Filled(t1, b1)]];
            && ActivationAsWritten(grid, 0, 1, fromUser, {"f"}) == Crashed(IndexError)
            && Activation(grid, 0, 1, fromUser, {"f"}) == Handled(false, b1.answer, "f", b1)
  {
  }

  /** The missing `return`, shown: a button of user 5 pressed by user 7
      gets the alert and is activated all the same; the intended reading
      stops at the alert. */
  lemma {:induction false} PermissionCounterexample(b: Stored, t: Bytes)
    requires b.userId == 5 && b.answer && b.callbackName == Some("f")
    ensures var grid := [[Filled(t, b)]];
            && ActivationAsWritten(grid, 0, 0, 7, {"f"}) == Handled(true, true, "f", b)
            && Activation(grid, 0, 0, 7, {"f"}) == PermissionDenied
  {
  }

  /** The call of line 156, shown: a button of the default user with
      `answer` False crashes as written; the intended reading stores the
      query and activates the button without answering it. */
  lemma {:induction false} ContextVarCounterexample(b: Stored, t: Bytes, fromUser: int)
    requires b.userId == DefaultUserId && !b.answer && b.callbackName == Some("f")
    ensures var grid := [[Filled(t, b)]];
            && ActivationAsWritten(grid, 0, 0, fromUser, {"f"}) == Crashed(NoSetContextVar)
            && Activation(grid, 0, 0, fromUser, {"f"}) == Handled(false, false, "f", b)
  {
  }

  /** The checks before the `try` block's first pass: a token of the wrong
      length, or whose button or keyboard class is not registered, is stale. */
  predicate Recognised(q: Bytes, buttons: map<Bytes, string>, keyboards: map<Bytes, string>)
  {
    |q| == TokenLength && q[..4] in buttons && q[4..8] in keyboards
  }

  /** `KeyboardHandler.handle_callback_query`, with the activation read as
      intended: the query data `q` pressed on keyboard `g` by user
      `fromUser`; `buttons` and `keyboards` are the two registries, `db` the
      button tables, `handlers` the controller's methods. */
  method HandleCallbackQuery(g: seq<seq<Shown>>, q: Bytes, fromUser: int, buttons: map<Bytes, string>,
                             keyboards: map<Bytes, string>, db: map<Bytes, Stored>, handlers: set<string>)
    returns (o: Outcome)
    ensures !Recognised(q, buttons, keyboards) ==> o == StaleAlert
    ensures o.Crashed? && o.crash.UnknownClass? <==> Recognised(q, buttons, keyboards) && !KnownKeys(g, buttons.Keys)
    ensures o.Crashed? && o.crash.UnknownClass? ==> o.crash.key !in buttons
    ensures o == StaleAlert <==>
              || !Recognised(q, buttons, keyboards)
              || (KnownKeys(g, buttons.Keys) && (!HasCell(g, q) || !Complete(Tokens(g), db)))
    ensures o != StaleAlert && !(o.Crashed? && o.crash.UnknownClass?) ==>
              exists b: Rebuilt ::
                && FirstMatch(g, q, Some((b.row, b.col)))
                && FilledFrom(SlotGrid(g), Sort(Fetch(Tokens(g), db)), b.grid)
                && PressedRow(b, buttons.Keys)
                && o == Activation(b.grid, b.row, b.col, fromUser, handlers)
  {
    if |q| != TokenLength || q[..4] !in buttons || q[4..8] !in keyboards {
      return StaleAlert;
    }
    var r := Rebuild(g, q, buttons.Keys, db);
    if r.Err? {
      return if r.error.KeyError? then Crashed(UnknownClass(r.error.key)) else StaleAlert;
    }
    var b := r.value;
    o := Activation(b.grid, b.row, b.col, fromUser, handlers);
  }

  /** `KeyboardHandler.handle_callback_query` as written: the same up to the
      activation, which is `ActivationAsWritten`. */
  method HandleCallbackQueryAsWritten(g: seq<seq<Shown>>, q: Bytes, fromUser: int, buttons: map<Bytes, string>,
                                      keyboards: map<Bytes, string>, db: map<Bytes, Stored>, handlers: set<string>)
    returns (o: Outcome)
    ensures !Recognised(q, buttons, keyboards) ==> o == StaleAlert
    ensures o != StaleAlert && !(o.Crashed? && o.crash.UnknownClass?) ==>
              exists b: Rebuilt ::
                && FirstMatch(g, q, Some((b.row, b.col)))
                && FilledFrom(SlotGrid(g), Sort(Fetch(Tokens(g), db)), b.grid)
                && PressedRow(b, buttons.Keys)
                && o == ActivationAsWritten(b.grid, b.row, b.col, fromUser, handlers)
  {
    if |q| != TokenLength || q[..4] !in buttons || q[4..8] !in keyboards {
      return StaleAlert;
    }
    var r := Rebuild(g, q, buttons.Keys, db);
    if r.Err? {
      return if r.error.KeyError? then Crashed(UnknownClass(r.error.key)) else StaleAlert;
    }
    var b := r.value;
    o := ActivationAsWritten(b.grid, b.row, b.col, fromUser, handlers);
  }
}

=== FILE: legacy_callback.dfy ===
/** The callback handling the two older keyboard modules share
    (`TGBotKeyboardMixin.handle_callback_query` in tgbot/keyboard/__init__.py
    and `KeyboardHandler.handle_callback_query` in tgbot/keyboard_handler.py):
    the message's inline keyboard is scanned for buttons carrying a token, the
    pressed button is located, the stored rows of all tokens are fetched
    table by table, sorted, and put back in row-major order in place of the token buttons.

    The button tables are one map from a token to its stored row; a row sits
    in the table its token's first four bytes name. */
module LegacyCallback {
  import opened Common
  import GuiKeyboard

  /** A button of the message's inline keyboard; `None` when it carries no
      callback data (a link, say). */
  datatype Shown = Shown(text: string, data: Option<Bytes>)

  /** The columns of a stored button row that the handlers read. `order` is
      the column the rows are sorted by: `id` in tgbot/keyboard, `button_id`
      in tgbot/keyboard_handler. */
  datatype Stored = Stored(order: int, userId: int, answer: bool, callbackName: Option<string>,
                           isChecked: bool, checkedPrefix: string, uncheckedPrefix: string)

  /** A cell of `result_keyboard`: `None`, the placeholder `42`, or a stored
      row with the table it was fetched from. */
  datatype Slot = NoData | Placeholder | Filled(table: Bytes, row: Stored)

  /** Why the handler gives up: the keyboard is stale (the `ValueError` it
      catches), or a token names an unknown class (a `KeyError` it does not
      catch). */
  datatype Failure = Stale | KeyError(key: Bytes)

  /** `data[:4]`: the key of a token's class (a shorter token is taken whole). */
  function Key(t: Bytes): Bytes
  {
    if |t| >= 4 then t[..4] else t
  }

  // ---------------------------------------------------------------------------
  // The first pass: specification

  /** The tokens of a row, left to right. */
  function RowTokens(row: seq<Shown>): seq<Bytes>
    decreases |row|
  {
    if row == [] then []
    else RowTokens(row[..|row| - 1]) + (if row[|row| - 1].data.Some? then [row[|row| - 1].data.value] else [])
  }

  /** The tokens of a keyboard in row-major order. */
  function Tokens(g: seq<seq<Shown>>): seq<Bytes>
    decreases |g|
  {
    if g == [] then [] else Tokens(g[..|g| - 1]) + RowTokens(g[|g| - 1])
  }

  function SlotOf(b: Shown): Slot
  {
    if b.data.Some? then Placeholder else NoData
  }

  /** A row of `result_keyboard` after the first pass. */
  function SlotRow(row: seq<Shown>): (r: seq<Slot>)
    ensures |r| == |row| && forall j :: 0 <= j < |row| ==> r[j] == SlotOf(row[j])
    decreases |row|
  {
    if row == [] then [] else SlotRow(row[..|row| - 1]) + [SlotOf(row[|row| - 1])]
  }

  /** `result_keyboard` after the first pass. */
  function SlotGrid(g: seq<seq<Shown>>): (r: seq<seq<Slot>>)
    ensures |r| == |g| && forall i :: 0 <= i < |g| ==> r[i] == SlotRow(g[i])
    decreases |g|
  {
    if g == [] then [] else SlotGrid(g[..|g| - 1]) + [SlotRow(g[|g| - 1])]
  }

  /** Every token names a registered class. */
  predicate KnownKeys(g: seq<seq<Shown>>, known: set<Bytes>)
  {
    forall t :: t in Tokens(g) ==> Key(t) in known
  }

  /** Cell (i, j) of `g` comes before cell (r, c) in row-major order. */
  ghost predicate Before(g: seq<seq<Shown>>, i: int, j: int, r: int, c: int)
  {
    || (0 <= i < r && i < |g| && 0 <= j < |g[i]|)
    || (i == r && 0 <= r < |g| && 0 <= j < c && j < |g[r]|)
  }

  /** No cell before (r, c) carries token `q`. */
  ghost predicate NoneBefore(g: seq<seq<Shown>>, q: Bytes, r: int, c: int)
  {
    forall i, j :: Before(g, i, j, r, c) ==> g[i][j].data != Some(q)
  }

  /** `p` is the first cell carrying `q`, or `None` when no cell does. */
  ghost predicate FirstMatch(g: seq<seq<Shown>>, q: Bytes, p: Option<(nat, nat)>)
  {
    match p
    case Some((r, c)) => r < |g| && c < |g[r]| && g[r][c].data == Some(q) && NoneBefore(g, q, r, c)
    case None => NoneBefore(g, q, |g|, 0)
  }

  /** Every cell with a token is listed in `RowTokens`. */
  lemma {:induction false} CellInRowTokens(row: seq<Shown>, c: nat)
    requires c < |row| && row[c].data.Some?
    ensures row[c].data.value in RowTokens(row)
    decreases |row|
  {
    if c < |row| - 1 {
      CellInRowTokens(row[..|row| - 1], c);
    }
  }

  lemma {:induction false} CellInTokens(g: seq<seq<Shown>>, r: nat, c: nat)
    requires r < |g| && c < |g[r]| && g[r][c].data.Some?
    ensures g[r][c].data.value in Tokens(g)
    decreases |g|
  {
    if r < |g| - 1 {
      CellInTokens(g[..|g| - 1], r, c);
    } else {
      CellInRowTokens(g[r], c);
    }
  }

  // ---------------------------------------------------------------------------
  // The first pass

  /** Extending a row prefix by one cell. */
  lemma {:induction false} RowPrefixStep(row: seq<Shown>, j: nat)
    requires j < |row|
    ensures SlotRow(row[..j + 1]) == SlotRow(row[..j]) + [SlotOf(row[j])]
    ensures RowTokens(row[..j + 1]) == RowTokens(row[..j]) + (if row[j].data.Some? then [row[j].data.value] else [])
  {
    assert row[..j + 1][..j] == row[..j];
  }

  /** Extending a keyboard prefix by one row. */
  lemma {:induction false} GridPrefixStep(g: seq<seq<Shown>>, i: nat)
    requires i < |g|
    ensures SlotGrid(g[..i + 1]) == SlotGrid(g[..i]) + [SlotRow(g[i])]
    ensures Tokens(g[..i + 1]) == Tokens(g[..i]) + RowTokens(g[i])
  {
    assert g[..i + 1][..i] == g[..i];
  }

  datatype Scanned = Scanned(slots: seq<seq<Slot>>, tokens: seq<Bytes>, pressed: Option<(nat, nat)>)

  /** One row of the first pass: a placeholder for each token button, the
      token recorded, and, while nothing was found (`found` false), the first
      button carrying `q`; stops at a token whose class is not registered. */
  method ScanRow(row: seq<Shown>, q: Bytes, known: set<Bytes>, found: bool)
    returns (bad: Option<Bytes>, slots: seq<Slot>, tokens: seq<Bytes>, col: Option<nat>)
    ensures bad.Some? ==> bad.value !in known && exists j :: 0 <= j < |row| && row[j].data.Some? && Key(row[j].data.value) == bad.value
    ensures bad.None? ==> slots == SlotRow(row) && tokens == RowTokens(row) && forall t :: t in tokens ==> Key(t) in known
    ensures bad.None? && col.Some? ==> !found && col.value < |row| && row[col.value].data == Some(q)
                                       && forall j :: 0 <= j < col.value ==> row[j].data != Some(q)
    ensures bad.None? && col.None? && !found ==> forall j :: 0 <= j < |row| ==> row[j].data != Some(q)
  {
    slots, tokens, col := [], [], None;
    var j := 0;
    while j < |row|
      invariant j <= |row|
      invariant RowScanned(row, q, known, found, j, slots, tokens, col)
    {
      var b := row[j];
      ScanRowStep(row, q, known, found, j, slots, tokens, col);
      if b.data.None? {
        slots := slots + [NoData];
      } else {
        var t := b.data.value;
        if Key(t) !in known {
          return Some(Key(t)), slots + [Placeholder], tokens, col;
        }
        slots, tokens := slots + [Placeholder], tokens + [t];
        if !found && col.None? && t == q {
          col := Some(j);
        }
      }
      j := j + 1;
    }
    assert row[..j] == row;
    bad := None;
  }

  /** `ScanRow` after `j` cells. */
  ghost predicate RowScanned(row: seq<Shown>, q: Bytes, known: set<Bytes>, found: bool, j: nat,
                             slots: seq<Slot>, tokens: seq<Bytes>, col: Option<nat>)
  {
    && j <= |row|
    && slots == SlotRow(row[..j]) && tokens == RowTokens(row[..j])
    && (forall t :: t in tokens ==> Key(t) in known)
    && (col.Some? ==> !found && col.value < j && row[col.value].data == Some(q)
                      && forall k :: 0 <= k < col.value ==> row[k].data != Some(q))
    && (col.None? && !found ==> forall k :: 0 <= k < j ==> row[k].data != Some(q))
  }

  /** One cell of `ScanRow`. */
  lemma {:induction false} ScanRowStep(row: seq<Shown>, q: Bytes, known: set<Bytes>, found: bool, j: nat,
                                       slots: seq<Slot>, tokens: seq<Bytes>, col: Option<nat>)
    requires j < |row| && RowScanned(row, q, known, found, j, slots, tokens, col)
    ensures row[j].data.None? ==> RowScanned(row, q, known, found, j + 1, slots + [NoData], tokens, col)
    ensures row[j].data.Some? && Key(row[j].data.value) in known ==>
              var t := row[j].data.value;
              RowScanned(row, q, known, found, j + 1, slots + [Placeholder], tokens + [t],
                         if !found && col.None? && t == q then Some(j) else col)
  {
    RowPrefixStep(row, j);
  }

  /** The end of a row without a match moves the search to the next row. */
  lemma {:induction false} NoMatchInRow(g: seq<seq<Shown>>, q: Bytes, r: nat)
    requires r < |g| && NoneBefore(g, q, r, 0)
    requires forall j :: 0 <= j < |g[r]| ==> g[r][j].data != Some(q)
    ensures NoneBefore(g, q, r + 1, 0)
  {
  }

  /** The first pass: the placeholders and tokens of the whole keyboard and
      the first button carrying the pressed token `q`; a token whose class is
      not registered raises `KeyError`. */
  method Scan(g: seq<seq<Shown>>, q: Bytes, known: set<Bytes>) returns (r: Result<Scanned, Failure>)
    ensures r.Err? <==> !KnownKeys(g, known)
    ensures r.Err? ==> r.error.KeyError? && r.error.key !in known
    ensures r.Ok? ==> r.value.slots == SlotGrid(g) && r.value.tokens == Tokens(g) && FirstMatch(g, q, r.value.pressed)
  {
    var slots: seq<seq<Slot>> := [];
    var tokens: seq<Bytes> := [];
    var pressed: Option<(nat, nat)> := None;
    var i := 0;
    while i < |g|
      invariant 0 <= i <= |g|
      invariant slots == SlotGrid(g[..i]) && tokens == Tokens(g[..i])
      invariant forall t :: t in tokens ==> Key(t) in known
      invariant pressed.Some? ==> FirstMatch(g, q, pressed)
      invariant pressed.None? ==> NoneBefore(g, q, i, 0)
    {
      var bad, rowSlots, rowTokens, col := ScanRow(g[i], q, known, pressed.Some?);
      if bad.Some? {
        var j :| 0 <= j < |g[i]| && g[i][j].data.Some? && Key(g[i][j].data.value) == bad.value;
        CellInTokens(g, i, j);
        return Err(KeyError(bad.value));
      }
      GridPrefixStep(g, i);
      if col.Some? {
        pressed := Some((i, col.value));
      } else if pressed.None? {
        NoMatchInRow(g, q, i);
      }
      slots, tokens := slots + [rowSlots], tokens + rowTokens;
      i := i + 1;
    }
    assert g[..i] == g;
    r := Ok(Scanned(slots, tokens, pressed));
  }

  // ---------------------------------------------------------------------------
  // The fetch and the count check

  /** Each stored token's row once, in token order, with the table it sits
      in. */
  function TokenRows(tokens: seq<Bytes>, db: map<Bytes, Stored>): seq<(Bytes, Stored)>
    decreases |tokens|
  {
    if tokens == [] then []
    else
      var init, t := tokens[..|tokens| - 1], tokens[|tokens| - 1];
      TokenRows(init, db) + (if t in db && t !in init then [(Key(t), db[t])] else [])
  }

  /** The keys of `button_classes_data_map`: the tables of the tokens, in
      the order they first appear. */
  function Tables(tokens: seq<Bytes>): seq<Bytes>
    decreases |tokens|
  {
    if tokens == [] then []
    else
      var init, t := tokens[..|tokens| - 1], tokens[|tokens| - 1];
      Tables(init) + (if Key(t) in Tables(init) then [] else [Key(t)])
  }

  /** Every token's table is listed, and none twice. */
  lemma {:induction false} TablesListed(tokens: seq<Bytes>)
    ensures GuiKeyboard.Distinct(Tables(tokens))
    ensures forall t :: t in tokens ==> Key(t) in Tables(tokens)
    decreases |tokens|
  {
    if tokens != [] {
      var init, t := tokens[..|tokens| - 1], tokens[|tokens| - 1];
      TablesListed(init);
      assert forall x :: x in tokens ==> x in init || x == t;
    }
  }

  /** The rows of table `k`, in the order of `s`. */
  function OfTable(s: seq<(Bytes, Stored)>, k: Bytes): (r: seq<(Bytes, Stored)>)
    decreases |s|
  {
    if s == [] then [] else (if s[0].0 == k then [s[0]] else []) + OfTable(s[1..], k)
  }

  /** The rows of the other tables, in the order of `s`. */
  function OtherTables(s: seq<(Bytes, Stored)>, k: Bytes): (r: seq<(Bytes, Stored)>)
    ensures forall e :: e in r ==> e in s && e.0 != k
    decreases |s|
  {
    if s == [] then [] else (if s[0].0 == k then [] else [s[0]]) + OtherTables(s[1..], k)
  }

  /** One query per table, in the order `keys` lists the tables, each
      returning that table's rows. */
  function ByTable(s: seq<(Bytes, Stored)>, keys: seq<Bytes>): seq<(Bytes, Stored)>
    decreases |keys|
  {
    if keys == [] then [] else OfTable(s, keys[0]) + ByTable(s, keys[1..])
  }

  /** The rows the queries return: table by table, in the order the tables
      first appear on the keyboard, each stored token's row once. Inside one
      table the rows come in token order: the query has no `ORDER BY`, and
      the sort that follows makes that order irrelevant as long as the
      table's ids differ. */
  function Fetch(tokens: seq<Bytes>, db: map<Bytes, Stored>): seq<(Bytes, Stored)>
  {
    ByTable(TokenRows(tokens, db), Tables(tokens))
  }

  /** Every token has a row and none occurs twice. */
  predicate Complete(tokens: seq<Bytes>, db: map<Bytes, Stored>)
  {
    GuiKeyboard.Distinct(tokens) && forall t :: t in tokens ==> t in db
  }

  /** There are as many token rows as tokens exactly when every token has a
      row and none occurs twice; they then come one per token, in token
      order. */
  lemma {:induction false} TokenRowsCount(tokens: seq<Bytes>, db: map<Bytes, Stored>)
    ensures |TokenRows(tokens, db)| <= |tokens|
    ensures |TokenRows(tokens, db)| == |tokens| <==> Complete(tokens, db)
    ensures Complete(tokens, db) ==>
              forall k :: 0 <= k < |tokens| ==> TokenRows(tokens, db)[k] == (Key(tokens[k]), db[tokens[k]])
    decreases |tokens|
  {
    if tokens != [] {
      var init, t := tokens[..|tokens| - 1], tokens[|tokens| - 1];
      TokenRowsCount(init, db);
      assert forall x :: x in init ==> x in tokens;
      if Complete(tokens, db) {
        assert Complete(init, db) by {
          forall a, b | 0 <= a < b < |init|
            ensures init[a] != init[b]
          {
            assert init[a] == tokens[a] && init[b] == tokens[b];
          }
        }
        assert t !in init by {
          forall k | 0 <= k < |init|
            ensures init[k] != t
          {
            assert init[k] == tokens[k];
          }
        }
      }
      if |TokenRows(tokens, db)| == |tokens| {
        assert |TokenRows(init, db)| == |init| && t in db && t !in init;
        forall a, b | 0 <= a < b < |tokens|
          ensures tokens[a] != tokens[b]
        {
          if b == |tokens| - 1 {
            assert tokens[a] == init[a];
          } else {
            assert tokens[a] == init[a] && tokens[b] == init[b];
          }
        }
      }
    }
  }

  /** Splitting the rows by one table loses none. */
  lemma {:induction false} SplitTable(s: seq<(Bytes, Stored)>, k: Bytes)
    ensures multiset(s) == multiset(OfTable(s, k)) + multiset(OtherTables(s, k))
    decreases |s|
  {
    if s != [] {
      SplitTable(s[1..], k);
      assert s == [s[0]] + s[1..];
    }
  }

  /** Dropping table `k` does not change what another table's query returns. */
  lemma {:induction false} OfTableOther(s: seq<(Bytes, Stored)>, k: Bytes, other: Bytes)
    requires k != other
    ensures OfTable(OtherTables(s, other), k) == OfTable(s, k)
    decreases |s|
  {
    if s != [] {
      OfTableOther(s[1..], k, other);
      var o := OtherTables(s[1..], other);
      if s[0].0 != other {
        assert OtherTables(s, other) == [s[0]] + o;
        assert ([s[0]] + o)[1..] == o;
      } else {
        assert OtherTables(s, other) == o;
      }
    }
  }

  lemma {:induction false} ByTableOther(s: seq<(Bytes, Stored)>, keys: seq<Bytes>, other: Bytes)
    requires other !in keys
    ensures ByTable(OtherTables(s, other), keys) == ByTable(s, keys)
    decreases |keys|
  {
    if keys != [] {
      OfTableOther(s, keys[0], other);
      ByTableOther(s, keys[1..], other);
    }
  }

  /** The rows whose table is one of `keys`, in the order of `s`. */
  function Kept(s: seq<(Bytes, Stored)>, keys: seq<Bytes>): seq<(Bytes, Stored)>
    decreases |s|
  {
    if s == [] then [] else (if s[0].0 in keys then [s[0]] else []) + Kept(s[1..], keys)
  }

  /** No table queried, no rows. */
  lemma {:induction false} KeptNone(s: seq<(Bytes, Stored)>)
    ensures Kept(s, []) == []
    decreases |s|
  {
    if s != [] {
      KeptNone(s[1..]);
    }
  }

  /** Querying every table the rows sit in keeps them all. */
  lemma {:induction false} KeptAll(s: seq<(Bytes, Stored)>, keys: seq<Bytes>)
    requires forall e :: e in s ==> e.0 in keys
    ensures Kept(s, keys) == s
    decreases |s|
  {
    if s != [] {
      assert s[0] in s;
      assert forall e :: e in s[1..] ==> e in s;
      KeptAll(s[1..], keys);
      assert s == [s[0]] + s[1..];
    }
  }

  /** The rows of tables `[k] + rest`: those of table `k`, then those of the
      tables in `rest` among the others. */
  lemma {:induction false} KeptSplit(s: seq<(Bytes, Stored)>, k: Bytes, rest: seq<Bytes>)
    ensures multiset(Kept(s, [k] + rest)) == multiset(OfTable(s, k)) + multiset(Kept(OtherTables(s, k), rest))
    decreases |s|
  {
    if s != [] {
      var x, t := s[0], s[1..];
      var o := OtherTables(t, k);
      KeptSplit(t, k, rest);
      if x.0 == k {
        assert multiset(Kept(s, [k] + rest)) == multiset{x} + multiset(Kept(t, [k] + rest)) by {
          assert x.0 in [k] + rest;
        }
        assert multiset(OfTable(s, k)) == multiset{x} + multiset(OfTable(t, k));
        assert OtherTables(s, k) == o;
      } else {
        var y := if x.0 in rest then [x] else [];
        assert Kept(OtherTables(s, k), rest) == y + Kept(o, rest) by {
          assert OtherTables(s, k) == [x] + o;
          assert ([x] + o)[1..] == o;
        }
        assert OfTable(s, k) == OfTable(t, k);
        assert Kept(s, [k] + rest) == y + Kept(t, [k] + rest) by {
          assert x.0 in [k] + rest <==> x.0 in rest;
        }
      }
    }
  }

  /** One query per table, each table once, returns the rows of those
      tables rearranged. */
  lemma {:induction false} ByTablePermutes(s: seq<(Bytes, Stored)>, keys: seq<Bytes>)
    requires GuiKeyboard.Distinct(keys)
    ensures multiset(ByTable(s, keys)) == multiset(Kept(s, keys))
    decreases |keys|
  {
    if keys == [] {
      KeptNone(s);
    } else {
      var k, rest := keys[0], keys[1..];
      assert k !in rest by {
        forall a | 0 <= a < |rest|
          ensures rest[a] != k
        {
          assert rest[a] == keys[a + 1];
        }
      }
      assert GuiKeyboard.Distinct(rest) by {
        forall a, b | 0 <= a < b < |rest|
          ensures rest[a] != rest[b]
        {
          assert rest[a] == keys[a + 1] && rest[b] == keys[b + 1];
        }
      }
      ByTablePermutes(OtherTables(s, k), rest);
      ByTableOther(s, rest, k);
      assert keys == [k] + rest;
      KeptSplit(s, k, rest);
    }
  }

  /** Each token row sits in the table its token names. */
  lemma {:induction false} TokenRowsTables(tokens: seq<Bytes>, db: map<Bytes, Stored>, known: set<Bytes>)
    requires forall t :: t in tokens ==> Key(t) in known
    ensures forall e :: e in TokenRows(tokens, db) ==> e.0 in known
    decreases |tokens|
  {
    if tokens != [] {
      var init := tokens[..|tokens| - 1];
      assert forall t :: t in init ==> t in tokens;
      TokenRowsTables(init, db, known);
    }
  }

  /** The table-by-table queries return the token rows rearranged. */
  lemma {:induction false} FetchPermutes(tokens: seq<Bytes>, db: map<Bytes, Stored>)
    ensures multiset(Fetch(tokens, db)) == multiset(TokenRows(tokens, db))
  {
    var tables := Tables(tokens);
    TablesListed(tokens);
    TokenRowsTables(tokens, db, set k | k in tables);
    ByTablePermutes(TokenRows(tokens, db), tables);
    KeptAll(TokenRows(tokens, db), tables);
  }

  /** The count check passes exactly when every token has a row and none
      occurs twice. */
  lemma {:induction false} FetchCount(tokens: seq<Bytes>, db: map<Bytes, Stored>)
    ensures |Fetch(tokens, db)| <= |tokens|
    ensures |Fetch(tokens, db)| == |tokens| <==> Complete(tokens, db)
  {
    FetchPermutes(tokens, db);
    assert |multiset(Fetch(tokens, db))| == |multiset(TokenRows(tokens, db))|;
    TokenRowsCount(tokens, db);
  }

  // ---------------------------------------------------------------------------
  // The sort

  /** `sort(key=...)`: the rows are ordered by their `order` column. */
  predicate SortedByOrder(s: seq<(Bytes, Stored)>)
  {
    forall i, j :: 0 <= i < j < |s| ==> s[i].1.order <= s[j].1.order
  }

  /** `x` placed before the first row of no smaller order. */
  function Insert(x: (Bytes, Stored), s: seq<(Bytes, Stored)>): (r: seq<(Bytes, Stored)>)
    ensures multiset(r) == multiset(s) + multiset{x} && |r| == |s| + 1
    decreases |s|
  {
    if s == [] || x.1.order <= s[0].1.order then [x] + s
    else
      assert s == [s[0]] + s[1..];
      [s[0]] + Insert(x, s[1..])
  }

  /** A bound below `x` and every row is a bound below the result. */
  lemma {:induction false} InsertBounded(x: (Bytes, Stored), s: seq<(Bytes, Stored)>, lo: int)
    requires lo <= x.1.order && forall k :: 0 <= k < |s| ==> lo <= s[k].1.order
    ensures forall k :: 0 <= k < |Insert(x, s)| ==> lo <= Insert(x, s)[k].1.order
    decreases |s|
  {
    if s != [] && x.1.order > s[0].1.order {
      InsertBounded(x, s[1..], lo);
    }
  }

  /** Inserting into sorted rows keeps them sorted. */
  lemma {:induction false} InsertSorted(x: (Bytes, Stored), s: seq<(Bytes, Stored)>)
    requires SortedByOrder(s)
    ensures SortedByOrder(Insert(x, s))
    decreases |s|
  {
    if s != [] && x.1.order > s[0].1.order {
      var rest := Insert(x, s[1..]);
      InsertSorted(x, s[1..]);
      InsertBounded(x, s[1..], s[0].1.order);
      assert Insert(x, s) == [s[0]] + rest;
    }
  }

  /** The rows sorted by `order`: a sorted permutation. */
  function Sort(s: seq<(Bytes, Stored)>): (r: seq<(Bytes, Stored)>)
    ensures SortedByOrder(r) && multiset(r) == multiset(s) && |r| == |s|
    decreases |s|
  {
    if s == [] then []
    else
      assert s == [s[0]] + s[1..];
      InsertSorted(s[0], Sort(s[1..]));
      Insert(s[0], Sort(s[1..]))
  }

  /** Rows in strictly increasing order. */
  predicate Increasing(s: seq<(Bytes, Stored)>)
  {
    forall i, j :: 0 <= i < j < |s| ==> s[i].1.order < s[j].1.order
  }

  /** Sorted rows are the only sorted arrangement of themselves when no two
      share an order: the sort then has a single possible result. */
  lemma {:induction false} SortedUnique(a: seq<(Bytes, Stored)>, t: seq<(Bytes, Stored)>)
    requires SortedByOrder(a) && Increasing(t) && multiset(a) == multiset(t)
    ensures a == t
    decreases |t|
  {
    assert |a| == |t| by {
      assert |multiset(a)| == |multiset(t)|;
    }
    if t != [] {
      SameFirst(a, t);
      SameRest(a, t);
      SortedUnique(a[1..], t[1..]);
      assert a == [a[0]] + a[1..] && t == [t[0]] + t[1..];
    }
  }

  /** Both start with the row of least order. */
  lemma {:induction false} SameFirst(a: seq<(Bytes, Stored)>, t: seq<(Bytes, Stored)>)
    requires SortedByOrder(a) && Increasing(t) && multiset(a) == multiset(t)
    requires a != [] && t != []
    ensures a[0] == t[0]
  {
    assert a[0] in multiset(t) && t[0] in multiset(a);
    var i :| 0 <= i < |t| && t[i] == a[0];
    var j :| 0 <= j < |a| && a[j] == t[0];
    assert a[0].1.order <= t[0].1.order <= t[i].1.order;
  }

  /** Taking the same first row off both leaves the same rows. */
  lemma {:induction false} SameRest(a: seq<(Bytes, Stored)>, t: seq<(Bytes, Stored)>)
    requires a != [] && t != [] && a[0] == t[0] && multiset(a) == multiset(t)
    ensures multiset(a[1..]) == multiset(t[1..])
  {
    assert a == [a[0]] + a[1..] && t == [t[0]] + t[1..];
    assert multiset(a[1..]) == multiset(a) - multiset{a[0]};
    assert multiset(t[1..]) == multiset(t) - multiset{a[0]};
  }

  // ---------------------------------------------------------------------------
  // The second pass: filling the placeholders

  /** The placeholders of a row. */
  function CountRow(row: seq<Slot>): nat
    decreases |row|
  {
    if row == [] then 0 else CountRow(row[..|row| - 1]) + (if row[|row| - 1].Placeholder? then 1 else 0)
  }

  /** The placeholders of a grid. */
  function CountGrid(g: seq<seq<Slot>>): nat
    decreases |g|
  {
    if g == [] then 0 else CountGrid(g[..|g| - 1]) + CountRow(g[|g| - 1])
  }

  /** The number of placeholders before cell (i, j) in row-major order. */
  function Rank(g: seq<seq<Slot>>, i: nat, j: nat): nat
    requires i < |g| && j <= |g[i]|
  {
    CountGrid(g[..i]) + CountRow(g[i][..j])
  }

  lemma {:induction false} CountRowPrefix(row: seq<Slot>, j: nat)
    requires j <= |row|
    ensures CountRow(row[..j]) <= CountRow(row)
    ensures j < |row| && row[j].Placeholder? ==> CountRow(row[..j]) < CountRow(row)
    decreases |row|
  {
    if j < |row| {
      var init := row[..|row| - 1];
      assert row[..|row| - 1] == init;
      if j < |row| - 1 {
        assert init[..j] == row[..j];
        CountRowPrefix(init, j);
      } else {
        assert row[..j] == init;
      }
    } else {
      assert row[..j] == row;
    }
  }

  lemma {:induction false} CountGridPrefix(g: seq<seq<Slot>>, i: nat)
    requires i <= |g|
    ensures CountGrid(g[..i]) <= CountGrid(g)
    ensures i < |g| ==> CountGrid(g[..i]) + CountRow(g[i]) <= CountGrid(g)
    decreases |g|
  {
    if i < |g| {
      var init := g[..|g| - 1];
      if i < |g| - 1 {
        assert init[..i] == g[..i];
        assert init[..i + 1] == g[..i + 1];
        CountGridPrefix(init, i);
      } else {
        assert g[..i] == init;
      }
    } else {
      assert g[..i] == g;
    }
  }

  /** A placeholder's rank is a valid index into as many rows as there are
      placeholders. */
  lemma {:induction false} RankBound(g: seq<seq<Slot>>, i: nat, j: nat)
    requires i < |g| && j < |g[i]| && g[i][j].Placeholder?
    ensures Rank(g, i, j) < CountGrid(g)
  {
    CountRowPrefix(g[i], j);
    CountGridPrefix(g, i);
  }

  /** `out` is `slots` with the k-th placeholder (row-major) replaced by the
      k-th row of `queue`. */
  ghost predicate FilledFrom(slots: seq<seq<Slot>>, queue: seq<(Bytes, Stored)>, out: seq<seq<Slot>>)
  {
    && |out| == |slots|
    && (forall i :: 0 <= i < |slots| ==> |out[i]| == |slots[i]|)
    && forall i, j :: 0 <= i < |slots| && 0 <= j < |slots[i]| ==>
         if slots[i][j].Placeholder?
         then Rank(slots, i, j) < |queue| && out[i][j] == Filled(queue[Rank(slots, i, j)].0, queue[Rank(slots, i, j)].1)
         else out[i][j] == slots[i][j]
  }

  /** One row of the second pass: each placeholder takes the row popped from
      the front of the queue. */
  method FillRow(row: seq<Slot>, queue: seq<(Bytes, Stored)>) returns (out: seq<Slot>, rest: seq<(Bytes, Stored)>)
    requires CountRow(row) <= |queue|
    ensures |out| == |row| && rest == queue[CountRow(row)..]
    ensures forall j :: 0 <= j < |row| ==>
              if row[j].Placeholder?
              then CountRow(row[..j]) < |queue| && out[j] == Filled(queue[CountRow(row[..j])].0, queue[CountRow(row[..j])].1)
              else out[j] == row[j]
  {
    out, rest := [], queue;
    var j := 0;
    while j < |row|
      invariant j <= |row|
      invariant Prefilled(row, queue, j, out, rest)
    {
      FillRowStep(row, queue, j, out, rest);
      if row[j].Placeholder? {
        out, rest := out + [Filled(rest[0].0, rest[0].1)], rest[1..];
      } else {
        out := out + [row[j]];
      }
      j := j + 1;
    }
    assert row[..j] == row;
  }

  /** `FillRow` after `j` cells. */
  ghost predicate Prefilled(row: seq<Slot>, queue: seq<(Bytes, Stored)>, j: nat, out: seq<Slot>, rest: seq<(Bytes, Stored)>)
  {
    && j <= |row| && |out| == j
    && CountRow(row[..j]) <= CountRow(row) <= |queue| && rest == queue[CountRow(row[..j])..]
    && forall k :: 0 <= k < j ==>
         if row[k].Placeholder?
         then CountRow(row[..k]) < |queue| && out[k] == Filled(queue[CountRow(row[..k])].0, queue[CountRow(row[..k])].1)
         else out[k] == row[k]
  }

  /** One cell of `FillRow`: a placeholder takes the front of the queue,
      which is not empty; any other cell stays. */
  lemma {:induction false} FillRowStep(row: seq<Slot>, queue: seq<(Bytes, Stored)>, j: nat, out: seq<Slot>,
                                       rest: seq<(Bytes, Stored)>)
    requires j < |row| && Prefilled(row, queue, j, out, rest)
    ensures row[j].Placeholder? ==>
              rest != [] && Prefilled(row, queue, j + 1, out + [Filled(rest[0].0, rest[0].1)], rest[1..])
    ensures !row[j].Placeholder? ==> Prefilled(row, queue, j + 1, out + [row[j]], rest)
  {
    assert row[..j + 1][..j] == row[..j];
    CountRowPrefix(row, j + 1);
    CountRowPrefix(row, j);
  }

  /** Row `a` of `out` is row `a` of `slots` filled from `queue`. */
  ghost predicate RowFilled(slots: seq<seq<Slot>>, queue: seq<(Bytes, Stored)>, a: nat, row: seq<Slot>)
    requires a < |slots|
  {
    && |row| == |slots[a]|
    && forall j :: 0 <= j < |slots[a]| ==>
         if slots[a][j].Placeholder?
         then Rank(slots, a, j) < |queue| && row[j] == Filled(queue[Rank(slots, a, j)].0, queue[Rank(slots, a, j)].1)
         else row[j] == slots[a][j]
  }

  /** One row of the loop below: `FillRow` on the rest of the queue fills row
      `i` and leaves the queue past its placeholders. */
  lemma {:induction false} FillGridStep(slots: seq<seq<Slot>>, queue: seq<(Bytes, Stored)>, i: nat,
                                        rest: seq<(Bytes, Stored)>, row: seq<Slot>, rest': seq<(Bytes, Stored)>)
    requires i < |slots| && CountGrid(slots) <= |queue|
    requires CountGrid(slots[..i]) <= CountGrid(slots) && rest == queue[CountGrid(slots[..i])..]
    requires CountRow(slots[i]) <= |rest|
    requires |row| == |slots[i]| && rest' == rest[CountRow(slots[i])..]
    requires forall j :: 0 <= j < |slots[i]| ==>
               if slots[i][j].Placeholder?
               then CountRow(slots[i][..j]) < |rest| && row[j] == Filled(rest[CountRow(slots[i][..j])].0, rest[CountRow(slots[i][..j])].1)
               else row[j] == slots[i][j]
    ensures RowFilled(slots, queue, i, row)
    ensures CountGrid(slots[..i + 1]) <= CountGrid(slots) && rest' == queue[CountGrid(slots[..i + 1])..]
  {
    var base := CountGrid(slots[..i]);
    assert slots[..i + 1][..i] == slots[..i];
    assert CountGrid(slots[..i + 1]) == base + CountRow(slots[i]);
    CountGridPrefix(slots, i + 1);
    forall j | 0 <= j < |slots[i]| && slots[i][j].Placeholder?
      ensures Rank(slots, i, j) < |queue| && row[j] == Filled(queue[Rank(slots, i, j)].0, queue[Rank(slots, i, j)].1)
    {
      CountRowPrefix(slots[i], j);
      assert rest[CountRow(slots[i][..j])] == queue[base + CountRow(slots[i][..j])];
    }
  }

  /** The second pass: the placeholders are filled row-major with the rows
      popped from the front of `queue`. */
  method FillGrid(slots: seq<seq<Slot>>, queue: seq<(Bytes, Stored)>) returns (out: seq<seq<Slot>>)
    requires CountGrid(slots) <= |queue|
    ensures FilledFrom(slots, queue, out)
  {
    out := [];
    var rest := queue;
    var i := 0;
    while i < |slots|
      invariant 0 <= i <= |slots| && |out| == i
      invariant CountGrid(slots[..i]) <= CountGrid(slots) && rest == queue[CountGrid(slots[..i])..]
      invariant forall a :: 0 <= a < i ==> RowFilled(slots, queue, a, out[a])
    {
      CountGridPrefix(slots, i);
      var row, rest' := FillRow(slots[i], rest);
      FillGridStep(slots, queue, i, rest, row, rest');
      out, rest := out + [row], rest';
      i := i + 1;
    }
    assert forall a :: 0 <= a < |slots| ==> RowFilled(slots, queue, a, out[a]);
  }

  // ---------------------------------------------------------------------------
  // The two passes together

  /** Whether some button carries `q`. */
  ghost predicate HasCell(g: seq<seq<Shown>>, q: Bytes)
  {
    exists i, j :: 0 <= i < |g| && 0 <= j < |g[i]| && g[i][j].data == Some(q)
  }

  /** The rebuilt keyboard and the pressed cell. */
  datatype Rebuilt = Rebuilt(grid: seq<seq<Slot>>, row: nat, col: nat)

  /** The body of the `try` block after the checks on the pressed token:
      `KeyError` for a token of an unregistered class; stale when no button
      carries the pressed token or the count check fails; otherwise the rows,
      sorted by `order`, fill the placeholders row-major. */
  method Rebuild(g: seq<seq<Shown>>, q: Bytes, known: set<Bytes>, db: map<Bytes, Stored>)
    returns (r: Result<Rebuilt, Failure>)
    ensures !KnownKeys(g, known) <==> r.Err? && r.error.KeyError?
    ensures r.Err? && r.error.KeyError? ==> r.error.key !in known
    ensures r == Err(Stale) <==> KnownKeys(g, known) && (!HasCell(g, q) || !Complete(Tokens(g), db))
    ensures r.Ok? ==> FirstMatch(g, q, Some((r.value.row, r.value.col)))
    ensures r.Ok? ==> FilledFrom(SlotGrid(g), Sort(Fetch(Tokens(g), db)), r.value.grid)
    ensures r.Ok? ==> PressedRow(r.value, known)
  {
    var scanned := Scan(g, q, known);
    if scanned.Err? {
      return Err(scanned.error);
    }
    var k := scanned.value;
    if k.pressed.None? {
      return Err(Stale);
    }
    var fetched := Fetch(k.tokens, db);
    FetchCount(k.tokens, db);
    if |fetched| != |k.tokens| {
      return Err(Stale);
    }
    var sorted := Sort(fetched);
    SlotsCount(g);
    var grid := FillGrid(k.slots, sorted);
    r := Ok(Rebuilt(grid, k.pressed.value.0, k.pressed.value.1));
    PressedFilled(g, q, known, db, r.value);
  }

  /** The pressed cell of the rebuilt keyboard holds a row of a known table. */
  ghost predicate PressedRow(b: Rebuilt, known: set<Bytes>)
  {
    b.row < |b.grid| && b.col < |b.grid[b.row]| && b.grid[b.row][b.col].Filled? && b.grid[b.row][b.col].table in known
  }

  /** Each fetched row comes with the key of one of the tokens. */
  lemma {:induction false} FetchedTables(tokens: seq<Bytes>, db: map<Bytes, Stored>, known: set<Bytes>)
    requires forall t :: t in tokens ==> Key(t) in known
    ensures forall e :: e in Fetch(tokens, db) ==> e.0 in known
  {
    TokenRowsTables(tokens, db, known);
    FetchPermutes(tokens, db);
    forall e | e in Fetch(tokens, db)
      ensures e.0 in known
    {
      assert e in multiset(TokenRows(tokens, db));
    }
  }

  lemma {:induction false} PressedFilled(g: seq<seq<Shown>>, q: Bytes, known: set<Bytes>, db: map<Bytes, Stored>, b: Rebuilt)
    requires KnownKeys(g, known)
    requires FirstMatch(g, q, Some((b.row, b.col)))
    requires FilledFrom(SlotGrid(g), Sort(Fetch(Tokens(g), db)), b.grid)
    ensures PressedRow(b, known)
  {
    var queue := Sort(Fetch(Tokens(g), db));
    var slots := SlotGrid(g);
    assert slots[b.row][b.col] == Placeholder;
    var k := Rank(slots, b.row, b.col);
    assert queue[k] in multiset(queue);
    FetchedTables(Tokens(g), db, known);
  }

  // ---------------------------------------------------------------------------
  // Placeholders and tokens

  lemma {:induction false} SlotRowCount(row: seq<Shown>)
    ensures CountRow(SlotRow(row)) == |RowTokens(row)|
    decreases |row|
  {
    if row != [] {
      SlotRowCount(row[..|row| - 1]);
      assert SlotRow(row)[..|row| - 1] == SlotRow(row[..|row| - 1]);
    }
  }

  /** There are as many placeholders as tokens. */
  lemma {:induction false} SlotsCount(g: seq<seq<Shown>>)
    ensures CountGrid(SlotGrid(g)) == |Tokens(g)|
    decreases |g|
  {
    if g != [] {
      SlotsCount(g[..|g| - 1]);
      SlotRowCount(g[|g| - 1]);
      assert SlotGrid(g)[..|g| - 1] == SlotGrid(g[..|g| - 1]);
    }
  }

  /** The token of the k-th token button of a row is the row's k-th token. */
  lemma {:induction false} RowTokenAtRank(row: seq<Shown>, j: nat)
    requires j < |row| && row[j].data.Some?
    ensures CountRow(SlotRow(row)[..j]) < |RowTokens(row)|
    ensures RowTokens(row)[CountRow(SlotRow(row)[..j])] == row[j].data.value
    decreases |row|
  {
    var init := row[..|row| - 1];
    assert SlotRow(row)[..j] == SlotRow(row[..j]);
    SlotRowCount(row[..j]);
    if j < |row| - 1 {
      RowTokenAtRank(init, j);
      assert init[..j] == row[..j];
      assert SlotRow(init)[..j] == SlotRow(init[..j]);
    } else {
      assert row[..j] == init;
    }
  }

  /** The tokens of the first rows are a prefix of the tokens. */
  lemma {:induction false} TokensPrefix(g: seq<seq<Shown>>, n: nat)
    requires n <= |g|
    ensures |Tokens(g[..n])| <= |Tokens(g)| && Tokens(g)[..|Tokens(g[..n])|] == Tokens(g[..n])
    decreases |g|
  {
    if n < |g| {
      var init := g[..|g| - 1];
      TokensPrefix(init, n);
      assert init[..n] == g[..n];
    } else {
      assert g[..n] == g;
    }
  }

  /** The token of the cell at rank k is the k-th token: rank order and token
      order agree. */
  lemma {:induction false} TokenAtRank(g: seq<seq<Shown>>, i: nat, j: nat)
    requires i < |g| && j < |g[i]| && g[i][j].data.Some?
    ensures Rank(SlotGrid(g), i, j) < |Tokens(g)|
    ensures Tokens(g)[Rank(SlotGrid(g), i, j)] == g[i][j].data.value
  {
    var pre := Tokens(g[..i]);
    assert g[..i + 1][..i] == g[..i];
    assert Tokens(g[..i + 1]) == pre + RowTokens(g[i]);
    TokensPrefix(g, i + 1);
    assert SlotGrid(g)[..i] == SlotGrid(g[..i]);
    SlotsCount(g[..i]);
    RowTokenAtRank(g[i], j);
    var m := CountRow(SlotRow(g[i])[..j]);
    assert Rank(SlotGrid(g), i, j) == |pre| + m;
    assert Tokens(g[..i + 1])[|pre| + m] == g[i][j].data.value;
  }

  /** When every token has a row and `order` grows along the keyboard (as
      `button_id` does in tgbot/keyboard_handler.py), each token button gets
      back its own stored row and table, whatever order the tables were
      queried in. */
  lemma {:induction false} Restored(g: seq<seq<Shown>>, db: map<Bytes, Stored>, out: seq<seq<Slot>>)
    requires Complete(Tokens(g), db)
    requires forall a, b :: 0 <= a < b < |Tokens(g)| ==> db[Tokens(g)[a]].order < db[Tokens(g)[b]].order
    requires FilledFrom(SlotGrid(g), Sort(Fetch(Tokens(g), db)), out)
    ensures |out| == |g| && forall i :: 0 <= i < |g| ==> |out[i]| == |g[i]|
    ensures forall i, j :: 0 <= i < |g| && 0 <= j < |g[i]| && g[i][j].data.Some? ==>
              g[i][j].data.value in db && out[i][j] == Filled(Key(g[i][j].data.value), db[g[i][j].data.value])
    ensures forall i, j :: 0 <= i < |g| && 0 <= j < |g[i]| && g[i][j].data.None? ==> out[i][j] == NoData
  {
    var ts := Tokens(g);
    TokenRowsCount(ts, db);
    FetchPermutes(ts, db);
    assert Increasing(TokenRows(ts, db)) by {
      forall a, b | 0 <= a < b < |TokenRows(ts, db)|
        ensures TokenRows(ts, db)[a].1.order < TokenRows(ts, db)[b].1.order
      {
        assert TokenRows(ts, db)[a] == (Key(ts[a]), db[ts[a]]) && TokenRows(ts, db)[b] == (Key(ts[b]), db[ts[b]]);
      }
    }
    SortedUnique(Sort(Fetch(ts, db)), TokenRows(ts, db));
    forall i, j | 0 <= i < |g| && 0 <= j < |g[i]| && g[i][j].data.Some?
      ensures g[i][j].data.value in db && out[i][j] == Filled(Key(g[i][j].data.value), db[g[i][j].data.value])
    {
      TokenAtRank(g, i, j);
      var k := Rank(SlotGrid(g), i, j);
      assert TokenRows(ts, db)[k] == (Key(ts[k]), db[ts[k]]);
    }
  }
}

=== FILE: legacy_keyboard.dfy ===
/** The first keyboard module, tgbot/keyboard/__init__.py. A button is a row
    of its class's table; its callback data is the class key (the
    little-endian CRC-32 of the class name) followed by a 16-byte uuid.
    `create_keyboard` issues those tokens and rows, and
    `TGBotKeyboardMixin.handle_callback_query` rebuilds the keyboard from the
    rows (module LegacyCallback) and activates the pressed button. */
module LegacyKeyboard {
  import opened Common
  import opened Crc32
  import opened LegacyCallback
  import GuiKeyboard

  /** The two registered classes: `SimpleButton` calls a controller method,
      `SimpleCheckBoxButton` toggles its check mark. */
  datatype ButtonKind = Plain | CheckBox

  /** `callback_data` is `LargeBinary(20)`: a 4-byte key and a 16-byte uuid. */
  const TokenLength := 20

  /** `DEFAULT_USER_ID`: a button any user may press. */
  const DefaultUserId := 0

  /** The defaults of the `checked_prefix` and `unchecked_prefix` columns. */
  const CheckedPrefixDefault := "\U{2714} "
  const UncheckedPrefixDefault := ""

  // ---------------------------------------------------------------------------
  // create_keyboard

  /** An entry of `create_keyboard`'s `keyboard` argument: one with
      `inline_kwargs` (a link; no row is stored), a button of class `cls`
      (built from `button_class` and its `kwargs`, or given as `button`), or
      one with neither. */
  datatype Entry =
    | InlineEntry(name: string)
    | ButtonEntry(name: string, cls: string, kind: ButtonKind, row: Stored)
    | Malformed(name: string)

  /** `get_inline_button_name`: a check box shows the column default of the
      prefix for its state before the name. */
  function Label(name: string, kind: ButtonKind, row: Stored): string
  {
    match kind
    case Plain => name
    case CheckBox => (if row.isChecked then CheckedPrefixDefault else UncheckedPrefixDefault) + name
  }

  /** The k-th row stored is keyed by the k-th token, and the k-th token is
      a 4-byte key followed by the k-th uuid. */
  ghost predicate Issued(tokens: seq<Bytes>, rows: seq<(Bytes, Stored)>, uuid: nat -> Bytes)
  {
    && |tokens| == |rows|
    && forall k :: 0 <= k < |tokens| ==> rows[k].0 == tokens[k] && |tokens[k]| >= 4 && tokens[k][4..] == uuid(k)
  }

  /** The button shown for entry `e`: a link keeps its name and has no data;
      a button shows its label, its token starts with its class key, and its
      row is stored under that token. */
  ghost predicate CellIssued(e: Entry, s: Shown, rows: seq<(Bytes, Stored)>)
  {
    match e
    case InlineEntry(name) => s == Shown(name, None)
    case ButtonEntry(name, cls, kind, row) =>
      && s.text == Label(name, kind, row)
      && s.data.Some? && |s.data.value| >= 4 && s.data.value[..4] == ClassKeyLittle(cls)
      && (s.data.value, row) in rows
    case Malformed(_) => false
  }

  /** The cells of a row. */
  ghost predicate RowIssued(row: seq<Entry>, shown: seq<Shown>, rows: seq<(Bytes, Stored)>)
  {
    |shown| == |row| && forall k :: 0 <= k < |row| ==> CellIssued(row[k], shown[k], rows)
  }

  /** What `create_keyboard` returns and stores for `entries`. */
  ghost predicate Created(entries: seq<seq<Entry>>, uuid: nat -> Bytes, kb: seq<seq<Shown>>, rows: seq<(Bytes, Stored)>)
  {
    && |kb| == |entries|
    && (forall i :: 0 <= i < |kb| ==> RowIssued(entries[i], kb[i], rows))
    && Issued(Tokens(kb), rows, uuid)
  }

  lemma {:induction false} RowIssuedExtends(row: seq<Entry>, shown: seq<Shown>, rows: seq<(Bytes, Stored)>, more: seq<(Bytes, Stored)>)
    requires RowIssued(row, shown, rows)
    ensures RowIssued(row, shown, rows + more)
  {
    forall k | 0 <= k < |row|
      ensures CellIssued(row[k], shown[k], rows + more)
    {
      assert CellIssued(row[k], shown[k], rows);
      if row[k].ButtonEntry? {
        assert (shown[k].data.value, row[k].row) in rows;
      }
    }
  }

  lemma {:induction false} RowTokensSnoc(row: seq<Shown>, s: Shown)
    ensures RowTokens(row + [s]) == RowTokens(row) + (if s.data.Some? then [s.data.value] else [])
  {
    assert (row + [s])[..|row|] == row;
  }

  lemma {:induction false} TokensSnoc(kb: seq<seq<Shown>>, row: seq<Shown>)
    ensures Tokens(kb + [row]) == Tokens(kb) + RowTokens(row)
  {
    assert (kb + [row])[..|kb|] == kb;
  }

  /** Issuing one more cell: a link adds no token, a button adds its token
      and its row. */
  lemma {:induction false} IssuedSnoc(tokens: seq<Bytes>, rows: seq<(Bytes, Stored)>, uuid: nat -> Bytes, shown: seq<Shown>,
                                      more: seq<(Bytes, Stored)>, s: Shown)
    requires Issued(tokens + RowTokens(shown), rows, uuid)
    requires s.data.None? ==> more == []
    requires s.data.Some? ==> |more| == 1 && more[0].0 == s.data.value && |s.data.value| >= 4 && s.data.value[4..] == uuid(|rows|)
    ensures Issued(tokens + RowTokens(shown + [s]), rows + more, uuid)
  {
    RowTokensSnoc(shown, s);
    assert tokens + RowTokens(shown + [s]) == (tokens + RowTokens(shown)) + (if s.data.Some? then [s.data.value] else []);
  }

  /** One row of `create_keyboard`, continuing after the rows `before`. */
  method CreateRow(row: seq<Entry>, uuid: nat -> Bytes, before: seq<(Bytes, Stored)>, ghost tokens: seq<Bytes>)
    returns (ok: bool, shown: seq<Shown>, rows: seq<(Bytes, Stored)>)
    requires Issued(tokens, before, uuid)
    ensures ok <==> forall j :: 0 <= j < |row| ==> !row[j].Malformed?
    ensures ok ==> |rows| >= |before| && rows[..|before|] == before
    ensures ok ==> Issued(tokens + RowTokens(shown), rows, uuid)
    ensures ok ==> RowIssued(row, shown, rows)
  {
    ok, shown, rows := true, [], before;
    var j := 0;
    while j < |row|
      invariant 0 <= j <= |row|
      invariant forall k :: 0 <= k < j ==> !row[k].Malformed?
      invariant |rows| >= |before| && rows[..|before|] == before
      invariant Issued(tokens + RowTokens(shown), rows, uuid)
      invariant RowIssued(row[..j], shown, rows)
    {
      var s: Shown;
      var more: seq<(Bytes, Stored)>;
      match row[j] {
        case InlineEntry(name) =>
          s, more := Shown(name, None), [];
        case ButtonEntry(name, cls, kind, r) =>
          var token := ClassKeyLittle(cls) + uuid(|rows|);
          s, more := Shown(Label(name, kind, r), Some(token)), [(token, r)];
          assert token[..4] == ClassKeyLittle(cls) && token[4..] == uuid(|rows|);
        case Malformed(_) =>
          return false, [], [];
      }
      IssuedSnoc(tokens, rows, uuid, shown, more, s);
      RowIssuedExtends(row[..j], shown, rows, more);
      assert CellIssued(row[j], s, rows + more);
      assert row[..j + 1] == row[..j] + [row[j]];
      shown, rows := shown + [s], rows + more;
      j := j + 1;
    }
    assert row[..j] == row;
  }

  /** One row of the loop below keeps its invariant. */
  lemma {:induction false} CreatedSnoc(entries: seq<seq<Entry>>, i: nat, uuid: nat -> Bytes, kb: seq<seq<Shown>>,
                                       rows: seq<(Bytes, Stored)>, shown: seq<Shown>, rows': seq<(Bytes, Stored)>)
    requires i < |entries|
    requires Created(entries[..i], uuid, kb, rows)
    requires |rows'| >= |rows| && rows'[..|rows|] == rows
    requires Issued(Tokens(kb) + RowTokens(shown), rows', uuid)
    requires RowIssued(entries[i], shown, rows')
    ensures Created(entries[..i + 1], uuid, kb + [shown], rows')
  {
    TokensSnoc(kb, shown);
    assert rows' == rows + rows'[|rows|..];
    forall a | 0 <= a < i
      ensures RowIssued(entries[a], kb[a], rows')
    {
      RowIssuedExtends(entries[a], kb[a], rows, rows'[|rows|..]);
    }
    assert entries[..i + 1] == entries[..i] + [entries[i]];
  }

  /** `create_keyboard`: a `ValueError` for an entry with neither
      `button_class` nor `button`; otherwise the inline keyboard and the rows
      to store, in row-major order. `uuid(k)` is the k-th `uuid.uuid4().bytes`. */
  method CreateKeyboard(entries: seq<seq<Entry>>, uuid: nat -> Bytes)
    returns (r: Result<(seq<seq<Shown>>, seq<(Bytes, Stored)>), string>)
    ensures r.Err? <==> exists i, j :: 0 <= i < |entries| && 0 <= j < |entries[i]| && entries[i][j].Malformed?
    ensures r.Err? ==> r.error == "Neither button_class nor button specified"
    ensures r.Ok? ==> Created(entries, uuid, r.value.0, r.value.1)
  {
    var kb: seq<seq<Shown>> := [];
    var rows: seq<(Bytes, Stored)> := [];
    var i := 0;
    while i < |entries|
      invariant 0 <= i <= |entries|
      invariant forall a, j :: 0 <= a < i && 0 <= j < |entries[a]| ==> !entries[a][j].Malformed?
      invariant Created(entries[..i], uuid, kb, rows)
    {
      var ok, shown, rows' := CreateRow(entries[i], uuid, rows, Tokens(kb));
      if !ok {
        return Err("Neither button_class nor button specified");
      }
      CreatedSnoc(entries, i, uuid, kb, rows, shown, rows');
      kb, rows := kb + [shown], rows';
      i := i + 1;
    }
    assert entries[..i] == entries;
    r := Ok((kb, rows));
  }

  /** Distinct uuids make distinct tokens. */
  lemma {:induction false} TokensFresh(tokens: seq<Bytes>, rows: seq<(Bytes, Stored)>, uuid: nat -> Bytes)
    requires Issued(tokens, rows, uuid)
    requires forall a: nat, b: nat :: a != b ==> uuid(a) != uuid(b)
    ensures GuiKeyboard.Distinct(tokens)
  {
    forall a, b | 0 <= a < b < |tokens|
      ensures tokens[a] != tokens[b]
    {
      assert tokens[a][4..] == uuid(a) != uuid(b) == tokens[b][4..];
    }
  }

  /** The database after the rows were saved: the k-th row under the k-th
      token, with the k-th new id. Each class's table numbers its own rows
      (`id` is the table's primary key), so ids grow in the order rows were
      added only among the rows of one table. */
  ghost predicate Saved(rows: seq<(Bytes, Stored)>, ids: seq<int>, db: map<Bytes, Stored>)
  {
    && |ids| == |rows|
    && (forall a, b :: 0 <= a < b < |ids| && Key(rows[a].0) == Key(rows[b].0) ==> ids[a] < ids[b])
    && forall k :: 0 <= k < |rows| ==> rows[k].0 in db && db[rows[k].0] == rows[k].1.(order := ids[k])
  }

  /** Every row stored sits in one table: the keyboard's buttons are all of
      one class. */
  predicate OneTable(rows: seq<(Bytes, Stored)>)
  {
    forall a, b :: 0 <= a < |rows| && 0 <= b < |rows| ==> Key(rows[a].0) == Key(rows[b].0)
  }

  /** The rows stored by `create_keyboard` for a keyboard of one class, kept
      under their tokens, pass the count check and have ids growing in token
      order. */
  lemma {:induction false} StoredInOrder(tokens: seq<Bytes>, rows: seq<(Bytes, Stored)>, uuid: nat -> Bytes,
                                         ids: seq<int>, db: map<Bytes, Stored>)
    requires Issued(tokens, rows, uuid)
    requires forall a: nat, b: nat :: a != b ==> uuid(a) != uuid(b)
    requires Saved(rows, ids, db) && OneTable(rows)
    ensures Complete(tokens, db)
    ensures forall a, b :: 0 <= a < b < |tokens| ==> db[tokens[a]].order < db[tokens[b]].order
  {
    TokensFresh(tokens, rows, uuid);
    forall t | t in tokens
      ensures t in db
    {
      var k :| 0 <= k < |tokens| && tokens[k] == t;
      assert rows[k].0 == t;
    }
    forall a, b | 0 <= a < b < |tokens|
      ensures db[tokens[a]].order < db[tokens[b]].order
    {
      assert rows[a].0 == tokens[a] && rows[b].0 == tokens[b];
    }
  }

  /** A button cell's stored row comes back as the entry's row under one of
      the new ids. */
  lemma {:induction false} CellRestored(e: Entry, s: Shown, rows: seq<(Bytes, Stored)>, ids: seq<int>,
                                        db: map<Bytes, Stored>)
    requires e.ButtonEntry? && CellIssued(e, s, rows)
    requires Saved(rows, ids, db)
    ensures s.data.Some? && s.data.value in db && Key(s.data.value) == ClassKeyLittle(e.cls)
    ensures db[s.data.value].order in ids && db[s.data.value] == e.row.(order := db[s.data.value].order)
  {
    var t := s.data.value;
    var k :| 0 <= k < |rows| && rows[k] == (t, e.row);
    assert db[t] == e.row.(order := ids[k]);
  }

  /** The round trip for a keyboard whose buttons are all of one class: when
      the database keeps every row `create_keyboard` stored under its token,
      the count check passes (`StoredInOrder`) and the rebuilt keyboard
      holds, in each cell, the row created for that cell's entry, under its
      new id, from the table of its class; links come back empty. With two
      classes it can fail (`MixedTablesMisplaced`). */
  lemma {:induction false} CreatedRestored(entries: seq<seq<Entry>>, uuid: nat -> Bytes, kb: seq<seq<Shown>>,
                                           rows: seq<(Bytes, Stored)>, ids: seq<int>, db: map<Bytes, Stored>,
                                           out: seq<seq<Slot>>)
    requires Created(entries, uuid, kb, rows)
    requires forall a: nat, b: nat :: a != b ==> uuid(a) != uuid(b)
    requires Saved(rows, ids, db) && OneTable(rows)
    requires FilledFrom(SlotGrid(kb), Sort(Fetch(Tokens(kb), db)), out)
    ensures |out| == |entries| && forall i :: 0 <= i < |entries| ==> |out[i]| == |entries[i]|
    ensures forall i, j :: 0 <= i < |entries| && 0 <= j < |entries[i]| && entries[i][j].ButtonEntry? ==>
              && out[i][j].Filled? && out[i][j].table == ClassKeyLittle(entries[i][j].cls)
              && out[i][j].row.order in ids && out[i][j].row == entries[i][j].row.(order := out[i][j].row.order)
    ensures forall i, j :: 0 <= i < |entries| && 0 <= j < |entries[i]| && entries[i][j].InlineEntry? ==> out[i][j] == NoData
  {
    StoredInOrder(Tokens(kb), rows, uuid, ids, db);
    Restored(kb, db, out);
    CellsRestored(entries, uuid, kb, rows, ids, db, out);
  }

  /** Two classes, each table numbering its own rows: a keyboard of buttons
      A1, B1, A2 whose rows got ids 1 and 2 in table A and 2 in table B.
      Table A is queried first, the sort keeps A2 ahead of B1 on the tie,
      and the middle button, shown as B1, gets A2's row. */
  lemma {:induction false} MixedTablesMisplaced(a1: Bytes, b1: Bytes, a2: Bytes, ra1: Stored, rb1: Stored, ra2: Stored,
                                                out: seq<seq<Slot>>)
    requires Key(a1) == Key(a2) != Key(b1) && a1 != a2
    requires ra1.order == 1 && rb1.order == 2 && ra2.order == 2
    ensures var rows := [(a1, ra1), (b1, rb1), (a2, ra2)];
            var db := map[a1 := ra1, b1 := rb1, a2 := ra2];
            var kb := [[Shown("A1", Some(a1)), Shown("B1", Some(b1)), Shown("A2", Some(a2))]];
            && Saved(rows, [1, 2, 2], db)
            && Complete(Tokens(kb), db)
            && (FilledFrom(SlotGrid(kb), Sort(Fetch(Tokens(kb), db)), out) ==> out[0][1] == Filled(Key(a2), ra2))
  {
    MixedTokens(a1, b1, a2);
    MixedSaved(a1, b1, a2, ra1, rb1, ra2);
    MixedQueue(a1, b1, a2, ra1, rb1, ra2);
    MixedRank(a1, b1, a2);
  }

  lemma {:induction false} MixedSaved(a1: Bytes, b1: Bytes, a2: Bytes, ra1: Stored, rb1: Stored, ra2: Stored)
    requires Key(a1) == Key(a2) != Key(b1) && a1 != a2
    requires ra1.order == 1 && rb1.order == 2 && ra2.order == 2
    ensures var db := map[a1 := ra1, b1 := rb1, a2 := ra2];
            && Saved([(a1, ra1), (b1, rb1), (a2, ra2)], [1, 2, 2], db)
            && Complete([a1, b1, a2], db)
  {
    var db := map[a1 := ra1, b1 := rb1, a2 := ra2];
    assert a1 != b1 && b1 != a2;
    assert db[a1] == ra1 && db[b1] == rb1 && db[a2] == ra2;
  }

  /** The rows in the order they fill the placeholders. */
  lemma {:induction false} MixedQueue(a1: Bytes, b1: Bytes, a2: Bytes, ra1: Stored, rb1: Stored, ra2: Stored)
    requires Key(a1) == Key(a2) != Key(b1) && a1 != a2
    requires ra1.order == 1 && rb1.order == 2 && ra2.order == 2
    ensures var db := map[a1 := ra1, b1 := rb1, a2 := ra2];
            var kb := [[Shown("A1", Some(a1)), Shown("B1", Some(b1)), Shown("A2", Some(a2))]];
            Sort(Fetch(Tokens(kb), db)) == [(Key(a1), ra1), (Key(a2), ra2), (Key(b1), rb1)]
  {
    MixedTokens(a1, b1, a2);
    MixedFetch(a1, b1, a2, ra1, rb1, ra2);
    MixedSorted([(Key(a1), ra1), (Key(a2), ra2), (Key(b1), rb1)]);
  }

  /** The middle button is the second placeholder. */
  lemma {:induction false} MixedRank(a1: Bytes, b1: Bytes, a2: Bytes)
    ensures var slots := SlotGrid([[Shown("A1", Some(a1)), Shown("B1", Some(b1)), Shown("A2", Some(a2))]]);
            slots[0][1].Placeholder? && Rank(slots, 0, 1) == 1
  {
    var kb := [[Shown("A1", Some(a1)), Shown("B1", Some(b1)), Shown("A2", Some(a2))]];
    var slots: seq<seq<Slot>> := SlotGrid(kb);
    var first := slots[0];
    assert first == SlotRow(kb[0]) && first[0] == Placeholder && first[1] == Placeholder;
    assert CountRow(first[..1]) == 1 by {
      assert first[..1][..0] == [];
    }
    assert slots[..0] == [];
  }

  /** The stable sort leaves rows of orders 1, 2, 2 where they are. */
  lemma {:induction false} MixedSorted(s: seq<(Bytes, Stored)>)
    requires |s| == 3 && s[0].1.order == 1 && s[1].1.order == 2 && s[2].1.order == 2
    ensures Sort(s) == s
  {
    var last := [s[2]];
    assert s[1..][1..] == last && last[1..] == [];
    assert Sort(last) == last;
    assert Sort(s[1..]) == s[1..];
    assert Sort(s) == [s[0]] + s[1..];
  }

  lemma {:induction false} MixedTokens(a1: Bytes, b1: Bytes, a2: Bytes)
    ensures Tokens([[Shown("A1", Some(a1)), Shown("B1", Some(b1)), Shown("A2", Some(a2))]]) == [a1, b1, a2]
  {
    var row := [Shown("A1", Some(a1)), Shown("B1", Some(b1)), Shown("A2", Some(a2))];
    assert row[..2][..1] == row[..1] && row[..1][..0] == [];
    assert RowTokens(row[..1]) == [a1];
    assert RowTokens(row[..2]) == [a1, b1];
    assert RowTokens(row) == [a1, b1, a2];
    var kb := [row];
    assert kb[..0] == [];
  }

  /** The queries of the keyboard above: table A's two rows, then table B's. */
  lemma {:induction false} MixedFetch(a1: Bytes, b1: Bytes, a2: Bytes, ra1: Stored, rb1: Stored, ra2: Stored)
    requires Key(a1) == Key(a2) != Key(b1) && a1 != a2
    ensures Fetch([a1, b1, a2], map[a1 := ra1, b1 := rb1, a2 := ra2]) == [(Key(a1), ra1), (Key(a2), ra2), (Key(b1), rb1)]
  {
    var db := map[a1 := ra1, b1 := rb1, a2 := ra2];
    var tokens := [a1, b1, a2];
    MixedRows(a1, b1, a2, ra1, rb1, ra2);
    MixedByTable(a1, b1, a2, ra1, rb1, ra2);
  }

  /** The rows the keyboard above asks for, in token order, and its tables
      in order of first appearance. */
  lemma {:induction false} MixedRows(a1: Bytes, b1: Bytes, a2: Bytes, ra1: Stored, rb1: Stored, ra2: Stored)
    requires Key(a1) == Key(a2) != Key(b1) && a1 != a2
    ensures TokenRows([a1, b1, a2], map[a1 := ra1, b1 := rb1, a2 := ra2]) == [(Key(a1), ra1), (Key(b1), rb1), (Key(a2), ra2)]
    ensures Tables([a1, b1, a2]) == [Key(a1), Key(b1)]
  {
    var db := map[a1 := ra1, b1 := rb1, a2 := ra2];
    var tokens := [a1, b1, a2];
    assert tokens[..2] == [a1, b1] && [a1, b1][..1] == [a1] && [a1][..0] == [];
    assert TokenRows([a1], db) == [(Key(a1), ra1)];
    assert TokenRows([a1, b1], db) == [(Key(a1), ra1), (Key(b1), rb1)];
    assert Tables([a1]) == [Key(a1)];
    assert Tables([a1, b1]) == [Key(a1), Key(b1)];
  }

  /** Grouping those rows table by table puts table A's two rows first. */
  lemma {:induction false} MixedByTable(a1: Bytes, b1: Bytes, a2: Bytes, ra1: Stored, rb1: Stored, ra2: Stored)
    requires Key(a1) == Key(a2) != Key(b1) && a1 != a2
    ensures ByTable([(Key(a1), ra1), (Key(b1), rb1), (Key(a2), ra2)], [Key(a1), Key(b1)])
            == [(Key(a1), ra1), (Key(a2), ra2), (Key(b1), rb1)]
  {
    var rowsIn := [(Key(a1), ra1), (Key(b1), rb1), (Key(a2), ra2)];
    var tail1, tail2 := [(Key(b1), rb1), (Key(a2), ra2)], [(Key(a2), ra2)];
    assert rowsIn[1..] == tail1 && tail1[1..] == tail2 && tail2[1..] == [];
    assert OfTable(tail2, Key(a1)) == tail2 && OfTable(tail2, Key(b1)) == [];
    assert OfTable(tail1, Key(a1)) == tail2 && OfTable(tail1, Key(b1)) == [(Key(b1), rb1)];
    assert OfTable(rowsIn, Key(a1)) == [(Key(a1), ra1), (Key(a2), ra2)];
    assert OfTable(rowsIn, Key(b1)) == [(Key(b1), rb1)];
    var keys := [Key(a1), Key(b1)];
    var tl: seq<Bytes> := keys[1..];
    assert tl == [Key(b1)] && |tl[1..]| == 0;
    assert ByTable(rowsIn, [Key(b1)]) == [(Key(b1), rb1)];
  }

  /** From the cells rebuilt to the entries they were created for: each
      button's cell holds its entry's row, each link's cell nothing. */
  lemma {:induction false} CellsRestored(entries: seq<seq<Entry>>, uuid: nat -> Bytes, kb: seq<seq<Shown>>,
                                         rows: seq<(Bytes, Stored)>, ids: seq<int>, db: map<Bytes, Stored>,
                                         out: seq<seq<Slot>>)
    requires Created(entries, uuid, kb, rows)
    requires Saved(rows, ids, db)
    requires |out| == |kb| && forall i :: 0 <= i < |kb| ==> |out[i]| == |kb[i]|
    requires forall i, j :: 0 <= i < |kb| && 0 <= j < |kb[i]| && kb[i][j].data.Some? ==>
               kb[i][j].data.value in db && out[i][j] == Filled(Key(kb[i][j].data.value), db[kb[i][j].data.value])
    requires forall i, j :: 0 <= i < |kb| && 0 <= j < |kb[i]| && kb[i][j].data.None? ==> out[i][j] == NoData
    ensures |out| == |entries| && forall i :: 0 <= i < |entries| ==> |out[i]| == |entries[i]|
    ensures forall i, j :: 0 <= i < |entries| && 0 <= j < |entries[i]| && entries[i][j].ButtonEntry? ==>
              && out[i][j].Filled? && out[i][j].table == ClassKeyLittle(entries[i][j].cls)
              && out[i][j].row.order in ids && out[i][j].row == entries[i][j].row.(order := out[i][j].row.order)
    ensures forall i, j :: 0 <= i < |entries| && 0 <= j < |entries[i]| && entries[i][j].InlineEntry? ==> out[i][j] == NoData
  {
    forall i, j | 0 <= i < |entries| && 0 <= j < |entries[i]|
      ensures entries[i][j].ButtonEntry? ==>
              && out[i][j].Filled? && out[i][j].table == ClassKeyLittle(entries[i][j].cls)
              && out[i][j].row.order in ids && out[i][j].row == entries[i][j].row.(order := out[i][j].row.order)
      ensures entries[i][j].InlineEntry? ==> out[i][j] == NoData
    {
      assert RowIssued(entries[i], kb[i], rows);
      assert CellIssued(entries[i][j], kb[i][j], rows);
      if entries[i][j].ButtonEntry? {
        CellRestored(entries[i][j], kb[i][j], rows, ids, db);
      }
    }
  }

  // ---------------------------------------------------------------------------
  // create_simple_keyboard

  /** What `create_simple_keyboard` looks at in an entry: whether it is passed
      over (it has `inline_kwargs` or `button`), its own `callback`, and the
      `callback_name` already in its `kwargs`. */
  datatype SimpleEntry = SimpleEntry(passedOver: bool, callback: Option<string>, callbackName: Option<string>)

  /** The value of the `callback` variable after the entries `es`, starting
      from the argument `d`: an entry's own callback replaces it. */
  function Carried(es: seq<SimpleEntry>, d: Option<string>): Option<string>
    decreases |es|
  {
    if es == [] then d
    else
      var c, e := Carried(es[..|es| - 1], d), es[|es| - 1];
      if e.passedOver || e.callback.None? then c else e.callback
  }

  lemma {:induction false} CarriedAppend(a: seq<SimpleEntry>, b: seq<SimpleEntry>, d: Option<string>)
    ensures Carried(a + b, d) == Carried(b, Carried(a, d))
    decreases |b|
  {
    if b == [] {
      assert a + b == a;
    } else {
      CarriedAppend(a, b[..|b| - 1], d);
      assert (a + b)[..|a + b| - 1] == a + b[..|b| - 1];
    }
  }

  /** Entries without a callback of their own carry the argument through. */
  lemma {:induction false} CarriedNoOwn(es: seq<SimpleEntry>, d: Option<string>)
    requires forall k :: 0 <= k < |es| ==> es[k].passedOver || es[k].callback.None?
    ensures Carried(es, d) == d
    decreases |es|
  {
    if es != [] {
      var init := es[..|es| - 1];
      assert forall k :: 0 <= k < |init| ==> init[k] == es[k];
      CarriedNoOwn(init, d);
    }
  }

  /** The callback a button ends with is the one of the last earlier (or
      the same) entry that has its own: a per-button callback becomes the
      default of every later button. */
  lemma {:induction false} CarriedLastOwn(es: seq<SimpleEntry>, d: Option<string>, k: nat)
    requires k < |es| && !es[k].passedOver && es[k].callback.Some?
    requires forall m :: k < m < |es| ==> es[m].passedOver || es[m].callback.None?
    ensures Carried(es, d) == es[k].callback
  {
    var head, tail := es[..k + 1], es[k + 1..];
    assert es == head + tail;
    CarriedAppend(head, tail, d);
    assert head[|head| - 1] == es[k];
    assert forall m :: 0 <= m < |tail| ==> tail[m] == es[k + 1 + m];
    CarriedNoOwn(tail, es[k].callback);
  }

  /** The `callback_name` an entry that is not passed over gets in its
      `kwargs` when `callback` holds `c`. */
  function NameAfter(e: SimpleEntry, c: Option<string>): Option<string>
  {
    if !e.passedOver && c.Some? then c else e.callbackName
  }

  /** The entries of a keyboard in row-major order. */
  function SimpleFlat(kb: seq<seq<SimpleEntry>>): seq<SimpleEntry>
    decreases |kb|
  {
    if kb == [] then [] else SimpleFlat(kb[..|kb| - 1]) + kb[|kb| - 1]
  }

  method SimpleRow(row: seq<SimpleEntry>, callback: Option<string>) returns (names: seq<Option<string>>, carried: Option<string>)
    ensures carried == Carried(row, callback)
    ensures |names| == |row| && forall j :: 0 <= j < |row| ==> names[j] == NameAfter(row[j], Carried(row[..j + 1], callback))
  {
    names, carried := [], callback;
    var j := 0;
    while j < |row|
      invariant 0 <= j <= |row| && |names| == j
      invariant carried == Carried(row[..j], callback)
      invariant forall k :: 0 <= k < j ==> names[k] == NameAfter(row[k], Carried(row[..k + 1], callback))
    {
      assert row[..j + 1][..j] == row[..j];
      var e := row[j];
      if !e.passedOver {
        carried := if e.callback.Some? then e.callback else carried;
      }
      names := names + [NameAfter(e, carried)];
      j := j + 1;
    }
    assert row[..j] == row;
  }

  lemma {:induction false} SimpleFlatSnoc(kb: seq<seq<SimpleEntry>>, i: nat)
    requires i < |kb|
    ensures SimpleFlat(kb[..i + 1]) == SimpleFlat(kb[..i]) + kb[i]
  {
    assert kb[..i + 1][..i] == kb[..i];
  }

  /** The names of a row that follows the entries `before`: each entry's
      name is the one the callback carried up to and through it gives. */
  ghost predicate RowNamed(before: seq<SimpleEntry>, row: seq<SimpleEntry>, names: seq<Option<string>>, callback: Option<string>)
  {
    |names| == |row| && forall j :: 0 <= j < |row| ==> names[j] == NameAfter(row[j], Carried(before + row[..j + 1], callback))
  }

  /** A row's names, computed from the callback carried into it, are the
      names computed over everything before it. */
  lemma {:induction false} RowNamesCarried(before: seq<SimpleEntry>, row: seq<SimpleEntry>, callback: Option<string>,
                                           names: seq<Option<string>>)
    requires |names| == |row|
    requires forall j :: 0 <= j < |row| ==> names[j] == NameAfter(row[j], Carried(row[..j + 1], Carried(before, callback)))
    ensures RowNamed(before, row, names, callback)
  {
    forall j | 0 <= j < |row|
      ensures names[j] == NameAfter(row[j], Carried(before + row[..j + 1], callback))
    {
      CarriedAppend(before, row[..j + 1], callback);
    }
  }

  /** One row of the loop below keeps its invariant. */
  lemma {:induction false} SimpleStep(kb: seq<seq<SimpleEntry>>, i: nat, callback: Option<string>,
                                      names: seq<seq<Option<string>>>, carried: Option<string>,
                                      rowNames: seq<Option<string>>, next: Option<string>)
    requires i < |kb| && |names| == i
    requires carried == Carried(SimpleFlat(kb[..i]), callback)
    requires forall a :: 0 <= a < i ==> RowNamed(SimpleFlat(kb[..a]), kb[a], names[a], callback)
    requires next == Carried(kb[i], carried)
    requires |rowNames| == |kb[i]| && forall j :: 0 <= j < |kb[i]| ==> rowNames[j] == NameAfter(kb[i][j], Carried(kb[i][..j + 1], carried))
    ensures next == Carried(SimpleFlat(kb[..i + 1]), callback)
    ensures forall a :: 0 <= a < i + 1 ==> RowNamed(SimpleFlat(kb[..a]), kb[a], (names + [rowNames])[a], callback)
  {
    RowNamesCarried(SimpleFlat(kb[..i]), kb[i], callback, rowNames);
    SimpleFlatSnoc(kb, i);
    CarriedAppend(SimpleFlat(kb[..i]), kb[i], callback);
  }

  /** The loop of `create_simple_keyboard`: the `callback_name` each entry
      ends with. The `callback` variable runs on across rows. */
  method SimpleCallbackNames(kb: seq<seq<SimpleEntry>>, callback: Option<string>) returns (names: seq<seq<Option<string>>>)
    ensures |names| == |kb|
    ensures forall i :: 0 <= i < |kb| ==> RowNamed(SimpleFlat(kb[..i]), kb[i], names[i], callback)
  {
    names := [];
    var carried := callback;
    var i := 0;
    while i < |kb|
      invariant 0 <= i <= |kb| && |names| == i
      invariant carried == Carried(SimpleFlat(kb[..i]), callback)
      invariant forall a :: 0 <= a < i ==> RowNamed(SimpleFlat(kb[..a]), kb[a], names[a], callback)
    {
      var rowNames, next := SimpleRow(kb[i], carried);
      SimpleStep(kb, i, callback, names, carried, rowNames, next);
      names, carried := names + [rowNames], next;
      i := i + 1;
    }
  }

  /** The leak on a small keyboard: a button without a callback after one
      with callback `f` gets `f`, not the argument. */
  lemma {:induction false} LeakExample(f: string, d: Option<string>)
    ensures var es := [SimpleEntry(false, Some(f), None), SimpleEntry(false, None, None)];
            NameAfter(es[1], Carried(es, d)) == Some(f)
  {
  }

  // ---------------------------------------------------------------------------
  // Activation

  /** Python's `text[n:]`: empty when `n` passes the end. */
  function Drop(s: string, n: nat): (r: string)
    ensures |r| == if n <= |s| then |s| - n else 0
  {
    if n <= |s| then s[n..] else []
  }

  /** The prefix a check box shows for its state. */
  function Mark(b: Stored): string
  {
    if b.isChecked then b.checkedPrefix else b.uncheckedPrefix
  }

  /** `CheckBoxButton.handle_button_activation`'s new text: the prefix of the
      present state is cut off and the other one put in its place. */
  function Toggle(text: string, b: Stored): (r: string)
  {
    if b.isChecked then b.uncheckedPrefix + Drop(text, |b.checkedPrefix|)
    else b.checkedPrefix + Drop(text, |b.uncheckedPrefix|)
  }

  /** The toggled row: `is_checked` flipped. */
  function Flipped(b: Stored): (r: Stored)
    ensures r.isChecked != b.isChecked && r.(isChecked := b.isChecked) == b
  {
    b.(isChecked := !b.isChecked)
  }

  /** A text that carries its state's prefix gets the prefix of the new state,
      the rest unchanged; toggling twice gives the text back. */
  lemma {:induction false} ToggleTwice(text: string, b: Stored)
    requires |Mark(b)| <= |text| && text[..|Mark(b)|] == Mark(b)
    ensures var t := Toggle(text, b);
            && |Mark(Flipped(b))| <= |t| && t[..|Mark(Flipped(b))|] == Mark(Flipped(b))
            && t[|Mark(Flipped(b))|..] == text[|Mark(b)|..]
            && Toggle(t, Flipped(b)) == text
  {
    var t := Toggle(text, b);
    assert t == Mark(Flipped(b)) + text[|Mark(b)|..];
    assert t[|Mark(Flipped(b))|..] == text[|Mark(b)|..];
    assert text == Mark(b) + text[|Mark(b)|..];
  }

  /** A check box created with the column defaults as its prefixes shows the
      prefix of its state; one toggle shows the label of the other state. */
  lemma {:induction false} CreatedLabelToggles(name: string, b: Stored)
    requires b.checkedPrefix == CheckedPrefixDefault && b.uncheckedPrefix == UncheckedPrefixDefault
    ensures var l := Label(name, CheckBox, b);
            && |Mark(b)| <= |l| && l[..|Mark(b)|] == Mark(b)
            && Toggle(l, b) == Label(name, CheckBox, Flipped(b))
  {
    var l := Label(name, CheckBox, b);
    assert l == Mark(b) + name;
    assert l[|Mark(b)|..] == name;
  }

  /** What handling a callback query ends in. */
  datatype Outcome =
    | StaleAlert                           // 'this keyboard is outdated'
    | Crashed(key: Bytes)                  // the KeyError of an unregistered class escapes
    | PermissionAlert                      // 'you cannot activate this button'
    | FailureAlert                         // activation raised: 'something went wrong', re-raised
    | Called(name: string, row: nat, col: nat, answered: bool)
    | Toggled(keyboard: seq<seq<Shown>>, stored: Stored, answered: bool)

  /** Lines 192-203: the owner check, then the activation of the button in
      cell (r, c) with row `b`. A plain button calls the controller method
      named by `callback_name` with (keyboard, button, r, c); a missing method,
      a missing name or a method that raises (`raises`) ends in the failure
      alert. A check box toggles the shown text and the row. The query is
      answered after activation when `answer` is set. */
  function Activate(g: seq<seq<Shown>>, r: nat, c: nat, kind: ButtonKind, b: Stored,
                    fromUser: int, handlers: set<string>, raises: bool): (o: Outcome)
    requires r < |g| && c < |g[r]|
    ensures o == PermissionAlert <==> b.userId != DefaultUserId && fromUser != b.userId
    ensures o.Called? ==> kind == Plain && b.callbackName == Some(o.name) && o.name in handlers
                          && o.row == r && o.col == c && o.answered == b.answer
    ensures o.Toggled? ==>
              && kind == CheckBox && o.stored == Flipped(b) && o.answered == b.answer
              && |o.keyboard| == |g| && (forall i :: 0 <= i < |g| ==> |o.keyboard[i]| == |g[i]|)
              && o.keyboard[r][c] == Shown(Toggle(g[r][c].text, b), g[r][c].data)
              && forall i, j :: 0 <= i < |g| && 0 <= j < |g[i]| && (i, j) != (r, c) ==> o.keyboard[i][j] == g[i][j]
    ensures o.StaleAlert? == false && o.Crashed? == false
    ensures kind == Plain && (b.userId == DefaultUserId || fromUser == b.userId) ==>
              (o.Called? <==> b.callbackName.Some? && b.callbackName.value in handlers && !raises)
    ensures kind == CheckBox && (b.userId == DefaultUserId || fromUser == b.userId) ==> o.Toggled?
  {
    if b.userId != DefaultUserId && fromUser != b.userId then PermissionAlert
    else match kind
      case Plain =>
        if b.callbackName.Some? && b.callbackName.value in handlers && !raises
        then Called(b.callbackName.value, r, c, b.answer)
        else FailureAlert
      case CheckBox =>
        Toggled(g[r := g[r][c := Shown(Toggle(g[r][c].text, b), g[r][c].data)]], Flipped(b), b.answer)
  }

  /** `TGBotKeyboardMixin.handle_callback_query`: the query data `q` pressed on
      keyboard `g` by user `fromUser`; `classes` is `CRC32_BUTTON_CLASSES_MAP`,
      `db` the button tables, `handlers` the controller's methods. */
  method HandleCallbackQuery(g: seq<seq<Shown>>, q: Bytes, fromUser: int, classes: map<Bytes, ButtonKind>,
                             db: map<Bytes, Stored>, handlers: set<string>, raises: bool)
    returns (o: Outcome)
    ensures |q| != TokenLength || Key(q) !in classes ==> o == StaleAlert
    ensures o.Crashed? <==> |q| == TokenLength && Key(q) in classes && !KnownKeys(g, classes.Keys)
    ensures o.Crashed? ==> o.key !in classes
    ensures o == StaleAlert <==>
              || |q| != TokenLength || Key(q) !in classes
              || (KnownKeys(g, classes.Keys) && (!HasCell(g, q) || !Complete(Tokens(g), db)))
    ensures o != StaleAlert && !o.Crashed? ==>
              exists b: Rebuilt ::
                && FirstMatch(g, q, Some((b.row, b.col)))
                && FilledFrom(SlotGrid(g), Sort(Fetch(Tokens(g), db)), b.grid)
                && PressedRow(b, classes.Keys)
                && o == Activate(g, b.row, b.col, classes[b.grid[b.row][b.col].table],
                                 b.grid[b.row][b.col].row, fromUser, handlers, raises)
  {
    if |q| != TokenLength || Key(q) !in classes {
      return StaleAlert;
    }
    var r := Rebuild(g, q, classes.Keys, db);
    if r.Err? {
      return if r.error.KeyError? then Crashed(r.error.key) else StaleAlert;
    }
    var b := r.value;
    var cell := b.grid[b.row][b.col];
    o := Activate(g, b.row, b.col, classes[cell.table], cell.row, fromUser, handlers, raises);
  }
}

=== FILE: limiter.dfy ===
/** The sliding-window rate limiter (tgbot/limiter.py). It keeps the times of
    its last `amount` admissions; a call waits until the oldest of them is
    `period` old, records its own admission time and forgets the oldest.
    The wall clock is read twice per call (once for the delay, once for the
    recorded time); both readings are parameters here, and time is an integer
    number of clock units. */
module Limiter {

  /** What one call does besides updating the window. */
  datatype Admission = Admission(delay: int, sleeps: bool)

  class Limiter {
    const amount: nat
    const period: int
    /** A static limiter is never reported old (it is never discarded). */
    const isStatic: bool
    /** The admission times of the last `amount` calls, oldest first. */
    var events: seq<int>
    /** Every time ever written into the window, starting with the `amount`
        initial zeros; `events` is its last `amount` entries. */
    ghost var timeline: seq<int>

    ghost predicate Valid()
      reads this
    {
      && amount >= 1
      && |timeline| >= amount
      && (forall i :: 0 <= i < amount ==> timeline[i] == 0)
      && events == timeline[|timeline| - amount..]
      // two admissions `amount` calls apart are at least `period` apart
      && (forall j :: amount <= j < |timeline| ==> timeline[j] >= timeline[j - amount] + period)
    }

    /** `Limiter(controller, amount, period, static, name)`: the window starts
        as `amount` zeros. Every limiter the pipeline creates has amount >= 1
        (a zero-length window would fail on its first call). */
    constructor (amount: nat, period: int, isStatic: bool)
      requires amount >= 1
      ensures Valid()
      ensures this.amount == amount && this.period == period && this.isStatic == isStatic
      ensures events == seq(amount, _ => 0) && timeline == events
    {
      this.amount := amount;
      this.period := period;
      this.isStatic := isStatic;
      events := seq(amount, _ => 0);
      timeline := seq(amount, _ => 0);
    }

    /** `await limiter()`: `now` is the first clock reading, `later` the second.
        The call waits `delay` (it sleeps only when the delay is positive),
        appends `later + delay` and drops the oldest entry. */
    method Call(now: int, later: int) returns (a: Admission)
      requires Valid()
      requires now <= later
      modifies this
      ensures Valid()
      ensures a.delay == if period - (now - old(events)[0]) > 0 then period - (now - old(events)[0]) else 0
      ensures a.delay >= 0
      ensures a.sleeps <==> a.delay > 0
      ensures events == old(events)[1..] + [later + a.delay]
      ensures |events| == amount
      ensures later + a.delay >= old(events)[0] + period
      ensures timeline == old(timeline) + [later + a.delay]
      // the window starts as zeros: the first `amount` calls do not wait once now >= period
      ensures |old(timeline)| < 2 * amount && now >= period ==> a.delay == 0
    {
      var d := period - (now - events[0]);
      var delay := if d > 0 then d else 0;
      events := events + [later + delay];
      timeline := timeline + [later + delay];
      assert events[1..] == timeline[|timeline| - amount..];
      events := events[1..];
      a := Admission(delay, delay > 0);
    }

    /** `is_old`: a dynamic limiter whose newest admission is at least `period`
        in the past. */
    predicate IsOld(now: int)
      reads this
      requires Valid()
    {
      !isStatic && now - events[|events| - 1] >= period
    }
  }

  /** Reading `is_old` at time `now`: never for a static limiter; for a dynamic
      one exactly when the newest recorded admission is `period` old. */
  lemma {:induction false} IsOldMeaning(l: Limiter, now: int)
    requires l.Valid()
    ensures l.IsOld(now) <==> !l.isStatic && now >= l.timeline[|l.timeline| - 1] + l.period
  {
  }

  /** Admissions recorded in the window are spaced: any two recorded `amount`
      calls apart are at least `period` apart, so at most `amount` admissions
      fall in any half-open interval of length `period`. */
  lemma {:induction false} Spacing(l: Limiter, i: nat, k: nat)
    requires l.Valid()
    requires i + k * l.amount < |l.timeline|
    ensures l.timeline[i + k * l.amount] >= l.timeline[i] + k * l.period
  {
    if k > 0 {
      Spacing(l, i, k - 1);
      assert i + k * l.amount == (i + (k - 1) * l.amount) + l.amount;
    }
  }
}

=== FILE: message_handler.dfy ===
/** The outbound message queue of tgbot/message_handler.py. `send_message_sync`
    splits a text into fragments and queues one entry per fragment, each with
    a fresh message id and an event that the next fragment to the same chat
    with the same priority waits for; `message_sender` admits entries under a
    per-priority concurrency rule and accounts for them when they complete.

    Asynchronous tasks are modelled by their bookkeeping: a queued entry moves
    to `tasks` when a sending task is created for it and leaves it when the
    task completes; `asyncio.Event`s are numbered in creation order, and which
    of them are set is recorded. Whether a chat id names a user
    (`get_peer_type`) is a parameter. */
module MessageHandler {
  import opened Common
  import opened PrioritizedItem
  import SplitText
  import ExceptionHandler

  /** A limiter's parameters: `amount` admissions per `period` seconds. */
  datatype LimiterSpec = LimiterSpec(amount: nat, period: int, isStatic: bool)

  /** `global_message_limiter`: 30 messages per second across all chats. */
  const BroadcastLimiter := LimiterSpec(30, 1, true)

  /** The limiter a chat gets on its first message: 3 per second for a user,
      20 per minute for a group or channel. */
  function ChatLimiter(userChat: bool): LimiterSpec {
    if userChat then LimiterSpec(3, 1, false) else LimiterSpec(20, 60, false)
  }

  /** An entry of a send's `limiters` list. */
  datatype LimiterRef = Broadcast | OfChat(chat: int)

  /** `get_message_texts` splits at 4096 characters. */
  const MaxPartLength := 4096

  /** The data of one queued fragment: where and what to send, the limiters
      and events handed to the send, and the event a blocking caller waits
      for (only on the last fragment). */
  datatype Fragment = Fragment(
    chat: int,
    text: string,
    limiters: seq<LimiterRef>,
    previous: Option<nat>,
    current: nat,
    ignoreErrors: bool,
    finish: Option<nat>)

  datatype Counters = Counters(pending: int, processing: int)

  datatype SendError =
    | UnknownPriority   // `messages_info[priority]` raises KeyError
    | SplitError        // `split_text_by_units` raises ValueError
    | SplitNeverEnds    // the split does not return
    | NoParts           // a blocking send of no fragments: `finish_event` is unbound

  // ---------------------------------------------------------------------
  // Event chains

  /** Sends to one chat with one priority form a chain. */
  datatype ChainKey = ChainKey(chat: int, priority: int)

  function KeyOf(x: Item<Fragment>): ChainKey {
    ChainKey(x.item.chat, x.priority)
  }

  /** Per key, the event set by the last of `sent` under that key: what
      `message_event_chains` holds after queueing `sent`. */
  function LastCurrents(sent: seq<Item<Fragment>>): map<ChainKey, nat> {
    if sent == [] then map[]
    else LastCurrents(sent[..|sent| - 1])[KeyOf(sent[|sent| - 1]) := sent[|sent| - 1].item.current]
  }

  /** The event a send under `key` waits for after `sent` were queued. */
  function Awaited(sent: seq<Item<Fragment>>, key: ChainKey): Option<nat> {
    var last := LastCurrents(sent);
    if key in last then Some(last[key]) else None
  }

  /** Every send waits for the event of the send before it under the same key;
      the first send under a key waits for nothing. */
  ghost predicate ChainLinked(sent: seq<Item<Fragment>>) {
    sent == [] ||
      var init, last := sent[..|sent| - 1], sent[|sent| - 1];
      ChainLinked(init) && last.item.previous == Awaited(init, KeyOf(last))
  }

  /** `Awaited` is the current event of the last earlier send under the key,
      or nothing when there is none. */
  lemma {:induction false} AwaitedIsLastSend(sent: seq<Item<Fragment>>, key: ChainKey)
    ensures Awaited(sent, key).None? <==> forall i :: 0 <= i < |sent| ==> KeyOf(sent[i]) != key
    ensures Awaited(sent, key).Some? ==>
      exists i :: 0 <= i < |sent| && KeyOf(sent[i]) == key && Awaited(sent, key) == Some(sent[i].item.current)
        && forall j :: i < j < |sent| ==> KeyOf(sent[j]) != key
  {
    if sent != [] {
      var init, last := sent[..|sent| - 1], sent[|sent| - 1];
      AwaitedIsLastSend(init, key);
      if KeyOf(last) == key {
        assert KeyOf(sent[|sent| - 1]) == key;
      } else {
        assert forall i :: 0 <= i < |init| ==> sent[i] == init[i];
        if Awaited(sent, key).Some? {
          var i :| 0 <= i < |init| && KeyOf(init[i]) == key && Awaited(init, key) == Some(init[i].item.current)
            && forall j :: i < j < |init| ==> KeyOf(init[j]) != key;
          assert KeyOf(sent[i]) == key && forall j :: i < j < |sent| ==> KeyOf(sent[j]) != key;
        }
      }
    }
  }

  /** Queueing one more send keeps the history linked exactly when it waits
      for its chain's last event, and makes it that chain's last send. */
  lemma ChainAppend(sent: seq<Item<Fragment>>, x: Item<Fragment>)
    ensures ChainLinked(sent + [x]) <==> ChainLinked(sent) && x.item.previous == Awaited(sent, KeyOf(x))
    ensures LastCurrents(sent + [x]) == LastCurrents(sent)[KeyOf(x) := x.item.current]
  {
    assert (sent + [x])[..|sent|] == sent;
  }

  // ---------------------------------------------------------------------
  // Counters

  const Priorities: set<int> := {1, 2, 3}

  /** The number of entries with priority `p`. */
  function Count(q: seq<Item<Fragment>>, p: int): nat {
    if q == [] then 0 else Count(q[..|q| - 1], p) + (if q[|q| - 1].priority == p then 1 else 0)
  }

  lemma {:induction false} CountConcat(a: seq<Item<Fragment>>, b: seq<Item<Fragment>>, p: int)
    ensures Count(a + b, p) == Count(a, p) + Count(b, p)
  {
    if b != [] {
      assert (a + b)[..|a + b| - 1] == a + b[..|b| - 1];
      CountConcat(a, b[..|b| - 1], p);
    } else {
      assert a + b == a;
    }
  }

  lemma CountSnoc(q: seq<Item<Fragment>>, x: Item<Fragment>, p: int)
    ensures Count(q + [x], p) == Count(q, p) + (if x.priority == p then 1 else 0)
  {
    assert (q + [x])[..|q|] == q;
  }

  lemma CountRemoveAt(q: seq<Item<Fragment>>, k: nat, p: int)
    requires k < |q|
    ensures Count(RemoveAt(q, k), p) + (if q[k].priority == p then 1 else 0) == Count(q, p)
  {
    assert q == q[..k] + [q[k]] + q[k + 1..];
    CountConcat(q[..k] + [q[k]], q[k + 1..], p);
    CountConcat(q[..k], [q[k]], p);
    CountConcat(q[..k], q[k + 1..], p);
    assert Count([q[k]], p) == (if q[k].priority == p then 1 else 0) by {
      assert [q[k]][..0] == [];
    }
  }

  /** An entry of priority `p` is queued exactly when the count is positive. */
  lemma {:induction false} CountPositive(q: seq<Item<Fragment>>, p: int)
    ensures Count(q, p) > 0 <==> exists i :: 0 <= i < |q| && q[i].priority == p
  {
    if q != [] {
      var init := q[..|q| - 1];
      CountPositive(init, p);
      if exists i :: 0 <= i < |init| && init[i].priority == p {
        var i :| 0 <= i < |init| && init[i].priority == p;
        assert q[i] == init[i];
      }
      if exists i :: 0 <= i < |q| && q[i].priority == p {
        var i :| 0 <= i < |q| && q[i].priority == p;
        if i < |init| {
          assert init[i] == q[i];
        }
      }
    }
  }

  /** The first priority below `p`, in the order of `messages_info`, with
      queued entries. */
  function FirstPending(info: map<int, Counters>, p: int): Option<int>
    requires Priorities <= info.Keys
  {
    if p > 1 && info[1].pending > 0 then Some(1)
    else if p > 2 && info[2].pending > 0 then Some(2)
    else if p > 3 && info[3].pending > 0 then Some(3)
    else None
  }

  /** The first priority below `p` with exactly `max` sends in progress. */
  function FirstFull(info: map<int, Counters>, max: int, p: int): Option<int>
    requires Priorities <= info.Keys
  {
    if p > 1 && info[1].processing == max then Some(1)
    else if p > 2 && info[2].processing == max then Some(2)
    else if p > 3 && info[3].processing == max then Some(3)
    else None
  }

  /** `could_get_next_item`: true when no priority is full; otherwise false
      when nothing is pending or the first priority with queued entries has
      `max` or more in progress, and true else. */
  predicate Admits(info: map<int, Counters>, max: int)
    requires Priorities <= info.Keys
  {
    var next := FirstPending(info, 4);
    FirstFull(info, max, 4).None? || (next.Some? && info[next.value].processing < max)
  }

  /** The rule in both directions: an entry may be taken exactly when no
      priority has `max` in progress, or the lowest-numbered priority with
      queued entries has fewer than `max` in progress. */
  lemma AdmitsMeaning(info: map<int, Counters>, max: int)
    requires Priorities <= info.Keys
    ensures Admits(info, max) <==>
      || (forall p :: p in Priorities ==> info[p].processing != max)
      || (exists p :: p in Priorities && info[p].pending > 0 && info[p].processing < max
            && forall r :: r in Priorities && r < p ==> info[r].pending <= 0)
  {
  }

  // ---------------------------------------------------------------------
  // Queueing

  /** The entry `send_message_sync` queues for fragment `j` of `texts`, whose
      first fragment gets id `firstId` and event number `base`. */
  function QueuedAt(texts: seq<string>, j: nat, chat: int, priority: int, blocking: bool, ignoreErrors: bool,
                    firstId: int, base: nat, previous: Option<nat>): Item<Fragment>
    requires j < |texts|
  {
    Item(priority, firstId + j,
      Fragment(chat, texts[j], [Broadcast, OfChat(chat)],
        if j == 0 then previous else Some(base + j - 1),
        base + j, ignoreErrors,
        if blocking && j == |texts| - 1 then Some(base + |texts|) else None))
  }

  function Queued(texts: seq<string>, chat: int, priority: int, blocking: bool, ignoreErrors: bool,
                  firstId: int, base: nat, previous: Option<nat>): (q: seq<Item<Fragment>>)
    ensures |q| == |texts|
  {
    seq(|texts|, j requires 0 <= j < |texts| => QueuedAt(texts, j, chat, priority, blocking, ignoreErrors, firstId, base, previous))
  }

  /** The split `get_message_texts` performs: `split_text_by_units` over the
      as-written `split_text`. */
  function Texts(title: string, text: string): SplitText.Outcome {
    SplitText.SplitByUnits(title, text, MaxPartLength, SplitText.DefaultUnits, "\n", true, SplitText.SeparatorAfterContent)
  }

  /** The same split with the corrected pre-count of `split_text`. */
  function CorrectedTexts(title: string, text: string): SplitText.Outcome {
    SplitText.SplitByUnits(title, text, MaxPartLength, SplitText.DefaultUnits, "\n", true, SplitText.SeparatorAfterUnit)
  }

  /** Every part of a non-empty text is at most 4096 characters long, as
      written and corrected. An empty text under a title that leaves no room
      is the exception: the line and word splits raise, and the character
      split returns the bare prefix (`SplitText.EmptyBodyOverLimit`). */
  lemma TextsWithinLimit(title: string, text: string)
    requires text != ""
    ensures Texts(title, text).Messages? ==>
              forall j :: 0 <= j < |Texts(title, text).messages| ==> |Texts(title, text).messages[j]| <= MaxPartLength
    ensures CorrectedTexts(title, text).Messages? ==>
              forall j :: 0 <= j < |CorrectedTexts(title, text).messages| ==> |CorrectedTexts(title, text).messages[j]| <= MaxPartLength
  {
    if Texts(title, text).Messages? {
      SplitText.SplitByUnitsWithinLimit(title, text, MaxPartLength, SplitText.DefaultUnits, "\n", true, SplitText.SeparatorAfterContent);
    }
    if CorrectedTexts(title, text).Messages? {
      SplitText.SplitByUnitsWithinLimit(title, text, MaxPartLength, SplitText.DefaultUnits, "\n", true, SplitText.SeparatorAfterUnit);
    }
  }

  /** With the corrected pre-count, a text that needs several parts is sent
      as parts numbered `1/n` to `n/n`, `n` their own number. */
  lemma CorrectedTextsNumbered(title: string, text: string)
    requires text != "" && !SplitText.FitsInOne(title, text, MaxPartLength, "\n")
    requires !CorrectedTexts(title, text).Failed?
    ensures CorrectedTexts(title, text).Messages?
    ensures var ms := CorrectedTexts(title, text).messages;
            exists u :: (u in SplitText.DefaultUnits
              && SplitText.PartCount(text, SplitText.Layout(title, "\n", MaxPartLength, u), true, SplitText.SeparatorAfterUnit) == Some(|ms|)
              && SplitText.FramedRun(ms, |ms|, 1, SplitText.Layout(title, "\n", MaxPartLength, u), true))
  {
    SplitText.SplitByUnitsNumbered(title, text, MaxPartLength, SplitText.DefaultUnits, "\n");
  }

  /** Within one call: ids are consecutive from the current message id, each
      fragment waits for the one before it, only a blocking send's last
      fragment carries the finish event, and the global limiter comes first. */
  lemma QueuedFragments(texts: seq<string>, chat: int, priority: int, blocking: bool, ignoreErrors: bool,
                        firstId: int, base: nat, previous: Option<nat>)
    ensures var q := Queued(texts, chat, priority, blocking, ignoreErrors, firstId, base, previous);
      && (forall j :: 0 <= j < |q| ==>
            q[j].id == firstId + j && q[j].priority == priority && q[j].item.chat == chat && q[j].item.current == base + j)
      && (forall j :: 0 < j < |q| ==> q[j].item.previous == Some(q[j - 1].item.current))
      && (|q| > 0 ==> q[0].item.previous == previous)
      && (forall j :: 0 <= j < |q| ==> (q[j].item.finish.Some? <==> blocking && j == |q| - 1))
      && (forall j :: 0 <= j < |q| ==> q[j].item.limiters == [Broadcast, OfChat(chat)])
      && (forall j :: 0 <= j < |q| ==> q[j].item.text == texts[j])
  {
  }

  /** Entry `i` of the history has id `i + 1` and an event that was created;
      the next id is one past the last. So ids are distinct and increasing. */
  ghost predicate HistoryOk(sent: seq<Item<Fragment>>, messageId: int, createdEvents: nat) {
    && messageId == |sent| + 1
    && (forall i :: 0 <= i < |sent| ==> sent[i].id == i + 1 && sent[i].item.current < createdEvents)
  }

  /** The counters of priorities 1 to 3 for the queued and the running entries. */
  function CountsOf(queue: seq<Item<Fragment>>, tasks: seq<Item<Fragment>>): map<int, Counters> {
    Triple(CountersOf(queue, tasks, 1), CountersOf(queue, tasks, 2), CountersOf(queue, tasks, 3))
  }

  function CountersOf(queue: seq<Item<Fragment>>, tasks: seq<Item<Fragment>>, p: int): Counters {
    Counters(Count(queue, p), Count(tasks, p))
  }

  /** `messages_info`: one entry for each of the priorities 1, 2 and 3. */
  function Triple(c1: Counters, c2: Counters, c3: Counters): map<int, Counters> {
    map[1 := c1, 2 := c2, 3 := c3]
  }

  lemma TripleUpdate(c1: Counters, c2: Counters, c3: Counters, p: int, x: Counters)
    requires p in Priorities
    ensures Triple(c1, c2, c3)[p := x] == Triple(if p == 1 then x else c1, if p == 2 then x else c2, if p == 3 then x else c3)
  {
  }

  /** Only priorities 1 to 3 occur, and their counters count the queued and
      the running entries. */
  ghost predicate CountersAgree(info: map<int, Counters>, queue: seq<Item<Fragment>>, tasks: seq<Item<Fragment>>) {
    && info == CountsOf(queue, tasks)
    && (forall i :: 0 <= i < |queue| ==> queue[i].priority in Priorities)
    && (forall i :: 0 <= i < |tasks| ==> tasks[i].priority in Priorities)
  }

  /** The event the next send under `key` waits for: the chain's last. */
  function Awaiting(chains: map<ChainKey, nat>, key: ChainKey): Option<nat> {
    if key in chains then Some(chains[key]) else None
  }

  /** The fragments of one send, in the order queued: consecutive ids from
      `messageId` and events from `base`, one chain key, and each waiting for
      the one before it (the first for `previous`). */
  ghost predicate OneSend(q: seq<Item<Fragment>>, messageId: int, key: ChainKey, base: nat, previous: Option<nat>) {
    && (forall j :: 0 <= j < |q| ==>
          q[j].id == messageId + j && q[j].priority == key.priority && KeyOf(q[j]) == key && q[j].item.current == base + j)
    && (|q| > 0 ==> q[0].item.previous == previous)
    && (forall j :: 0 < j < |q| ==> q[j].item.previous == Some(q[j - 1].item.current))
  }

  /** Queueing the first `i` fragments of one send that waits for its
      chain's last event keeps the history linked, and leaves the last of
      them as the chain's last send. */
  lemma {:induction false} ChainQueued(sent: seq<Item<Fragment>>, q: seq<Item<Fragment>>, messageId: int, key: ChainKey, base: nat, i: nat)
    requires ChainLinked(sent) && i <= |q|
    requires OneSend(q, messageId, key, base, Awaited(sent, key))
    ensures ChainLinked(sent + q[..i])
    ensures LastCurrents(sent + q[..i]) == if i == 0 then LastCurrents(sent) else LastCurrents(sent)[key := base + i - 1]
  {
    if i == 0 {
      assert sent + q[..0] == sent;
    } else {
      var init := sent + q[..i - 1];
      var x := q[i - 1];
      ChainQueued(sent, q, messageId, key, base, i - 1);
      OneSendAt(q, messageId, key, base, Awaited(sent, key), i - 1);
      if i == 1 {
        assert init == sent;
      } else {
        UpdateTwice(LastCurrents(sent), key, base + i - 2, base + i - 1);
      }
      SnocPrefix(sent, q, i);
      ChainAppend(init, x);
    }
  }

  /** Fragment `j` of one send: its key, its event, and the event it waits
      for. */
  lemma {:induction false} OneSendAt(q: seq<Item<Fragment>>, messageId: int, key: ChainKey, base: nat, previous: Option<nat>, j: nat)
    requires OneSend(q, messageId, key, base, previous) && j < |q|
    ensures KeyOf(q[j]) == key && q[j].item.current == base + j
    ensures q[j].item.previous == if j == 0 then previous else Some(base + j - 1)
  {
    if j > 0 {
      assert q[j].item.previous == Some(q[j - 1].item.current);
    }
  }

  /** Entries all of priority `p` add their number to the count of `p` and
      nothing to the others. */
  lemma {:induction false} CountUniform(queue: seq<Item<Fragment>>, q: seq<Item<Fragment>>, p: int, r: int)
    requires forall j :: 0 <= j < |q| ==> q[j].priority == p
    ensures Count(queue + q, r) == Count(queue, r) + (if r == p then |q| else 0)
  {
    if q == [] {
      assert queue + q == queue;
    } else {
      var init := q[..|q| - 1];
      CountUniform(queue, init, p, r);
      assert queue + q == (queue + init) + [q[|q| - 1]];
      CountSnoc(queue + init, q[|q| - 1], r);
    }
  }

  /** Queueing entries of one known priority adds their number to its
      pending count. */
  lemma CountersQueued(info: map<int, Counters>, queue: seq<Item<Fragment>>, tasks: seq<Item<Fragment>>,
                       q: seq<Item<Fragment>>, p: int)
    requires CountersAgree(info, queue, tasks) && p in Priorities
    requires forall j :: 0 <= j < |q| ==> q[j].priority == p
    ensures CountersAgree(info[p := Counters(info[p].pending + |q|, info[p].processing)], queue + q, tasks)
  {
    var c := Counters(info[p].pending + |q|, info[p].processing);
    assert CountersOf(queue + q, tasks, 1) == if p == 1 then c else CountersOf(queue, tasks, 1) by {
      CountUniform(queue, q, p, 1);
    }
    assert CountersOf(queue + q, tasks, 2) == if p == 2 then c else CountersOf(queue, tasks, 2) by {
      CountUniform(queue, q, p, 2);
    }
    assert CountersOf(queue + q, tasks, 3) == if p == 3 then c else CountersOf(queue, tasks, 3) by {
      CountUniform(queue, q, p, 3);
    }
    TripleUpdate(CountersOf(queue, tasks, 1), CountersOf(queue, tasks, 2), CountersOf(queue, tasks, 3), p, c);
    var all := queue + q;
    assert forall j :: 0 <= j < |all| ==> all[j].priority in Priorities by {
      assert forall j :: 0 <= j < |all| ==> all[j] == if j < |queue| then queue[j] else q[j - |queue|];
    }
  }

  /** Queueing entries with the next ids and events created so far keeps
      the history's ids and events in order. */
  lemma HistoryQueued(sent: seq<Item<Fragment>>, messageId: int, createdEvents: nat, q: seq<Item<Fragment>>,
                      base: nat, laterEvents: nat)
    requires HistoryOk(sent, messageId, createdEvents) && createdEvents <= base && base + |q| <= laterEvents
    requires forall j :: 0 <= j < |q| ==> q[j].id == messageId + j && q[j].item.current == base + j
    ensures HistoryOk(sent + q, messageId + |q|, laterEvents)
  {
    var history := sent + q;
    assert forall j :: 0 <= j < |history| ==> history[j] == if j < |sent| then sent[j] else q[j - |sent|];
  }

  /** A whole send queued after the history keeps it linked. */
  lemma ChainQueuedAll(sent: seq<Item<Fragment>>, q: seq<Item<Fragment>>, messageId: int, key: ChainKey, base: nat)
    requires ChainLinked(sent)
    requires OneSend(q, messageId, key, base, Awaited(sent, key))
    ensures ChainLinked(sent + q)
    ensures LastCurrents(sent + q) == if |q| == 0 then LastCurrents(sent) else LastCurrents(sent)[key := base + |q| - 1]
  {
    assert q[..|q|] == q;
    ChainQueued(sent, q, messageId, key, base, |q|);
  }

  /** The part of the handler's state that `send_message_sync` changes
      besides the limiters. */
  datatype QueueState = QueueState(queue: seq<Item<Fragment>>, messageId: int, chains: map<ChainKey, nat>,
                                   info: map<int, Counters>, createdEvents: nat)

  /** The state after the fragments `texts` were queued: one entry each, ids
      and events consecutive, the chain's last event the last fragment's, the
      pending count up by the number of fragments, and one more event for a
      blocking send. */
  function AfterQueue(s: QueueState, texts: seq<string>, chat: int, priority: int, blocking: bool, ignoreErrors: bool): QueueState
    requires priority in s.info
  {
    var key := ChainKey(chat, priority);
    var n := |texts|;
    QueueState(
      s.queue + Queued(texts, chat, priority, blocking, ignoreErrors, s.messageId, s.createdEvents,
                       Awaiting(s.chains, key)),
      s.messageId + n,
      if n == 0 then s.chains else s.chains[key := s.createdEvents + n - 1],
      s.info[priority := Counters(s.info[priority].pending + n, s.info[priority].processing)],
      s.createdEvents + n + (if blocking && n > 0 then 1 else 0))
  }

  /** The queue state agrees with the history `sent` of every entry queued
      so far: ids and events in order, every send waited for its chain's
      last, and the chains hold each key's last send. */
  ghost predicate Recorded(sent: seq<Item<Fragment>>, s: QueueState) {
    HistoryOk(sent, s.messageId, s.createdEvents) && ChainLinked(sent) && s.chains == LastCurrents(sent)
  }

  /** Across calls: queueing a send's fragments extends the history by
      exactly those fragments and keeps the state in agreement with it, so
      the first fragment waits for the last fragment of the previous send
      under the same chat and priority. */
  lemma QueueRecords(sent: seq<Item<Fragment>>, s: QueueState, texts: seq<string>, chat: int, priority: int,
                     blocking: bool, ignoreErrors: bool)
    requires priority in s.info && Recorded(sent, s)
    ensures Recorded(sent + Queued(texts, chat, priority, blocking, ignoreErrors, s.messageId, s.createdEvents,
                                   Awaiting(s.chains, ChainKey(chat, priority))),
                     AfterQueue(s, texts, chat, priority, blocking, ignoreErrors))
  {
    var key := ChainKey(chat, priority);
    var q := Queued(texts, chat, priority, blocking, ignoreErrors, s.messageId, s.createdEvents, Awaiting(s.chains, key));
    QueuedOneSend(texts, chat, priority, blocking, ignoreErrors, s.messageId, s.createdEvents, Awaiting(s.chains, key));
    ChainQueuedAll(sent, q, s.messageId, key, s.createdEvents);
    HistoryQueued(sent, s.messageId, s.createdEvents, q, s.createdEvents,
                  AfterQueue(s, texts, chat, priority, blocking, ignoreErrors).createdEvents);
  }

  /** The fragments of one call form one send. */
  lemma QueuedOneSend(texts: seq<string>, chat: int, priority: int, blocking: bool, ignoreErrors: bool,
                      firstId: int, base: nat, previous: Option<nat>)
    ensures OneSend(Queued(texts, chat, priority, blocking, ignoreErrors, firstId, base, previous),
                    firstId, ChainKey(chat, priority), base, previous)
  {
  }

  /** One pass of the loop of `send_message_sync`: the entry for `text` takes
      the next id and a fresh event, waits for the chain's last event and
      becomes the chain's last; `last` marks the final fragment of a blocking
      send, whose finish event is created after its own. */
  function QueueOne(s: QueueState, text: string, chat: int, priority: int, last: bool, ignoreErrors: bool): QueueState
    requires priority in s.info
  {
    var key := ChainKey(chat, priority);
    var item := Item(priority, s.messageId,
      Fragment(chat, text, [Broadcast, OfChat(chat)], Awaiting(s.chains, key), s.createdEvents, ignoreErrors,
               if last then Some(s.createdEvents + 1) else None));
    QueueState(s.queue + [item], s.messageId + 1, s.chains[key := s.createdEvents],
               s.info[priority := Counters(s.info[priority].pending + 1, s.info[priority].processing)],
               s.createdEvents + (if last then 2 else 1))
  }

  /** The state after the first `i` passes of the loop. */
  function QueueFirst(s: QueueState, texts: seq<string>, i: nat, chat: int, priority: int, blocking: bool,
                      ignoreErrors: bool): (t: QueueState)
    requires i <= |texts| && priority in s.info
    ensures priority in t.info
  {
    if i == 0 then s
    else QueueOne(QueueFirst(s, texts, i - 1, chat, priority, blocking, ignoreErrors), texts[i - 1], chat, priority,
                  blocking && i == |texts|, ignoreErrors)
  }

  /** One more pass of the loop queues the next fragment, the last one of a
      blocking send with its finish event. */
  lemma {:induction false} QueueFirstNext(s: QueueState, texts: seq<string>, i: nat, chat: int, priority: int,
                                          blocking: bool, ignoreErrors: bool)
    requires i < |texts| && priority in s.info
    ensures QueueFirst(s, texts, i + 1, chat, priority, blocking, ignoreErrors)
            == QueueOne(QueueFirst(s, texts, i, chat, priority, blocking, ignoreErrors), texts[i], chat, priority,
                        blocking && i == |texts| - 1, ignoreErrors)
  {
  }

  /** After `i` passes ids, chain, pending counter and events have advanced
      by `i` (and one more event after a blocking send's last fragment). */
  lemma {:induction false} QueueFirstAdvances(s: QueueState, texts: seq<string>, i: nat, chat: int, priority: int,
                                              blocking: bool, ignoreErrors: bool)
    requires i <= |texts| && priority in s.info
    ensures var key := ChainKey(chat, priority);
      var t := QueueFirst(s, texts, i, chat, priority, blocking, ignoreErrors);
      && t.messageId == s.messageId + i
      && t.chains == (if i == 0 then s.chains else s.chains[key := s.createdEvents + i - 1])
      && t.info == s.info[priority := Counters(s.info[priority].pending + i, s.info[priority].processing)]
      && t.createdEvents == s.createdEvents + i + (if blocking && i == |texts| && i > 0 then 1 else 0)
  {
    if i > 0 {
      QueueFirstAdvances(s, texts, i - 1, chat, priority, blocking, ignoreErrors);
      UpdateTwice(s.chains, ChainKey(chat, priority), s.createdEvents + i - 2, s.createdEvents + i - 1);
      UpdateTwice(s.info, priority, Counters(s.info[priority].pending + i - 1, s.info[priority].processing),
                  Counters(s.info[priority].pending + i, s.info[priority].processing));
    }
  }

  /** After `i` passes the queue holds the first `i` entries of `Queued`. */
  lemma {:induction false} QueueFirstPrefix(s: QueueState, texts: seq<string>, i: nat, chat: int, priority: int,
                                            blocking: bool, ignoreErrors: bool)
    requires i <= |texts| && priority in s.info
    ensures QueueFirst(s, texts, i, chat, priority, blocking, ignoreErrors).queue
         == s.queue + Queued(texts, chat, priority, blocking, ignoreErrors, s.messageId, s.createdEvents,
                             Awaiting(s.chains, ChainKey(chat, priority)))[..i]
  {
    var q := Queued(texts, chat, priority, blocking, ignoreErrors, s.messageId, s.createdEvents,
                    Awaiting(s.chains, ChainKey(chat, priority)));
    if i == 0 {
      assert s.queue + q[..0] == s.queue;
    } else {
      QueueFirstPrefix(s, texts, i - 1, chat, priority, blocking, ignoreErrors);
      QueueFirstStep(s, texts, i, chat, priority, blocking, ignoreErrors);
      SnocPrefix(s.queue, q, i);
    }
  }

  /** Pass `i` appends entry `i - 1` of `Queued`. */
  lemma QueueFirstStep(s: QueueState, texts: seq<string>, i: nat, chat: int, priority: int,
                       blocking: bool, ignoreErrors: bool)
    requires 0 < i <= |texts| && priority in s.info
    ensures QueueFirst(s, texts, i, chat, priority, blocking, ignoreErrors).queue
         == QueueFirst(s, texts, i - 1, chat, priority, blocking, ignoreErrors).queue
              + [Queued(texts, chat, priority, blocking, ignoreErrors, s.messageId, s.createdEvents,
                        Awaiting(s.chains, ChainKey(chat, priority)))[i - 1]]
  {
    QueueFirstAdvances(s, texts, i - 1, chat, priority, blocking, ignoreErrors);
  }

  lemma SnocPrefix(a: seq<Item<Fragment>>, q: seq<Item<Fragment>>, i: nat)
    requires 0 < i <= |q|
    ensures a + q[..i] == (a + q[..i - 1]) + [q[i - 1]]
  {
    assert q[..i] == q[..i - 1] + [q[i - 1]];
  }

  lemma UpdateTwice<K, V>(m: map<K, V>, k: K, a: V, b: V)
    ensures m[k := a][k := b] == m[k := b]
  {
  }

  /** The loop queues exactly what `AfterQueue` describes. */
  /** The whole loop queues `AfterQueue`, whose counters still agree. */
  lemma {:induction false} QueuedAgree(s: QueueState, texts: seq<string>, chat: int, priority: int, blocking: bool,
                                       ignoreErrors: bool, tasks: seq<Item<Fragment>>)
    requires CountersAgree(s.info, s.queue, tasks) && priority in s.info
    ensures QueueFirst(s, texts, |texts|, chat, priority, blocking, ignoreErrors)
         == AfterQueue(s, texts, chat, priority, blocking, ignoreErrors)
    ensures var t := AfterQueue(s, texts, chat, priority, blocking, ignoreErrors);
            CountersAgree(t.info, t.queue, tasks)
  {
    QueueFirstIsAfterQueue(s, texts, chat, priority, blocking, ignoreErrors);
    CountersQueued(s.info, s.queue, tasks,
                   Queued(texts, chat, priority, blocking, ignoreErrors, s.messageId, s.createdEvents,
                          Awaiting(s.chains, ChainKey(chat, priority))), priority);
  }

  lemma QueueFirstIsAfterQueue(s: QueueState, texts: seq<string>, chat: int, priority: int, blocking: bool,
                               ignoreErrors: bool)
    requires priority in s.info
    ensures QueueFirst(s, texts, |texts|, chat, priority, blocking, ignoreErrors)
         == AfterQueue(s, texts, chat, priority, blocking, ignoreErrors)
  {
    QueueFirstPrefix(s, texts, |texts|, chat, priority, blocking, ignoreErrors);
    QueueFirstAdvances(s, texts, |texts|, chat, priority, blocking, ignoreErrors);
    var q := Queued(texts, chat, priority, blocking, ignoreErrors, s.messageId, s.createdEvents,
                    Awaiting(s.chains, ChainKey(chat, priority)));
    assert q[..|texts|] == q;
  }

  /** Whether `send_message_sync` gets as far as queueing: the priority is
      known and the split returned. */
  predicate Queues(priority: int, split: SplitText.Outcome) {
    priority in Priorities && split.Messages?
  }

  /** What `send_message_sync` returns or raises: errors in the order they
      are met, the finish event (created after the last fragment's own) for
      a blocking send, and nothing otherwise. */
  function SendResult(priority: int, split: SplitText.Outcome, blocking: bool, base: nat): (r: Result<Option<nat>, SendError>)
    ensures r.Ok? <==> Queues(priority, split) && (!blocking || |split.messages| > 0)
    ensures r.Ok? && blocking ==> r.value == Some(base + |split.messages|)
    ensures r.Ok? && !blocking ==> r.value == None
  {
    if priority !in Priorities then Err(UnknownPriority)
    else if split.Failed? then Err(SplitError)
    else if split.Diverges? then Err(SplitNeverEnds)
    else if !blocking then Ok(None)
    else if |split.messages| == 0 then Err(NoParts)
    else Ok(Some(base + |split.messages|))
  }

  /** The effect of `send_message_sync` on the queue state: the fragments
      are queued when it gets that far, and nothing changes otherwise. */
  ghost predicate Enqueued(s: QueueState, t: QueueState, split: SplitText.Outcome, chat: int, priority: int,
                           blocking: bool, ignoreErrors: bool, r: Result<Option<nat>, SendError>)
    requires Priorities <= s.info.Keys
  {
    && r == SendResult(priority, split, blocking, s.createdEvents)
    && t == if Queues(priority, split) then AfterQueue(s, split.messages, chat, priority, blocking, ignoreErrors) else s
  }

  /** `chat_id or self.get_default_chat_id()`: a missing or zero chat id
      falls back to the default chat. */
  function TargetChat(chat: Option<int>, defaultChat: int): int
  {
    if chat.Some? && chat.value != 0 then chat.value else defaultChat
  }

  // ---------------------------------------------------------------------
  // The sender

  /** The part of the handler's state that `message_sender` changes when it
      takes entries from the queue. */
  datatype Sending = Sending(queue: seq<Item<Fragment>>, tasks: seq<Item<Fragment>>, info: map<int, Counters>)

  ghost predicate Tracked(s: Sending) {
    CountersAgree(s.info, s.queue, s.tasks)
  }

  /** Lines 143-148 for the entry at `k`: it leaves the queue, a sending task
      is created for it, and it moves from pending to processing. */
  function DispatchAt(s: Sending, k: nat): Sending
    requires k < |s.queue| && s.queue[k].priority in s.info
  {
    var x := s.queue[k];
    Sending(RemoveAt(s.queue, k), s.tasks + [x],
            s.info[x.priority := Counters(s.info[x.priority].pending - 1, s.info[x.priority].processing + 1)])
  }

  /** Dispatching an entry keeps the counters counting. */
  lemma CountersDispatched(s: Sending, k: nat)
    requires Tracked(s) && k < |s.queue|
    ensures s.queue[k].priority in s.info && Tracked(DispatchAt(s, k))
  {
    CountersMoved(s.info, s.queue, s.tasks, k);
  }

  lemma CountersMoved(info: map<int, Counters>, queue: seq<Item<Fragment>>, tasks: seq<Item<Fragment>>, k: nat)
    requires CountersAgree(info, queue, tasks) && k < |queue|
    ensures queue[k].priority in info
    ensures var p := queue[k].priority;
      CountersAgree(info[p := Counters(info[p].pending - 1, info[p].processing + 1)], RemoveAt(queue, k), tasks + [queue[k]])
  {
    var x := queue[k];
    var p := x.priority;
    var c := Counters(info[p].pending - 1, info[p].processing + 1);
    CountsMoved(queue, tasks, k, 1, c);
    CountsMoved(queue, tasks, k, 2, c);
    CountsMoved(queue, tasks, k, 3, c);
    TripleUpdate(CountersOf(queue, tasks, 1), CountersOf(queue, tasks, 2), CountersOf(queue, tasks, 3), p, c);
    var queue' := RemoveAt(queue, k);
    assert forall j :: 0 <= j < |queue'| ==> queue'[j] == queue[if j < k then j else j + 1];
    var tasks' := tasks + [x];
    assert forall j :: 0 <= j < |tasks'| ==> tasks'[j] == if j < |tasks| then tasks[j] else x;
  }

  lemma CountsMoved(queue: seq<Item<Fragment>>, tasks: seq<Item<Fragment>>, k: nat, r: int, c: Counters)
    requires k < |queue| && c == Counters(Count(queue, queue[k].priority) - 1, Count(tasks, queue[k].priority) + 1)
    ensures CountersOf(RemoveAt(queue, k), tasks + [queue[k]], r) == if queue[k].priority == r then c else CountersOf(queue, tasks, r)
  {
    CountRemoveAt(queue, k, r);
    CountSnoc(tasks, queue[k], r);
  }

  /** The draining loop (lines 138-151) after an entry was dispatched: while
      the queue is not empty and `could_get_next_item` holds, the least
      entry is taken with `get_nowait` and dispatched. */
  ghost function Drain(s: Sending, max: int): (t: Sending)
    requires Tracked(s)
    ensures Tracked(t)
    decreases |s.queue|
  {
    if s.queue == [] || !Admits(s.info, max) then s
    else
      CountersDispatched(s, Least(s.queue));
      Drain(DispatchAt(s, Least(s.queue)), max)
  }

  /** A completed `get`: the least entry is dispatched without a new check,
      then the queue is drained. */
  ghost function Receive(s: Sending, max: int): (t: Sending)
    requires Tracked(s) && |s.queue| > 0
    ensures Tracked(t)
  {
    CountersDispatched(s, Least(s.queue));
    Drain(DispatchAt(s, Least(s.queue)), max)
  }

  /** No priority has more than `max` sends in progress. */
  ghost predicate Capped(info: map<int, Counters>, max: int)
    requires Priorities <= info.Keys
  {
    forall p :: p in Priorities ==> info[p].processing <= max
  }

  /** The least entry has the lowest priority that has pending entries. */
  lemma LeastIsLowestPending(s: Sending)
    requires Tracked(s) && |s.queue| > 0
    ensures var p := s.queue[Least(s.queue)].priority;
      p in Priorities && s.info[p].pending > 0 && forall r :: r in Priorities && r < p ==> s.info[r].pending == 0
  {
    var k := Least(s.queue);
    var p := s.queue[k].priority;
    CountPositive(s.queue, p);
    forall r | r in Priorities && r < p
      ensures s.info[r].pending == 0
    {
      CountPositive(s.queue, r);
      if Count(s.queue, r) > 0 {
        var i :| 0 <= i < |s.queue| && s.queue[i].priority == r;
        assert Less(s.queue[i], s.queue[k]);
      }
    }
  }

  /** Dispatching the least entry when `could_get_next_item` holds keeps every
      priority within the cap. */
  lemma DispatchKeepsCap(s: Sending, max: int)
    requires Tracked(s) && |s.queue| > 0 && Capped(s.info, max) && Admits(s.info, max)
    ensures s.queue[Least(s.queue)].priority in s.info
    ensures Capped(DispatchAt(s, Least(s.queue)).info, max)
  {
    LeastIsLowestPending(s);
  }

  /** Draining never takes a priority past the cap. */
  lemma {:induction false} DrainKeepsCap(s: Sending, max: int)
    requires Tracked(s) && Capped(s.info, max)
    ensures Capped(Drain(s, max).info, max)
    decreases |s.queue|
  {
    if s.queue != [] && Admits(s.info, max) {
      DispatchKeepsCap(s, max);
      CountersDispatched(s, Least(s.queue));
      DrainKeepsCap(DispatchAt(s, Least(s.queue)), max);
    }
  }

  /** When the state still admits an entry as the `get` completes, receiving
      keeps every priority within the cap. */
  lemma ReceiveKeepsCap(s: Sending, max: int)
    requires Tracked(s) && |s.queue| > 0 && Capped(s.info, max) && Admits(s.info, max)
    ensures Capped(Receive(s, max).info, max)
  {
    DispatchKeepsCap(s, max);
    CountersDispatched(s, Least(s.queue));
    DrainKeepsCap(DispatchAt(s, Least(s.queue)), max);
  }

  /** Draining stops with an empty queue or when no entry is admitted. */
  lemma {:induction false} DrainStops(s: Sending, max: int)
    requires Tracked(s)
    ensures var t := Drain(s, max); t.queue == [] || !Admits(t.info, max)
    ensures |Drain(s, max).tasks| - |s.tasks| == |s.queue| - |Drain(s, max).queue|
    decreases |s.queue|
  {
    if s.queue != [] && Admits(s.info, max) {
      CountersDispatched(s, Least(s.queue));
      DrainStops(DispatchAt(s, Least(s.queue)), max);
    }
  }

  /** How a sending task ended: the sent message; nothing, when the
      attempts ran out under `ignore_errors` and the wrapped method returned
      `None` without raising (tgbot/exception_handler.py:112-116, 135-138);
      or an exception. */
  datatype SendOutcome = Sent(message: nat) | GaveUp | Raised

  /** Lines 153-167: the finished task is dropped and its priority's
      processing count falls. A successful send had its own event set by
      `invoke` (tgbot/exception_handler.py:99-102) and a failed one gets it
      set here, so the next fragment of its chain is not held back; a send
      that gave up sets no event, and the next fragment of its chain waits
      for ever. A finish event is set and carries the sent message, or
      nothing after a failure or a give-up. */
  function Completed(x: Item<Fragment>, outcome: SendOutcome, setEvents: set<nat>,
                     finishMessages: map<nat, Option<nat>>): (r: (set<nat>, map<nat, Option<nat>>))
    ensures x.item.current in r.0 <==> x.item.current in setEvents || !outcome.GaveUp? || x.item.finish == Some(x.item.current)
    ensures x.item.finish.Some? ==>
      x.item.finish.value in r.0 && r.1 == finishMessages[x.item.finish.value := if outcome.Sent? then Some(outcome.message) else None]
    ensures x.item.finish.None? ==> r.1 == finishMessages
    ensures setEvents <= r.0
      && forall e :: e in r.0 && e !in setEvents ==> (e == x.item.current && !outcome.GaveUp?) || Some(e) == x.item.finish
  {
    var set1 := if outcome.GaveUp? then setEvents else setEvents + {x.item.current};
    if x.item.finish.Some? then
      (set1 + {x.item.finish.value}, finishMessages[x.item.finish.value := if outcome.Sent? then Some(outcome.message) else None])
    else (set1, finishMessages)
  }

  /** Completion frees one place of the entry's priority. */
  lemma CountersCompleted(info: map<int, Counters>, queue: seq<Item<Fragment>>, tasks: seq<Item<Fragment>>, k: nat)
    requires CountersAgree(info, queue, tasks) && k < |tasks|
    ensures tasks[k].priority in info
    ensures var p := tasks[k].priority;
      CountersAgree(info[p := Counters(info[p].pending, info[p].processing - 1)], queue, RemoveAt(tasks, k))
  {
    var x := tasks[k];
    var p := x.priority;
    var tasks' := RemoveAt(tasks, k);
    var c := Counters(info[p].pending, info[p].processing - 1);
    assert CountersOf(queue, tasks', 1) == if p == 1 then c else CountersOf(queue, tasks, 1) by {
      CountRemoveAt(tasks, k, 1);
    }
    assert CountersOf(queue, tasks', 2) == if p == 2 then c else CountersOf(queue, tasks, 2) by {
      CountRemoveAt(tasks, k, 2);
    }
    assert CountersOf(queue, tasks', 3) == if p == 3 then c else CountersOf(queue, tasks, 3) by {
      CountRemoveAt(tasks, k, 3);
    }
    TripleUpdate(CountersOf(queue, tasks, 1), CountersOf(queue, tasks, 2), CountersOf(queue, tasks, 3), p, c);
    assert forall j :: 0 <= j < |tasks'| ==> tasks'[j] == tasks[if j < k then j else j + 1];
  }

  class Handler {
    var messageId: int
    /** `message_limiters`: the limiter of every chat written to so far. */
    var limiters: map<int, LimiterSpec>
    /** `message_event_chains`: per key, the event the next send waits for. */
    var chains: map<ChainKey, nat>
    /** `messages_info`: pending and processing counts per priority. */
    var info: map<int, Counters>
    var queue: seq<Item<Fragment>>
    /** The entries whose sending tasks are running. */
    var tasks: seq<Item<Fragment>>
    /** Whether a `message_queue.get()` task is outstanding. */
    var getIssued: bool
    /** The number of events created so far; event `e` is the `e`-th. */
    var createdEvents: nat
    var setEvents: set<nat>
    /** `finish_event.message` of each finish event that was set. */
    var finishMessages: map<nat, Option<nat>>

    /** The counters count the queued and the running entries. */
    ghost predicate Valid()
      reads this`info, this`queue, this`tasks
    {
      CountersAgree(info, queue, tasks)
    }

    /** The part of the handler's state that queueing changes. */
    function Snapshot(): QueueState
      reads this`queue, this`messageId, this`chains, this`info, this`createdEvents
    {
      QueueState(queue, messageId, chains, info, createdEvents)
    }

    /** The part of the handler's state that taking entries changes. */
    function Sender(): Sending
      reads this`queue, this`tasks, this`info
    {
      Sending(queue, tasks, info)
    }

    constructor ()
      ensures Valid()
      ensures messageId == 1 && limiters == map[] && chains == map[] && queue == [] && tasks == []
      ensures info == map[1 := Counters(0, 0), 2 := Counters(0, 0), 3 := Counters(0, 0)]
      ensures !getIssued && createdEvents == 0 && setEvents == {} && finishMessages == map[]
    {
      messageId := 1;
      limiters := map[];
      chains := map[];
      queue := [];
      tasks := [];
      getIssued := false;
      createdEvents := 0;
      setEvents := {};
      finishMessages := map[];
      var m: map<int, Counters> := map[];
      for p := 1 to 4
        invariant forall q :: q in m <==> 1 <= q < p
        invariant forall q :: q in m ==> m[q] == Counters(0, 0)
      {
        m := m[p := Counters(0, 0)];
      }
      assert m.Keys == Priorities by {
        assert forall q :: q in m <==> q in Priorities;
      }
      info := m;
    }

    /** `get_message_texts`: the text split into parts of at most 4096
        characters under the title. */
    method GetMessageTexts(title: string, text: string) returns (split: SplitText.Outcome)
      ensures split == Texts(title, text)
    {
      split := SplitText.SplitTextByUnits(title, text, MaxPartLength, SplitText.DefaultUnits, "\n", true, SplitText.SeparatorAfterContent);
    }

    /** `send_message_sync`. The chat's limiter is looked up or created first,
        so it stays cached even when the call then fails. */
    method SendMessageSync(text: string, chat: Option<int>, defaultChat: int, userChat: bool, priority: int,
                           blocking: bool, title: string, ignoreErrors: bool) returns (r: Result<Option<nat>, SendError>)
      requires Valid()
      modifies this
      ensures Valid()
      ensures var c := TargetChat(chat, defaultChat);
        limiters == if c in old(limiters) then old(limiters) else old(limiters)[c := ChatLimiter(userChat)]
      ensures tasks == old(tasks) && getIssued == old(getIssued)
      ensures setEvents == old(setEvents) && finishMessages == old(finishMessages)
      ensures Enqueued(old(Snapshot()), Snapshot(), Texts(title, text), TargetChat(chat, defaultChat), priority,
                       blocking, ignoreErrors, r)
    {
      var c := TargetChat(chat, defaultChat);
      CacheLimiter(c, userChat);
      var split := GetMessageTexts(title, text);
      r := Enqueue(split, c, priority, blocking, ignoreErrors);
    }

    /** The rest of `send_message_sync` once the text is split: the unknown
        priority is met first (the split is pure, so computing it earlier
        changes nothing else), then a failed split, then the fragments are
        queued. */
    method Enqueue(split: SplitText.Outcome, chat: int, priority: int, blocking: bool, ignoreErrors: bool)
      returns (r: Result<Option<nat>, SendError>)
      requires Valid()
      modifies this`queue, this`chains, this`info, this`messageId, this`createdEvents
      ensures Valid()
      ensures Enqueued(old(Snapshot()), Snapshot(), split, chat, priority, blocking, ignoreErrors, r)
    {
      if priority !in info {
        return Err(UnknownPriority);
      }
      if split.Failed? {
        return Err(SplitError);
      } else if split.Diverges? {
        return Err(SplitNeverEnds);
      }
      var finish := QueueTexts(split.messages, chat, priority, blocking, ignoreErrors);
      if blocking {
        if |split.messages| == 0 {
          return Err(NoParts);
        }
        return Ok(finish);
      }
      return Ok(None);
    }

    /** The limiter lookup at the start of `send_message_sync`: a chat's
        limiter is created on its first message and kept afterwards. */
    method CacheLimiter(chat: int, userChat: bool)
      modifies this`limiters
      ensures chat in limiters
      ensures limiters == if chat in old(limiters) then old(limiters) else old(limiters)[chat := ChatLimiter(userChat)]
    {
      if chat !in limiters {
        limiters := limiters[chat := ChatLimiter(userChat)];
      }
    }

    /** The loop of `send_message_sync` over the fragments: each takes the next
        id and a fresh event, waits for the previous fragment's event (the
        first for the chain's last), and only a blocking send's last fragment
        gets a finish event, created after its own. */
    method QueueTexts(texts: seq<string>, chat: int, priority: int, blocking: bool, ignoreErrors: bool)
      returns (finish: Option<nat>)
      requires Valid() && priority in info
      modifies this`queue, this`chains, this`info, this`messageId, this`createdEvents
      ensures Valid()
      ensures Snapshot() == AfterQueue(old(Snapshot()), texts, chat, priority, blocking, ignoreErrors)
      ensures finish == (if blocking && |texts| > 0 then Some(old(createdEvents) + |texts|) else None)
    {
      ghost var s0 := Snapshot();
      var key := ChainKey(chat, priority);
      var previous := Awaiting(chains, key);
      finish := None;
      var i := 0;
      while i < |texts|
        invariant 0 <= i <= |texts|
        invariant Snapshot() == QueueFirst(s0, texts, i, chat, priority, blocking, ignoreErrors)
        invariant previous == Awaiting(chains, key)
        invariant finish.Some? <==> blocking && i == |texts| && i > 0
        invariant finish.Some? ==> finish.value + 1 == createdEvents
      {
        QueueFirstNext(s0, texts, i, chat, priority, blocking, ignoreErrors);
        var current;
        current, finish := QueueFragment(texts[i], chat, priority, blocking && i == |texts| - 1, ignoreErrors, previous);
        previous := Some(current);
        i := i + 1;
      }
      QueuedAgree(s0, texts, chat, priority, blocking, ignoreErrors, tasks);
    }

    /** One pass of the loop: a fresh event for the fragment, a finish event
        after it when `last`, and the entry queued. */
    method QueueFragment(text: string, chat: int, priority: int, last: bool, ignoreErrors: bool, previous: Option<nat>)
      returns (current: nat, finish: Option<nat>)
      requires priority in info && previous == Awaiting(chains, ChainKey(chat, priority))
      modifies this`queue, this`chains, this`info, this`messageId, this`createdEvents
      ensures Snapshot() == QueueOne(old(Snapshot()), text, chat, priority, last, ignoreErrors)
      ensures current == old(createdEvents) && chains == old(chains)[ChainKey(chat, priority) := current]
      ensures finish == if last then Some(current + 1) else None
    {
      current := createdEvents;
      createdEvents := createdEvents + 1;
      finish := None;
      if last {
        finish := Some(createdEvents);
        createdEvents := createdEvents + 1;
      }
      Put(Item(priority, messageId, Fragment(chat, text, [Broadcast, OfChat(chat)], previous, current, ignoreErrors, finish)));
    }

    /** Queueing one entry (`put_nowait` with the counter and id updates,
        lines 78-80): it is appended to the queue, becomes its chain's last
        send, counts as pending, and the id advances. */
    method Put(item: Item<Fragment>)
      requires item.priority in info
      modifies this`queue, this`chains, this`info, this`messageId
      ensures queue == old(queue) + [item] && messageId == old(messageId) + 1
      ensures chains == old(chains)[KeyOf(item) := item.item.current]
      ensures info == old(info)[item.priority := Counters(old(info)[item.priority].pending + 1, old(info)[item.priority].processing)]
    {
      queue := queue + [item];
      chains := chains[KeyOf(item) := item.item.current];
      info := info[item.priority := Counters(info[item.priority].pending + 1, info[item.priority].processing)];
      messageId := messageId + 1;
    }

    /** `could_get_next_item`: one pass over the priorities in order, noting
        the first with pending entries and the first with exactly `max` sends
        in progress. */
    method CouldGetNextItem(max: int) returns (b: bool)
      requires Priorities <= info.Keys
      ensures b == Admits(info, max)
    {
      var next: Option<int> := None;
      var nextProcessing := 0;
      var full: Option<int> := None;
      var p := 1;
      while p < 4
        invariant 1 <= p <= 4
        invariant next == FirstPending(info, p)
        invariant next.Some? ==> nextProcessing == info[next.value].processing
        invariant full == FirstFull(info, max, p)
      {
        if next.None? && info[p].pending > 0 {
          next := Some(p);
          nextProcessing := info[p].processing;
        }
        if full.None? && info[p].processing == max {
          full := Some(p);
        }
        if next.Some? && full.Some? {
          break;
        }
        p := p + 1;
      }
      if full.None? {
        return true;
      }
      if next.None? {
        return false;
      }
      if nextProcessing >= max {
        return false;
      }
      return true;
    }

    /** The top of the sender loop (lines 125-127): a `get` is issued when none
        is outstanding and `could_get_next_item` holds. */
    method IssueGet(max: int)
      requires Valid()
      modifies this`getIssued
      ensures getIssued == (old(getIssued) || Admits(info, max))
    {
      if !getIssued {
        var admits := CouldGetNextItem(max);
        if admits {
          getIssued := true;
        }
      }
    }

    /** Dispatching the entry at `k` (lines 143-148). */
    method DispatchEntry(k: nat)
      requires Valid() && k < |queue|
      modifies this`queue, this`tasks, this`info
      ensures Valid()
      ensures Sender() == DispatchAt(old(Sender()), k)
    {
      CountersDispatched(Sender(), k);
      var x := queue[k];
      queue := RemoveAt(queue, k);
      tasks := tasks + [x];
      info := info[x.priority := Counters(info[x.priority].pending - 1, info[x.priority].processing + 1)];
    }

    /** The outstanding `get` completes with the least entry (lines 135-152):
        it is dispatched, then entries are drained while the queue is not
        empty and `could_get_next_item` holds. */
    method ReceiveItems(max: int)
      requires Valid() && getIssued && |queue| > 0
      modifies this`queue, this`tasks, this`info, this`getIssued
      ensures Valid() && !getIssued
      ensures Sender() == Receive(old(Sender()), max)
    {
      getIssued := false;
      ghost var target := Receive(Sender(), max);
      var k := LeastIndex(queue);
      while true
        invariant Valid() && |queue| > 0 && k == Least(queue) && !getIssued
        invariant Receive(Sender(), max) == target
        decreases |queue|
      {
        DispatchEntry(k);
        assert Drain(Sender(), max) == target;
        if |queue| == 0 {
          break;
        }
        var admits := CouldGetNextItem(max);
        if !admits {
          break;
        }
        k := LeastIndex(queue);
        assert Receive(Sender(), max) == Drain(Sender(), max);
      }
    }

    /** A sending task finished with `outcome` (lines 153-167). */
    method CompleteSend(k: nat, outcome: SendOutcome)
      requires Valid() && k < |tasks|
      modifies this`tasks, this`info, this`setEvents, this`finishMessages
      ensures Valid()
      ensures var x := old(tasks)[k];
        && tasks == RemoveAt(old(tasks), k)
        && info == old(info)[x.priority := Counters(old(info)[x.priority].pending, old(info)[x.priority].processing - 1)]
        && (setEvents, finishMessages) == Completed(x, outcome, old(setEvents), old(finishMessages))
    {
      var x := tasks[k];
      CountersCompleted(info, queue, tasks, k);
      tasks := RemoveAt(tasks, k);
      if !outcome.GaveUp? {
        setEvents := setEvents + {x.item.current};
      }
      info := info[x.priority := Counters(info[x.priority].pending, info[x.priority].processing - 1)];
      if x.item.finish.Some? {
        finishMessages := finishMessages[x.item.finish.value := if outcome.Sent? then Some(outcome.message) else None];
        setEvents := setEvents + {x.item.finish.value};
      }
    }
  }
}

=== FILE: name_inflection.dfy ===
/** Inflected personal names (tgbot/wrappers/name_inflection.py). A name is
    wrapped into a single `NameWord` or a `NameString` of words and separators;
    `name @ k` gives the name in the k-th of six grammatical cases, and a
    word's forms come from the morphological analyser's parses of it. The
    analyser is outside the model: its answer for a word is the `analysis`
    value the word is created with. */
module NameInflection {
  import opened Common

  /** The six cases, in the order `@ 0` .. `@ 5` select them. */
  const Cases: seq<string> := ["nomn", "gent", "datv", "accs", "ablt", "loct"]

  /** tgbot/enums: `Gender.MALE` and `Gender.FEMALE`. */
  datatype Gender = Male | Female

  /** A grammatical tag as the analyser reports it; either part may be absent. */
  datatype Tag = Tag(grammaticalCase: Option<string>, gender: Option<string>)

  datatype Form = Form(word: string, tag: Tag)

  /** One parse of a word: its tag and its lexeme (all forms of the word). */
  datatype Parse = Parse(tag: Tag, lexeme: seq<Form>)

  datatype NameError =
    | InvalidQuery    // ValueError('Invalid query. Pass an integer from 0 to 5')
    | AttributeError  // `Gender.Female` does not exist

  // ---------------------------------------------------------------------------
  // Python string helpers

  /** `str.isspace` for one character. */
  predicate IsSpace(c: char)
  {
    c == ' ' || '\t' <= c <= '\r' || '\U{001C}' <= c <= '\U{001F}' || c == '\U{0085}' || c == '\U{00A0}'
    || c == '\U{1680}' || '\U{2000}' <= c <= '\U{200A}' || c == '\U{2028}' || c == '\U{2029}'
    || c == '\U{202F}' || c == '\U{205F}' || c == '\U{3000}'
  }

  /** Where `str.strip()` starts: after the leading whitespace. */
  function StripStart(s: string): (i: nat)
    ensures i <= |s| && (forall k :: 0 <= k < i ==> IsSpace(s[k])) && (i < |s| ==> !IsSpace(s[i]))
  {
    if s == [] || !IsSpace(s[0]) then 0 else StripStart(s[1..]) + 1
  }

  /** Where `str.strip()` ends: before the trailing whitespace. */
  function StripEnd(s: string): (j: nat)
    ensures j <= |s| && (forall k :: j <= k < |s| ==> IsSpace(s[k])) && (j > 0 ==> !IsSpace(s[j - 1]))
  {
    if s == [] || !IsSpace(s[|s| - 1]) then |s| else StripEnd(s[..|s| - 1])
  }

  /** `str.strip()`: the text between the leading and the trailing whitespace;
      empty when the text is all whitespace. */
  function Strip(s: string): (r: string)
    ensures r != [] ==> !IsSpace(r[0]) && !IsSpace(r[|r| - 1])
    ensures r == [] <==> forall k :: 0 <= k < |s| ==> IsSpace(s[k])
  {
    var i := StripStart(s);
    var j := StripEnd(s);
    if i < j then s[i..j] else []
  }

  /** `str.split()`: the maximal runs of non-whitespace characters. */
  function SplitWords(s: string): (r: seq<string>)
    ensures forall i :: 0 <= i < |r| ==> r[i] != [] && (forall k :: 0 <= k < |r[i]| ==> !IsSpace(r[i][k]))
    ensures s != [] && !IsSpace(s[|s| - 1]) ==> |r| > 0
    decreases |s|
  {
    if s == [] then []
    else
      var c := s[|s| - 1];
      var init := SplitWords(s[..|s| - 1]);
      if IsSpace(c) then init
      else if |s| >= 2 && !IsSpace(s[|s| - 2]) then init[..|init| - 1] + [init[|init| - 1] + [c]]
      else init + [[c]]
  }

  /** The characters of `s` that are not whitespace, in order. */
  function NonSpace(s: string): string
  {
    if s == [] then [] else NonSpace(s[..|s| - 1]) + (if IsSpace(s[|s| - 1]) then [] else [s[|s| - 1]])
  }

  function Concat(parts: seq<string>): string
  {
    if parts == [] then [] else Concat(parts[..|parts| - 1]) + parts[|parts| - 1]
  }

  /** The words of `split()` are exactly the non-whitespace characters of the
      input, in order: nothing is dropped, nothing added. */
  lemma {:induction false} SplitWordsKeepsText(s: string)
    ensures Concat(SplitWords(s)) == NonSpace(s)
    decreases |s|
  {
    if s != [] {
      var n := |s| - 1;
      var c := s[n];
      var init := SplitWords(s[..n]);
      SplitWordsKeepsText(s[..n]);
      if IsSpace(c) {
        assert SplitWords(s) == init;
        assert NonSpace(s) == NonSpace(s[..n]);
      } else if n >= 1 && !IsSpace(s[n - 1]) {
        assert SplitWords(s) == init[..|init| - 1] + [init[|init| - 1] + [c]];
        assert NonSpace(s) == NonSpace(s[..n]) + [c];
        ConcatExtendLast(init, c);
      } else {
        assert SplitWords(s) == init + [[c]];
        assert NonSpace(s) == NonSpace(s[..n]) + [c];
        ConcatSnoc(init, [c]);
      }
    }
  }

  lemma {:induction false} ConcatExtendLast(parts: seq<string>, c: char)
    requires parts != []
    ensures Concat(parts[..|parts| - 1] + [parts[|parts| - 1] + [c]]) == Concat(parts) + [c]
  {
    var k := |parts| - 1;
    ConcatSnoc(parts[..k], parts[k] + [c]);
    assert parts == parts[..k] + [parts[k]];
    ConcatSnoc(parts[..k], parts[k]);
  }

  lemma {:induction false} ConcatSnoc(parts: seq<string>, last: string)
    ensures Concat(parts + [last]) == Concat(parts) + last
  {
    assert (parts + [last])[..|parts|] == parts;
  }

  /** `str.capitalize()`: the first character upper-cased, the rest lower-cased. */
  function Capitalize(w: string): (r: string)
    ensures |r| == |w|
    ensures r != [] ==> r[0] == UpperChar(w[0]) && r[1..] == Lower(w[1..])
  {
    if w == [] then [] else [UpperChar(w[0])] + Lower(w[1..])
  }

  // ---------------------------------------------------------------------------
  // What `NameWord.parse` computes

  /** The index of the first parse in the nominative case, if any. */
  function FirstNominative(results: seq<Parse>): (r: Option<nat>)
    ensures r.Some? ==> r.value < |results| && results[r.value].tag.grammaticalCase == Some(Cases[0])
                        && forall j :: 0 <= j < r.value ==> results[j].tag.grammaticalCase != Some(Cases[0])
    ensures r.None? ==> forall j :: 0 <= j < |results| ==> results[j].tag.grammaticalCase != Some(Cases[0])
  {
    if results == [] then None
    else if results[0].tag.grammaticalCase == Some(Cases[0]) then Some(0)
    else match FirstNominative(results[1..]) {
      case None => None
      case Some(i) => Some(i + 1)
    }
  }

  /** The lexemes of all parses, one after another. */
  function AllLexemes(results: seq<Parse>): seq<Form>
  {
    if results == [] then [] else AllLexemes(results[..|results| - 1]) + results[|results| - 1].lexeme
  }

  /** Whether `form` is the next form the scan is waiting for: the parse's
      gender and the case after the `found` forms already collected. */
  predicate Wanted(form: Form, gender: Option<string>, found: nat)
  {
    found < 6 && form.tag.gender == gender && form.tag.grammaticalCase == Some(Cases[found])
  }

  /** The positions in `lexemes[..n]` the scan picks: it walks the forms once,
      taking a form when it has the parse's gender and the next wanted case,
      and stops after six. */
  function Picked(lexemes: seq<Form>, gender: Option<string>, n: nat): (p: seq<nat>)
    requires n <= |lexemes|
    ensures |p| <= 6
    ensures forall i :: 0 <= i < |p| ==> p[i] < n && Wanted(lexemes[p[i]], gender, i)
    ensures forall i, j :: 0 <= i < j < |p| ==> p[i] < p[j]
  {
    if n == 0 then []
    else
      var p := Picked(lexemes, gender, n - 1);
      if Wanted(lexemes[n - 1], gender, |p|) then p + [n - 1] else p
  }

  /** Once six forms were picked, later forms change nothing: this is why the
      scan may stop there. */
  lemma {:induction false} PickedSaturates(lexemes: seq<Form>, gender: Option<string>, n: nat, m: nat)
    requires n <= m <= |lexemes|
    requires |Picked(lexemes, gender, n)| == 6
    ensures Picked(lexemes, gender, m) == Picked(lexemes, gender, n)
    decreases m
  {
    if m > n {
      PickedSaturates(lexemes, gender, n, m - 1);
    }
  }

  /** Six copies of the word itself: the fallback forms. */
  function Fallback(text: string): (f: seq<string>)
    ensures |f| == 6 && forall i :: 0 <= i < 6 ==> f[i] == text
  {
    [text, text, text, text, text, text]
  }

  /** The six forms a word ends up with: the capitalised picked forms when a
      nominative parse exists and all six cases were found, the fallback
      otherwise. */
  function Forms(text: string, results: seq<Parse>): (f: seq<string>)
    ensures |f| == 6
  {
    match FirstNominative(results) {
      case None => Fallback(text)
      case Some(p) =>
        var lexemes := AllLexemes(results);
        var picked := Picked(lexemes, results[p].tag.gender, |lexemes|);
        if |picked| == 6 then seq(6, i requires 0 <= i < 6 => Capitalize(lexemes[picked[i]].word))
        else Fallback(text)
    }
  }

  /** The gender `parse` stores: masculine when the nominative parse says
      `masc`, feminine for any other gender; none without a nominative parse. */
  function ParsedGender(results: seq<Parse>): (g: Option<Gender>)
    ensures g.None? <==> FirstNominative(results).None?
  {
    match FirstNominative(results) {
      case None => None
      case Some(p) => Some(if results[p].tag.gender == Some("masc") then Male else Female)
    }
  }

  /** Every form is either the word itself (the fallback) or the capitalised
      lexeme form for that case, in the nominative parse's gender, taken from
      strictly later positions of the lexemes case after case. */
  lemma {:induction false} FormsMeaning(text: string, results: seq<Parse>)
    ensures FirstNominative(results).None? ==> Forms(text, results) == Fallback(text)
    ensures FirstNominative(results).Some? ==>
              var lexemes := AllLexemes(results);
              var g := results[FirstNominative(results).value].tag.gender;
              var picked := Picked(lexemes, g, |lexemes|);
              (|picked| == 6 ==>
                 forall i :: 0 <= i < 6 ==>
                   picked[i] < |lexemes| && lexemes[picked[i]].tag.grammaticalCase == Some(Cases[i])
                   && lexemes[picked[i]].tag.gender == g
                   && Forms(text, results)[i] == Capitalize(lexemes[picked[i]].word))
              && (|picked| < 6 ==> Forms(text, results) == Fallback(text))
  {
  }

  /** The analyser's answer as the source handles it (line 84 names
      `Gender.Female`, which the enum does not have): any nominative parse
      whose gender is not `masc` raises AttributeError before the forms are
      stored. */
  function ParseAsWritten(text: string, results: seq<Parse>): (r: Result<(seq<string>, Option<Gender>), NameError>)
    ensures r.Err? <==> FirstNominative(results).Some? && results[FirstNominative(results).value].tag.gender != Some("masc")
  {
    match FirstNominative(results) {
      case None => Ok((Fallback(text), None))
      case Some(p) =>
        if results[p].tag.gender != Some("masc") then Err(AttributeError)
        else Ok((Forms(text, results), Some(Male)))
    }
  }

  /** A one-parse analysis of a feminine name: nominative, gender `femn`, with
      all six feminine case forms in its lexeme. */
  function FeminineAnalysis(): seq<Parse>
  {
    var femn := Some("femn");
    [Parse(Tag(Some("nomn"), femn),
           [Form("анна", Tag(Some("nomn"), femn)), Form("анны", Tag(Some("gent"), femn)),
            Form("анне", Tag(Some("datv"), femn)), Form("анну", Tag(Some("accs"), femn)),
            Form("анной", Tag(Some("ablt"), femn)), Form("анне", Tag(Some("loct"), femn))])]
  }

  /** As written, inflecting a feminine name fails: `Анна @ 1` raises instead of
      giving the genitive. */
  lemma {:induction false} FeminineParseFails()
    ensures ParseAsWritten("Анна", FeminineAnalysis()) == Err(AttributeError)
  {
    assert FirstNominative(FeminineAnalysis()) == Some(0);
  }

  /** With `Gender.FEMALE`, the same name gets the feminine gender and its six
      forms, the genitive being "Анны". */
  lemma {:induction false} FeminineParseSucceeds()
    ensures ParsedGender(FeminineAnalysis()) == Some(Female)
    ensures Forms("Анна", FeminineAnalysis())[1] == "Анны"
  {
    FeminineLexemes();
    FeminineGenitive(FeminineAnalysis());
  }

  lemma {:induction false} FeminineGenitive(a: seq<Parse>)
    requires FirstNominative(a) == Some(0) && a[0].tag.gender == Some("femn")
    requires AllLexemes(a) == FeminineAnalysis()[0].lexeme
    ensures Forms("Анна", a)[1] == "Анны"
  {
    var lexemes := AllLexemes(a);
    FeminineLexemesPicked(lexemes, Some("femn"));
    assert Forms("Анна", a)[1] == Capitalize(lexemes[1].word);
    GenitiveCapitalized();
  }

  /** The feminine analysis: its only parse is nominative and its lexemes are
      that parse's. */
  lemma {:induction false} FeminineLexemes()
    ensures FirstNominative(FeminineAnalysis()) == Some(0)
    ensures AllLexemes(FeminineAnalysis()) == FeminineAnalysis()[0].lexeme
    ensures FeminineAnalysis()[0].tag.gender == Some("femn")
  {
    var a := FeminineAnalysis();
    assert a[..0] == [];
  }

  lemma {:induction false} GenitiveCapitalized()
    ensures Capitalize("анны") == "Анны"
  {
    assert Lower("нны") == "нны";
  }

  lemma {:induction false} FeminineLexemesPicked(lexemes: seq<Form>, g: Option<string>)
    requires lexemes == FeminineAnalysis()[0].lexeme && g == Some("femn")
    ensures Picked(lexemes, g, 6) == [0, 1, 2, 3, 4, 5]
  {
    assert Picked(lexemes, g, 1) == [0];
    assert Picked(lexemes, g, 2) == [0, 1];
    assert Picked(lexemes, g, 3) == [0, 1, 2];
    assert Picked(lexemes, g, 4) == [0, 1, 2, 3];
    assert Picked(lexemes, g, 5) == [0, 1, 2, 3, 4];
  }

  /** The forms of a word with a nominative parse, from the capitalised
      picked forms. */
  lemma {:induction false} FormsFromPicked(text: string, results: seq<Parse>, found: seq<string>)
    requires FirstNominative(results).Some?
    requires var lexemes := AllLexemes(results);
             var picked := Picked(lexemes, results[FirstNominative(results).value].tag.gender, |lexemes|);
             |found| == |picked| && forall k :: 0 <= k < |found| ==> found[k] == Capitalize(lexemes[picked[k]].word)
    ensures Forms(text, results) == if |found| == 6 then found else Fallback(text)
  {
  }

  /** The scan of `parse` over the lexemes: the capitalised forms it picks, in
      case order. */
  method CollectForms(lexemes: seq<Form>, g: Option<string>) returns (found: seq<string>)
    ensures FoundForms(lexemes, g, |lexemes|, found)
  {
    found := [];
    var i := 0;
    // the source breaks out of the scan once six forms are found
    while i < |lexemes| && |found| < 6
      invariant 0 <= i <= |lexemes|
      invariant FoundForms(lexemes, g, i, found)
    {
      var form := lexemes[i];
      CollectStep(lexemes, g, i, found);
      // the form has the parse's gender and the next wanted case
      if Wanted(form, g, |found|) {
        found := found + [Capitalize(form.word)];
      }
      i := i + 1;
    }
    if |found| == 6 {
      PickedSaturates(lexemes, g, i, |lexemes|);
    }
  }

  /** `found` holds the capitalised forms picked from the first `n` lexemes. */
  ghost predicate FoundForms(lexemes: seq<Form>, g: Option<string>, n: nat, found: seq<string>)
    requires n <= |lexemes|
  {
    var picked := Picked(lexemes, g, n);
    |found| == |picked| && forall k :: 0 <= k < |found| ==> found[k] == Capitalize(lexemes[picked[k]].word)
  }

  /** One lexeme of the scan: a wanted form is appended, any other skipped. */
  lemma {:induction false} CollectStep(lexemes: seq<Form>, g: Option<string>, i: nat, found: seq<string>)
    requires i < |lexemes| && FoundForms(lexemes, g, i, found)
    ensures Wanted(lexemes[i], g, |found|) ==> FoundForms(lexemes, g, i + 1, found + [Capitalize(lexemes[i].word)])
    ensures !Wanted(lexemes[i], g, |found|) ==> FoundForms(lexemes, g, i + 1, found)
  {
    var picked := Picked(lexemes, g, i);
    assert Picked(lexemes, g, i + 1) == if Wanted(lexemes[i], g, |picked|) then picked + [i] else picked;
  }

  // ---------------------------------------------------------------------------
  // NameWord

  /** One form per case. */
  type SixForms = f: seq<string> | |f| == 6 witness ["", "", "", "", "", ""]

  class NameWord {
    /** The word's own text (the `str` value). */
    const text: string
    /** The analyser's parses of `text`. */
    const analysis: seq<Parse>
    /** `_cache`: the six forms once parsed. */
    var cache: Option<seq<string>>
    /** `_gender`: set by a parse that found a nominative reading. */
    var gender: Option<Gender>
    /** What parsing this word yields: its six forms and its gender. */
    ghost const forms: SixForms
    ghost const parsedGender: Option<Gender>

    ghost predicate Valid()
      reads this
    {
      && forms == Forms(text, analysis)
      && parsedGender == ParsedGender(analysis)
      && (cache.Some? ==> cache.value == forms)
      && (gender.Some? ==> gender == parsedGender)
    }

    constructor (text: string, analysis: seq<Parse>)
      ensures Valid()
      ensures this.text == text && this.analysis == analysis && cache == None && gender == None
    {
      this.text := text;
      this.analysis := analysis;
      forms := Forms(text, analysis);
      parsedGender := ParsedGender(analysis);
      cache := None;
      gender := None;
    }

    /** `parse` with the feminine branch corrected: stores the forms, and the
        gender when a nominative parse exists. */
    method Parse()
      requires Valid()
      modifies this
      ensures Valid()
      ensures cache == Some(Forms(text, analysis))
      ensures gender == if ParsedGender(analysis).Some? then ParsedGender(analysis) else old(gender)
    {
      var p := FirstNominative(analysis);
      var forms: seq<string>;
      if p.None? {
        forms := Fallback(text);
      } else {
        var g := analysis[p.value].tag.gender;
        gender := Some(if g == Some("masc") then Male else Female);
        var lexemes := AllLexemes(analysis);
        var found := CollectForms(lexemes, g);
        forms := if |found| == 6 then found else Fallback(text);
        FormsFromPicked(text, analysis, found);
      }
      cache := Some(forms);
    }

    /** `word @ k`: the k-th form, parsing on first use; a k outside 0..5
        raises ValueError and changes nothing. */
    method At(k: int) returns (r: Result<string, NameError>)
      requires Valid()
      modifies this
      ensures Valid()
      ensures 0 <= k <= 5 ==> r == Ok(forms[k])
      ensures !(0 <= k <= 5) ==> r == Err(InvalidQuery) && cache == old(cache) && gender == old(gender)
    {
      if !(0 <= k <= 5) {
        return Err(InvalidQuery);
      }
      if cache.None? {
        Parse();
      }
      r := Ok(cache.value[k]);
    }

    /** The `gender` property: parses when no gender is stored yet. */
    method GetGender() returns (g: Option<Gender>)
      requires Valid()
      modifies this
      ensures Valid()
      ensures g == parsedGender
    {
      if gender.None? {
        Parse();
      }
      g := gender;
    }
  }

  // ---------------------------------------------------------------------------
  // NameString

  /** A component of a `NameString`: a word or a plain separator string. */
  datatype Part = Word(w: NameWord) | Text(s: string)

  /** An argument of the `NameString` constructor: a component, or a whole
      `NameString` given by its components. */
  datatype Component = Single(p: Part) | Nested(parts: seq<Part>)

  function PartText(p: Part): string
  {
    match p
    case Word(w) => w.text
    case Text(s) => s
  }

  /** The `str` value of a `NameString`: its components concatenated. */
  function Value(parts: seq<Part>): string
  {
    if parts == [] then [] else Value(parts[..|parts| - 1]) + PartText(parts[|parts| - 1])
  }

  lemma {:induction false} ValueAppend(a: seq<Part>, b: seq<Part>)
    ensures Value(a + b) == Value(a) + Value(b)
    decreases |b|
  {
    if b == [] {
      assert a + b == a;
    } else {
      assert (a + b)[..|a + b| - 1] == a + b[..|b| - 1];
      ValueAppend(a, b[..|b| - 1]);
    }
  }

  /** The constructor's flattening: a nested `NameString` contributes its
      components, anything else is kept as it is. */
  function Flatten(components: seq<Component>): seq<Part>
  {
    if components == [] then []
    else
      var last := match components[|components| - 1] {
        case Single(p) => [p]
        case Nested(parts) => parts
      };
      Flatten(components[..|components| - 1]) + last
  }

  function ComponentText(c: Component): string
  {
    match c
    case Single(p) => PartText(p)
    case Nested(parts) => Value(parts)
  }

  /** Flattening keeps the text: the new `NameString` reads as its arguments
      concatenated, whether they were nested or not. */
  lemma {:induction false} FlattenKeepsValue(components: seq<Component>)
    ensures Value(Flatten(components)) == Concat(seq(|components|, i requires 0 <= i < |components| => ComponentText(components[i])))
    decreases |components|
  {
    if components != [] {
      var n := |components| - 1;
      var texts := seq(|components|, i requires 0 <= i < |components| => ComponentText(components[i]));
      var initTexts := seq(n, i requires 0 <= i < n => ComponentText(components[..n][i]));
      assert texts[..n] == initTexts;
      FlattenKeepsValue(components[..n]);
      var last := match components[n] { case Single(p) => [p] case Nested(parts) => parts };
      ValueAppend(Flatten(components[..n]), last);
      if components[n].Single? {
        assert Value(last) == Value([] + last);
      }
    }
  }

  /** The text of `name_string @ k` for a valid k: words replaced by their k-th
      form, separators unchanged. */
  ghost function Inflected(parts: seq<Part>, k: nat): string
    requires k < 6
  {
    if parts == [] then [] else Inflected(parts[..|parts| - 1], k) + PartForm(parts[|parts| - 1], k)
  }

  /** A word's k-th form, or a separator as it is. */
  ghost function PartForm(p: Part, k: nat): string
    requires k < 6
  {
    match p
    case Word(w) => w.forms[k]
    case Text(s) => s
  }

  /** What `InflectString` has joined after `i` components: the inflected
      text for a valid k, otherwise the plain text of components that are all
      separators. */
  ghost predicate JoinedSoFar(parts: seq<Part>, k: int, i: nat, elements: string)
    requires i <= |parts|
  {
    && (0 <= k <= 5 ==> elements == Inflected(parts[..i], k))
    && (!(0 <= k <= 5) ==> elements == Value(parts[..i]) && forall j :: 0 <= j < i ==> parts[j].Text?)
  }

  lemma {:induction false} JoinStep(parts: seq<Part>, k: int, i: nat, elements: string, piece: string)
    requires i < |parts| && JoinedSoFar(parts, k, i, elements)
    requires 0 <= k <= 5 ==> piece == PartForm(parts[i], k)
    requires !(0 <= k <= 5) ==> parts[i].Text? && piece == parts[i].s
    ensures JoinedSoFar(parts, k, i + 1, elements + piece)
  {
    assert parts[..i + 1][..i] == parts[..i];
  }

  function Words(parts: seq<Part>): set<NameWord>
  {
    set i | 0 <= i < |parts| && parts[i].Word? :: parts[i].w
  }

  predicate HasWord(parts: seq<Part>)
  {
    exists i :: 0 <= i < |parts| && parts[i].Word?
  }

  /** `name_string @ k`: each word is asked for its k-th form in turn, so an
      invalid k raises at the first word; with no word at all the separators
      are joined whatever k is. */
  method InflectString(parts: seq<Part>, k: int) returns (r: Result<string, NameError>)
    requires forall w :: w in Words(parts) ==> w.Valid()
    modifies Words(parts)
    ensures forall w :: w in Words(parts) ==> w.Valid()
    ensures 0 <= k <= 5 ==> r == Ok(Inflected(parts, k))
    ensures !(0 <= k <= 5) && HasWord(parts) ==> r == Err(InvalidQuery)
    ensures !(0 <= k <= 5) && !HasWord(parts) ==> r == Ok(Value(parts))
  {
    var elements := "";
    var i := 0;
    while i < |parts|
      invariant 0 <= i <= |parts|
      invariant forall w :: w in Words(parts) ==> w.Valid()
      invariant JoinedSoFar(parts, k, i, elements)
    {
      match parts[i] {
        case Word(w) =>
          assert w in Words(parts);
          var f := w.At(k);
          if f.Err? {
            assert HasWord(parts);
            return Err(InvalidQuery);
          }
          JoinStep(parts, k, i, elements, f.value);
          elements := elements + f.value;
        case Text(s) =>
          JoinStep(parts, k, i, elements, s);
          elements := elements + s;
      }
      i := i + 1;
    }
    assert parts[..i] == parts;
    assert !(0 <= k <= 5) ==> !HasWord(parts);
    r := Ok(elements);
  }

  /** The gender of a `NameString`: that of its first word; none without words. */
  ghost function FirstWordGender(parts: seq<Part>): Option<Gender>
  {
    if parts == [] then None
    else if parts[0].Word? then parts[0].w.parsedGender
    else FirstWordGender(parts[1..])
  }

  method StringGender(parts: seq<Part>) returns (g: Option<Gender>)
    requires forall w :: w in Words(parts) ==> w.Valid()
    modifies Words(parts)
    ensures forall w :: w in Words(parts) ==> w.Valid()
    ensures g == FirstWordGender(parts)
  {
    var i := 0;
    while i < |parts|
      invariant 0 <= i <= |parts|
      invariant forall w :: w in Words(parts) ==> w.Valid()
      invariant forall j :: 0 <= j < i ==> parts[j].Text?
      invariant FirstWordGender(parts) == FirstWordGender(parts[i..])
    {
      if parts[i].Word? {
        assert parts[i].w in Words(parts);
        g := parts[i].w.GetGender();
        return;
      }
      assert parts[i..][1..] == parts[i + 1..];
      i := i + 1;
    }
    g := None;
  }

  // ---------------------------------------------------------------------------
  // wrap_name_string

  /** Words with a single `' '` component between each two. */
  function Interleave(words: seq<string>): (r: seq<string>)
    requires |words| >= 1
    ensures |r| == 2 * |words| - 1
    ensures forall i :: 0 <= i < |words| ==> r[2 * i] == words[i]
    ensures forall i :: 0 <= i < |words| - 1 ==> r[2 * i + 1] == " "
  {
    if |words| == 1 then [words[0]]
    else Interleave(words[..|words| - 1]) + [" ", words[|words| - 1]]
  }

  /** The interleaved components read as the words joined by single spaces. */
  lemma {:induction false} InterleaveValue(words: seq<string>)
    requires |words| >= 1
    ensures Concat(Interleave(words)) == Join(words, " ")
    decreases |words|
  {
    if |words| > 1 {
      var init := words[..|words| - 1];
      InterleaveValue(init);
      ConcatSnoc(Interleave(init), " ");
      assert Interleave(words) == (Interleave(init) + [" "]) + [words[|words| - 1]];
      ConcatSnoc(Interleave(init) + [" "], words[|words| - 1]);
    }
  }

  /** The component texts `wrap_name_string` produces: the stripped text as
      one word when it holds no space character, otherwise its `split()`
      words with a single space between each two. */
  function WrapLayout(s: string): (layout: seq<string>)
  {
    var t := Strip(s);
    if ' ' !in t then [t]
    else
      TwoWords(t);
      Interleave(SplitWords(t))
  }

  /** Without a space character the stripped text is one word, even when it
      holds other whitespace; with one there are at least two words, 2n-1
      components, and the name reads as the words joined by single spaces. */
  lemma {:induction false} WrapLayoutShape(s: string)
    ensures ' ' !in Strip(s) ==> WrapLayout(s) == [Strip(s)]
    ensures ' ' in Strip(s) ==>
              var words := SplitWords(Strip(s));
              |words| >= 2 && |WrapLayout(s)| == 2 * |words| - 1
              && Concat(WrapLayout(s)) == Join(words, " ")
  {
    var t := Strip(s);
    if ' ' in t {
      TwoWords(t);
      InterleaveValue(SplitWords(t));
    }
  }

  /** A stripped text with a space inside has at least two words. */
  lemma {:induction false} TwoWords(t: string)
    requires t != [] && !IsSpace(t[0]) && !IsSpace(t[|t| - 1])
    requires ' ' in t
    ensures |SplitWords(t)| >= 2
  {
    var j :| 0 <= j < |t| && t[j] == ' ';
    SplitCountBound(t, j);
  }

  /** Some word ends before a whitespace position, and another starts after it. */
  lemma {:induction false} SplitCountBound(t: string, j: nat)
    requires j < |t| && IsSpace(t[j]) && !IsSpace(t[0]) && !IsSpace(t[|t| - 1])
    ensures |SplitWords(t)| >= 2
    decreases |t|
  {
    var n := |t| - 1;
    var init := t[..n];
    if !IsSpace(t[n - 1]) {
      // the last word continues; the shorter prefix still has the space inside
      assert init[j] == t[j] && init[0] == t[0];
      SplitCountBound(init, j);
    } else {
      SplitNonEmpty(init);
    }
  }

  /** A text that starts with a non-space character has at least one word. */
  lemma {:induction false} SplitNonEmpty(t: string)
    requires t != [] && !IsSpace(t[0])
    ensures |SplitWords(t)| >= 1
    decreases |t|
  {
    if IsSpace(t[|t| - 1]) {
      assert t[..|t| - 1][0] == t[0];
      SplitNonEmpty(t[..|t| - 1]);
    }
  }

  /** The result of `wrap_name_string`. */
  datatype Wrapped = SingleWord(word: NameWord) | Compound(parts: seq<Part>)

  /** `wrap_name_string`: the analyser is a parameter giving each word's parses. */
  /** The parts built from the first `i` words: each a fresh word with its own
      text and analysis, separated by single spaces. */
  ghost predicate Interleaved(words: seq<string>, analyse: string -> seq<Parse>, i: nat, parts: seq<Part>)
    requires i <= |words|
  {
    && |parts| == (if i == 0 then 0 else 2 * i - 1)
    && (forall j :: 0 <= j < i - 1 ==> parts[2 * j + 1] == Text(" "))
    && (forall j :: 0 <= j < i ==>
          && parts[2 * j].Word?
          && parts[2 * j].w.text == words[j] && parts[2 * j].w.analysis == analyse(words[j]))
  }

  lemma {:induction false} InterleavedStep(words: seq<string>, analyse: string -> seq<Parse>, i: nat, parts: seq<Part>, w: NameWord)
    requires i < |words| && Interleaved(words, analyse, i, parts)
    requires w.text == words[i] && w.analysis == analyse(words[i])
    ensures var more := if i > 0 then [Text(" "), Word(w)] else [Word(w)];
            && Interleaved(words, analyse, i + 1, parts + more)
            && (parts + more)[2 * i] == Word(w)
            && (forall j :: 0 <= j < i ==> (parts + more)[2 * j] == parts[2 * j])
  {
  }

  method WrapNameString(s: string, analyse: string -> seq<Parse>) returns (r: Wrapped)
    ensures r.SingleWord? <==> ' ' !in Strip(s)
    ensures r.SingleWord? ==> fresh(r.word) && r.word.Valid() && r.word.text == Strip(s)
                              && r.word.analysis == analyse(Strip(s))
    ensures r.Compound? ==>
              var words := SplitWords(Strip(s));
              && |r.parts| == 2 * |words| - 1
              && (forall i :: 0 <= i < |words| - 1 ==> r.parts[2 * i + 1] == Text(" "))
              && (forall i :: 0 <= i < |words| ==>
                    && r.parts[2 * i].Word? && fresh(r.parts[2 * i].w) && r.parts[2 * i].w.Valid()
                    && r.parts[2 * i].w.text == words[i] && r.parts[2 * i].w.analysis == analyse(words[i]))
  {
    var t := Strip(s);
    if ' ' !in t {
      var w := new NameWord(t, analyse(t));
      return SingleWord(w);
    }
    var words := SplitWords(t);
    TwoWords(t);
    var parts: seq<Part> := [];
    var i := 0;
    while i < |words|
      invariant 0 <= i <= |words|
      invariant Interleaved(words, analyse, i, parts)
      invariant forall j :: 0 <= j < i ==> fresh(parts[2 * j].w) && parts[2 * j].w.Valid()
    {
      var w := new NameWord(words[i], analyse(words[i]));
      var more := if i > 0 then [Text(" "), Word(w)] else [Word(w)];
      InterleavedStep(words, analyse, i, parts, w);
      parts := parts + more;
      i := i + 1;
    }
    return Compound(parts);
  }
}

=== FILE: prioritized_item.dfy ===
/** Queue entries of the outbound message pipeline (tgbot/prioritized_item.py).
    The dataclass is declared with `order=True`, so entries compare as the tuple
    `(priority, id)`; the payload field is declared `compare=False` and takes no
    part in ordering or equality. `asyncio.PriorityQueue.get` hands out the
    least entry first. */
module PrioritizedItem {

  datatype Item<T> = Item(priority: int, id: int, item: T)

  /** The dataclass `__lt__`: lexicographic on (priority, id). */
  predicate Less<T>(a: Item<T>, b: Item<T>)
  {
    a.priority < b.priority || (a.priority == b.priority && a.id < b.id)
  }

  /** The dataclass `__eq__`: the payload is not compared. */
  predicate Same<T>(a: Item<T>, b: Item<T>)
  {
    a.priority == b.priority && a.id == b.id
  }

  /** `Less` is a strict total order on the (priority, id) key: exactly one of
      a < b, a == b, b < a holds, and it is transitive. */
  lemma {:induction false} StrictTotalOrder<T>(a: Item<T>, b: Item<T>, c: Item<T>)
    ensures !Less(a, a)
    ensures (Less(a, b) && !Same(a, b) && !Less(b, a))
         || (!Less(a, b) && Same(a, b) && !Less(b, a))
         || (!Less(a, b) && !Same(a, b) && Less(b, a))
    ensures Less(a, b) && Less(b, c) ==> Less(a, c)
  {
  }

  /** Replacing the payload changes neither ordering nor equality. */
  lemma {:induction false} PayloadIgnored<T>(a: Item<T>, b: Item<T>, x: T, y: T)
    ensures Less(a.(item := x), b.(item := y)) == Less(a, b)
    ensures Same(a.(item := x), b.(item := y)) == Same(a, b)
  {
  }

  /** A lower priority number is served first, whatever the ids. */
  lemma {:induction false} LowerPriorityFirst<T>(a: Item<T>, b: Item<T>)
    requires a.priority < b.priority
    ensures Less(a, b) && !Less(b, a)
  {
  }

  /** Entries of one priority queued with increasing ids come out in the order
      they were queued (FIFO within a priority). */
  lemma {:induction false} FifoWithinPriority<T>(q: seq<Item<T>>)
    requires forall i :: 0 <= i < |q| ==> q[i].priority == q[0].priority
    requires forall i, j :: 0 <= i < j < |q| ==> q[i].id < q[j].id
    ensures forall i, j :: 0 <= i < j < |q| ==> Less(q[i], q[j])
  {
  }

  /** The position of the entry `PriorityQueue.get` returns: the first entry
      no other entry is less than. With distinct keys it is the unique least
      one. */
  function Least<T>(q: seq<Item<T>>): (k: nat)
    requires |q| > 0
    ensures k < |q|
    ensures forall j :: 0 <= j < |q| ==> !Less(q[j], q[k])
    ensures forall j :: 0 <= j < |q| && !Same(q[j], q[k]) ==> Less(q[k], q[j])
  {
    if |q| == 1 then 0
    else
      var k := Least(q[..|q| - 1]);
      if Less(q[|q| - 1], q[k]) then |q| - 1 else k
  }

  /** The scan that finds the least entry, front to back. */
  method LeastIndex<T>(q: seq<Item<T>>) returns (k: nat)
    requires |q| > 0
    ensures k == Least(q)
  {
    k := 0;
    var i := 1;
    while i < |q|
      invariant 1 <= i <= |q|
      invariant k == Least(q[..i])
    {
      assert q[..i + 1][..i] == q[..i];
      if Less(q[i], q[k]) {
        k := i;
      }
      i := i + 1;
    }
    assert q[..i] == q;
  }

  /** The queue without the entry at `k`. */
  function RemoveAt<T>(q: seq<Item<T>>, k: nat): (r: seq<Item<T>>)
    requires k < |q|
    ensures |r| == |q| - 1
    ensures multiset(r) + multiset{q[k]} == multiset(q)
  {
    assert q == q[..k] + [q[k]] + q[k + 1..];
    q[..k] + q[k + 1..]
  }
}

=== FILE: registry.dfy ===
/** The CRC-keyed class registries: `RegistryMeta.__new__` for windows and
    buttons (tgbot/gui/__init__.py, big-endian keys) and `store_class_crc32` of
    the two older keyboard modules (little-endian keys). A class is known by its
    name; the registry maps a 4-byte key to the name registered under it. */
module Registry {
  import opened Common
  import opened Crc32

  datatype RegistryError =
    | AlreadyRegistered(name: string)          // ValueError: 'Class ... already registered'
    | CrcMatched(other: string, name: string)  // ValueError: 'CRC32 for classes ... matched!'

  /** The key a registry uses for a class name. */
  function KeyOf(bigEndian: bool, name: string): (k: Bytes)
    ensures |k| == 4
  {
    if bigEndian then ClassKeyBig(name) else ClassKeyLittle(name)
  }

  class ClassRegistry {
    /** `to_bytes(4, 'big')` in the GUI registries, `'little'` in the older ones. */
    const bigEndian: bool
    var entries: map<Bytes, string>

    /** Every class sits under its own key. */
    ghost predicate Valid()
      reads this
    {
      forall k :: k in entries ==> k == KeyOf(bigEndian, entries[k])
    }

    constructor (bigEndian: bool)
      ensures Valid()
      ensures this.bigEndian == bigEndian && entries == map[]
    {
      this.bigEndian := bigEndian;
      entries := map[];
    }

    /** The class registered under `key`, as `registry.get(key, None)`. */
    function Lookup(key: Bytes): (r: Option<string>)
      reads this
      requires Valid()
      ensures r.Some? <==> key in entries
      ensures r.Some? ==> key == KeyOf(bigEndian, r.value)
    {
      if key in entries then Some(entries[key]) else None
    }

    /** Registers a class: a second class of the same name, or one whose key
        is already taken by another name, is refused and nothing changes. */
    method Register(name: string) returns (r: Result<Bytes, RegistryError>)
      requires Valid()
      modifies this
      ensures Valid()
      ensures var k := KeyOf(bigEndian, name);
              && (k in old(entries) && old(entries)[k] == name ==>
                    r == Err(AlreadyRegistered(name)) && entries == old(entries))
              && (k in old(entries) && old(entries)[k] != name ==>
                    r == Err(CrcMatched(old(entries)[k], name)) && entries == old(entries))
              && (k !in old(entries) ==> r == Ok(k) && entries == old(entries)[k := name])
    {
      var k := KeyOf(bigEndian, name);
      if k in entries {
        if entries[k] == name {
          return Err(AlreadyRegistered(name));
        }
        return Err(CrcMatched(entries[k], name));
      }
      entries := entries[k := name];
      r := Ok(k);
    }
  }

  /** In a valid registry a name is registered at most once, under its own
      key: looking its key up finds it again. */
  lemma {:induction false} NamesRegisteredOnce(entries: map<Bytes, string>, bigEndian: bool, k1: Bytes, k2: Bytes)
    requires forall k :: k in entries ==> k == KeyOf(bigEndian, entries[k])
    requires k1 in entries && k2 in entries && entries[k1] == entries[k2]
    ensures k1 == k2
  {
  }
}

=== FILE: split_text.dfy ===
/** Splitting a long outgoing text into numbered fragments
    (tgbot/helpers/split_text.py).

    `split_text` first runs a pre-count loop that finds the number of parts
    `n` such that every part fits once its `(i/n)` prefix is reserved, then an
    emit loop that builds the fragments.  Units are characters, space-separated
    words or newline-separated lines.  The emit loop of the source can run
    forever; the model reports that as the outcome `Diverges`. */
module SplitText {
  import opened Common

  const SplitError := "Text cannot be split with the given parameters"

  datatype Unit = Char | Word | Line

  /** The result of `split_text`: the fragments, the ValueError with
      `SplitError`, or an emit loop that never ends. */
  datatype Outcome = Messages(messages: seq<string>) | Failed | Diverges

  /** How the pre-count loop measures a part.  As written it counts a unit
      separator only after non-empty content and ends a pass at a part of
      length 0; the emit loop puts a separator after any unit already taken.
      `SeparatorAfterUnit` is the pre-count that agrees with the emit loop. */
  datatype Counting = SeparatorAfterContent | SeparatorAfterUnit

  /** The parameters every part shares. */
  datatype Layout = Layout(header: string, separator: string, maxLength: int, unit: Unit)

  /** Units taken into one part, and the length they occupy. */
  datatype Taken = Taken(count: nat, length: nat)

  /** `list(body)`, `body.split(' ')` or `body.split('\n')`. */
  function Units(body: string, unit: Unit): (us: seq<string>)
    ensures unit == Char ==> |us| == |body| && forall j :: 0 <= j < |us| ==> us[j] == [body[j]]
    ensures unit != Char ==> |us| >= 1
  {
    match unit
    case Char => seq(|body|, j requires 0 <= j < |body| => [body[j]])
    case Word => SplitOn(body, ' ')
    case Line => SplitOn(body, '\n')
  }

  /** The string placed between units of one fragment (`None` for characters,
      which are joined with `''`). */
  function UnitSeparator(unit: Unit): string
  {
    match unit
    case Char => ""
    case Word => " "
    case Line => "\n"
  }

  /** The prefix length shared by every numbered part (lines 17-21):
      `header (` `/` `)` and the separator, or `/` and the separator. */
  function FixedLength(L: Layout): nat
  {
    if |L.header| > 0 then |L.header| + 4 + |L.separator| else 1 + |L.separator|
  }

  /** The text a fragment starts with (lines 64-73). */
  function MessagePrefix(L: Layout, numbers: bool, i: nat, n: nat): string
  {
    if numbers then
      if L.header != "" then L.header + " (" + NatToString(i) + "/" + NatToString(n) + ")" + L.separator
      else NatToString(i) + "/" + NatToString(n) + L.separator
    else if L.header != "" then L.header + L.separator
    else ""
  }

  /** The length of the prefix of fragment `i` of `n`. */
  function PrefixWidth(L: Layout, numbers: bool, i: nat, n: nat): nat
  {
    if numbers then FixedLength(L) + Digits(i) + Digits(n)
    else if L.header != "" then |L.header| + |L.separator|
    else 0
  }

  /** Every prefix is `PrefixWidth` characters long, so a numbered one is as
      long as the pre-count reserves for it. */
  lemma {:induction false} PrefixLength(L: Layout, numbers: bool, i: nat, n: nat)
    ensures |MessagePrefix(L, numbers, i, n)| == PrefixWidth(L, numbers, i, n)
  {
    DigitsLength(i);
    DigitsLength(n);
  }

  /** The number of elements of `xs[:stop]` for a list of length `n`; a
      negative `stop` counts from the end. */
  function PyHeadCount(n: nat, stop: int): (k: nat)
    ensures k <= n
  {
    if stop >= 0 then (if stop < n then stop else n)
    else if n + stop > 0 then n + stop else 0
  }

  /** 1 when the next unit of a part is preceded by a separator. */
  function SeparatorBefore(t: Taken, counting: Counting): nat
  {
    if (counting == SeparatorAfterContent && t.length > 0) || (counting == SeparatorAfterUnit && t.count > 0) then 1 else 0
  }

  /** The greedy word or line loop: from unit `i`, with `used` characters
      already in the part, take units while the part stays within `room`. */
  function Fit(us: seq<string>, room: int, i: nat, used: nat, counting: Counting): (t: Taken)
    requires i <= |us|
    ensures i <= t.count <= |us|
    ensures used <= t.length
    ensures t.count == i ==> t.length == used
    ensures used <= room ==> t.length <= room
    ensures t.count < |us| ==> t.length + SeparatorBefore(t, counting) + |us[t.count]| > room
    decreases |us| - i
  {
    if i == |us| then Taken(i, used)
    else
      var temp := SeparatorBefore(Taken(i, used), counting) + |us[i]|;
      if used + temp > room then Taken(i, used)
      else Fit(us, room, i + 1, used + temp, counting)
  }

  /** Every unit the greedy loop takes is no longer than the room. */
  lemma {:induction false} FitUnitWithin(us: seq<string>, room: int, i: nat, used: nat, counting: Counting, j: nat)
    requires i <= |us|
    requires i <= j < Fit(us, room, i, used, counting).count
    ensures |us[j]| <= room
    decreases |us| - i
  {
    var temp := SeparatorBefore(Taken(i, used), counting) + |us[i]|;
    assert used + temp <= room;
    if j > i {
      FitUnitWithin(us, room, i + 1, used + temp, counting, j);
    }
  }

  /** The units one part takes when `room` characters are free: a slice for
      characters, the greedy loop for words and lines. */
  function Take(us: seq<string>, unit: Unit, room: int, counting: Counting): (t: Taken)
    ensures t.count <= |us|
  {
    if unit == Char then
      var n := PyHeadCount(|us|, room);
      Taken(n, n)
    else Fit(us, room, 0, 0, counting)
  }

  /** The pre-count raises when the unit the greedy loop stopped at is longer
      than the free space on its own (lines 41-42). */
  predicate Overlong(us: seq<string>, unit: Unit, k: nat, room: int)
  {
    unit != Char && k < |us| && |us[k]| > room
  }

  /** The pre-count ends a pass at a part that takes nothing. */
  predicate PartEmpty(t: Taken, counting: Counting)
  {
    if counting == SeparatorAfterContent then t.length == 0 else t.count == 0
  }

  /** Part `c` reserves the digits of `c` and of the total known when it is
      laid out: the pass's starting total, or `c` itself once it is larger. */
  function Denominator(total: nat, c: nat): nat
  {
    if c <= total then total else c
  }

  /** The characters part `c` has free once its numbered prefix is
      reserved. */
  function Room(L: Layout, total: nat, c: nat): int
  {
    L.maxLength - (FixedLength(L) + Digits(c) + Digits(Denominator(total, c)))
  }

  /** What the pre-count does with one part. */
  datatype Step = Raise | PassEnds | NextPart(k: nat)

  /** Part `c` of a pass that started with `total` parts, laid out from
      `us`: the ValueError, the end of the pass, or `k` units taken. */
  function PartStep(us: seq<string>, total: nat, c: nat, L: Layout, counting: Counting): (s: Step)
    ensures s.NextPart? ==> 1 <= s.k <= |us|
  {
    var room := Room(L, total, c);
    if room <= 0 && us != [] then Raise
    else
      var t := Take(us, L.unit, room, counting);
      if Overlong(us, L.unit, t.count, room) then Raise
      else if PartEmpty(t, counting) then PassEnds
      else NextPart(t.count)
  }

  /** The parts one pre-count pass lays out from part `c` on, when the pass
      started with `total` parts; `None` is the ValueError. */
  function PassFrom(us: seq<string>, total: nat, c: nat, L: Layout, counting: Counting): (r: Option<nat>)
    ensures r.Some? ==> r.value <= |us|
    decreases |us|
  {
    match PartStep(us, total, c, L, counting)
    case Raise => None
    case PassEnds => Some(0)
    case NextPart(k) => Shift(PassFrom(us[k..], total, c + 1, L, counting), 1)
  }

  /** The pre-count: passes repeat, each starting from the parts the previous
      one laid out, until a pass needs no more parts than it started with. */
  function PreCountFrom(us: seq<string>, total: nat, L: Layout, counting: Counting): (r: Option<nat>)
    requires total <= |us|
    decreases |us| - total
  {
    match PassFrom(us, total, 1, L, counting)
    case None => None
    case Some(p) => if p <= total then Some(total) else PreCountFrom(us, p, L, counting)
  }

  /** The number of units fragment `i` takes from `us`: what fits into the
      limit less the prefix's length (`PrefixLength`). */
  function TakeAt(us: seq<string>, n: nat, i: nat, L: Layout, numbers: bool): (k: nat)
    ensures k <= |us|
  {
    Take(us, L.unit, L.maxLength - PrefixWidth(L, numbers, i, n), SeparatorAfterUnit).count
  }

  /** Fragment `i`: its prefix and the units it takes, joined. */
  function FragmentAt(us: seq<string>, n: nat, i: nat, L: Layout, numbers: bool): string
  {
    MessagePrefix(L, numbers, i, n) + Join(us[..TakeAt(us, n, i, L, numbers)], UnitSeparator(L.unit))
  }

  /** The emit loop from fragment `i` on, with `n` the announced total. */
  function EmitFrom(us: seq<string>, n: nat, i: nat, L: Layout, numbers: bool): (r: Outcome)
    decreases |us|
  {
    var k := TakeAt(us, n, i, L, numbers);
    if k == |us| then Messages([FragmentAt(us, n, i, L, numbers)])
    else if k == 0 then Diverges
    else Prepend([FragmentAt(us, n, i, L, numbers)], EmitFrom(us[k..], n, i + 1, L, numbers))
  }

  /** True when the whole text fits into one message (line 5). */
  predicate FitsInOne(header: string, body: string, maxLength: int, separator: string)
  {
    |header| + |separator| + |body| <= maxLength
  }

  /** The announced number of parts: the pre-count's result, or 0 when parts
      are not numbered. */
  function PartCount(body: string, L: Layout, numbers: bool, counting: Counting): Option<nat>
  {
    if numbers then PreCountFrom(Units(body, L.unit), 0, L, counting) else Some(0)
  }

  /** What `split_text` returns, with the given pre-count. */
  function Split(header: string, body: string, maxLength: int, unit: Unit, separator: string,
                 numbers: bool, counting: Counting): Outcome
  {
    if FitsInOne(header, body, maxLength, separator) then
      Messages([(if header != "" then header + separator else "") + body])
    else
      var L := Layout(header, separator, maxLength, unit);
      match PartCount(body, L, numbers, counting)
      case None => Failed
      case Some(n) => EmitFrom(Units(body, unit), n, 1, L, numbers)
  }

  // ---------------------------------------------------------------------
  // The loops of the source.

  /** The pre-count's measurement of one part (lines 35-50); `None` is the
      ValueError for a unit that cannot fit.  Removing `u` from `temp_units`
      removes its head, since every earlier unit was removed before it. */
  method PartLength(tempUnits: seq<string>, unit: Unit, freeChars: int, counting: Counting) returns (r: Option<Taken>)
    ensures var t := Take(tempUnits, unit, freeChars, counting);
            r == if Overlong(tempUnits, unit, t.count, freeChars) then None else Some(t)
  {
    if unit == Char {
      var n := PyHeadCount(|tempUnits|, freeChars);
      return Some(Taken(n, n));
    }
    var partLength: nat := 0;
    var i := 0;
    while i < |tempUnits|
      invariant i <= |tempUnits|
      invariant Fit(tempUnits, freeChars, 0, 0, counting) == Fit(tempUnits, freeChars, i, partLength, counting)
    {
      var u := tempUnits[i];
      if |u| > freeChars {
        return None;
      }
      var temp := SeparatorBefore(Taken(i, partLength), counting) + |u|;
      if partLength + temp > freeChars {
        break;
      }
      partLength := partLength + temp;
      i := i + 1;
    }
    return Some(Taken(i, partLength));
  }

  /** The pre-count loop (lines 16-61): the number of parts, or `None` for the
      ValueError. */
  method PreCount(units: seq<string>, L: Layout, counting: Counting) returns (r: Option<nat>)
    ensures r == PreCountFrom(units, 0, L, counting)
  {
    var totalParts: nat := 0;
    var fixedPartLength := FixedLength(L);
    var currentPart: nat := 1;
    var tempUnits := units;
    var recalculationRequired := false;
    ghost var passTotal: nat := 0;
    while true
      invariant Counted(units, L, counting, passTotal, currentPart, tempUnits)
      invariant totalParts == if currentPart - 1 > passTotal then currentPart - 1 else passTotal
      invariant recalculationRequired == (currentPart - 1 > passTotal)
      decreases |units| - passTotal, |tempUnits|
    {
      var step := MeasurePart(tempUnits, L, counting, fixedPartLength, totalParts, currentPart, passTotal);
      match step
      case Raise =>
        CountedFails(units, L, counting, passTotal, currentPart, tempUnits);
        return None;
      case PassEnds =>
        CountedPassEnds(units, L, counting, passTotal, currentPart, tempUnits);
        if !recalculationRequired {
          return Some(totalParts);
        }
        passTotal := totalParts;
        currentPart := 1;
        tempUnits := units;
        recalculationRequired := false;
      case NextPart(k) =>
        CountedNextPart(units, L, counting, passTotal, currentPart, tempUnits, k);
        tempUnits := tempUnits[k..];
        if currentPart > totalParts {
          totalParts := totalParts + 1;
          recalculationRequired := true;
        }
        currentPart := currentPart + 1;
    }
  }

  /** One part of the pre-count (lines 18-50): the numbered prefix reserves
      the digits of the part and of the total so far, or of the total plus
      one while the part is beyond it, and the rest is measured. */
  method MeasurePart(tempUnits: seq<string>, L: Layout, counting: Counting, fixedPartLength: int,
                     totalParts: nat, currentPart: nat, ghost passTotal: nat) returns (s: Step)
    requires fixedPartLength == FixedLength(L)
    requires totalParts == if currentPart - 1 > passTotal then currentPart - 1 else passTotal
    ensures s == PartStep(tempUnits, passTotal, currentPart, L, counting)
  {
    var partHeaderLength := fixedPartLength + Digits(currentPart);
    if currentPart <= totalParts {
      partHeaderLength := partHeaderLength + Digits(totalParts);
    } else {
      partHeaderLength := partHeaderLength + Digits(totalParts + 1);
    }
    var freeChars := L.maxLength - partHeaderLength;
    assert freeChars == Room(L, passTotal, currentPart);
    if partHeaderLength >= L.maxLength && tempUnits != [] {
      return Raise;
    }
    var taken := PartLength(tempUnits, L.unit, freeChars, counting);
    if taken.None? {
      return Raise;
    }
    s := if PartEmpty(taken.value, counting) then PassEnds else NextPart(taken.value.count);
  }

  /** The pre-count is in pass `total`, about to lay out part `c` from
      `temp`: the parts laid out so far plus the rest of the pass make the
      whole pass, and finishing the pre-count from this pass gives the
      pre-count's result. */
  ghost predicate Counted(us: seq<string>, L: Layout, counting: Counting, total: nat, c: nat, temp: seq<string>)
  {
    && total <= |us|
    && 1 <= c
    && PreCountFrom(us, 0, L, counting) == PreCountFrom(us, total, L, counting)
    && PassFrom(us, total, 1, L, counting) == Shift(PassFrom(temp, total, c, L, counting), c - 1)
  }

  /** A part that does not fit ends the pre-count with the ValueError. */
  lemma {:induction false} CountedFails(us: seq<string>, L: Layout, counting: Counting, total: nat, c: nat, temp: seq<string>)
    requires Counted(us, L, counting, total, c, temp)
    requires PartStep(temp, total, c, L, counting) == Raise
    ensures PreCountFrom(us, 0, L, counting) == None
  {
    PreCountNext(us, total, L, counting);
  }

  /** A part that takes nothing ends the pass with `c - 1` parts: the pre-count
      either stops with the pass's starting total or runs another pass. */
  lemma {:induction false} CountedPassEnds(us: seq<string>, L: Layout, counting: Counting, total: nat, c: nat, temp: seq<string>)
    requires Counted(us, L, counting, total, c, temp)
    requires PartStep(temp, total, c, L, counting) == PassEnds
    ensures c - 1 <= total ==> PreCountFrom(us, 0, L, counting) == Some(total)
    ensures c - 1 > total ==> c - 1 <= |us| && Counted(us, L, counting, c - 1, 1, us)
  {
    PreCountNext(us, total, L, counting);
  }

  /** A part that takes `k` units moves the pass on to part `c + 1`. */
  lemma {:induction false} CountedNextPart(us: seq<string>, L: Layout, counting: Counting, total: nat, c: nat, temp: seq<string>, k: nat)
    requires Counted(us, L, counting, total, c, temp)
    requires PartStep(temp, total, c, L, counting) == NextPart(k)
    ensures Counted(us, L, counting, total, c + 1, temp[k..])
  {
    var later := PassFrom(temp[k..], total, c + 1, L, counting);
    assert PassFrom(temp, total, c, L, counting) == Shift(later, 1);
    assert Shift(Shift(later, 1), c - 1) == Shift(later, c);
  }

  /** One pass of the pre-count decides between the ValueError, the result and
      another pass. */
  lemma {:induction false} PreCountNext(us: seq<string>, total: nat, L: Layout, counting: Counting)
    requires total <= |us|
    ensures PreCountFrom(us, total, L, counting)
            == match PassFrom(us, total, 1, L, counting)
               case None => None
               case Some(p) => if p <= total then Some(total) else PreCountFrom(us, p, L, counting)
  {
  }

  /** Adds `k` to a pass count. */
  function Shift(r: Option<nat>, k: nat): Option<nat>
  {
    match r
    case None => None
    case Some(p) => Some(p + k)
  }

  /** Fills one fragment after its prefix (lines 74-89): the units that still
      fit, joined with the unit separator, and the units left over. */
  method FillMessage(units: seq<string>, unit: Unit, message: string, maxLength: int) returns (filled: string, rest: seq<string>)
    ensures var k := Take(units, unit, maxLength - |message|, SeparatorAfterUnit).count;
            filled == message + Join(units[..k], UnitSeparator(unit)) && rest == units[k..]
  {
    if unit == Char {
      var n := PyHeadCount(|units|, maxLength - |message|);
      filled := message + Join(units[..n], "");
      rest := units[n..];
      return;
    }
    var separator := UnitSeparator(unit);
    var added := false;
    var i := 0;
    filled := message;
    while i < |units|
      invariant i <= |units|
      invariant added == (i > 0)
      invariant filled == message + Join(units[..i], separator)
      invariant Fit(units, maxLength - |message|, 0, 0, SeparatorAfterUnit)
             == Fit(units, maxLength - |message|, i, |filled| - |message|, SeparatorAfterUnit)
    {
      var temp := "";
      if added {
        temp := separator;
      }
      temp := temp + units[i];
      FillStep(units, i, separator, message, filled, temp, maxLength);
      if |filled| + |temp| > maxLength {
        break;
      }
      filled := filled + temp;
      added := true;
      i := i + 1;
    }
    rest := units[i..];
  }

  /** One pass of the fill loop: a unit that does not fit stops the greedy
      count where the loop breaks, and one that fits extends both the joined
      text and the count by that unit. */
  lemma {:induction false} FillStep(units: seq<string>, i: nat, separator: string, message: string, filled: string,
                                    temp: string, maxLength: int)
    requires |separator| == 1 && i < |units|
    requires filled == message + Join(units[..i], separator)
    requires temp == (if i > 0 then separator else "") + units[i]
    ensures var used := |filled| - |message|;
            |filled| + |temp| > maxLength ==>
              Fit(units, maxLength - |message|, i, used, SeparatorAfterUnit) == Taken(i, used)
    ensures var used := |filled| - |message|;
            |filled| + |temp| <= maxLength ==>
              && filled + temp == message + Join(units[..i + 1], separator)
              && Fit(units, maxLength - |message|, i, used, SeparatorAfterUnit)
                 == Fit(units, maxLength - |message|, i + 1, |filled + temp| - |message|, SeparatorAfterUnit)
  {
    JoinStep(units, i, separator);
    assert |temp| == SeparatorBefore(Taken(i, |filled| - |message|), SeparatorAfterUnit) + |units[i]|;
  }

  /** Joining one more unit appends the separator (after the first) and it. */
  lemma {:induction false} JoinStep(units: seq<string>, i: nat, separator: string)
    requires i < |units|
    ensures Join(units[..i + 1], separator) == Join(units[..i], separator) + (if i > 0 then separator else "") + units[i]
  {
    assert units[..i + 1] == units[..i] + [units[i]];
    if i > 0 {
      JoinSnoc(units[..i], units[i], separator);
    }
  }

  /** The emit loop (lines 62-93).  When a fragment takes no unit while units
      remain, the source loops forever (`DivergesNeverEnds`); the model
      returns `Diverges` there. */
  method Emit(units: seq<string>, totalParts: nat, L: Layout, numbers: bool) returns (r: Outcome)
    ensures r == EmitFrom(units, totalParts, 1, L, numbers)
  {
    var messages: seq<string> := [];
    var rest := units;
    PrependNothing(EmitFrom(units, totalParts, 1, L, numbers));
    while true
      invariant Emitted(units, totalParts, L, numbers, messages, rest)
      decreases |rest|
    {
      var filled, remaining := EmitRound(rest, totalParts, |messages| + 1, L, numbers);
      EmitStep(units, rest, totalParts, messages, L, numbers);
      ghost var k := TakeAt(rest, totalParts, |messages| + 1, L, numbers);
      messages := messages + [filled];
      if remaining == [] {
        assert k == |rest|;
        return Messages(messages);
      }
      if |remaining| == |rest| {
        assert k == 0;
        return Diverges;
      }
      rest := remaining;
    }
  }

  /** One round of the emit loop (lines 63-89): fragment `i` is its prefix
      followed by the units that fit after it. */
  method EmitRound(rest: seq<string>, totalParts: nat, i: nat, L: Layout, numbers: bool) returns (filled: string, remaining: seq<string>)
    ensures filled == FragmentAt(rest, totalParts, i, L, numbers)
    ensures remaining == rest[TakeAt(rest, totalParts, i, L, numbers)..]
  {
    var message := MessagePrefix(L, numbers, i, totalParts);
    filled, remaining := FillMessage(rest, L.unit, message, L.maxLength);
    PrefixLength(L, numbers, i, totalParts);
  }

  /** The emit loop has appended `messages` and has `rest` left: those
      fragments followed by the remaining rounds make the whole outcome. */
  ghost predicate Emitted(units: seq<string>, n: nat, L: Layout, numbers: bool, messages: seq<string>, rest: seq<string>)
  {
    EmitFrom(units, n, 1, L, numbers) == Prepend(messages, EmitFrom(rest, n, |messages| + 1, L, numbers))
  }

  /** One round of the emit loop: the fragment it appends, then the end of
      the loop, a loop that never ends, or the remaining rounds. */
  lemma {:induction false} EmitStep(units: seq<string>, rest: seq<string>, n: nat, messages: seq<string>, L: Layout, numbers: bool)
    requires Emitted(units, n, L, numbers, messages, rest)
    ensures var k := TakeAt(rest, n, |messages| + 1, L, numbers);
            k == |rest| ==> EmitFrom(units, n, 1, L, numbers) == Messages(messages + [FragmentAt(rest, n, |messages| + 1, L, numbers)])
    ensures var k := TakeAt(rest, n, |messages| + 1, L, numbers);
            k == 0 < |rest| ==> EmitFrom(units, n, 1, L, numbers) == Diverges
    ensures var k := TakeAt(rest, n, |messages| + 1, L, numbers);
            0 < k < |rest| ==> Emitted(units, n, L, numbers, messages + [FragmentAt(rest, n, |messages| + 1, L, numbers)], rest[k..])
  {
    var i := |messages| + 1;
    var k := TakeAt(rest, n, i, L, numbers);
    var message := FragmentAt(rest, n, i, L, numbers);
    var e := EmitFrom(rest, n, i, L, numbers);
    assert e == if k == |rest| then Messages([message])
                else if k == 0 then Diverges
                else Prepend([message], EmitFrom(rest[k..], n, i + 1, L, numbers));
    if k == |rest| {
    } else if k == 0 {
    } else {
      PrependTwice(messages, [message], EmitFrom(rest[k..], n, i + 1, L, numbers));
    }
  }

  lemma {:induction false} PrependNothing(r: Outcome)
    ensures Prepend([], r) == r
  {
    if r.Messages? {
      assert [] + r.messages == r.messages;
    }
  }

  lemma {:induction false} PrependTwice(a: seq<string>, b: seq<string>, r: Outcome)
    ensures Prepend(a, Prepend(b, r)) == Prepend(a + b, r)
  {
    if r.Messages? {
      assert a + (b + r.messages) == (a + b) + r.messages;
    }
  }

  /** Puts fragments in front of an outcome. */
  function Prepend(ms: seq<string>, r: Outcome): Outcome
  {
    match r
    case Messages(rest) => Messages(ms + rest)
    case other => other
  }

  /** `split_text` with the pre-count as written (lines 4-93). */
  method SplitTextAsWritten(header: string, body: string, maxLength: int, unit: Unit, separator: string, numbers: bool) returns (r: Outcome)
    ensures r == Split(header, body, maxLength, unit, separator, numbers, SeparatorAfterContent)
  {
    r := SplitTextCounting(header, body, maxLength, unit, separator, numbers, SeparatorAfterContent);
  }

  /** `split_text` with a pre-count that measures parts as the emit loop
      fills them. */
  method SplitText(header: string, body: string, maxLength: int, unit: Unit, separator: string, numbers: bool) returns (r: Outcome)
    ensures r == Split(header, body, maxLength, unit, separator, numbers, SeparatorAfterUnit)
  {
    r := SplitTextCounting(header, body, maxLength, unit, separator, numbers, SeparatorAfterUnit);
  }

  method SplitTextCounting(header: string, body: string, maxLength: int, unit: Unit, separator: string,
                           numbers: bool, counting: Counting) returns (r: Outcome)
    ensures r == Split(header, body, maxLength, unit, separator, numbers, counting)
  {
    if |header| + |separator| + |body| <= maxLength {
      return Messages([(if header != "" then header + separator else "") + body]);
    }
    var units := Units(body, unit);
    var L := Layout(header, separator, maxLength, unit);
    var totalParts := 0;
    if numbers {
      var n := PreCount(units, L, counting);
      if n.None? {
        return Failed;
      }
      totalParts := n.value;
    }
    r := Emit(units, totalParts, L, numbers);
  }

  const DefaultUnits: seq<Unit> := [Line, Word, Char]

  /** `split_text_by_units` (lines 96-102): the first unit whose split does not
      raise gives the result; if all raise, so does it. The source splits with
      the as-written pre-count (`SeparatorAfterContent`); `counting` also
      admits the corrected one. */
  function SplitByUnits(header: string, body: string, maxLength: int, units: seq<Unit>, separator: string, numbers: bool, counting: Counting): Outcome
  {
    if units == [] then Failed
    else if !Split(header, body, maxLength, units[0], separator, numbers, counting).Failed? then
      Split(header, body, maxLength, units[0], separator, numbers, counting)
    else SplitByUnits(header, body, maxLength, units[1..], separator, numbers, counting)
  }

  predicate SplitFailsWith(header: string, body: string, maxLength: int, unit: Unit, separator: string, numbers: bool, counting: Counting) {
    Split(header, body, maxLength, unit, separator, numbers, counting).Failed?
  }

  /** The fallback raises exactly when every unit raises, and otherwise gives
      the split by the first unit that does not. */
  lemma {:induction false} SplitByUnitsFirst(header: string, body: string, maxLength: int, units: seq<Unit>, separator: string, numbers: bool, counting: Counting)
    ensures var r := SplitByUnits(header, body, maxLength, units, separator, numbers, counting);
      && (r.Failed? <==> forall j :: 0 <= j < |units| ==> SplitFailsWith(header, body, maxLength, units[j], separator, numbers, counting))
      && (!r.Failed? ==> exists j :: 0 <= j < |units| && r == Split(header, body, maxLength, units[j], separator, numbers, counting)
                                && forall j' :: 0 <= j' < j ==> SplitFailsWith(header, body, maxLength, units[j'], separator, numbers, counting))
  {
    if units != [] && SplitFailsWith(header, body, maxLength, units[0], separator, numbers, counting) {
      var tail := units[1..];
      SplitByUnitsFirst(header, body, maxLength, tail, separator, numbers, counting);
      var r := SplitByUnits(header, body, maxLength, tail, separator, numbers, counting);
      assert forall j :: 1 <= j < |units| ==> units[j] == tail[j - 1];
      if !r.Failed? {
        var j :| 0 <= j < |tail| && r == Split(header, body, maxLength, tail[j], separator, numbers, counting)
                                && forall j' :: 0 <= j' < j ==> SplitFailsWith(header, body, maxLength, tail[j'], separator, numbers, counting);
        assert units[j + 1] == tail[j];
        assert forall j' :: 0 <= j' < j + 1 ==> SplitFailsWith(header, body, maxLength, units[j'], separator, numbers, counting) by {
          forall j' | 1 <= j' < j + 1 ensures SplitFailsWith(header, body, maxLength, units[j'], separator, numbers, counting) {
            assert units[j'] == tail[j' - 1];
          }
        }
      }
    }
  }

  method SplitTextByUnits(header: string, body: string, maxLength: int, units: seq<Unit>, separator: string, numbers: bool, counting: Counting) returns (r: Outcome)
    ensures r == SplitByUnits(header, body, maxLength, units, separator, numbers, counting)
  {
    for j := 0 to |units|
      invariant SplitByUnits(header, body, maxLength, units[j..], separator, numbers, counting) == SplitByUnits(header, body, maxLength, units, separator, numbers, counting)
    {
      r := SplitTextCounting(header, body, maxLength, units[j], separator, numbers, counting);
      if !r.Failed? {
        return;
      }
      assert units[j..][1..] == units[j + 1..];
    }
    return Failed;
  }

  /** Whichever unit the fallback settles on, every fragment of a non-empty
      body stays within the length limit. */
  lemma {:induction false} SplitByUnitsWithinLimit(header: string, body: string, maxLength: int, units: seq<Unit>,
                                                   separator: string, numbers: bool, counting: Counting)
    requires body != ""
    requires SplitByUnits(header, body, maxLength, units, separator, numbers, counting).Messages?
    ensures var ms := SplitByUnits(header, body, maxLength, units, separator, numbers, counting).messages;
            forall j :: 0 <= j < |ms| ==> |ms[j]| <= maxLength
  {
    SplitByUnitsFirst(header, body, maxLength, units, separator, numbers, counting);
    var r := SplitByUnits(header, body, maxLength, units, separator, numbers, counting);
    var j :| 0 <= j < |units| && r == Split(header, body, maxLength, units[j], separator, numbers, counting);
    SplitWithinLimit(header, body, maxLength, units[j], separator, numbers, counting);
  }

  /** With the corrected pre-count, a text that needs several fragments gets
      fragments that announce exactly their own number, for the unit the
      fallback settles on. */
  lemma {:induction false} SplitByUnitsNumbered(header: string, body: string, maxLength: int, units: seq<Unit>, separator: string)
    requires body != "" && !FitsInOne(header, body, maxLength, separator)
    requires !SplitByUnits(header, body, maxLength, units, separator, true, SeparatorAfterUnit).Failed?
    ensures var r := SplitByUnits(header, body, maxLength, units, separator, true, SeparatorAfterUnit);
            && r.Messages?
            && exists j :: (0 <= j < |units|
                 && PartCount(body, Layout(header, separator, maxLength, units[j]), true, SeparatorAfterUnit) == Some(|r.messages|)
                 && FramedRun(r.messages, |r.messages|, 1, Layout(header, separator, maxLength, units[j]), true))
  {
    SplitByUnitsFirst(header, body, maxLength, units, separator, true, SeparatorAfterUnit);
    var r := SplitByUnits(header, body, maxLength, units, separator, true, SeparatorAfterUnit);
    var j :| 0 <= j < |units| && r == Split(header, body, maxLength, units[j], separator, true, SeparatorAfterUnit);
    NumberedPartsAgree(header, body, maxLength, units[j], separator);
  }

  // ---------------------------------------------------------------------
  // Lengths of joined units.

  /** The length of units joined with a one-character separator. */
  function JoinedLength(xs: seq<string>): nat
  {
    if |xs| == 0 then 0
    else if |xs| == 1 then |xs[0]|
    else JoinedLength(xs[..|xs| - 1]) + 1 + |xs[|xs| - 1]|
  }

  lemma {:induction false} JoinLength(xs: seq<string>, sep: string)
    requires |sep| == 1
    ensures |Join(xs, sep)| == JoinedLength(xs)
    decreases |xs|
  {
    if |xs| > 1 {
      JoinLength(xs[..|xs| - 1], sep);
    }
  }

  /** Characters joined with `''` are as many characters long as there are. */
  lemma {:induction false} JoinCharsLength(xs: seq<string>)
    requires forall j :: 0 <= j < |xs| ==> |xs[j]| == 1
    ensures |Join(xs, "")| == |xs|
    decreases |xs|
  {
    if |xs| > 1 {
      JoinCharsLength(xs[..|xs| - 1]);
    }
  }

  lemma {:induction false} JoinedLengthStep(xs: seq<string>, i: nat)
    requires i < |xs|
    ensures JoinedLength(xs[..i + 1]) == JoinedLength(xs[..i]) + (if i > 0 then 1 else 0) + |xs[i]|
  {
    var p := xs[..i + 1];
    assert p[..i] == xs[..i];
  }

  lemma {:induction false} JoinedLengthGrows(xs: seq<string>, a: nat, b: nat)
    requires a <= b <= |xs|
    ensures JoinedLength(xs[..a]) <= JoinedLength(xs[..b])
    decreases b - a
  {
    if a < b {
      JoinedLengthStep(xs, a);
      JoinedLengthGrows(xs, a + 1, b);
    }
  }

  lemma {:induction false} JoinedLengthDrop(xs: seq<string>, s: nat)
    requires s <= |xs|
    ensures JoinedLength(xs[s..]) <= JoinedLength(xs)
    decreases |xs|
  {
    if s < |xs| - 1 {
      var d := xs[s..];
      assert d[..|d| - 1] == xs[..|xs| - 1][s..];
      JoinedLengthDrop(xs[..|xs| - 1], s);
    }
  }

  /** With the corrected pre-count, the greedy loop measures exactly the
      joined length of what it takes. */
  lemma {:induction false} FitMeasures(us: seq<string>, room: int, i: nat, used: nat)
    requires i <= |us| && used == JoinedLength(us[..i])
    ensures Fit(us, room, i, used, SeparatorAfterUnit).length == JoinedLength(us[..Fit(us, room, i, used, SeparatorAfterUnit).count])
    decreases |us| - i
  {
    if i < |us| {
      JoinedLengthStep(us, i);
      var temp := SeparatorBefore(Taken(i, used), SeparatorAfterUnit) + |us[i]|;
      if used + temp <= room {
        FitMeasures(us, room, i + 1, used + temp);
      }
    }
  }

  /** The greedy loop takes every prefix that fits. */
  lemma {:induction false} FitMaximal(us: seq<string>, room: int, i: nat, used: nat, k: nat)
    requires i <= k <= |us| && used == JoinedLength(us[..i]) && JoinedLength(us[..k]) <= room
    ensures k <= Fit(us, room, i, used, SeparatorAfterUnit).count
    decreases |us| - i
  {
    if i < k {
      JoinedLengthStep(us, i);
      JoinedLengthGrows(us, i + 1, k);
      FitMaximal(us, room, i + 1, JoinedLength(us[..i + 1]), k);
    }
  }

  /** A part that starts later, with at least as much room, ends no earlier. */
  lemma {:induction false} TakeSuffix(us: seq<string>, s: nat, unit: Unit, roomA: int, roomB: int)
    requires s <= |us| && 1 <= roomB <= roomA
    ensures s + Take(us[s..], unit, roomA, SeparatorAfterUnit).count >= Take(us, unit, roomB, SeparatorAfterUnit).count
  {
    if unit != Char {
      var kB := Fit(us, roomB, 0, 0, SeparatorAfterUnit).count;
      if s < kB {
        assert us[..0] == [];
        FitMeasures(us, roomB, 0, 0);
        var d := us[s..];
        assert d[..kB - s] == us[..kB][s..];
        JoinedLengthDrop(us[..kB], s);
        assert d[..0] == [];
        FitMaximal(d, roomA, 0, 0, kB - s);
      }
    }
  }

  /** With room left and no unit too long, a part takes at least one unit. */
  lemma {:induction false} NonEmptyPartTakes(us: seq<string>, unit: Unit, room: int)
    requires us != [] && room >= 1
    requires !Overlong(us, unit, Take(us, unit, room, SeparatorAfterUnit).count, room)
    ensures Take(us, unit, room, SeparatorAfterUnit).count >= 1
  {
  }

  /** With the corrected pre-count, a part laid out while units remain either
      raises or takes at least one unit, with room to spare. */
  lemma {:induction false} StepTakes(us: seq<string>, total: nat, c: nat, L: Layout)
    requires us != [] && !PartStep(us, total, c, L, SeparatorAfterUnit).Raise?
    ensures Room(L, total, c) >= 1
    ensures PartStep(us, total, c, L, SeparatorAfterUnit) == NextPart(Take(us, L.unit, Room(L, total, c), SeparatorAfterUnit).count)
  {
    NonEmptyPartTakes(us, L.unit, Room(L, total, c));
  }

  /** What one part takes fits into the room it was given. */
  lemma {:induction false} TakenFits(us: seq<string>, unit: Unit, room: int)
    requires room >= 0
    requires unit == Char ==> forall j :: 0 <= j < |us| ==> |us[j]| == 1
    ensures var k := Take(us, unit, room, SeparatorAfterUnit).count;
            |Join(us[..k], UnitSeparator(unit))| <= room
  {
    var k := Take(us, unit, room, SeparatorAfterUnit).count;
    if unit == Char {
      JoinCharsLength(us[..k]);
    } else {
      assert us[..0] == [];
      FitMeasures(us, room, 0, 0);
      JoinLength(us[..k], UnitSeparator(unit));
    }
  }

  // ---------------------------------------------------------------------
  // The corrected pre-count announces the number of fragments.

  /** A pass that starts from a larger total reserves no less for each part,
      and a pass that starts further into the units has no more to place, so
      it lays out no more parts. */
  lemma {:induction false} PassMonotone(us: seq<string>, s: nat, total: nat, total': nat, c: nat, L: Layout)
    requires s <= |us| && total <= total'
    requires PassFrom(us[s..], total, c, L, SeparatorAfterUnit).Some?
    requires PassFrom(us, total', c, L, SeparatorAfterUnit).Some?
    ensures PassFrom(us[s..], total, c, L, SeparatorAfterUnit).value <= PassFrom(us, total', c, L, SeparatorAfterUnit).value
    decreases |us|
  {
    var a := PartStep(us[s..], total, c, L, SeparatorAfterUnit);
    var b := PartStep(us, total', c, L, SeparatorAfterUnit);
    if a.NextPart? {
      assert b.NextPart? && b.k <= s + a.k by {
        StepTakes(us, total', c, L);
        DigitsMonotone(Denominator(total, c), Denominator(total', c));
        TakeSuffix(us, s, L.unit, Room(L, total, c), Room(L, total', c));
      }
      var s' := s + a.k - b.k;
      assert us[s..][a.k..] == us[b.k..][s'..];
      PassMonotone(us[b.k..], s', total, total', c + 1, L);
    }
  }

  /** The corrected pre-count stops at a total that a pass started from it
      lays out exactly. */
  lemma {:induction false} PreCountFixed(us: seq<string>, total: nat, L: Layout)
    requires total <= |us|
    requires PreCountFrom(us, total, L, SeparatorAfterUnit).Some?
    requires PassFrom(us, total, 1, L, SeparatorAfterUnit).Some? ==> total <= PassFrom(us, total, 1, L, SeparatorAfterUnit).value
    ensures var n := PreCountFrom(us, total, L, SeparatorAfterUnit).value;
            PassFrom(us, n, 1, L, SeparatorAfterUnit) == Some(n)
    decreases |us| - total
  {
    PreCountNext(us, total, L, SeparatorAfterUnit);
    var p := PassFrom(us, total, 1, L, SeparatorAfterUnit).value;
    if p > total {
      PreCountNext(us, p, L, SeparatorAfterUnit);
      assert us[0..] == us;
      PassMonotone(us, 0, total, p, 1, L);
      PreCountFixed(us, p, L);
    }
  }

  /** One round of the emit loop from fragment `i`. */
  lemma {:induction false} EmitUnfold(us: seq<string>, n: nat, i: nat, L: Layout, numbers: bool)
    ensures var k := TakeAt(us, n, i, L, numbers);
            0 < k < |us| ==> EmitFrom(us, n, i, L, numbers) == Prepend([FragmentAt(us, n, i, L, numbers)], EmitFrom(us[k..], n, i + 1, L, numbers))
    ensures TakeAt(us, n, i, L, numbers) == |us| ==> EmitFrom(us, n, i, L, numbers) == Messages([FragmentAt(us, n, i, L, numbers)])
  {
  }

  /** Units that the pass from part `i` of an announced total `n` lays out
      as `q` parts, all within the total. */
  ghost predicate PassWithin(us: seq<string>, n: nat, i: nat, L: Layout, q: nat)
  {
    us != [] && 1 <= i && i - 1 + q <= n
    && (L.unit == Char ==> forall j :: 0 <= j < |us| ==> |us[j]| == 1)
    && PassFrom(us, n, i, L, SeparatorAfterUnit) == Some(q)
  }

  /** When a pass from part `i` lays out `q` parts within the announced
      total `n`, part `i` has room and takes at least one unit, the units
      fragment `i` takes. */
  lemma {:induction false} PassHead(us: seq<string>, n: nat, i: nat, L: Layout, q: nat)
    requires PassWithin(us, n, i, L, q)
    ensures i <= n && Room(L, n, i) >= 1
    ensures PartStep(us, n, i, L, SeparatorAfterUnit) == NextPart(Take(us, L.unit, Room(L, n, i), SeparatorAfterUnit).count)
  {
    StepTakes(us, n, i, L);
  }

  /** After part `i` took `k` units, the pass from part `i + 1` lays out the
      remaining `q - 1` parts, or there is nothing left and `q` is one. */
  lemma {:induction false} PassRest(us: seq<string>, n: nat, i: nat, L: Layout, q: nat, k: nat)
    requires PassWithin(us, n, i, L, q)
    requires PartStep(us, n, i, L, SeparatorAfterUnit) == NextPart(k)
    ensures k == |us| ==> q == 1
    ensures k < |us| ==> PassWithin(us[k..], n, i + 1, L, q - 1)
  {
    var rest := us[k..];
    if k == |us| {
      assert rest == [];
    } else {
      assert L.unit == Char ==> forall j :: 0 <= j < |rest| ==> |rest[j]| == 1 by {
        if L.unit == Char {
          forall j | 0 <= j < |rest|
            ensures |rest[j]| == 1
          {
            assert rest[j] == us[k + j];
          }
        }
      }
    }
  }

  /** Fragment `i` of a pass that lays out `q` parts takes the units part
      `i` takes: at least one, all of them exactly when `q` is one, and the
      pass from part `i + 1` lays out the rest as `q - 1` parts. */
  lemma {:induction false} FragmentMatchesPart(us: seq<string>, n: nat, i: nat, L: Layout, q: nat)
    requires PassWithin(us, n, i, L, q)
    ensures var k := TakeAt(us, n, i, L, true);
            && 1 <= k
            && (k == |us| ==> q == 1)
            && (k < |us| ==> PassWithin(us[k..], n, i + 1, L, q - 1))
  {
    PassHead(us, n, i, L, q);
    var k := TakeAt(us, n, i, L, true);
    assert Room(L, n, i) == L.maxLength - PrefixWidth(L, true, i, n);
    PassRest(us, n, i, L, q, k);
  }

  /** How many fragments the emit loop cuts from fragment `i` on, or `None`
      when a round takes nothing. */
  function CutsFrom(us: seq<string>, n: nat, i: nat, L: Layout, numbers: bool): Option<nat>
    decreases |us|
  {
    var k := TakeAt(us, n, i, L, numbers);
    if k == |us| then Some(1)
    else if k == 0 then None
    else Shift(CutsFrom(us[k..], n, i + 1, L, numbers), 1)
  }

  /** When a pass from part `i` lays out the rest within the announced total
      as `q` parts, the emit loop cuts as many fragments. */
  lemma {:induction false} PassCuts(us: seq<string>, n: nat, i: nat, L: Layout, q: nat)
    requires PassWithin(us, n, i, L, q)
    ensures CutsFrom(us, n, i, L, true) == Some(q)
    decreases |us|
  {
    var k := TakeAt(us, n, i, L, true);
    FragmentMatchesPart(us, n, i, L, q);
    if k < |us| {
      PassCuts(us[k..], n, i + 1, L, q - 1);
    }
    CutsStep(us, n, i, L, q, k);
  }

  /** One round of the emit loop: a fragment that takes all the units is the
      last one, and one that takes some of them is followed by the cuts of
      the rest. */
  lemma {:induction false} CutsStep(us: seq<string>, n: nat, i: nat, L: Layout, q: nat, k: nat)
    requires k == TakeAt(us, n, i, L, true) && 1 <= k
    requires k == |us| ==> q == 1
    requires k < |us| ==> CutsFrom(us[k..], n, i + 1, L, true) == Some(q - 1)
    ensures CutsFrom(us, n, i, L, true) == Some(q)
  {
  }

  /** The emit loop returns fragments exactly when it cuts them, as many as
      it cuts. */
  lemma {:induction false} EmitCuts(us: seq<string>, n: nat, i: nat, L: Layout, numbers: bool)
    ensures EmitFrom(us, n, i, L, numbers).Messages? <==> CutsFrom(us, n, i, L, numbers).Some?
    ensures CutsFrom(us, n, i, L, numbers).Some? ==> |EmitFrom(us, n, i, L, numbers).messages| == CutsFrom(us, n, i, L, numbers).value
    decreases |us|
  {
    var k := TakeAt(us, n, i, L, numbers);
    if 0 < k < |us| {
      EmitCuts(us[k..], n, i + 1, L, numbers);
    }
  }

  /** Fragment `i` of `n` starts with its prefix and stays within the length
      limit. */
  ghost predicate FragmentOk(m: string, n: nat, i: nat, L: Layout, numbers: bool)
  {
    MessagePrefix(L, numbers, i, n) <= m && |m| <= L.maxLength
  }

  // ---------------------------------------------------------------------
  // Every fragment the emit loop returns fits.

  /** Each unit of a character split is one character. */
  predicate UnitsOk(us: seq<string>, unit: Unit)
  {
    unit == Char ==> forall j :: 0 <= j < |us| ==> |us[j]| == 1
  }

  lemma {:induction false} UnitsOkSuffix(us: seq<string>, unit: Unit, k: nat)
    requires UnitsOk(us, unit) && k <= |us|
    ensures UnitsOk(us[k..], unit)
  {
    if unit == Char {
      forall j | 0 <= j < |us[k..]|
        ensures |us[k..][j]| == 1
      {
        assert us[k..][j] == us[k + j];
      }
    }
  }

  /** `ms` are fragments `i`, `i + 1`, … of `n`, each starting with its prefix
      and within the length limit. */
  ghost predicate FramedRun(ms: seq<string>, n: nat, i: nat, L: Layout, numbers: bool)
  {
    forall j :: 0 <= j < |ms| ==> FragmentOk(ms[j], n, i + j, L, numbers)
  }

  lemma {:induction false} FramedCons(m: string, ms: seq<string>, n: nat, i: nat, L: Layout, numbers: bool)
    requires FragmentOk(m, n, i, L, numbers) && FramedRun(ms, n, i + 1, L, numbers)
    ensures FramedRun([m] + ms, n, i, L, numbers)
  {
    forall j | 0 <= j < |[m] + ms|
      ensures FragmentOk(([m] + ms)[j], n, i + j, L, numbers)
    {
      if j > 0 {
        assert ([m] + ms)[j] == ms[j - 1];
      }
    }
  }

  /** A blocked fragment never leads to a list of fragments. */
  lemma {:induction false} BlockedNotMessages(us: seq<string>, n: nat, i: nat, L: Layout, numbers: bool)
    ensures EmitFrom(us, n, i, L, numbers).Messages? ==> !Blocked(us, n, i, L, numbers)
    decreases |us|
  {
    if Blocked(us, n, i, L, numbers) {
      BlockedStep(us, n, i, L, numbers);
      EmitUnfold(us, n, i, L, numbers);
      var k := TakeAt(us, n, i, L, numbers);
      if k > 0 {
        BlockedNotMessages(us[k..], n, i + 1, L, numbers);
      }
    }
  }

  /** On the way to a list of fragments, fragment `i` takes at least one unit
      and fits. */
  lemma {:induction false} FirstFragmentFits(us: seq<string>, n: nat, i: nat, L: Layout, numbers: bool)
    requires us != [] && UnitsOk(us, L.unit)
    requires EmitFrom(us, n, i, L, numbers).Messages?
    ensures 1 <= TakeAt(us, n, i, L, numbers)
    ensures FragmentOk(FragmentAt(us, n, i, L, numbers), n, i, L, numbers)
  {
    BlockedNotMessages(us, n, i, L, numbers);
    PrefixLength(L, numbers, i, n);
    var prefix := MessagePrefix(L, numbers, i, n);
    var room := L.maxLength - PrefixWidth(L, numbers, i, n);
    var k := TakeAt(us, n, i, L, numbers);
    if L.unit != Char {
      assert Fit(us, room, 0, 0, SeparatorAfterUnit).count >= 1 by {
        assert |us[0]| <= room;
      }
    }
    TakenFits(us, L.unit, room);
    assert FragmentAt(us, n, i, L, numbers) == prefix + Join(us[..k], UnitSeparator(L.unit));
  }

  /** Every fragment of a list the emit loop returns starts with its prefix
      and stays within the length limit, whatever total it announces. */
  lemma {:induction false} EmitWithinLimit(us: seq<string>, n: nat, i: nat, L: Layout, numbers: bool)
    requires us != [] && UnitsOk(us, L.unit)
    requires EmitFrom(us, n, i, L, numbers).Messages?
    ensures FramedRun(EmitFrom(us, n, i, L, numbers).messages, n, i, L, numbers)
    decreases |us|
  {
    var k := TakeAt(us, n, i, L, numbers);
    var m := FragmentAt(us, n, i, L, numbers);
    assert 1 <= k && FragmentOk(m, n, i, L, numbers) by {
      FirstFragmentFits(us, n, i, L, numbers);
    }
    if k < |us| {
      var r := EmitFrom(us[k..], n, i + 1, L, numbers);
      assert EmitFrom(us, n, i, L, numbers) == Prepend([m], r) by {
        EmitUnfold(us, n, i, L, numbers);
      }
      assert r.Messages? && FramedRun(r.messages, n, i + 1, L, numbers) by {
        UnitsOkSuffix(us, L.unit, k);
        EmitWithinLimit(us[k..], n, i + 1, L, numbers);
      }
      FramedCons(m, r.messages, n, i, L, numbers);
    } else {
      assert EmitFrom(us, n, i, L, numbers) == Messages([m]) by {
        EmitUnfold(us, n, i, L, numbers);
      }
    }
  }

  // ---------------------------------------------------------------------
  // No text is lost or added.

  /** A fragment without its prefix. */
  function Strip(m: string, prefix: string): string
  {
    if prefix <= m then m[|prefix|..] else m
  }

  /** Fragments `i`, `i + 1`, … of `n` without their prefixes. */
  function Bodies(ms: seq<string>, n: nat, i: nat, L: Layout, numbers: bool): seq<string>
    decreases |ms|
  {
    if ms == [] then [] else [Strip(ms[0], MessagePrefix(L, numbers, i, n))] + Bodies(ms[1..], n, i + 1, L, numbers)
  }

  /** Joining two non-empty lists of units puts one separator between them. */
  lemma {:induction false} JoinAppend(a: seq<string>, b: seq<string>, sep: string)
    requires |a| >= 1 && |b| >= 1
    ensures Join(a + b, sep) == Join(a, sep) + sep + Join(b, sep)
    decreases |b|
  {
    var last := b[|b| - 1];
    var init := b[..|b| - 1];
    assert a + b == (a + init) + [last];
    assert b == init + [last];
    if |b| == 1 {
      assert a + init == a;
      JoinSnoc(a, last, sep);
    } else {
      JoinSnoc(a + init, last, sep);
      JoinAppend(a, init, sep);
      JoinSnoc(init, last, sep);
    }
  }

  /** Joining the characters of a text gives the text. */
  lemma {:induction false} JoinChars(body: string)
    ensures Join(Units(body, Char), "") == body
    decreases |body|
  {
    if |body| > 1 {
      var init := body[..|body| - 1];
      JoinChars(init);
      assert Units(body, Char)[..|body| - 1] == Units(init, Char);
      assert body == init + [body[|body| - 1]];
    } else if |body| == 1 {
      assert Units(body, Char) == [[body[0]]];
    }
  }

  /** Joining the units of a text with their separator gives the text. */
  lemma {:induction false} JoinUnits(body: string, unit: Unit)
    ensures Join(Units(body, unit), UnitSeparator(unit)) == body
  {
    match unit
    case Char => JoinChars(body);
    case Word => JoinSplitOn(body, ' ');
    case Line => JoinSplitOn(body, '\n');
  }

  /** A list the emit loop returns holds at least one fragment. */
  lemma {:induction false} MessagesNotEmpty(us: seq<string>, n: nat, i: nat, L: Layout, numbers: bool)
    requires EmitFrom(us, n, i, L, numbers).Messages?
    ensures |EmitFrom(us, n, i, L, numbers).messages| >= 1
  {
    EmitUnfold(us, n, i, L, numbers);
    var k := TakeAt(us, n, i, L, numbers);
    if k < |us| {
      assert EmitFrom(us[k..], n, i + 1, L, numbers).Messages?;
    }
  }

  /** The fragments' bodies, joined with the unit separator, are the units
      joined with it: the emit loop loses and adds nothing. */
  lemma {:induction false} EmitKeepsText(us: seq<string>, n: nat, i: nat, L: Layout, numbers: bool)
    requires EmitFrom(us, n, i, L, numbers).Messages?
    ensures Join(Bodies(EmitFrom(us, n, i, L, numbers).messages, n, i, L, numbers), UnitSeparator(L.unit)) == Join(us, UnitSeparator(L.unit))
    decreases |us|
  {
    var sep := UnitSeparator(L.unit);
    var k := TakeAt(us, n, i, L, numbers);
    var m := FragmentAt(us, n, i, L, numbers);
    var prefix := MessagePrefix(L, numbers, i, n);
    assert Strip(m, prefix) == Join(us[..k], sep) by {
      assert prefix <= m;
      assert m[|prefix|..] == Join(us[..k], sep);
    }
    EmitShape(us, n, i, L, numbers);
    if k == |us| {
      assert us[..k] == us;
      assert Bodies([m], n, i, L, numbers) == [Strip(m, prefix)];
    } else {
      var rest := EmitFrom(us[k..], n, i + 1, L, numbers).messages;
      MessagesNotEmpty(us[k..], n, i + 1, L, numbers);
      EmitKeepsText(us[k..], n, i + 1, L, numbers);
      BodiesJoinStep(us, k, m, rest, n, i, L, numbers);
    }
  }

  /** The bodies of a fragment that took the first `k` units and of the
      fragments that took the rest join to all the units. */
  lemma {:induction false} BodiesJoinStep(us: seq<string>, k: nat, m: string, rest: seq<string>,
                                          n: nat, i: nat, L: Layout, numbers: bool)
    requires 0 < k < |us| && rest != []
    requires Strip(m, MessagePrefix(L, numbers, i, n)) == Join(us[..k], UnitSeparator(L.unit))
    requires Join(Bodies(rest, n, i + 1, L, numbers), UnitSeparator(L.unit)) == Join(us[k..], UnitSeparator(L.unit))
    ensures Join(Bodies([m] + rest, n, i, L, numbers), UnitSeparator(L.unit)) == Join(us, UnitSeparator(L.unit))
  {
    var sep := UnitSeparator(L.unit);
    var later := Bodies(rest, n, i + 1, L, numbers);
    BodiesCons(m, rest, n, i, L, numbers);
    JoinAppend([Join(us[..k], sep)], later, sep);
    JoinAppend(us[..k], us[k..], sep);
    assert us[..k] + us[k..] == us;
  }

  /** The body of a first fragment, then the bodies of the rest. */
  lemma {:induction false} BodiesCons(m: string, rest: seq<string>, n: nat, i: nat, L: Layout, numbers: bool)
    ensures Bodies([m] + rest, n, i, L, numbers) == [Strip(m, MessagePrefix(L, numbers, i, n))] + Bodies(rest, n, i + 1, L, numbers)
  {
    assert ([m] + rest)[1..] == rest;
  }

  /** `split_text` loses and adds no text: the fragments without their
      prefixes, joined with the unit separator, are the body. */
  lemma {:induction false} SplitKeepsText(header: string, body: string, maxLength: int, unit: Unit, separator: string,
                                          numbers: bool, counting: Counting)
    requires !FitsInOne(header, body, maxLength, separator)
    requires Split(header, body, maxLength, unit, separator, numbers, counting).Messages?
    ensures var L := Layout(header, separator, maxLength, unit);
            var n := PartCount(body, L, numbers, counting).value;
            Join(Bodies(Split(header, body, maxLength, unit, separator, numbers, counting).messages, n, 1, L, numbers), UnitSeparator(unit)) == body
  {
    var L := Layout(header, separator, maxLength, unit);
    var n := PartCount(body, L, numbers, counting).value;
    EmitKeepsText(Units(body, unit), n, 1, L, numbers);
    JoinUnits(body, unit);
  }

  // ---------------------------------------------------------------------
  // When `split_text` raises, and what it returns otherwise.

  /** A pass ends only when the units run out, so a word or line that is
      longer than any part's free space makes the pass raise. */
  lemma {:induction false} LongUnitFails(us: seq<string>, total: nat, c: nat, L: Layout, counting: Counting, j: nat)
    requires L.unit != Char && 1 <= c && j < |us|
    requires |us[j]| > L.maxLength - (FixedLength(L) + 2)
    ensures PassFrom(us, total, c, L, counting) == None
    decreases |us|
  {
    var room := Room(L, total, c);
    var t := Take(us, L.unit, room, counting);
    if room > 0 && !Overlong(us, L.unit, t.count, room) {
      assert t.count < j by {
        if j < t.count {
          FitUnitWithin(us, room, 0, 0, counting, j);
        }
      }
      assert PartStep(us, total, c, L, counting) == NextPart(t.count);
      assert us[t.count..][j - t.count] == us[j];
      LongUnitFails(us[t.count..], total, c + 1, L, counting, j - t.count);
    }
  }

  /** `split_text` with part numbers raises when not even the first part's
      prefix leaves room (line 32), or when some word or line cannot fit into
      any part (line 41); without part numbers it never raises. */
  lemma {:induction false} SplitFails(header: string, body: string, maxLength: int, unit: Unit, separator: string,
                                      numbers: bool, counting: Counting)
    ensures var L := Layout(header, separator, maxLength, unit);
            var us := Units(body, unit);
            numbers && !FitsInOne(header, body, maxLength, separator)
            && ((us != [] && FixedLength(L) + 2 >= maxLength)
                || (unit != Char && exists j :: 0 <= j < |us| && |us[j]| > maxLength - (FixedLength(L) + 2)))
            ==> Split(header, body, maxLength, unit, separator, numbers, counting) == Failed
    ensures !numbers ==> !Split(header, body, maxLength, unit, separator, numbers, counting).Failed?
  {
    var L := Layout(header, separator, maxLength, unit);
    var us := Units(body, unit);
    if numbers && !FitsInOne(header, body, maxLength, separator) {
      if us != [] && FixedLength(L) + 2 >= maxLength {
        assert PartStep(us, 0, 1, L, counting) == Raise;
      } else if unit != Char && exists j :: 0 <= j < |us| && |us[j]| > maxLength - (FixedLength(L) + 2) {
        var j :| 0 <= j < |us| && |us[j]| > maxLength - (FixedLength(L) + 2);
        LongUnitFails(us, 0, 1, L, counting, j);
      }
    }
    if !numbers && !FitsInOne(header, body, maxLength, separator) {
      EmitNeverFails(us, 0, 1, L, false);
    }
  }

  /** The emit loop never raises. */
  lemma {:induction false} EmitNeverFails(us: seq<string>, n: nat, i: nat, L: Layout, numbers: bool)
    ensures !EmitFrom(us, n, i, L, numbers).Failed?
    decreases |us|
  {
    var k := TakeAt(us, n, i, L, numbers);
    EmitUnfold(us, n, i, L, numbers);
    if 0 < k < |us| {
      EmitNeverFails(us[k..], n, i + 1, L, numbers);
    }
  }

  /** A word or line longer than a fragment's free space stops the emit loop
      there for good. */
  lemma {:induction false} LongUnitDiverges(us: seq<string>, n: nat, i: nat, L: Layout, numbers: bool, j: nat)
    requires L.unit != Char && j < |us|
    requires |us[j]| > L.maxLength - PrefixWidth(L, numbers, i, n)
    ensures EmitFrom(us, n, i, L, numbers) == Diverges
    decreases |us|
  {
    var k := TakeAt(us, n, i, L, numbers);
    LongUnitStays(us, n, i, L, numbers, j);
    if k > 0 {
      PrefixGrows(L, numbers, i, n);
      assert us[k..][j - k] == us[j];
      LongUnitDiverges(us[k..], n, i + 1, L, numbers, j - k);
      DivergesStep(us, n, i, L, numbers, k);
    }
  }

  /** Fragment `i` stops before a unit longer than its free space. */
  lemma {:induction false} LongUnitStays(us: seq<string>, n: nat, i: nat, L: Layout, numbers: bool, j: nat)
    requires L.unit != Char && j < |us|
    requires |us[j]| > L.maxLength - PrefixWidth(L, numbers, i, n)
    ensures TakeAt(us, n, i, L, numbers) <= j
  {
    var room := L.maxLength - PrefixWidth(L, numbers, i, n);
    if j < TakeAt(us, n, i, L, numbers) {
      FitUnitWithin(us, room, 0, 0, SeparatorAfterUnit, j);
    }
  }

  /** A round that takes some units but not all diverges when the rounds
      after it do. */
  lemma {:induction false} DivergesStep(us: seq<string>, n: nat, i: nat, L: Layout, numbers: bool, k: nat)
    requires k == TakeAt(us, n, i, L, numbers) && 0 < k < |us|
    requires EmitFrom(us[k..], n, i + 1, L, numbers) == Diverges
    ensures EmitFrom(us, n, i, L, numbers) == Diverges
  {
    EmitUnfold(us, n, i, L, numbers);
  }

  /** Without part numbers nothing checks the units first, so a word or line
      that does not fit after the header makes `split_text` loop forever. */
  lemma {:induction false} UnnumberedLongUnitDiverges(header: string, body: string, maxLength: int, unit: Unit, separator: string,
                                                      counting: Counting, j: nat)
    requires unit != Char && !FitsInOne(header, body, maxLength, separator)
    requires j < |Units(body, unit)|
    requires |Units(body, unit)[j]| > maxLength - |MessagePrefix(Layout(header, separator, maxLength, unit), false, 1, 0)|
    ensures Split(header, body, maxLength, unit, separator, false, counting) == Diverges
  {
    PrefixLength(Layout(header, separator, maxLength, unit), false, 1, 0);
    LongUnitDiverges(Units(body, unit), 0, 1, Layout(header, separator, maxLength, unit), false, j);
  }

  /** Every fragment `split_text` returns stays within the length limit and
      starts with its prefix, unless a character split of an empty body
      leaves nothing to measure (`EmptyBodyOverLimit`). */
  lemma {:induction false} SplitWithinLimit(header: string, body: string, maxLength: int, unit: Unit, separator: string,
                                            numbers: bool, counting: Counting)
    requires body != "" || unit != Char
    requires Split(header, body, maxLength, unit, separator, numbers, counting).Messages?
    ensures var ms := Split(header, body, maxLength, unit, separator, numbers, counting).messages;
            forall j :: 0 <= j < |ms| ==> |ms[j]| <= maxLength
  {
    if !FitsInOne(header, body, maxLength, separator) {
      var L := Layout(header, separator, maxLength, unit);
      var n := PartCount(body, L, numbers, counting).value;
      EmitWithinLimit(Units(body, unit), n, 1, L, numbers);
    }
  }

  /** A character split of an empty body that does not fit returns one
      fragment holding only the prefix, numbered `1/0`, and longer than the
      limit. */
  lemma {:induction false} EmptyBodyOverLimit(header: string, maxLength: int, separator: string, numbers: bool, counting: Counting)
    requires !FitsInOne(header, "", maxLength, separator)
    ensures var L := Layout(header, separator, maxLength, Char);
            var p := MessagePrefix(L, numbers, 1, 0);
            Split(header, "", maxLength, Char, separator, numbers, counting) == Messages([p])
            && (numbers || header != "" ==> |p| > maxLength)
  {
    var L := Layout(header, separator, maxLength, Char);
    var us := Units("", Char);
    assert us == [];
    if numbers {
      assert PartStep(us, 0, 1, L, counting) == PassEnds;
      PreCountNext(us, 0, L, counting);
    }
    PrefixLength(L, numbers, 1, 0);
    assert PartCount("", L, numbers, counting) == Some(0);
    var p := MessagePrefix(L, numbers, 1, 0);
    assert us[..0] == [] && p + "" == p;
    assert FragmentAt(us, 0, 1, L, numbers) == p;
    assert EmitFrom(us, 0, 1, L, numbers) == Messages([p]);
  }

  /** With part numbers and at least one unit, the corrected `split_text`
      either raises or returns fragments numbered `1/n` … `n/n` where `n` is
      the number of fragments, each within the length limit. */
  lemma {:induction false} NumberedPartsAgree(header: string, body: string, maxLength: int, unit: Unit, separator: string)
    requires !FitsInOne(header, body, maxLength, separator) && (body != "" || unit != Char)
    requires !Split(header, body, maxLength, unit, separator, true, SeparatorAfterUnit).Failed?
    ensures var L := Layout(header, separator, maxLength, unit);
            var r := Split(header, body, maxLength, unit, separator, true, SeparatorAfterUnit);
            r.Messages? && PartCount(body, L, true, SeparatorAfterUnit) == Some(|r.messages|)
            && FramedRun(r.messages, |r.messages|, 1, L, true)
  {
    var L := Layout(header, separator, maxLength, unit);
    var us := Units(body, unit);
    PreCountFixed(us, 0, L);
    var n := PreCountFrom(us, 0, L, SeparatorAfterUnit).value;
    PassCuts(us, n, 1, L, n);
    EmitCuts(us, n, 1, L, true);
    EmitWithinLimit(us, n, 1, L, true);
  }

  // ---------------------------------------------------------------------
  // `Diverges` is a loop that never ends.

  /** The emit loop as written, run for at most `fuel` rounds: `None` when
      the rounds run out before the units do.  A round that takes nothing
      starts the next one from the same units. */
  function EmitRounds(us: seq<string>, n: nat, i: nat, L: Layout, numbers: bool, fuel: nat): Option<seq<string>>
    decreases fuel
  {
    if fuel == 0 then None
    else
      var k := TakeAt(us, n, i, L, numbers);
      var m := FragmentAt(us, n, i, L, numbers);
      if k == |us| then Some([m])
      else
        match EmitRounds(us[k..], n, i + 1, L, numbers, fuel - 1)
        case None => None
        case Some(ms) => Some([m] + ms)
  }

  /** Fragment `i` has no room: for characters, not one character fits; for
      words and lines, the first unit is longer than the free space. */
  predicate Blocked(us: seq<string>, n: nat, i: nat, L: Layout, numbers: bool)
  {
    var room := L.maxLength - PrefixWidth(L, numbers, i, n);
    us != [] && (if L.unit == Char then room <= 0 else |us[0]| > room)
  }

  /** Later fragments never have a shorter prefix. */
  lemma {:induction false} PrefixGrows(L: Layout, numbers: bool, i: nat, n: nat)
    ensures PrefixWidth(L, numbers, i, n) <= PrefixWidth(L, numbers, i + 1, n)
  {
    DigitsMonotone(i, i + 1);
  }

  /** A blocked fragment does not take all units, and leaves the next
      fragment blocked. */
  lemma {:induction false} BlockedStep(us: seq<string>, n: nat, i: nat, L: Layout, numbers: bool)
    requires Blocked(us, n, i, L, numbers)
    ensures TakeAt(us, n, i, L, numbers) < |us|
    ensures Blocked(us[TakeAt(us, n, i, L, numbers)..], n, i + 1, L, numbers)
  {
    PrefixGrows(L, numbers, i, n);
    var k := TakeAt(us, n, i, L, numbers);
    if L.unit != Char {
      assert k == 0;
      assert us[k..] == us;
    }
  }

  /** From a blocked fragment on, the emit loop never ends. */
  lemma {:induction false} BlockedNeverEnds(us: seq<string>, n: nat, i: nat, L: Layout, numbers: bool, fuel: nat)
    requires Blocked(us, n, i, L, numbers)
    ensures EmitRounds(us, n, i, L, numbers, fuel) == None
    decreases fuel
  {
    if fuel > 0 {
      BlockedStep(us, n, i, L, numbers);
      var k := TakeAt(us, n, i, L, numbers);
      BlockedNeverEnds(us[k..], n, i + 1, L, numbers, fuel - 1);
    }
  }

  /** When the model says `Diverges`, no number of rounds of the loop as
      written ends it. */
  lemma {:induction false} DivergesNeverEnds(us: seq<string>, n: nat, i: nat, L: Layout, numbers: bool, fuel: nat)
    requires EmitFrom(us, n, i, L, numbers) == Diverges
    ensures EmitRounds(us, n, i, L, numbers, fuel) == None
    decreases |us|
  {
    var k := TakeAt(us, n, i, L, numbers);
    EmitUnfold(us, n, i, L, numbers);
    if k == 0 {
      assert Blocked(us, n, i, L, numbers);
      BlockedNeverEnds(us, n, i, L, numbers, fuel);
    } else if fuel > 0 {
      assert EmitFrom(us[k..], n, i + 1, L, numbers) == Diverges;
      DivergesNeverEnds(us[k..], n, i + 1, L, numbers, fuel - 1);
    }
  }

  /** When the model returns fragments, the loop as written ends after one
      round per fragment with the same fragments. */
  lemma {:induction false} MessagesEnd(us: seq<string>, n: nat, i: nat, L: Layout, numbers: bool)
    requires EmitFrom(us, n, i, L, numbers).Messages?
    ensures EmitRounds(us, n, i, L, numbers, |EmitFrom(us, n, i, L, numbers).messages|) == Some(EmitFrom(us, n, i, L, numbers).messages)
    decreases |us|
  {
    var k := TakeAt(us, n, i, L, numbers);
    var ms := EmitFrom(us, n, i, L, numbers).messages;
    EmitShape(us, n, i, L, numbers);
    if k < |us| {
      var rest := EmitFrom(us[k..], n, i + 1, L, numbers).messages;
      MessagesEnd(us[k..], n, i + 1, L, numbers);
      RoundsStep(us, n, i, L, numbers, rest);
      assert |ms| == |rest| + 1;
    }
  }

  /** The fragments the model returns: the fragment of this round, alone
      when it takes every unit, and otherwise followed by the fragments of
      the rest. */
  lemma {:induction false} EmitShape(us: seq<string>, n: nat, i: nat, L: Layout, numbers: bool)
    requires EmitFrom(us, n, i, L, numbers).Messages?
    ensures var k := TakeAt(us, n, i, L, numbers);
            var m := FragmentAt(us, n, i, L, numbers);
            && (k == |us| ==> EmitFrom(us, n, i, L, numbers).messages == [m])
            && (k < |us| ==> 0 < k && EmitFrom(us[k..], n, i + 1, L, numbers).Messages?
                             && EmitFrom(us, n, i, L, numbers).messages == [m] + EmitFrom(us[k..], n, i + 1, L, numbers).messages)
  {
    EmitUnfold(us, n, i, L, numbers);
  }

  /** A round that leaves units over is followed by the rounds for the rest. */
  lemma {:induction false} RoundsStep(us: seq<string>, n: nat, i: nat, L: Layout, numbers: bool, rest: seq<string>)
    requires TakeAt(us, n, i, L, numbers) < |us|
    requires EmitRounds(us[TakeAt(us, n, i, L, numbers)..], n, i + 1, L, numbers, |rest|) == Some(rest)
    ensures EmitRounds(us, n, i, L, numbers, |rest| + 1) == Some([FragmentAt(us, n, i, L, numbers)] + rest)
  {
  }

  /** The pre-count as written ends a part's separator count at content, so
      an empty first line rides along with the next one; the emit loop puts a
      separator after it and needs one more fragment than announced. */
  lemma {:induction false} NumberingMismatch()
    ensures Split("", "\na\na\na", 4, Line, "", true, SeparatorAfterContent) == Messages(["1/3", "2/3a", "3/3a", "4/3a"])
  {
    ExampleSplit();
    ExampleEmit();
    ExampleList(Split("", "\na\na\na", 4, Line, "", true, SeparatorAfterContent));
  }

  /** The example is cut by the emit loop with the as-written total 3. */
  lemma {:induction false} ExampleSplit()
    ensures Split("", "\na\na\na", 4, Line, "", true, SeparatorAfterContent) == EmitFrom(["", "a", "a", "a"], 3, 1, Layout("", "", 4, Line), true)
  {
    ExampleUnits();
    ExampleCount();
    SplitNumbered("", "\na\na\na", 4, Line, "", SeparatorAfterContent, 3);
  }

  /** The example's emit loop with total 3 cuts one fragment per line. */
  lemma {:induction false} ExampleEmit()
    ensures var r := EmitFrom(["", "a", "a", "a"], 3, 1, Layout("", "", 4, Line), true);
            r.Messages? && ExampleRun(r.messages, ["", "a", "a", "a"], 1)
  {
    ExampleEmitFrom(["", "a", "a", "a"], 1);
  }

  /** A numbered split that does not fit in one message is the emit loop run
      with the pre-count's total. */
  lemma {:induction false} SplitNumbered(header: string, body: string, maxLength: int, unit: Unit, separator: string,
                                         counting: Counting, n: nat)
    requires !FitsInOne(header, body, maxLength, separator)
    requires PreCountFrom(Units(body, unit), 0, Layout(header, separator, maxLength, unit), counting) == Some(n)
    ensures Split(header, body, maxLength, unit, separator, true, counting)
            == EmitFrom(Units(body, unit), n, 1, Layout(header, separator, maxLength, unit), true)
  {
  }

  lemma {:induction false} ExampleUnits()
    ensures Units("\na\na\na", Line) == ["", "a", "a", "a"]
  {
    var t1 := "\n";
    var t2 := t1 + "a";
    var t3 := t2 + "\n";
    var t4 := t3 + "a";
    var t5 := t4 + "\n";
    var t6 := t5 + "a";
    assert t1[..0] == "" && t2[..1] == t1 && t3[..2] == t2 && t4[..3] == t3 && t5[..4] == t4 && t6[..5] == t5;
    assert SplitOn(t1, '\n') == ["", ""];
    assert ["", ""][..1] == [""] && "" + ['a'] == "a";
    assert SplitOn(t2, '\n') == ["", "a"];
    assert SplitOn(t3, '\n') == ["", "a", ""];
    assert ["", "a", ""][..2] == ["", "a"];
    assert SplitOn(t4, '\n') == ["", "a", "a"];
    assert SplitOn(t5, '\n') == ["", "a", "a", ""];
    assert ["", "a", "a", ""][..3] == ["", "a", "a"];
    assert SplitOn(t6, '\n') == ["", "a", "a", "a"];
    assert t6 == "\na\na\na";
  }

  /** In the example every numbered prefix has three characters. */
  lemma {:induction false} ExamplePrefix(i: nat, n: nat)
    requires 1 <= i <= 9 && 1 <= n <= 9
    ensures MessagePrefix(Layout("", "", 4, Line), true, i, n) == [DigitChar(i)] + "/" + [DigitChar(n)]
  {
  }

  /** The as-written pre-count of the example lays out three parts, whatever
      total it starts from. */
  lemma {:induction false} ExampleCount()
    ensures PreCountFrom(["", "a", "a", "a"], 0, Layout("", "", 4, Line), SeparatorAfterContent) == Some(3)
  {
    var us := ["", "a", "a", "a"];
    var L := Layout("", "", 4, Line);
    ExamplePass(0);
    ExamplePass(3);
    PreCountNext(us, 0, L, SeparatorAfterContent);
    PreCountNext(us, 3, L, SeparatorAfterContent);
  }

  lemma {:induction false} ExamplePass(total: nat)
    requires total == 0 || total == 3
    ensures PassFrom(["", "a", "a", "a"], total, 1, Layout("", "", 4, Line), SeparatorAfterContent) == Some(3)
  {
    ExampleFirstPart(total);
    ExampleLaterParts(total);
    assert ["", "a", "a", "a"][2..] == ["a", "a"] && ["a", "a"][1..] == ["a"] && ["a"][1..] == [];
  }

  /** In the example the first part takes the empty line and the next one. */
  lemma {:induction false} ExampleFirstPart(total: nat)
    requires total == 0 || total == 3
    ensures PartStep(["", "a", "a", "a"], total, 1, Layout("", "", 4, Line), SeparatorAfterContent) == NextPart(2)
  {
    assert Fit(["", "a", "a", "a"], 1, 2, 1, SeparatorAfterContent) == Taken(2, 1);
    assert Fit(["", "a", "a", "a"], 1, 0, 0, SeparatorAfterContent) == Taken(2, 1);
  }

  /** In the example each later line is a part of its own, and the pass ends
      after them. */
  lemma {:induction false} ExampleLaterParts(total: nat)
    requires total == 0 || total == 3
    ensures PartStep(["a", "a"], total, 2, Layout("", "", 4, Line), SeparatorAfterContent) == NextPart(1)
    ensures PartStep(["a"], total, 3, Layout("", "", 4, Line), SeparatorAfterContent) == NextPart(1)
    ensures PartStep([], total, 4, Layout("", "", 4, Line), SeparatorAfterContent) == PassEnds
  {
    assert Fit(["a", "a"], 1, 0, 0, SeparatorAfterContent) == Taken(1, 1);
    assert Fit(["a"], 1, 0, 0, SeparatorAfterContent) == Taken(1, 1);
  }

  /** Fragment `i` of 3 in the example: its prefix and one unit. */
  lemma {:induction false} ExampleFragment(rest: seq<string>, i: nat)
    requires 1 <= i <= 4 && 1 <= |rest| <= 4
    requires rest[0] == "" || rest[0] == "a"
    requires forall j :: 1 <= j < |rest| ==> rest[j] == "a"
    ensures TakeAt(rest, 3, i, Layout("", "", 4, Line), true) == 1
    ensures FragmentAt(rest, 3, i, Layout("", "", 4, Line), true) == MessagePrefix(Layout("", "", 4, Line), true, i, 3) + rest[0]
  {
    var L := Layout("", "", 4, Line);
    var c := SeparatorAfterUnit;
    ExamplePrefix(i, 3);
    assert PrefixWidth(L, true, i, 3) == 3;
    var t := Fit(rest, 1, 1, |rest[0]|, c);
    assert t == Taken(1, |rest[0]|) by {
      if |rest| > 1 {
        assert |rest[1]| == 1;
      }
    }
    assert Fit(rest, 1, 0, 0, c) == t;
    assert rest[..1] == [rest[0]];
  }

  /** `ms` holds one fragment per unit of `rest`, numbered out of 3 from `i`. */
  ghost predicate ExampleRun(ms: seq<string>, rest: seq<string>, i: nat)
  {
    |ms| == |rest| && forall j :: 0 <= j < |rest| ==> ms[j] == MessagePrefix(Layout("", "", 4, Line), true, i + j, 3) + rest[j]
  }

  lemma {:induction false} ExampleRunCons(m: string, ms: seq<string>, rest: seq<string>, i: nat)
    requires 1 <= |rest| && ExampleRun(ms, rest[1..], i + 1)
    requires m == MessagePrefix(Layout("", "", 4, Line), true, i, 3) + rest[0]
    ensures ExampleRun([m] + ms, rest, i)
  {
    forall j | 0 <= j < |rest|
      ensures ([m] + ms)[j] == MessagePrefix(Layout("", "", 4, Line), true, i + j, 3) + rest[j]
    {
      if j > 0 {
        assert ([m] + ms)[j] == ms[j - 1] && rest[j] == rest[1..][j - 1];
      }
    }
  }

  /** The example's emit loop cuts one fragment per unit, numbered out of 3. */
  lemma {:induction false} ExampleEmitFrom(rest: seq<string>, i: nat)
    requires 1 <= i && i + |rest| == 5 && 1 <= |rest|
    requires rest[0] == "" || rest[0] == "a"
    requires forall j :: 1 <= j < |rest| ==> rest[j] == "a"
    ensures EmitFrom(rest, 3, i, Layout("", "", 4, Line), true).Messages?
    ensures ExampleRun(EmitFrom(rest, 3, i, Layout("", "", 4, Line), true).messages, rest, i)
    decreases |rest|
  {
    var L := Layout("", "", 4, Line);
    var m := FragmentAt(rest, 3, i, L, true);
    assert m == MessagePrefix(L, true, i, 3) + rest[0] && TakeAt(rest, 3, i, L, true) == 1 by {
      ExampleFragment(rest, i);
    }
    if |rest| > 1 {
      var r := EmitFrom(rest[1..], 3, i + 1, L, true);
      assert r.Messages? && ExampleRun(r.messages, rest[1..], i + 1) by {
        var tail := rest[1..];
        assert forall j :: 0 <= j < |tail| ==> tail[j] == "a" by {
          forall j | 0 <= j < |tail|
            ensures tail[j] == "a"
          {
            assert tail[j] == rest[j + 1];
          }
        }
        ExampleEmitFrom(tail, i + 1);
      }
      assert EmitFrom(rest, 3, i, L, true) == Prepend([m], r) by {
        EmitUnfold(rest, 3, i, L, true);
      }
      ExampleRunCons(m, r.messages, rest, i);
    } else {
      assert EmitFrom(rest, 3, i, L, true) == Messages([m]) by {
        EmitUnfold(rest, 3, i, L, true);
      }
    }
  }

  /** Four fragments with these prefixes and units are the example's list. */
  lemma {:induction false} ExampleList(r: Outcome)
    requires r.Messages? && ExampleRun(r.messages, ["", "a", "a", "a"], 1)
    ensures r == Messages(["1/3", "2/3a", "3/3a", "4/3a"])
  {
    var ms := r.messages;
    ExamplePrefix(1, 3);
    ExamplePrefix(2, 3);
    ExamplePrefix(3, 3);
    ExamplePrefix(4, 3);
    assert ms[0] == [DigitChar(1)] + "/3" + "" == "1/3";
    assert ms[1] == [DigitChar(2)] + "/3" + "a" == "2/3a";
    assert ms[2] == [DigitChar(3)] + "/3" + "a" == "3/3a";
    assert ms[3] == [DigitChar(4)] + "/3" + "a" == "4/3a";
  }
}

=== FILE: states.dfy ===
/** Multi-step form state kept per (chat, user) (tgbot/states.py). A states
    group is a table whose first four columns are the mixin's own (`id`,
    `chat_id`, `user_id`, `current_state`); the remaining columns are the
    form's fields, filled in declaration order, and `current_state` names the
    next field to fill. The database is an in-memory list of rows. */
module States {
  import opened Common

  // ---------------------------------------------------------------------------
  // class_to_table_name

  predicate IsUpperAscii(c: char) { 'A' <= c <= 'Z' }

  predicate IsLowerAscii(c: char) { 'a' <= c <= 'z' }

  predicate IsDigitAscii(c: char) { '0' <= c <= '9' }

  /** The length of the run of ASCII lower-case letters `[a-z]+` at the start
      of `s` (the greedy `+`). */
  function LowerRun(s: string): (k: nat)
    ensures k <= |s|
    ensures forall i :: 0 <= i < k ==> IsLowerAscii(s[i])
    ensures k < |s| ==> !IsLowerAscii(s[k])
  {
    if s != [] && IsLowerAscii(s[0]) then 1 + LowerRun(s[1..]) else 0
  }

  /** `re.sub('(.)([A-Z][a-z]+)', r'\1_\2', s)`: scanning from the left, a
      character other than a newline followed by a capitalised word gets an
      underscore between the two; the scan resumes after the word. */
  function WordStartSub(s: string): (r: string)
    decreases |s|
  {
    if |s| >= 3 && s[0] != '\n' && IsUpperAscii(s[1]) && IsLowerAscii(s[2]) then
      var k := LowerRun(s[2..]);
      assert 3 <= 2 + k <= |s|;
      [s[0], '_'] + s[1..2 + k] + WordStartSub(s[2 + k..])
    else if s == [] then []
    else [s[0]] + WordStartSub(s[1..])
  }

  /** `re.sub('([a-z0-9])([A-Z])', r'\1_\2', s)`: an underscore between a
      lower-case letter or digit and the capital after it. */
  function WordEndSub(s: string): (r: string)
    decreases |s|
  {
    if |s| >= 2 && (IsLowerAscii(s[0]) || IsDigitAscii(s[0])) && IsUpperAscii(s[1]) then
      [s[0], '_', s[1]] + WordEndSub(s[2..])
    else if s == [] then []
    else [s[0]] + WordEndSub(s[1..])
  }

  /** `class_to_table_name`. */
  function ClassToTableName(className: string): string
  {
    Lower(WordEndSub(WordStartSub(className)))
  }

  /** `StateMixin.__tablename__`: the converted class name with `_state`. */
  function StateTableName(className: string): (name: string)
    ensures |name| == |ClassToTableName(className)| + 6
    ensures name[|name| - 6..] == "_state"
  {
    ClassToTableName(className) + "_state"
  }

  /** `s` with every underscore removed. */
  function DropUnderscores(s: string): (r: string)
    ensures |r| <= |s|
  {
    if s == [] then [] else (if s[0] == '_' then [] else [s[0]]) + DropUnderscores(s[1..])
  }

  lemma {:induction false} DropUnderscoresAppend(a: string, b: string)
    ensures DropUnderscores(a + b) == DropUnderscores(a) + DropUnderscores(b)
    decreases |a|
  {
    if a != [] {
      assert (a + b)[1..] == a[1..] + b;
      DropUnderscoresAppend(a[1..], b);
    } else {
      assert a + b == b;
    }
  }

  /** The first substitution only inserts underscores. */
  lemma {:induction false} WordStartSubInsertsUnderscores(s: string)
    ensures DropUnderscores(WordStartSub(s)) == DropUnderscores(s)
    decreases |s|
  {
    if |s| >= 3 && s[0] != '\n' && IsUpperAscii(s[1]) && IsLowerAscii(s[2]) {
      var k := LowerRun(s[2..]);
      WordStartSubInsertsUnderscores(s[2 + k..]);
      DropUnderscoresAppend([s[0], '_'] + s[1..2 + k], WordStartSub(s[2 + k..]));
      DropUnderscoresAppend([s[0], '_'], s[1..2 + k]);
      DropUnderscoresAppend([s[0]], ['_']);
      assert s == [s[0]] + s[1..2 + k] + s[2 + k..];
      DropUnderscoresAppend([s[0]] + s[1..2 + k], s[2 + k..]);
      DropUnderscoresAppend([s[0]], s[1..2 + k]);
    } else if s != [] {
      WordStartSubInsertsUnderscores(s[1..]);
      DropUnderscoresAppend([s[0]], WordStartSub(s[1..]));
      assert s == [s[0]] + s[1..];
      DropUnderscoresAppend([s[0]], s[1..]);
    }
  }

  lemma {:induction false} DropUnderscoresCons(c: char, t: string)
    ensures DropUnderscores([c] + t) == (if c == '_' then [] else [c]) + DropUnderscores(t)
  {
    assert ([c] + t)[1..] == t;
  }

  /** The second substitution only inserts underscores. */
  lemma {:induction false} WordEndSubInsertsUnderscores(s: string)
    ensures DropUnderscores(WordEndSub(s)) == DropUnderscores(s)
    decreases |s|
  {
    if |s| >= 2 && (IsLowerAscii(s[0]) || IsDigitAscii(s[0])) && IsUpperAscii(s[1]) {
      WordEndSubInsertsUnderscores(s[2..]);
      WordEndMatchStep(s);
    } else if s != [] {
      WordEndSubInsertsUnderscores(s[1..]);
      WordEndKeepStep(s);
    }
  }

  /** A match: the underscore inserted between the two characters drops out. */
  lemma {:induction false} WordEndMatchStep(s: string)
    requires |s| >= 2 && (IsLowerAscii(s[0]) || IsDigitAscii(s[0])) && IsUpperAscii(s[1])
    requires DropUnderscores(WordEndSub(s[2..])) == DropUnderscores(s[2..])
    ensures DropUnderscores(WordEndSub(s)) == DropUnderscores(s)
  {
    var w, rest := WordEndSub(s[2..]), s[2..];
    assert WordEndSub(s) == [s[0], '_', s[1]] + w;
    assert s == [s[0], s[1]] + rest;
    DropAroundUnderscore(s[0], s[1], w);
    DropAroundUnderscore(s[0], s[1], rest);
  }

  /** Dropping underscores from two other characters, with or without an
      underscore between them, in front of `t`. */
  lemma {:induction false} DropAroundUnderscore(c0: char, c1: char, t: string)
    requires c0 != '_' && c1 != '_'
    ensures DropUnderscores([c0, '_', c1] + t) == [c0, c1] + DropUnderscores(t)
    ensures DropUnderscores([c0, c1] + t) == [c0, c1] + DropUnderscores(t)
  {
    var u := [c1] + t;
    assert DropUnderscores(u) == [c1] + DropUnderscores(t) by {
      DropUnderscoresCons(c1, t);
    }
    assert DropUnderscores([c0, c1] + t) == [c0] + DropUnderscores(u) by {
      assert [c0, c1] + t == [c0] + u;
      DropUnderscoresCons(c0, u);
    }
    assert DropUnderscores([c0, '_', c1] + t) == [c0] + DropUnderscores(u) by {
      var v := ['_'] + u;
      assert [c0, '_', c1] + t == [c0] + v;
      DropUnderscoresCons(c0, v);
      DropUnderscoresCons('_', u);
    }
  }

  /** No match at the start: the first character is kept. */
  lemma {:induction false} WordEndKeepStep(s: string)
    requires s != [] && !(|s| >= 2 && (IsLowerAscii(s[0]) || IsDigitAscii(s[0])) && IsUpperAscii(s[1]))
    requires DropUnderscores(WordEndSub(s[1..])) == DropUnderscores(s[1..])
    ensures DropUnderscores(WordEndSub(s)) == DropUnderscores(s)
  {
    assert WordEndSub(s) == [s[0]] + WordEndSub(s[1..]);
    DropUnderscoresCons(s[0], WordEndSub(s[1..]));
    assert s == [s[0]] + s[1..];
    DropUnderscoresCons(s[0], s[1..]);
  }

  lemma {:induction false} LowerDropUnderscores(s: string)
    ensures DropUnderscores(Lower(s)) == Lower(DropUnderscores(s))
    decreases |s|
  {
    if s != [] {
      assert Lower(s) == [LowerChar(s[0])] + Lower(s[1..]);
      LowerDropUnderscores(s[1..]);
      DropUnderscoresAppend([LowerChar(s[0])], Lower(s[1..]));
      if s[0] != '_' {
        assert Lower([s[0]] + DropUnderscores(s[1..])) == [LowerChar(s[0])] + Lower(DropUnderscores(s[1..]));
      }
    }
  }

  /** The table name is the lower-cased class name with underscores inserted
      and nothing else changed: removing the underscores from both gives the
      same text. */
  lemma {:induction false} TableNameOnlyInsertsUnderscores(className: string)
    ensures DropUnderscores(ClassToTableName(className)) == Lower(DropUnderscores(className))
  {
    WordStartSubInsertsUnderscores(className);
    WordEndSubInsertsUnderscores(WordStartSub(className));
    LowerDropUnderscores(WordEndSub(WordStartSub(className)));
  }

  predicate NoUpperAscii(s: string)
  {
    forall i :: 0 <= i < |s| ==> !IsUpperAscii(s[i])
  }

  /** Without capitals neither substitution finds a match. */
  lemma {:induction false} SubsIdentityWithoutCapitals(s: string)
    requires NoUpperAscii(s)
    ensures WordStartSub(s) == s && WordEndSub(s) == s
    decreases |s|
  {
    if s != [] {
      SubsIdentityWithoutCapitals(s[1..]);
      assert s == [s[0]] + s[1..];
    }
  }

  /** The table name holds no capital letter, and converting it again changes
      nothing. */
  lemma {:induction false} TableNameIdempotent(className: string)
    ensures NoUpperAscii(ClassToTableName(className))
    ensures ClassToTableName(ClassToTableName(className)) == ClassToTableName(className)
  {
    var t := ClassToTableName(className);
    SubsIdentityWithoutCapitals(t);
    assert Lower(t) == t;
  }

  /** No lower-case letter or digit is directly followed by a capital. */
  lemma {:induction false} NoCapitalAfterLower(s: string)
    requires forall i :: 0 <= i < |s| - 1 ==> !((IsLowerAscii(s[i]) || IsDigitAscii(s[i])) && IsUpperAscii(s[i + 1]))
    ensures WordEndSub(s) == s
    decreases |s|
  {
    if s != [] {
      NoCapitalAfterLower(s[1..]);
      assert s == [s[0]] + s[1..];
    }
  }

  // ---------------------------------------------------------------------------
  // StatesGroup

  /** `DEFAULT_USER_ID`: the row shared by every user of a chat. */
  const DefaultUserId := 0

  /** `STATE_MIXIN_COLUMNS`: the mixin's public attributes (`id`, `chat_id`,
      `user_id`, `current_state`). */
  const StateMixinColumns := 4

  datatype StateError =
    | NoFormColumn       // IndexError: the table declares no column of its own
    | NoCurrentState     // the form is complete; `setattr(row, None, value)` raises
    | ColumnNotFound     // AttributeError('Column ... not found')

  datatype StateRow = StateRow(id: int, chatId: int, userId: int, currentState: Option<string>,
                               values: map<string, string>)

  /** The column after `state` in declaration order, or none after the last;
      an unknown name stays where it is. */
  function NextState(columns: seq<string>, state: string): (next: Option<string>)
  {
    if |columns| == 0 then Some(state)
    else if columns[0] == state then (if |columns| == 1 then None else Some(columns[1]))
    else NextState(columns[1..], state)
  }

  predicate DistinctNames(columns: seq<string>)
  {
    forall i, j :: 0 <= i < j < |columns| ==> columns[i] != columns[j]
  }

  /** Setting a column moves the state from the i-th column to the one after
      it, or to none after the last. */
  lemma {:induction false} NextStateAdvances(columns: seq<string>, i: nat)
    requires DistinctNames(columns) && i < |columns|
    ensures NextState(columns, columns[i]) == if i + 1 < |columns| then Some(columns[i + 1]) else None
    decreases i
  {
    if i > 0 {
      assert columns[0] != columns[i];
      assert columns[1..][i - 1] == columns[i];
      NextStateAdvances(columns[1..], i - 1);
    }
  }

  /** The state after `k` successful sets starting at `start`. */
  function StateAfter(columns: seq<string>, start: Option<string>, k: nat): Option<string>
    decreases k
  {
    if k == 0 || start.None? then start else StateAfter(columns, NextState(columns, start.value), k - 1)
  }

  /** A fresh form visits its fields in declaration order: after k sets it
      waits for field 4 + k, and after the last field it is complete. */
  lemma {:induction false} FieldsInOrder(columns: seq<string>, k: nat)
    requires DistinctNames(columns) && |columns| > StateMixinColumns
    ensures StateAfter(columns, Some(columns[StateMixinColumns]), k)
              == if StateMixinColumns + k < |columns| then Some(columns[StateMixinColumns + k]) else None
    decreases k
  {
    if k > 0 {
      FieldsFrom(columns, StateMixinColumns, k);
    }
  }

  lemma {:induction false} FieldsFrom(columns: seq<string>, i: nat, k: nat)
    requires DistinctNames(columns) && i < |columns|
    ensures StateAfter(columns, Some(columns[i]), k) == if i + k < |columns| then Some(columns[i + k]) else None
    decreases k
  {
    if k > 0 {
      NextStateAdvances(columns, i);
      if i + 1 < |columns| {
        FieldsFrom(columns, i + 1, k - 1);
      }
    }
  }

  /** `StatesGroupMeta.__getattr__`: a column reference for a declared column. */
  function ColumnRef(columns: seq<string>, name: string): Result<string, StateError>
  {
    if name in columns then Ok(name) else Err(ColumnNotFound)
  }

  /** Whether `row` answers `get_state(state, chat, user)`: the chat matches,
      the row belongs to the user or to every user, and it waits for `state`. */
  predicate Answers(row: StateRow, state: string, chatId: int, userId: int)
  {
    row.chatId == chatId && (row.userId == userId || row.userId == DefaultUserId) && row.currentState == Some(state)
  }

  /** The states table of one group. */
  class StateTable {
    /** All columns in declaration order, the mixin's four first. */
    const columns: seq<string>
    var rows: seq<StateRow>
    var nextId: int

    ghost predicate Valid()
      reads this
    {
      && |columns| >= StateMixinColumns
      && DistinctNames(columns)
      // the unique constraint on (chat_id, user_id)
      && KeysDistinct(rows)
      && (forall x :: x in rows ==> x.id < nextId)
    }

    constructor (formColumns: seq<string>)
      requires DistinctNames(["id", "chat_id", "user_id", "current_state"] + formColumns)
      ensures Valid()
      ensures columns == ["id", "chat_id", "user_id", "current_state"] + formColumns && rows == []
    {
      columns := ["id", "chat_id", "user_id", "current_state"] + formColumns;
      rows := [];
      nextId := 1;
    }

    /** `StatesGroup.create`: the row of (chat, user) is replaced by a fresh one
        waiting for the first form column; a missing user means the shared
        row of user 0. */
    method Create(chatId: int, user: Option<int>) returns (r: Result<StateRow, StateError>)
      requires Valid()
      modifies this
      ensures Valid()
      ensures |columns| == StateMixinColumns ==> r == Err(NoFormColumn) && rows == old(rows)
      ensures |columns| > StateMixinColumns ==>
                var userId := if user.None? then DefaultUserId else user.value;
                && r == Ok(StateRow(old(nextId), chatId, userId, Some(columns[StateMixinColumns]), map[]))
                && rows == Without(old(rows), chatId, userId) + [r.value]
    {
      if |columns| == StateMixinColumns {
        return Err(NoFormColumn);
      }
      var userId := if user.None? then DefaultUserId else user.value;
      var row := StateRow(nextId, chatId, userId, Some(columns[StateMixinColumns]), map[]);
      var kept := Without(rows, chatId, userId);
      WithoutDistinct(rows, chatId, userId);
      SnocDistinct(kept, row);
      rows := kept + [row];
      nextId := nextId + 1;
      r := Ok(row);
    }

    /** `StatesGroup.get_state`: the first row that answers the query. */
    method GetState(state: string, chatId: int, user: Option<int>) returns (r: Option<StateRow>)
      requires Valid()
      ensures var userId := if user.None? then DefaultUserId else user.value;
              && (r.None? <==> forall i :: 0 <= i < |rows| ==> !Answers(rows[i], state, chatId, userId))
              && (r.Some? ==> r.value in rows && Answers(r.value, state, chatId, userId))
    {
      var userId := if user.None? then DefaultUserId else user.value;
      var i := 0;
      while i < |rows|
        invariant 0 <= i <= |rows|
        invariant forall j :: 0 <= j < i ==> !Answers(rows[j], state, chatId, userId)
      {
        if Answers(rows[i], state, chatId, userId) {
          return Some(rows[i]);
        }
        i := i + 1;
      }
      return None;
    }

    /** `StatesGroup.set` on the row at `k`: stores the value under the current
        state's column, then scans the columns for it and moves to the next. */
    method Set(k: nat, value: string) returns (r: Result<StateRow, StateError>)
      requires Valid() && k < |rows|
      modifies this
      ensures Valid()
      ensures old(rows[k].currentState).None? ==> r == Err(NoCurrentState) && rows == old(rows)
      ensures old(rows[k].currentState).Some? ==>
                var cs := old(rows[k].currentState).value;
                && r == Ok(old(rows[k]).(values := old(rows[k].values)[cs := value], currentState := NextState(columns, cs)))
                && rows == old(rows)[k := r.value]
    {
      var row := rows[k];
      if row.currentState.None? {
        return Err(NoCurrentState);
      }
      var cs := row.currentState.value;
      row := row.(values := row.values[cs := value]);
      var i := 0;
      var next := Some(cs);
      while i < |columns|
        invariant 0 <= i <= |columns|
        invariant NextState(columns, cs) == NextState(columns[i..], cs)
        invariant next == Some(cs)
      {
        if columns[i] == cs {
          next := if i < |columns| - 1 then Some(columns[i + 1]) else None;
          assert columns[i..][1..] == columns[i + 1..];
          break;
        }
        assert columns[i..][1..] == columns[i + 1..];
        i := i + 1;
      }
      row := row.(currentState := next);
      rows := rows[k := row];
      r := Ok(row);
    }
  }

  /** The (chat_id, user_id) key of a row. */
  function Key(row: StateRow): (int, int)
  {
    (row.chatId, row.userId)
  }

  predicate KeysDistinct(rows: seq<StateRow>)
  {
    forall i, j :: 0 <= i < j < |rows| ==> Key(rows[i]) != Key(rows[j])
  }

  /** The rows other than the one of (chat, user). */
  function Without(rows: seq<StateRow>, chatId: int, userId: int): (r: seq<StateRow>)
    ensures forall x :: x in r <==> x in rows && Key(x) != (chatId, userId)
  {
    if rows == [] then []
    else (if Key(rows[0]) == (chatId, userId) then [] else [rows[0]])
         + Without(rows[1..], chatId, userId)
  }

  /** A row whose key is new may go in front of distinct rows. */
  lemma {:induction false} ConsDistinct(x: StateRow, rest: seq<StateRow>)
    requires KeysDistinct(rest)
    requires forall y :: y in rest ==> Key(y) != Key(x)
    ensures KeysDistinct([x] + rest)
  {
    var r := [x] + rest;
    forall i, j | 0 <= i < j < |r|
      ensures Key(r[i]) != Key(r[j])
    {
      assert r[j] == rest[j - 1];
      if i > 0 {
        assert r[i] == rest[i - 1];
      } else {
        assert r[j] in rest;
      }
    }
  }

  /** A row whose key is new may go behind distinct rows. */
  lemma {:induction false} SnocDistinct(rest: seq<StateRow>, x: StateRow)
    requires KeysDistinct(rest)
    requires forall y :: y in rest ==> Key(y) != Key(x)
    ensures KeysDistinct(rest + [x])
  {
    var r := rest + [x];
    forall i, j | 0 <= i < j < |r|
      ensures Key(r[i]) != Key(r[j])
    {
      assert r[i] == rest[i];
      if j < |rest| {
        assert r[j] == rest[j];
      } else {
        assert r[i] in rest;
      }
    }
  }

  /** Removing a key keeps the other rows' keys distinct. */
  lemma {:induction false} WithoutDistinct(rows: seq<StateRow>, chatId: int, userId: int)
    requires KeysDistinct(rows)
    ensures KeysDistinct(Without(rows, chatId, userId))
    decreases |rows|
  {
    if rows != [] {
      var tail := rows[1..];
      assert KeysDistinct(tail) by {
        forall i, j | 0 <= i < j < |tail|
          ensures Key(tail[i]) != Key(tail[j])
        {
          assert tail[i] == rows[i + 1] && tail[j] == rows[j + 1];
        }
      }
      WithoutDistinct(tail, chatId, userId);
      var rest := Without(tail, chatId, userId);
      if Key(rows[0]) != (chatId, userId) {
        forall y | y in rest
          ensures Key(y) != Key(rows[0])
        {
          var j :| 0 <= j < |tail| && tail[j] == y;
          assert rows[j + 1] == y;
        }
        ConsDistinct(rows[0], rest);
        assert Without(rows, chatId, userId) == [rows[0]] + rest;
      } else {
        assert Without(rows, chatId, userId) == rest;
      }
    }
  }
}

=== FILE: user_names.dfy ===
/** The two display names the bot derives from a Telegram user
    (tgbot/wrappers/__init__.py). Optional text fields are strings; Python's
    truthiness makes a missing field and an empty one behave alike, so both are
    the empty string here. */
module UserNames {
  import opened Common

  datatype User = User(id: int, firstName: string, lastName: string, username: string)

  /** The component list of `full_name`: first name, then the last name when
      set, then `@username` when set. */
  function FullNameComponents(u: User): (c: seq<string>)
    ensures |c| == 1 + (if u.lastName != "" then 1 else 0) + (if u.username != "" then 1 else 0)
    ensures c[0] == u.firstName
    ensures u.lastName != "" ==> c[1] == u.lastName
    ensures u.username != "" ==> c[|c| - 1] == "@" + u.username
  {
    [u.firstName]
      + (if u.lastName != "" then [u.lastName] else [])
      + (if u.username != "" then ["@" + u.username] else [])
  }

  /** `User.full_name`. */
  function FullName(u: User): string
  {
    Join(FullNameComponents(u), " ")
  }

  /** `full_name` starts with the first name; the last name follows after one
      space when set, and `@username` ends it when set; nothing else is added. */
  lemma {:induction false} FullNameShape(u: User)
    ensures FullName(u) ==
      u.firstName
        + (if u.lastName != "" then " " + u.lastName else "")
        + (if u.username != "" then " @" + u.username else "")
    ensures FullName(u)[..|u.firstName|] == u.firstName
    ensures |FullName(u)| ==
      |u.firstName|
        + (if u.lastName != "" then |u.lastName| + 1 else 0)
        + (if u.username != "" then |u.username| + 2 else 0)
  {
    var c := FullNameComponents(u);
    var withLast := [u.firstName] + (if u.lastName != "" then [u.lastName] else []);
    if u.lastName != "" {
      JoinSnoc([u.firstName], u.lastName, " ");
    }
    assert Join(withLast, " ") == u.firstName + (if u.lastName != "" then " " + u.lastName else "");
    if u.username != "" {
      assert c == withLast + ["@" + u.username];
      JoinSnoc(withLast, "@" + u.username, " ");
    } else {
      assert c == withLast;
    }
  }

  /** `User.log_name`: the username when set, then the decimal id. */
  function LogName(u: User): string
  {
    Join((if u.username != "" then [u.username] else []) + [IntToString(u.id)], " ")
  }

  /** `log_name` always ends with `str(id)`; with a username it is
      `username + " " + str(id)`, otherwise `str(id)` alone. */
  lemma {:induction false} LogNameShape(u: User)
    ensures u.username != "" ==> LogName(u) == u.username + " " + IntToString(u.id)
    ensures u.username == "" ==> LogName(u) == IntToString(u.id)
    ensures var n := LogName(u); var d := IntToString(u.id);
            |n| >= |d| && n[|n| - |d|..] == d
  {
    if u.username != "" {
      JoinSnoc([u.username], IntToString(u.id), " ");
    }
  }
}
